=== FILE: README.md ===
# A verified model of the territory game's core

The game is a browser game for two players. Each player steers a snake-like
head that leaves a trail. A trail that returns to the player's spawn point
encloses a polygon, and that polygon becomes the player's territory. The
score is the share of the board the territory covers. Every mode (explore,
fight, infinite, survival and capture) adds its own death rules and its own
end-of-game rule. Day/night is a row of the current configuration's mode
and lives tables, and the UI reads a day/night clock, but neither engine
creates that clock's manager; it is modelled on its own.

This project models the logic that decides who moves, who dies and who wins,
and proves properties of it in Dafny:

- `engine.dfy`, module `Engine`: the fixed-timestep scheduler and the game
  state machine (`gameLoop`, `start`, `restart`, `fixedUpdate`,
  `checkCollisions`, `pause`, `resume`, `endGame`, `setgamemode`,
  `setDifficulty`). One `GameEngine` class is parameterised by a `Variant`:
  `Current` is `js/core/GameEngine.js`, which runs at 60 Hz with the tables
  of `js/Config.js`, and `Legacy` is the earlier `GameEngine.js`, which runs
  at 50 Hz with inline tables.
- `players.dfy`, module `Players`: the `Player` class. It covers movement
  with boundary clamping and trail resampling into a capped trail. It covers
  the head, trail and territory collision queries, with the nonzero
  winding-number test. It covers lives, death and respawn per mode, the
  lockout, and the capture-mode home countdown.
- `territories.dfy`, module `Territories`: the shoelace signed area and
  enclosure detection with orientation normalisation. Also the per-player
  polygon lists, the sampled and clamped score, and its cache keyed by the
  32-bit content hash.
- `items.dfy` and `shields.dfy`, modules `Items` and `Shields`: the
  `ItemManager` (items, obstacles, initial barriers, timeouts, the obstacle
  cap, pickup, the weighted item choice, cluster placement) and the
  `ShieldEffect` timer. The shield is a module of its own because both
  players and items use it.
- `flags.dfy`, module `Flags`: capture mode. It covers flag ownership, the
  even-odd point-in-polygon test, flag counts, the capture collision table
  and the victory cascade (alive, then flags, then territory, then a draw).
- `survive.dfy`, module `Survival`: the AI enemies and the survival manager.
  It covers the enemy cap and spawn timer, the nearest living player, the
  relax and avoid timers, bounds clamping, the push-out from obstacles and
  barriers, and the survival collision table.
- `daynight.dfy`, module `DayNight`: the phase and remaining-time
  arithmetic of the day/night clock, and its opacity update.
- `config.dfy`, `colors.dfy` and `renderer.dfy`, modules `Config`, `Colors`
  and `RenderCache`:
  - the configuration tables, and how they agree with the inline copies;
  - the colour history, a most-recently-used list, and the hex parser and
    colour harmony;
  - the channel clamping of `lightenColor`/`darkenColor` and the upkeep of
    the render caches.
- `common.dfy`, module `Common`: the shared pieces. These are `Option`,
  points, JavaScript's remainder, 32-bit truncation and `Math.round`, the
  square-root predicate and the random stream.

What the game takes from its host becomes an input:
- The clock (`Date.now`, `performance.now`) becomes the `now` and
  `frameNow` parameters.
- `Math.random` becomes a `RandomSource`, a stream of draws in [0, 1) that
  the caller supplies.
- `Math.sqrt` becomes a supplied function `sqrt` that is required to be an
  exact square root (`IsSqrt`). Distance-versus-threshold tests compare
  squared distances; in exact arithmetic that is equivalent to the game's
  `Math.sqrt(d) < r` tests (`Common.SqrtBelowIff`), though with rounded
  doubles the two can disagree at the boundary.
- The canvas rasterisation in `computeScore` (`fill` and `getImageData`)
  becomes a supplied coverage predicate (`Raster`). The sampling grid, the
  count and the clamp are modelled.
- JavaScript's number-to-string conversion, which the territory hash
  folds over, becomes a supplied function `num`.
- The enemies' cosine and sine motion becomes a supplied heading
  (`heading: nat -> Point`).
- Reads of the global engine (`window.gameEngine`, `gameEngine`) become
  explicit `gameState`/`gameMode` parameters.
- Modes, game states and enemy states are datatypes. `setgamemode` and
  `setDifficulty` take their names from these datatypes, so the source's
  exception for an unknown name cannot arise.

Where the code does something surprising, the model follows the code:
- The trail resampling's reference point is the live last trail element,
  and the loop overwrites it (js/objects/Player.js:131, 162-163).
- The step loop keeps stepping after a step has ended the game
  (js/core/GameEngine.js:216-222).
- The `return` inside the enclosure `forEach` only leaves that callback, so
  later players are still checked (js/core/GameEngine.js:288-291).
- The earlier engine writes `standardistant` instead of `standarddistance`
  (GameEngine.js:132). See "## Findings".
- `checkCollisions` has head and trail branches only for explore, fight and
  infinite modes (js/core/GameEngine.js:306-347). In capture and day/night
  modes a head or trail collision kills nobody there; territory intrusion
  still kills.
- `getNightTimeRemaining` is -1 for 0 <= t < 10000, because JavaScript's
  remainder of -1 by 2 is -1 (js/modes/DayNight.js:171-180).
- `setgamemode` and `setDifficulty` throw on an unknown name. The earlier
  engine's lives table has no `daynight` row, so in the earlier engine
  `start` in day/night mode does not reach the countdown. The model reports
  that outcome as `ok == false` and leaves the state as the partial update
  left it.

## Model

| member | source | states |
|---|---|---|
| Colors.Without | js/objects/Color.js:127-131 | removing the first occurrence of c: one entry fewer exactly when c was present, the list unchanged otherwise, nothing new and every other entry kept |
| Colors.IndexOf | js/objects/Color.js:127 | indexOf: -1 exactly when c is absent; otherwise the first position holding c |
| Colors.WithoutSplices | js/objects/Color.js:127-131 | the removal is splice(indexOf(c), 1): the entries before the first c, then the entries after it, in order |
| Colors.WithoutNoDup | js/objects/Color.js:127-131 | on a duplicate-free history the removal leaves a duplicate-free list without c |
| Colors.RecentIsMru | js/objects/Color.js:123-139 | the added colour comes first; no duplicates; at most six entries; a colour already present is moved (length kept), a new one adds an entry up to six; nothing but c is new; every old entry other than c stays unless c is new and the history was full |
| Colors.RecentMoves | js/objects/Color.js:127-133 | a colour already present is moved to the front: c, then the entries before its old place, then those after it, in their old order |
| Colors.RecentPushes | js/objects/Color.js:133-138 | a new colour is put in front of the whole history when it has fewer than six entries; on a full history the last (oldest) entry is the one dropped, the rest keep their order |
| Colors.ParseByte | js/objects/Color.js:266-268 | a parsed pair of hexadecimal digits is a channel value in 0..255 |
| Colors.HexToRgb | js/objects/Color.js:263-270 | a returned colour has channels in 0..255 and comes from a six-character string or a '#' followed by six characters |
| Colors.HexToRgbExact | js/objects/Color.js:263-270 | a colour is returned exactly for six hexadecimal digits of either case after an optional '#', and anything else gives null; the channels are the three digit pairs read as 16·hi + lo |
| Colors.HexCaseInsensitive | js/objects/Color.js:264 | the regular expression's `i` flag: writing the letters A-F in lower case changes neither whether a string parses nor the colour it gives |
| Colors.RgbToHex | js/objects/Color.js:332-337 | the "#rrggbb" packing: seven characters, "#" then six lower-case hexadecimal digits |
| Colors.HexRoundTrip | js/objects/Color.js:263-270 | every lower-case "#rrggbb" colour that RgbToHex writes, with or without the '#', parses back to its own channels |
| Colors.HueSixthsRange | js/objects/Color.js:272-292 | the hue of rgbToHsl before the division by 6 lies in [0, 6] for every channel triple |
| Colors.HueOf | js/objects/Color.js:272-304 | the rounded hue of a parsed colour lies in [0, 360] |
| Colors.HueDiffRange | js/objects/Color.js:245-248 | for hues in [0, 360] the folded hue difference lies in [0, 180] and does not depend on the order |
| Colors.HarmonyNullPaths | js/objects/Color.js:211-231 | an empty or unparsable colour on either side gives score, distance and hue difference 0 |
| Colors.HarmonyBounds | js/objects/Color.js:211-261 | the score lies in [0, 100], the hue difference in [0, 180] and the distance is never negative |
| Colors.HarmonySymmetric | js/objects/Color.js:211-261 | the harmony of two colours does not depend on which is given first |
| Colors.HarmonySelf | js/objects/Color.js:211-261 | a colour scores 0 against itself |
| Colors.ColorManager.constructor | js/objects/Color.js:2-12 | both players start with their configured colours and empty histories, which satisfy the history invariant |
| Colors.ColorManager.AddToColorHistory | js/objects/Color.js:123-139 | only the given player's history changes, to the most-recently-used update whose order and dropped entry Colors.RecentMoves and Colors.RecentPushes state, and every history stays duplicate-free with at most six entries |
| Colors.ColorManager.GetPlayerColor | js/objects/Color.js:340-344 | the stored colour when it is present and non-empty, otherwise '#E6194B' for player 1 and '#4363D8' for any other; never empty |
| Colors.ColorManager.SetPlayerColor | js/objects/Color.js:346-348 | afterwards getPlayerColor returns the new colour (the fallback if it is empty), and every other player's colour is unchanged |
| Common.Clamp | js/objects/Player.js:127-128 | the Math.max(lo, Math.min(hi, v)) idiom: within [lo, hi] when the range is not empty, v itself inside the range, the bound it crossed otherwise |
| Common.JsRem | js/modes/DayNight.js:136-138 | JavaScript's remainder takes the sign of the dividend: Euclidean for non-negative dividends, in (-b, 0] for negative ones |
| Common.Int32 | Territory.js:115-116 | the `hash & hash` conversion: a signed 32-bit value congruent to the input modulo 2^32, the input itself when it is already in range |
| Common.SqrtBelowIff | js/objects/Player.js:191-196 | comparing a distance with a non-negative threshold equals comparing the squared distance with the squared threshold |
| Common.RandomSource.Next | js/objects/ItemManager.js:126 | one Math.random() call: the next supplied draw, in [0, 1) |
| Config.DifficultyMonotone | js/Config.js:3-8 | from slow to ultra the speed rises strictly, the trail length falls strictly and the time limit never rises |
| Config.ModeLives | js/Config.js:94-101 | every mode grants at least one life |
| Config.ModeLivesMatchDefaults | js/Config.js:16-23 | GAME_MODES lives equal PLAYER_DEFAULTS.lives for every mode |
| Config.AiCountBelowCap | js/Config.js:32-37 | in every AI_DEFAULTS row the initial count is positive and below maxEnemies, and the spawn interval is positive |
| Config.PowerUpWeightsSum | js/Config.js:118-137 | the three power-up weights are positive and add up to 100 |
| DayNight.DarkPositionInCycle | js/modes/DayNight.js:133-137 | from ten seconds on, the cycle index is non-negative and the truncating remainder is the time since the cycle began, in [0, 30000) |
| DayNight.PhaseAt | js/modes/DayNight.js:133-147 | a phase other than day only occurs after the initial ten seconds, in a cycle whose JavaScript remainder by 2 is not 1 |
| DayNight.PhaseSchedule | js/modes/DayNight.js:133-147 | day before 10000 ms; afterwards day exactly in odd cycles; in even cycles fadeToNight for the first 5000 ms, night until 25000 ms and fadeToDay for the rest |
| DayNight.PhasePeriodic | js/modes/DayNight.js:133-147 | after the initial daylight the phase repeats every two cycles (60000 ms) |
| DayNight.FadeProgressInRange | js/modes/DayNight.js:149-157 | during either fade the progress is defined and lies in [0, 1) |
| DayNight.OpacityBounds | js/modes/DayNight.js:62-79 | the opacity lies in [0, 0.95]: 0 by day, 0.95 at night, below 0.95 while fading to night and above 0 while fading to day |
| DayNight.RemainingMatchesPhase | js/modes/DayNight.js:159-180 | on a clock that started at 0, the day getter is non-negative exactly by day and the night getter exactly otherwise (including the first ten seconds, where -1 % 2 is -1); at least one of them is -1 and neither exceeds 30 |
| DayNight.DayNightManager.constructor | js/modes/DayNight.js:2-17 | the clock at 0, no night, opacity 0 and the phase day |
| DayNight.DayNightManager.Reset | js/modes/DayNight.js:19-23 | init and reset: clock 0, isNight false, opacity 0, which is the opacity of the phase at time 0 (day) |
| DayNight.DayNightManager.Update | js/modes/DayNight.js:53-80 | nothing while paused; otherwise the clock advances by deltaTime, the stored phase is the phase at the new time, the opacity follows it within [0, 0.95] and isNight is only ever cleared |
| Shields.Remaining | js/objects/ItemManager.js:527-535 | the frozen remaining time when one is recorded, otherwise max(0, duration - elapsed) |
| Shields.ShieldEffect.constructor | js/objects/ItemManager.js:488-496 | a new shield is active, started now, with nothing frozen |
| Shields.ShieldEffect.RemainingTime | js/objects/ItemManager.js:527-535 | getRemainingTime: the frozen value if there is one, else never negative and duration - elapsed while the shield has not run out |
| Shields.ShieldEffect.Update | js/objects/ItemManager.js:498-520 | nothing while paused; otherwise the frozen value is consumed and the shield stays active exactly when it was active and the elapsed time is below the duration |
| Territories.CrossSwap | Territory.js:18 | swapping the two ends of an edge negates its shoelace term |
| Territories.CalculateSignedArea | Territory.js:13-21 | the accumulator loop returns half the shoelace sum over the closed polygon (the next vertex of the last is the first) |
| Territories.ShoelacePrefixReverse | Territory.js:13-21 | a partial shoelace sum of the reversed polygon is the negated sum of the matching edges of the original |
| Territories.SignedAreaReverse | Territory.js:13-21 | reversing the vertex list negates the signed area |
| Territories.ClockwiseNonPositive | Territory.js:38-42 | the orientation normalisation keeps the vertices (the same list or its reverse, same length) and leaves a signed area that is never positive |
| Territories.PointsOf | Territory.js:37 | the trail spread into plain points, one per trail point, in order |
| Territories.EnclosureOf | Territory.js:37 | the closed area has the trail's points, then the current position, then the spawn point: trail length + 2 vertices |
| Territories.HashStep | Territory.js:114-116 | one step of the string hash always leaves a signed 32-bit value |
| Territories.HashPrefix | Territory.js:112-117 | the hash after any prefix of the string is a signed 32-bit value |
| Territories.Int32Congruent | Territory.js:115-116 | numbers congruent modulo 2^32 convert to the same 32-bit integer |
| Territories.HashStepIsTimes31 | Territory.js:115-116 | on a 32-bit accumulator, `((hash << 5) - hash) + char` then `hash & hash` is 31·hash + char wrapped to 32 bits |
| Territories.GenerateTerritoriesHash | Territory.js:103-119 | the hash loop returns the hash of the serialisation (polygons as "x,y" joined by '\|' and ';', then "WxH"), always a signed 32-bit value |
| Territories.Drawn | Territory.js:127-128 | the polygons that are filled are those with at least three vertices; no more polygons than given |
| Territories.RowCount | Territory.js:145-148 | the covered samples counted along a row never exceed the samples visited |
| Territories.GridCount | Territory.js:144-149 | the covered samples of the first rows never exceed rows × 600 samples |
| Territories.ScoreOfCount | Territory.js:144-151 | min(100, covered area / maxArea · 100) with maxArea = 0.95·1200·600 as Territory.js:10 sets it: in [0, 100], and 0 when nothing is covered |
| Territories.FullCoverageNeedsClamp | Territory.js:144-151 | the clamp is reachable: a fully covered canvas gives an unclamped ratio above 100, clamped to exactly 100 |
| Territories.ScoreOf | Territory.js:122-152 | the sampled score of any list of polygons lies in [0, 100] |
| Territories.ComputeScore | Territory.js:122-152 | the nested sampling loops (step 2 over the store's own 1200×600 canvas) return the sampled score of the drawn polygons, in [0, 100] |
| Territories.Territory.constructor | Territory.js:2-11 | no player has polygons and no score cache exists yet |
| Territories.Territory.PlayerTerritories | Territory.js:62-64 | the player's list, or [] for an id never seen |
| Territories.Territory.AddTerritory | Territory.js:55-60 | the polygon is appended at the end of the player's list (created if missing); every other player's list is unchanged; the player's id becomes a key |
| Territories.Territory.Reset | Territory.js:154-156 | every player's list is empty afterwards |
| Territories.Territory.DetectEnclosure | Territory.js:23-53 | without 20 trail points or without being closer than 20 to spawn, null and nothing changes; otherwise the area trail ++ [position, spawn] is returned un-reversed, its clockwise form is appended to the player's list, other lists are unchanged and the trail is emptied |
| Territories.Territory.CalculateScore | Territory.js:79-99 | 0 with no polygons; the cached value for (player, content hash) when present, with the cache unchanged; otherwise the sampled score, stored under that key with every other cache entry kept; every score returned or cached lies in [0, 100] |
| Territories.Territory.CalculateScoreTwice | Territory.js:79-99 | calculateScore is idempotent: a second call on unchanged polygons returns the same score, which is the sampled score when the first call computed it |
| Players.EdgeWindingSwap | js/objects/Player.js:236-256 | swapping the ends of an edge negates its winding contribution |
| Players.NextIndex | js/objects/Player.js:235 | the next vertex index wraps to 0 after the last one, as `(i + 1) % n` |
| Players.WindingPrefixReverse | js/objects/Player.js:224-260 | a partial winding sum of the reversed polygon is the negated sum of the matching edges of the original |
| Players.WindingNumberReverse | js/objects/Player.js:224-260 | reversing the vertex list negates the winding number |
| Players.InPolygonReverse | js/objects/Player.js:224-260 | the nonzero-winding inside test does not depend on the polygon's orientation |
| Players.IsPointInPolygon | js/objects/Player.js:224-260 | the edge loop returns exactly the nonzero-winding specification; fewer than three vertices is never inside |
| Players.SegmentOfValid | js/objects/Player.js:130-133 | the resampling segment from the last trail point to the clamped position has a non-negative length d equal to Math.sqrt of the squared offset, and a unit direction when d > 0 |
| Players.NewPoints | js/objects/Player.js:134-156 | the first j iterations push j points |
| Players.FullTrail | js/objects/Player.js:134-169 | without shifting, j iterations leave the trail j points longer |
| Players.CapLen | js/objects/Player.js:165-168 | the length after push-then-shift iterations never exceeds the pushes added to the start length |
| Players.ResampledTrail | js/objects/Player.js:134-169 | the trail after j iterations has the capped length |
| Players.SampleStep | js/objects/Player.js:136-160 | from the j-th sample, with dist = d - j·s ≥ s, the ratio step s/dist lands exactly on sample j + 1, whose squared distance to the position is (dist - s)² |
| Players.StepsBounds | js/objects/Player.js:137 | sample j + 1 fits in the segment exactly when (j + 1)·s ≤ d |
| Players.FullTrailStep | js/objects/Player.js:142-162 | pushing sample j + 1 and writing its coordinates into the reference object (the last point when the loop began) gives the full trail after j + 1 iterations |
| Players.CapLenStep | js/objects/Player.js:165-168 | each iteration grows the length by one until the cap, then keeps it |
| Players.PushedWindow | js/objects/Player.js:142-168 | the edits of one iteration on the capped trail give the window of the full trail starting where the capped trail started |
| Players.ResampleWindowStep | js/objects/Player.js:142-168 | one iteration (push, write through the live reference while it is still in the trail, shift when over the cap) gives the trail after j + 1 iterations; the cap length advances accordingly |
| Players.SampleOnSegment | js/objects/Player.js:134-163 | the i-th resampled point (1 ≤ i ≤ ⌊d/s⌋) lies on the segment from the reference point to the position, a fraction (i·s)/d in (0, 1] of the way |
| Players.SampleDistance | js/objects/Player.js:134-163 | the i-th resampled point lies at distance exactly i·s from the reference point |
| Players.SampleFits | js/objects/Player.js:137 | samples 1 to ⌊d/s⌋ lie within the segment: 0 < i·s ≤ d |
| Players.ResampledLengthBound | js/objects/Player.js:165-168 | the resampled trail keeps at least one point and never exceeds max(start length, trailLength); within the cap it stays within the cap |
| Players.ResampledLast | js/objects/Player.js:142-162 | after at least one iteration the newest trail point is the last sample placed |
| Players.ResampledReference | js/objects/Player.js:131-163 | while the reference object is still in the trail it carries the coordinates of the last sample and its own timestamp: the write through `lastPos` is visible in the trail |
| Players.IterationArithmetic | js/objects/Player.js:136-160 | one iteration: the ratio step lands on sample j + 1, Math.sqrt then gives the remainder dist - s, and sample j + 1 fits |
| Players.StepsRemainder | js/objects/Player.js:137 | the loop leaves less than one spacing: 0 ≤ d - ⌊d/s⌋·s < s |
| Players.ResampledNoOverflow | js/objects/Player.js:165-168 | while the trail stays within the cap no point is shifted out: every new point is kept |
| Players.LoopEntry | js/objects/Player.js:130-133 | before the first iteration the loop variables describe sample 0 (the reference point) and the remainder is d |
| Players.LoopExit | js/objects/Player.js:137 | when the loop stops with less than one spacing left it has run exactly ⌊d/s⌋ times |
| Players.Seeded | js/objects/Player.js:110-112 | an empty trail is seeded with the current position; a non-empty one is left as it is |
| Players.ClashOf | js/core/GameEngine.js:313-343 | the outcome of one check: a head-on collision exactly for a head hit, running into the trail exactly for a trail hit, and an intrusion exactly when there is no hit, no shield and the player is inside the other's territory |
| Players.HeadCollisionSymmetric | js/objects/Player.js:186-197 | between two living players with non-empty trails, one sees a head collision exactly when the other does |
| Players.Min4 | js/objects/Player.js:311 | `Math.min` of four overlaps is one of them and no larger than any |
| Players.PushOutSeparates | js/objects/Player.js:299-329 | when overlapping, the push leaves the circle outside the rectangle, moves only one coordinate and by exactly the least overlap plus one |
| Players.PushOutNoOverlap | js/objects/Player.js:313 | without overlap the push leaves the point where it is |
| Players.BarrierPushOutside | js/objects/Player.js:337-375 | off the barrier's centre, the pushed x lies strictly outside the barrier's horizontal extent, at the nearer edge (the left one on a tie) |
| Players.CountdownRemaining | js/objects/Player.js:434-443 | the remaining home countdown is never negative and, while counting, below 15 + 1 seconds |
| Players.CountdownZeroIff | js/objects/Player.js:434-453 | the countdown shows 0 exactly when it is not running (no truthy start time, or at home) or has expired |
| Players.Player.constructor | js/objects/Player.js:2-13 | a player at (x, y) with start point (x, y), empty trail, alive, default lockout, no territory, score 0, no shield, at home, no lock and no spacing set |
| Players.Player.InitState | js/objects/Player.js:15-41 | position and start point, empty trail, alive, no direction, no boost and no lock; the 'full' form also clears territory, score, shield and the home countdown, the other form keeps them |
| Players.Player.InitMotion | js/objects/Player.js:16-29 | the fields initState sets in every form |
| Players.Player.Reset | js/objects/Player.js:502-506 | the full initial state at (x, y) and the lockout back to 5000 ms; lives, speed, trail cap and spacing kept |
| Players.Player.DieReset | js/objects/Player.js:488-500 | respawn at (x, y) with empty trail and no shield, keeping territory, score, lives and the home countdown; in infinite mode locked until now + locktime and the next lockout 2000 ms longer, otherwise unlocked |
| Players.Player.Die | js/objects/Player.js:471-486 | one life fewer; with a life left, infinite restores two lives and respawns locked, fight and survival respawn at the start point keeping territory and score; every other mode, and zero lives, leaves the player dead where it was |
| Players.Player.SetDirection | js/objects/Player.js:174-184 | ignored while locked or dead; otherwise the direction is (dx, dy) and moving exactly when it is non-zero |
| Players.Player.ApplySpeedBoost | js/objects/Player.js:262-265 | the multiplier is set and the boost ends duration after now |
| Players.Player.AddLength | js/objects/Player.js:267-270 | the trail cap grows by the amount |
| Players.Player.ActivateShield | js/objects/Player.js:273-287 | a new active shield of the duration, started now, or while paused at the item manager's pause start minus the duration |
| Players.Player.ShieldTimeRemaining | js/objects/Player.js:294-297 | 0 without an active shield; otherwise the remaining time in seconds rounded up |
| Players.Player.CheckIfAtHome | js/objects/Player.js:410-417 | at home exactly when the Math.sqrt distance to the start point is at most 20 |
| Players.Player.StartHomeCountdown | js/objects/Player.js:420-425 | starts (start time now, away from home) only from home without a truthy start time; otherwise nothing changes |
| Players.Player.ResetHomeCountdown | js/objects/Player.js:428-431 | no start time, at home |
| Players.Player.HomeCountdownRemaining | js/objects/Player.js:434-443 | never negative, at most 15 while counting, and 0 exactly when not counting or expired |
| Players.Player.PauseHomeCountdown | js/objects/Player.js:455-460 | with a truthy start time and not yet paused, the elapsed time is frozen and the countdown paused; otherwise nothing changes |
| Players.Player.ResumeHomeCountdown | js/objects/Player.js:463-468 | when paused with a truthy frozen time the start time moves so that the frozen time is elapsed at now; otherwise nothing changes |
| Players.Player.PauseThenResumeHome | js/objects/Player.js:455-468 | a pause at t1 and a resume at t2 leave t2 - homeStartTime equal to t1 - the old start time, when the countdown was running unpaused with a non-zero elapsed time |
| Players.Player.HomeTick | js/objects/Player.js:57-85 | the capture countdown of fixedUpdate: arrival resets it, departure starts it; on expiry a life is lost and, with lives left, the player is back at the start with empty trail, no direction and the countdown reset, otherwise dead; a life is lost only on expiry |
| Players.Player.Advance | js/objects/Player.js:113-128 | each axis moves by direction × speed × (multiplier or 1) × deltaTime/1000 × 60 and is clamped to [size, canvas - size] |
| Players.Player.ResampleTrail | js/objects/Player.js:130-169 | the trail becomes the capped resampling of the old trail on the segment from its last point, run exactly ⌊d/s⌋ times; left alone without a spacing; never above trailLength if it was not before, never empty |
| Players.Player.ResampleIteration | js/objects/Player.js:137-168 | one loop pass keeps the iteration state (samples, remainder, trail, reference index) one step further, and the step count stays within ⌊d/s⌋ |
| Players.Player.SampleAfter | js/objects/Player.js:138-160 | the arithmetic of one pass reaches sample j + 1 with the new offsets and remainder d - (j + 1)·s |
| Players.Player.PushSample | js/objects/Player.js:142-168 | push, write through the reference, shift over the cap: the trail after j + 1 iterations, with the reference index updated |
| Players.Player.FixedUpdate | js/objects/Player.js:43-171 | nothing while paused, locked or dead; otherwise the step relation: in capture mode the home countdown step (started, cleared or expired; on expiry one life lost and, with lives left, a respawn at the start with an empty trail and no direction, else the player is out); outside capture mode lives, liveness and the countdown untouched; the end of a speed boost, the shield timer, the trail seeding and the clamped move with resampling from where the player stood |
| Players.Player.ActiveStep | js/objects/Player.js:57-171 | the body of fixedUpdate past its early returns satisfies the step relation, including the capture-mode home countdown outcome and the respawn |
| Players.Player.AfterHome | js/objects/Player.js:87-171 | boost expiry, shield drop exactly when the shield ran out, the trail seeded and the move; the trail stays within its cap and the position on the canvas |
| Players.Player.ExpireSpeedBoost | js/objects/Player.js:87-91 | once the boost's end time has passed the multiplier returns to 1 and the end time is cleared; otherwise both are kept |
| Players.Player.TickShield | js/objects/Player.js:103-108 | the shield survives exactly when it was active and its elapsed time is below its duration; no other shield appears |
| Players.Player.MoveAndSample | js/objects/Player.js:110-170 | the trail is seeded then the player moves and resamples; the trail stays within its cap and non-empty |
| Players.Player.MoveBy | js/objects/Player.js:113-170 | with a direction, the clamped move followed by resampling from the last trail point; without one nothing changes |
| Players.Player.CheckCollisionWithTrail | js/objects/Player.js:186-210 | false when dead or the trail is empty; a head collision when the other player is alive and the heads are closer than both sizes; otherwise a trail collision exactly when some point is strictly closer than size |
| Players.Player.CheckCollisionWithTerritory | js/objects/Player.js:212-221 | true exactly when the player is alive and inside one of the polygons by the winding test |
| Players.Player.HandleObstacleCollision | js/objects/Player.js:299-335 | pushed out through the side of least overlap (radius 6), then clamped to [6, canvas - 6] on both axes |
| Players.Player.HandleBarrierCollision | js/objects/Player.js:337-383 | unless at the barrier's centre, moved 6 outside the nearer vertical edge; then clamped to [5, canvas - 5] |
| Items.WeightedPick | js/objects/ItemManager.js:113-134 | the subtract-and-compare loop over the weights picks the same type as the weighted choice: below 40 speed, below 70 length, otherwise shield, 'speed' by default |
| Items.PickCoversTypes | js/objects/ItemManager.js:113-134 | with the draw scaled to the total weight 100, speed is chosen exactly on [0, 40), length exactly on [40, 70), shield exactly on [70, 100) |
| Items.ApplyEffect | js/objects/ItemManager.js:422-436 | speed: a 1.5x boost ending the speed duration after now; length: the trail cap grows by addLength; shield: a fresh shield of the item's duration; nothing else on the player changes |
| Items.CheckCollision | js/objects/ItemManager.js:448-460 | a hit exactly when the nearest point of the rectangle is strictly closer than the radius (Barrier and InitialBarrier share the body at 473-485) |
| Items.InsideAlwaysHits | js/objects/ItemManager.js:448-460 | a centre inside the rectangle always collides |
| Items.FarNeverHits | js/objects/ItemManager.js:448-460 | a centre at least the radius to the right of the rectangle never collides |
| Items.BarrierColumns | js/objects/ItemManager.js:80-86 | k rows give 2k barriers, two per row |
| Items.BarrierRowsExact | js/objects/ItemManager.js:80 | the loop `y += 40` while `y < height` runs k times exactly when 40(k - 1) < height ≤ 40k |
| Items.CheckCollisionWithStartPoint | js/objects/ItemManager.js:305-318 | true exactly when the point is strictly closer than the distance to (180, 300) or to (1020, 300) |
| Items.CheckItemLastDistance | js/objects/ItemManager.js:320-332 | false for no items; otherwise true exactly when the newest item is strictly closer than the distance |
| Items.IsOverlappingWithFlags | js/objects/ItemManager.js:259-268 | true exactly when some flag is strictly closer than its size plus the radius |
| Items.ClusterOf | js/objects/ItemManager.js:177-187 | the tentative cluster has `size` barriers of 40x40, the i-th 41·i along the orientation from the corner |
| Items.BlocksOf | js/objects/ItemManager.js:228-230 | the Barrier objects made from the cluster keep its positions and take the configured size |
| Items.ClusterSize | js/objects/ItemManager.js:144 | Math.floor(r·3) + 2 lies in 2..4 |
| Items.Unexpired | js/objects/ItemManager.js:359-361 | the filter keeps exactly the items younger than the timeout, never more than there were |
| Items.UnexpiredAppend | js/objects/ItemManager.js:359-361 | the filter distributes over concatenation, so kept items stay in order |
| Items.UnexpiredIdempotent | js/objects/ItemManager.js:359-361 | a second cleanup at the same time removes nothing |
| Items.NewestObstacles | js/objects/ItemManager.js:363-366 | the obstacle list is cut to its last min(n, 30) entries: a suffix, no longer than the cap unless untouched |
| Items.LastReachable | js/objects/ItemManager.js:270-287 | the index the downward scan stops at: reachable, with nothing reachable above it; none only when no item is reachable |
| Items.ItemManager.constructor | js/objects/ItemManager.js:2-20 | empty lists, zero timers, the configured intervals and duration, the barrier clock started now, not created, not paused |
| Items.ItemManager.CreateInitialBarriers | js/objects/ItemManager.js:66-90 | once only: appends the two gapless columns of ceil(height/40) rows, 2 per row, and marks them created; a second call changes nothing |
| Items.ItemManager.FindItemSpot | js/objects/ItemManager.js:98-111 | the do-while of up to 50 attempts draws at least once and reports a free spot only when the spot is free |
| Items.ItemManager.TryItemSpot | js/objects/ItemManager.js:99-108 | one attempt: x and y from the next two draws scaled to [20, size - 20), free exactly when away from spawns, barrier columns, the last item and the flags |
| Items.ItemManager.SpawnRandomItem | js/objects/ItemManager.js:92-141 | at most one item appended, the old ones kept; a new item sits on a free spot, spawned now, of the weighted type of its draw |
| Items.ItemManager.ClusterOverlaps | js/objects/ItemManager.js:190-222 | the scan reports an overlap exactly when some barrier of the cluster is blocked by the columns, a spawn, an existing obstacle (with margin 25) or a flag |
| Items.ItemManager.TryCluster | js/objects/ItemManager.js:159-232 | one attempt: nothing placed, or one whole cluster on free spots appended to the obstacles |
| Items.ItemManager.SpawnRandomObstacle | js/objects/ItemManager.js:143-234 | either nothing new or the old obstacles followed by one whole cluster of 2 to 4 barriers on free spots |
| Items.ItemManager.Update | js/objects/ItemManager.js:26-64 | nothing while paused; otherwise the spawn timer advances, the initial barriers vanish once their time is up (not during the countdown), and an item and a cluster are attempted exactly when their intervals are exceeded, with the spawn marks moved to the timer; an attempt leaves the old list alone or followed by one item on a free spot (ItemOutcome) or one cluster on free spots (SpawnOutcome) |
| Items.ItemManager.SpawnDue | js/objects/ItemManager.js:44-54 | the two spawn checks of update, with the outcomes as Update states them |
| Items.ItemManager.ColumnsBlocked | js/objects/ItemManager.js:239-256 | while initial barriers stand every x across either barrier column is blocked; once they are gone no x is |
| Items.ItemManager.CheckItemCollision | js/objects/ItemManager.js:270-287 | true exactly when some item is within reach: the newest such item is applied to the player and spliced out; otherwise nothing changes |
| Items.ItemManager.InitialBarrierRemainingTime | js/objects/ItemManager.js:334-348 | the full duration during the countdown; never negative otherwise; 0 exactly when the time is up; while paused, what was left when the pause began |
| Items.ItemManager.Cleanup | js/objects/ItemManager.js:355-367 | items: the unexpired ones in order; obstacles: the newest 30 |
| Items.ItemManager.CheckObstacleCollision | js/objects/ItemManager.js:289-303 | each touching obstacle in list order, then each touching initial barrier, pushes the player out; only the position changes |
| Items.ItemManager.Reset | js/objects/ItemManager.js:369-378 | empty lists, not paused, barrier clock restarted now, and the initial barrier columns built afresh |
| Items.AfterObstaclesInBounds | js/objects/Player.js:330-334 | a position at least 6 inside the canvas stays there through any sequence of obstacle pushes |
| Items.AfterBarriersInBounds | js/objects/Player.js:377-382 | a position at least 5 inside the canvas stays there through any sequence of barrier pushes |
| Items.AfterObstaclesUntouched | js/objects/ItemManager.js:290-295 | with no obstacle touching the player, the position is not changed |
| Flags.Flag.constructor | Flag.js:2-11 | a flag at (x, y) of the given size, capture radius equal to the size, the default colour, owned by nobody |
| Flags.Flag.Capture | Flag.js:17-22 | afterwards the flag is captured by playerId, whoever held it |
| Flags.Flag.Release | Flag.js:24-29 | afterwards the flag is owned by nobody, so no id captures it |
| Flags.Flag.DisplayColor | Flag.js:31-36 | the owner's colour when the owner id is truthy and entry id - 1 exists; the flag's own colour otherwise, including for unowned flags |
| Flags.PrevIndex | Flag.js:245 | the trailing index j stays a valid vertex index (n - 1 for i = 0, else i - 1) |
| Flags.PointInPolygonEvenOdd | Flag.js:243-252 | the crossing loop returns exactly the even-odd rule: an odd number of edges crossing the ray to the right |
| Flags.CrossingSymmetric | Flag.js:247 | the crossing abscissa is the same whichever end of the edge it is computed from, so the test does not depend on edge direction |
| Flags.FewerThanThreeOutside | Flag.js:243-252 | a polygon with fewer than three vertices contains no point |
| Flags.OwnersOf | Flag.js:270-274 | the owners listed flag by flag, in order |
| Flags.PlayerCountExact | Flag.js:263-278 | the counters of players 1 and 2 always exist and equal the number of flags each owns |
| Flags.OtherCountNaN | Flag.js:263-278 | any other id has a counter exactly when it is non-zero and owns a flag, and that counter is NaN (`undefined++`) |
| Flags.CountsAddUp | Flag.js:263-278 | counts[1] + counts[2] is the number of flags held by player 1 or player 2 |
| Flags.DieInCapture | js/objects/Player.js:471-486 | die() in capture mode: one life fewer, out of the round, and nothing else changes |
| Flags.CheckPair | Flag.js:325-349 | the clash between a living player and another, judged on the state before the check: a head-on collision kills both, a trail hit or an unshielded intrusion kills only the player, no clash changes nothing |
| Flags.HeadOnNeedsLivingOther | js/objects/Player.js:191-197 | a head collision is only reported against a living other player |
| Flags.AliveOnes | Flag.js:362 | exactly the standings of living players |
| Flags.Candidates | Flag.js:363 | the potential winners: the living players when anybody lives, otherwise every standing |
| Flags.MaxFlags | Flag.js:374 | Math.max of the flag counts: an upper bound attained by some standing |
| Flags.MaxScore | Flag.js:386 | Math.max of the scores: an upper bound attained by some standing |
| Flags.WithFlags | Flag.js:375 | exactly the standings with the given flag count |
| Flags.WithScore | Flag.js:387 | exactly the standings with the given score |
| Flags.DecideWinnerCandidate | Flag.js:354-405 | a winner is a potential winner, alive whenever anybody is |
| Flags.DecideAliveIff | Flag.js:364-371 | the reason is 'alive' exactly when one potential winner is left |
| Flags.DecideFlagsStrict | Flag.js:373-383 | a flags winner has strictly more flags than every other potential winner |
| Flags.DecideTerritoryStrict | Flag.js:385-395 | a territory winner comes from at least two potential winners and has strictly the highest score |
| Flags.DecideDraw | Flag.js:396-404 | a draw never lists exactly one player, and lists exactly the potential winners with the top score |
| Flags.TwoPlayersTerritoryWinnerTiesFlags | Flag.js:373-395 | with two potential winners, a territory winner has as many flags as the other, although the territory round does not filter on flags |
| Flags.FilterSingleton | Flag.js:374-376 | of two standings with different flag counts, the filter on the maximum keeps exactly one |
| Flags.FindPlayer | Flag.js:174 | Array.prototype.find: the first player with the id, or none when no player has it |
| Flags.ClampFlagCount | Flag.js:289-291 | Math.max(1, Math.min(10, count)): within 1..10, unchanged inside, 1 below, 10 above |
| Flags.FlagManager.constructor | Flag.js:66-77 | the board size, no flags, five flags to generate |
| Flags.FlagManager.SetFlagCount | Flag.js:289-291 | the flag count becomes the clamped count |
| Flags.FlagManager.IsValidFlagPosition | Flag.js:101-134 | valid exactly when outside both spawn squares, at least 200 from both spawns, at least 150 from every flag and at least 60 from both barrier columns |
| Flags.FlagManager.GenerateFlags | Flag.js:93-165 | up to flagCount new flags appended, the old ones kept; each new flag is fresh, unowned, of the default size, clear of the spawns and barrier columns and inside the 50 margin; every pair of flags stays spaced |
| Flags.FlagManager.PlaceFlag | Flag.js:144-163 | one flag's attempts: at most one flag appended, the old ones kept, and a new one is fresh, unowned, of the default size, on a clear spot inside the margin; it is given up only after all 100 attempts (200 draws), and a placed flag used between 2 and 200 draws |
| Flags.FlagManager.DrawSpot | Flag.js:150-151 | two draws from the random stream, scaled as `r * (size - 100) + 50`, so the position lies inside the 50 margin |
| Flags.FlagManager.FlagAt | Flag.js:153-157 | a flag is added exactly when the position is clear and far from every flag; it is new, unowned, of the default size, at that position, and the list stays spaced |
| Flags.MarginDraw | Flag.js:150-151 | a draw in [0, 1) scaled by size - 100 and shifted by 50 lands in [50, size - 50) on a board wider than 100 |
| Flags.FlagManager.Init | Flag.js:87-91 | the flags are replaced by at most flagCount freshly generated ones, spaced, unowned, clear of the spawns and columns and inside the margin |
| Flags.FlagManager.CheckCaptureInNewTerritory | Flag.js:254-261 | exactly the flags inside the new polygon by the even-odd rule pass to the player; the others keep their owner |
| Flags.FlagManager.GetFlagCounts | Flag.js:263-279 | the counts object is the fold of the owners |
| Flags.FlagManager.ReleaseOrphans | Flag.js:173-180 | every flag whose owner is missing or dead is released; every other keeps its owner |
| Flags.FlagManager.CheckPlayerCollisions | Flag.js:318-351 | each player dies at most once, loses at most one life, and no position, trail or shield changes |
| Flags.FlagManager.Update | Flag.js:167-183 | nothing while paused; otherwise orphaned flags released, then each player dies at most once |
| Flags.FlagManager.CheckVictoryCondition | Flag.js:354-405 | one standing per player with its id, liveness and `counts[id] \|\| 0` flags, each score a percentage that is 0 without territory and otherwise the one the territory cache holds for the player's polygons; the counts object; and the outcome of the cascade |
| Flags.StandingsOf | Flag.js:356-361 | the loop of checkVictoryCondition: one standing per player in order, with id, liveness, flag count and a score as Scored states |
| Flags.ScoreFor | Territory.js:79-99 | a percentage; 0 without territory; otherwise the score the cache now holds for the player's polygons, which is the sampled score when it was not cached before; every earlier cache entry stays |
| Flags.AppendSpaced | Flag.js:124-130 | a flag placed at least the spacing away from all others keeps the flags spaced |
| Survival.Bound | Survive.js:125-139 | the if/else-if clamp of constrainToBounds: within [lo, hi] when lo ≤ hi, unchanged inside, lo below |
| Survival.NearestPrefix | Survive.js:68-83 | the forEach scan with a strict `<` keeps an index among those scanned |
| Survival.NearestPrefixIsArgmin | Survive.js:68-83 | none exactly when nobody is alive; otherwise a living player at least as near as every living one, and strictly nearer than the living ones before it (the earliest wins ties) |
| Survival.AIEnemy.constructor | Survive.js:2-22 | an enemy at (x, y) for the board, speed 1.5, no target, wandering, state clock 0, not relaxed |
| Survival.AIEnemy.FindNearestPlayer | Survive.js:68-83 | null when nobody is alive, otherwise the argmin player |
| Survival.AIEnemy.CheckCollisionWithPlayer | Survive.js:145-151 | a hit exactly when the player is alive and closer than size + 5; never with a dead player |
| Survival.AIEnemy.EnterRelaxMode | Survive.js:153-156 | relaxed with the relax timer at 0 |
| Survival.AIEnemy.ConstrainToBounds | Survive.js:125-143 | each coordinate is clamped with margin size, leaving the enemy inside the board |
| Survival.AIEnemy.HandleObstacleCollision | Survive.js:158-196 | the push-out through the side of least overlap, then the clamp; inside the board, avoiding, state clock 0 |
| Survival.AIEnemy.HandleBarrierCollision | Survive.js:198-222 | pushed 2 clear of the barrier on the side of its centre the enemy is on, then clamped; inside the board, avoiding, state clock 0 |
| Survival.AIEnemy.ChasePlayer | Survive.js:92-110 | no target: no move; otherwise the step lies on the line toward the target and, for non-negative time and speed, points toward it on each axis |
| Survival.AIEnemy.TickRelax | Survive.js:27-34 | in relax mode the timer advances, and relax mode ends with the timer reset once it reaches 5000; outside relax mode nothing changes |
| Survival.AIEnemy.Pursue | Survive.js:48-61 | chases exactly when not relaxed and the nearest living player is closer than 150, then targeting that living player; otherwise wanders with no target |
| Survival.AIEnemy.Update | Survive.js:24-65 | the relax timer as above; avoiding ends after 300 ms of state clock; otherwise chase exactly as Pursue decides; a chasing enemy is not relaxed and targets a living player; the enemy ends inside the board |
| Survival.AIEnemy.WanderStep | Survive.js:112-123 | the state clock restarts past 1000; a half-speed step of speed·deltaTime/20 along the heading |
| Survival.BarrierSideX | Survive.js:202-214 | left of the barrier's centre the new x is left of the barrier, otherwise right of it |
| Survival.NearestIsAlive | Survive.js:72 | the player chosen as nearest is alive |
| Survival.SqrtMonotone | Survive.js:74 | comparing Math.sqrt distances is comparing squared distances |
| Survival.TowardStep | Survive.js:106-107 | a step along (dx, dy)/distance is collinear with (dx, dy) and points the same way |
| Survival.NamedDifficulty | Survive.js:484-491 | a difficulty found under a name is the one so named |
| Survival.NamedDifficultyRoundTrip | Survive.js:484-491 | every difficulty is found under its own name |
| Survival.SettingFor | Survive.js:491 | `settings[level] \|\| settings.medium`: the named row, medium for any other name; every row has 0 < count < maxEnemies and a positive interval |
| Survival.EdgePoint | Survive.js:309-329 | the spawn point of each side lies on that edge of the board |
| Survival.ScaledDraw | Survive.js:314 | a draw in [0, 1) scaled by a non-negative length stays within [0, length] |
| Survival.FirstNear | Survive.js:353-364 | the loop with `break`: the first rectangle near enough, none before it near; none exactly when no rectangle is near |
| Survival.Boxes | Survive.js:353-377 | the rectangles of the obstacle and barrier objects, one each, in order |
| Survival.Survivors | Survive.js:466-475 | the filter never keeps more enemies than there were |
| Survival.SurvivorsAll | Survive.js:466-475 | when every enemy is inside the board it was built for, cleanup keeps them all |
| Survival.DieAndShield | Survive.js:404-410 | die() then activateShield(3000) in survival mode: one life fewer, respawned at the start with an empty trail if a life is left, and a fresh three-second shield |
| Survival.EnemyMeetsPlayer | Survive.js:398-413 | on contact the enemy relaxes and an unshielded player dies and is shielded; a shielded player and a missed contact change nothing |
| Survival.PlayerMeetsPlayer | Survive.js:424-460 | a head-on collision revives both; a trail hit kills and shields the trail's OWNER; an unshielded intrusion kills and shields the intruder; no clash changes nothing |
| Survival.SurvivalManager.constructor | Survive.js:283-291 | no enemies, the spawn clock at 0, and the medium row of the difficulty table |
| Survival.SurvivalManager.SetDifficulty | Survive.js:483-501 | the settings of the named row (medium otherwise) and every existing enemy's speed 1.5 × the multiplier, positions kept |
| Survival.SurvivalManager.SpawnEnemy | Survive.js:305-334 | at the cap nothing happens and no draw is used; otherwise three draws (side, place, the constructor's heading) and exactly one fresh wandering enemy appended on an edge with speed 1.5 × the multiplier |
| Survival.SurvivalManager.CreateInitialEnemies | Survive.js:299-303 | enemyCount spawn attempts: the old enemies kept, exactly enemyCount added while below the cap, never beyond it, all fresh and on an edge |
| Survival.SurvivalManager.Reset | Survive.js:507-511 | the spawn clock at 0 and exactly enemyCount fresh enemies on the edges |
| Survival.SurvivalManager.GetEnemyCount | Survive.js:503-505 | the number of enemies |
| Survival.SurvivalManager.SpawnTick | Survive.js:342-347 | the clock advances; at the interval it restarts and one enemy is added when below the cap; the old enemies kept |
| Survival.SurvivalManager.AvoidObstacles | Survive.js:353-365 | the first obstacle near enough pushes the enemy out and sets it avoiding; with none, the enemy is untouched |
| Survival.SurvivalManager.AvoidBarriers | Survive.js:367-378 | the first barrier near enough pushes the enemy sideways and sets it avoiding; with none, the enemy is untouched |
| Survival.SurvivalManager.MoveEnemies | Survive.js:350-382 | after the enemy loop every enemy is inside the board, its relax timer ticked once, and an enemy left chasing is not relaxed and targets a living player |
| Survival.SurvivalManager.MoveEnemy | Survive.js:351-381 | one enemy's turn: inside the board, relax timer ticked, a chase only when not relaxed and at a living player |
| Survival.SurvivalManager.CheckAICollisions | Survive.js:396-415 | enemies do not move and their relax state is kept or freshly set; lives never go up, a player who lost one is shielded, a player shielded beforehand is untouched; a player unshielded at the start that an enemy touched where it stood loses a life, and an enemy that touched a shielded player relaxes |
| Survival.SurvivalManager.EnemyRound | Survive.js:397-414 | one enemy against every player in turn, with the outcomes CheckAICollisions states for that enemy |
| Survival.SurvivalManager.CheckPlayerCollisions | Survive.js:417-464 | lives never go up, and a player who lost one is shielded |
| Survival.SurvivalManager.Cleanup | Survive.js:466-475 | the enemies strictly within 100 of the board are kept, in order |
| Survival.SurvivalManager.Round | Survive.js:350-390 | every enemy ends inside the board with its relax timer ticked once or freshly relaxed by a contact, and every player who lost a life is shielded |
| Survival.SurvivalManager.Update | Survive.js:336-394 | nothing while paused; otherwise the old enemies plus at most one fresh one (exactly when the clock reaches the interval below the cap), the spawn clock reset to 0 exactly when it reached the interval, every enemy inside the board, every old enemy's relax timer ticked or freshly relaxed, and every player who lost a life shielded |
| Survival.SurvivalManager.RoundAndCleanup | Survive.js:350-393 | the round, then cleanup, which keeps every enemy: the list is unchanged |
| RenderCache.ByteClamp | Renderer.js:369-371 | the channel clamp: within 0..255, unchanged inside, 0 below, 255 above |
| RenderCache.LightClamp | Renderer.js:369-371 | lightenColor's nested conditional `R < 255 ? R < 1 ? 0 : R : 255` is the 0..255 clamp |
| RenderCache.DarkClamp | Renderer.js:381-383 | darkenColor's nested conditional `R > 255 ? 255 : R < 0 ? 0 : R` is the 0..255 clamp |
| RenderCache.ToHex | Renderer.js:369-371 | `toString(16)` gives at least one digit |
| RenderCache.ChannelsOfNumber | Renderer.js:365-368 | `num >> 16`, `num >> 8 & 0xFF` and `num & 0xFF` read back the three channels of the parsed "#rrggbb" number |
| RenderCache.PackHexDigits | Renderer.js:369-371 | `(0x1000000 + R·0x10000 + G·0x100 + B).toString(16).slice(1)` after "#" is exactly the six-digit lower-case colour |
| RenderCache.RgbToHexIsHexColor | Renderer.js:369-371 | the packed form is "#" followed by six lower-case hexadecimal digits |
| RenderCache.PackHexReadsBack | Renderer.js:364-384 | a packed colour parses back to the very channels packed |
| RenderCache.LightenColorChannels | Renderer.js:364-373 | lightenColor raises each channel by Math.round(2.55·percent), clamps to 0..255, and returns a "#rrggbb" string that parses back to those channels |
| RenderCache.DarkenColorChannels | Renderer.js:375-385 | darkenColor lowers each channel by the same amount, clamps, and returns a string that parses back to those channels |
| RenderCache.SizeCountsEntries | Renderer.js:950-959 | Map.size of a well-formed cache is its number of entries |
| RenderCache.Put | Renderer.js:460 | Map.set: the key holds the new timestamp, other entries are kept, a new key goes last and an existing one keeps its place |
| RenderCache.Surviving | Renderer.js:513-519 | exactly the keys not condemned, in their order |
| RenderCache.SurvivingNoDup | Renderer.js:513-519 | deleting keeps the keys distinct |
| RenderCache.Purged | Renderer.js:924-928 | exactly the entries the predicate does not condemn are kept, with their timestamps |
| RenderCache.DeleteWhere | Renderer.js:924-928 | the delete-while-iterating pass in insertion order gives exactly the purged cache |
| RenderCache.PruneObject | Renderer.js:513-519 | deletes exactly the keys beginning with the id and `_` other than the current key, keeping the order of the rest |
| RenderCache.Consult | Renderer.js:432-467 | the cached canvas is reused exactly when the recorded state is the current one and the key is present (only its timestamp refreshed); otherwise the entry is stored, the state recorded and the object's other entries pruned |
| RenderCache.StoreShieldBounded | Renderer.js:842-849 | from at most 20 entries a shield store leaves at most 20 and keeps the new entry; when it evicts, it evicts exactly the earliest inserted key |
| RenderCache.Renderer.constructor | Renderer.js:14-28 | four empty caches, no recorded states, a 60-second lifespan |
| RenderCache.Renderer.CleanupItemCache | Renderer.js:513-519 | the item's stale entries go, everything else stays |
| RenderCache.Renderer.CleanupObstacleCache | Renderer.js:660-669 | the obstacle's stale entries go, everything else stays |
| RenderCache.Renderer.CleanupBarrierCache | Renderer.js:799-808 | the initial barrier's stale entries go, everything else stays |
| RenderCache.Renderer.DrawPowerUpItemCached | Renderer.js:432-467 | the item cache and its state map change as Consult states |
| RenderCache.Renderer.DrawBarrierCached | Renderer.js:524-564 | the obstacle cache and its state map change as Consult states |
| RenderCache.Renderer.DrawInitialBarrierCached | Renderer.js:671-712 | the barrier cache and its state map change as Consult states |
| RenderCache.Renderer.DrawShieldCached | Renderer.js:810-852 | nothing for an inactive shield; reuse exactly when the last shield state and its key match; otherwise a FIFO-bounded store; never more than 20 entries from at most 20 |
| RenderCache.Renderer.ClearAllCaches | Renderer.js:900-910 | all four caches and all recorded states are empty |
| RenderCache.Renderer.CleanupExpiredCaches | Renderer.js:913-930 | in each cache exactly the entries older than the lifespan are deleted |
| RenderCache.Renderer.ClearObjectCache | Renderer.js:932-948 | for 'item', 'obstacle' or 'barrier' every entry of the object and its recorded state go, the other caches untouched; any other type changes nothing |
| RenderCache.Renderer.GetCacheStats | Renderer.js:950-959 | the total is the sum of the four counts |
| RenderCache.StatsCountEntries | Renderer.js:950-959 | each count is the number of entries of its cache, and the total counts them all |
| Engine.PhysicsFps | js/core/GameEngine.js:23 | the physics rate is positive: the configuration's 60 (js/Config.js:104-107), or the literal 50 of GameEngine.js:23 |
| Engine.Timestep | js/core/GameEngine.js:24 | 1000 / FPS is positive: 20 ms in the earlier engine (GameEngine.js:24), between 16 and 17 ms in the current one |
| Engine.TimerPeriod | js/core/GameEngine.js:239 | the frame counter's period is positive: 2 · FPS, or 100 in GameEngine.js:244 |
| Engine.NextTimer | js/core/GameEngine.js:238-241 | from within its period the counter stays within it and wraps to 0 exactly from the last value |
| Engine.LivesTablesAgree | GameEngine.js:94-100 | the earlier inline lives table has every mode but day/night and agrees with js/Config.js:94-101 on them; every mode grants at least one life |
| Engine.DifficultyTablesAgree | GameEngine.js:118-123 | the earlier inline difficulty table equals js/Config.js:3-8 |
| Engine.StepCount | js/core/GameEngine.js:213-220 | the physics loop never runs more than MAX_FRAME_SKIP steps |
| Engine.StepCountRemainder | js/core/GameEngine.js:215-219 | when the budget is not used up less than one timestep is left; from a non-negative accumulator the rest stays non-negative; the full budget is used exactly when the accumulator held that many timesteps |
| Engine.StepTaken | js/core/GameEngine.js:216-218 | one more step moves one timestep from the accumulator to the game time and keeps the loop's bookkeeping |
| Engine.RemainderIsSubtraction | js/core/GameEngine.js:217 | the accumulator left is the start less one timestep per step run |
| Engine.InterpolationInRange | js/core/GameEngine.js:222 | unless the step budget ran out, the interpolation factor lies in [0, 1) |
| Engine.FrameTime | js/core/GameEngine.js:195-196 | Math.min(newTime - currentTime, 250): at most 250, one of the two, non-negative when the clock did not go back |
| Engine.ScoreWinnerIsStrictlyBest | js/core/GameEngine.js:545-557 | endGame's winner is a potential winner, alive when anybody is, with a strictly higher score than every other potential winner |
| Engine.ScoreTieIsTopGroup | js/core/GameEngine.js:545-557 | a draw is never one player and lists exactly the potential winners at the top score |
| Engine.AliveOnesDistinct | js/core/GameEngine.js:545 | filtering to the living keeps player ids distinct and keeps only listed standings |
| Engine.WithScoreDistinct | js/core/GameEngine.js:551 | filtering on the top score keeps ids distinct |
| Engine.AllSameDistinct | js/core/GameEngine.js:551-553 | two or more copies of one standing cannot have distinct ids |
| Engine.StrictlyBestWins | js/core/GameEngine.js:545-557 | conversely, with distinct ids a potential winner strictly above every other one is declared the winner |
| Engine.EngineClash | js/core/GameEngine.js:306-347 | explore, fight and infinite act on head and trail collisions as the shared clash table does; the other modes ignore both and only the unshielded territory test remains |
| Engine.CollisionTable | js/core/GameEngine.js:306-347 | head-on kills both in explore, fight and infinite; a trail hit kills the runner in explore and the trail's owner in fight and infinite; shielded players are safe in territory; capture and day/night only kill the unshielded intruder |
| Engine.DeathCostsNoLife | js/objects/Player.js:471-486 | die() never adds a life: infinite mode's two lives only come to a player that had at least two |
| Engine.CheckPass | js/core/GameEngine.js:313-343 | one inner pass: the clash is the mode table's on the state before, the runner and the owner die exactly as the table says, and whoever does not die is untouched |
| Engine.GameEngine.AliveCount | js/core/GameEngine.js:300 | the number of living players never exceeds the number of players |
| Engine.GameEngine.constructor | js/core/GameEngine.js:2-100 | a 1200 x 600 board in the menu, explore mode, medium difficulty and its time limit, zero clocks, two new players tuned to medium at their spawns, no territory, no items, the 30 initial barriers |
| Engine.GameEngine.NewParts | js/core/GameEngine.js:6-97 | the territory, managers and players init creates, all new and empty |
| Engine.GameEngine.NewItemManager | js/core/GameEngine.js:56-57 | the item manager for the board with its initial barriers built: two columns of 15 |
| Engine.GameEngine.NewPlayers | js/core/GameEngine.js:80-95 | players 1 and 2, distinct and new, at their spawn points with no spacing set |
| Engine.GameEngine.SetDifficulty | js/core/GameEngine.js:121-136 | the difficulty and its time limit; every player's speed and trail cap from the row; the spacing set to 2 by the current engine and left as it was by GameEngine.js:116-136 |
| Engine.GameEngine.SetGameMode | js/core/GameEngine.js:103-119 | the mode is recorded; where the lives table has the mode every player gets its lives, survival rebuilds the enemies at the engine's difficulty, capture places new unowned flags; the earlier table's missing day/night row fails after the mode is set and changes nothing else |
| Engine.GameEngine.CheckCollisions | js/core/GameEngine.js:306-347 | through the whole check a player's lives never rise and its territory, score, speed and spacing stay |
| Engine.GameEngine.EndGame | js/core/GameEngine.js:525-558 | the game is over and the result screen holds the capture verdict or the score verdict of the standings, every score a percentage that is 0 without territory and otherwise the cached score of the player's polygons |
| Engine.GameEngine.Standings | js/core/GameEngine.js:539-543 | one standing per player in order, with its id and liveness, and a score as Flags.Scored states: a percentage, 0 without territory, else the cached score of the polygons |
| Engine.GameEngine.FixedUpdate | js/core/GameEngine.js:237-304 | counter and game time advance; past the limit (not in infinite mode) the game ends and nobody moves; otherwise the game is over exactly when it was, an infinite-mode claim reached 60, or at most one player lives; territories only grow by one polygon; shields only drop or are new; enemies are only appended |
| Engine.GameEngine.TimedPhases | js/core/GameEngine.js:244-303 | fixedUpdate after the clocks: the time-limit end or the phases, with the outcomes FixedUpdate states |
| Engine.GameEngine.Tick | js/core/GameEngine.js:238-242 | the counter wraps at its period and the game time grows by the step |
| Engine.GameEngine.RunPhases | js/core/GameEngine.js:250-303 | the phases after the time check: game over exactly as FixedUpdate states, territories grow, shields and enemies as above |
| Engine.GameEngine.Conclude | js/core/GameEngine.js:280-303 | the enclosure loop then the alive test: over exactly when it was, on an infinite-mode win or with at most one living player |
| Engine.GameEngine.Advance | js/core/GameEngine.js:250-278 | the mode manager, items, player moves and collisions keep shields renewed, enemies extended and at most 30 obstacles |
| Engine.GameEngine.ModeAndItems | js/core/GameEngine.js:250-267 | the mode manager then the items keep shields renewed and at most 30 obstacles |
| Engine.GameEngine.MoveAndCollide | js/core/GameEngine.js:270-278 | the player moves and collisions only drop shields |
| Engine.GameEngine.ModeUpdate | js/core/GameEngine.js:250-255 | survival or capture manager per mode: shields renewed, enemies only appended |
| Engine.GameEngine.ItemsPhase | js/core/GameEngine.js:257-267 | item update, pickups and pushes per player, then cleanup leaving at most 30 obstacles |
| Engine.GameEngine.MovePlayers | js/core/GameEngine.js:270 | every player's own step; shields only drop; outside capture mode no life is lost and nobody dies here |
| Engine.GameEngine.ClaimPhase | js/core/GameEngine.js:280-297 | each territory list grows by at most one polygon; an unchanged list keeps the score; over exactly when it was or on an infinite-mode claim scoring 60 or more (the loop goes on after endGame) |
| Engine.GameEngine.ClaimTurn | js/core/GameEngine.js:281-296 | one loop turn keeps the enclosure loop's invariant one player further |
| Engine.GameEngine.ClaimFor | js/core/GameEngine.js:281-296 | the player's list grows by at most one polygon, the others' are unchanged, the score changes only with a claim, and the game ends exactly on an infinite-mode claim scoring 60 or more |
| Engine.GameEngine.Pause | js/core/GameEngine.js:453-484 | only from play: paused, the pause time recorded, each active shield frozen, each running lock saved, home countdowns paused in capture mode; otherwise nothing changes |
| Engine.GameEngine.Resume | js/core/GameEngine.js:486-523 | only from a pause: playing, the barrier clock shifted by the pause (when a truthy pause start was recorded), shields shifted and cleared, locks restarted, capture home countdowns resumed; otherwise nothing changes |
| Engine.GameEngine.ResumePlay | js/core/GameEngine.js:488-522 | the body of resume once paused, with the same effects |
| Engine.GameEngine.Start | js/core/GameEngine.js:146-183 | when the mode's lives exist: counting down from 3 with zeroed clocks and counters and the frame clock at the reading taken; the first frame then runs as GameLoop states |
| Engine.GameEngine.PrepareStart | js/core/GameEngine.js:147-174 | difficulty and mode applied again; on success the round is reset with the players' lives and tuning from the tables |
| Engine.GameEngine.Configure | js/core/GameEngine.js:147-148 | difficulty and mode unchanged, the time limit, the lives and the tuning from the tables, flags and enemies kept or new |
| Engine.GameEngine.ResetRound | js/core/GameEngine.js:150-174 | the reset state: counting down, clocks zeroed, players at their spawns, no territory, items reset; lives and tuning kept |
| Engine.GameEngine.ResetClocks | js/core/GameEngine.js:150-165 | countdown from 3 active, game time and accumulator zero, the frame clock at the reading, the barrier clock at now |
| Engine.GameEngine.ResetPlayers | js/core/GameEngine.js:167-169 | both players at their spawn points, keeping lives, speed, trail cap and spacing |
| Engine.GameEngine.Restart | js/core/GameEngine.js:185-190 | back to the menu |
| Engine.GameEngine.GameLoop | js/core/GameEngine.js:192-234 | nothing outside play, countdown and pause; while playing, exactly StepCount steps run, the accumulator keeps the remainder, the game time grows by what was consumed and the interpolation lies in [0, 1) unless the budget ran out; a pause accumulates nothing; a countdown runs down and starts play with an empty accumulator |
| Engine.GameEngine.PlayingFrame | js/core/GameEngine.js:195-225 | a frame while playing: the frame time is accumulated, StepCount steps run, the accumulator keeps the Remainder, the game time grows by what was consumed, and the interpolation factor is in [0, 1) when fewer than MAX_FRAME_SKIP steps ran |
| Engine.GameEngine.WaitingFrame | js/core/GameEngine.js:195-225 | a frame during the countdown or a pause runs no step and leaves the game time alone, even on the frame where play starts; a pause keeps the accumulator; a countdown falls as CountedDown says |
| Engine.GameEngine.TakeSteps | js/core/GameEngine.js:213-222 | while playing, the steps and remainder as StepCount and Remainder say; with less than a timestep nothing changes |
| Engine.GameEngine.FrameClock | js/core/GameEngine.js:194-211 | the frame time accumulated unless paused; a countdown falls by it in seconds and at zero starts play with an empty accumulator and the barrier clock at now |
| Engine.GameEngine.PhysicsSteps | js/core/GameEngine.js:214-219 | the while loop runs StepCount steps, leaves Remainder in the accumulator and grows the game time by what it consumed |
| Engine.GameEngine.Step | js/core/GameEngine.js:216-218 | one fixedUpdate and one timestep out of the accumulator, keeping the loop's bookkeeping |
| Engine.GameEngine.Physics | js/core/GameEngine.js:216 | fixedUpdate of one timestep advances the game time by it |
| Engine.PauseResumeLock | js/core/GameEngine.js:470-512 | a running lock paused at t1 and resumed at t2 ends t2 - t1 later, after t2, with no saved time left |
| Engine.PauseResumeHome | js/objects/Player.js:455-469 | a running capture-mode home countdown keeps its elapsed time across a pause, except when paused in the millisecond it began: a saved 0 reads as falsy and it stays paused |
| Engine.PauseResumeNoHome | js/core/GameEngine.js:477-517 | outside capture mode the home countdown is not touched |
| Engine.PauseResumeShield | js/core/GameEngine.js:464-507 | a running shield paused at t1 and resumed at t2 runs again with no pause records and exactly the time left it had at t1 |
| Engine.ShieldsRenewed | js/core/GameEngine.js:263-270 | when each player holds no shield, its old one or a new one, every shield held is old or new |
| Engine.NoShields | js/core/GameEngine.js:463 | players without shields hold none |
| Engine.PauseAll | js/core/GameEngine.js:462-481 | every player and its shield as pause leaves them |
| Engine.PauseShields | js/core/GameEngine.js:464-469 | every held shield as pause leaves it |
| Engine.PauseShield | js/core/GameEngine.js:464-469 | an active shield frozen at its remaining time with the pause start recorded; an inactive one untouched |
| Engine.PauseTimersAll | js/core/GameEngine.js:471-480 | every player's records as pause leaves them |
| Engine.PausePlayer | js/core/GameEngine.js:471-480 | a running lock's remaining time saved and the capture home countdown paused |
| Engine.ResumeBarrierClock | js/core/GameEngine.js:491-495 | a truthy pause start shifts the barrier clock by the pause and is cleared; otherwise nothing changes |
| Engine.ResumeAll | js/core/GameEngine.js:498-520 | every player and its shield as resume leaves them |
| Engine.ResumeShields | js/core/GameEngine.js:500-507 | every held shield as resume leaves it |
| Engine.ResumeShield | js/core/GameEngine.js:500-507 | a shield with a truthy pause start has its start moved by the pause and its records cleared |
| Engine.ResumeTimersAll | js/core/GameEngine.js:509-518 | every player's records as resume leaves them |
| Engine.ResumePlayer | js/core/GameEngine.js:509-518 | a truthy saved lock restarts from now and is cleared; the capture home countdown resumes |
| Engine.ClaimTerritory | js/core/GameEngine.js:281-284 | no enclosure changes no territory and no score; an enclosure adds exactly its clockwise polygon to the player's list and nobody else's, and the player's new score is the percentage the cache holds for its polygons |
| Engine.LegacySpacingNeverSet | GameEngine.js:132 | under the earlier engine a new player's spacing stays unset after any number of setDifficulty calls |
| Engine.CurrentSpacingSet | js/core/GameEngine.js:132 | under the current engine one setDifficulty call sets the spacing to 2 whatever it was |
| Engine.CountAlive | js/core/GameEngine.js:300-303 | the living players counted: never more than the list, zero exactly when nobody lives |

## Left out

- Drawing is not modelled: the `draw*` methods of Renderer.js, `render`, `renderStaticElements`, `renderDynamicElements`, `renderTerritory`, `updateUI`, `showGameOver` and `showCaptureGameOver`, `FlagManager.render`, `createFlagCache`, `initOffscreenCanvas`, `AIEnemy.render`, and the star, moon and render methods of the day/night manager. A render cache entry is modelled as its key and timestamp, not as a canvas.
- The flag's redraw bookkeeping (`needsRedraw`, `hasStateChanged`, `markRedrawn`, `dispose`) only feeds drawing, so it is not modelled.
- The DOM, the UI managers, the keyboard and touch wiring of the input handlers, and the page scripts `main.js` are not part of this model. `setDirection` takes any dx and dy, which covers the values in {-1, 0, 1} that the input handler passes.
- The DOM methods of the colour manager (`setupColorSelection`, `selectColor`, the feedback, slider and picker updates) are not modelled. Neither is the `rgbToHsl`/`hslToHex` rounding round trip (js/objects/Color.js:272-338), beyond the hue range that the harmony uses.
- `requestAnimationFrame`, `updateFPS`, the frame-count cadence of the render-cache cleanup, and the `setTimeout` inside `restart` are not modelled. `Engine.GameEngine.Restart` only returns to the menu; starting again is a separate `Start` call.
- The random draws are inputs. The model does not capture their distributions, or how likely rejection sampling is to succeed in `spawnRandomItem`, `spawnRandomObstacle`, `generateFlags` and `spawnEnemy`.
- The enemies' heading changes (`wander`, the drift while avoiding, and the angle flips in `constrainToBounds`) use trigonometry and random draws, so they are not modelled. The enemy moves by a supplied heading, and only the positional part of `constrainToBounds` is modelled.
- The pulse animation (`PowerUpItem.update`, `ShieldEffect.pulsePhase`) and the collision flash effect of the player are not modelled. Neither are the trail's smoothing control points, which are only drawn.
- `Territory.calculateTotalArea` (Territory.js:66-77) has no caller in the core, so it is not modelled. Neither is `Player.distant` (js/objects/Player.js:400-408), which nothing calls.
- `console.log`/`console.warn` output is not modelled.
- Numbers are modelled as exact reals. JavaScript numbers are IEEE doubles, and the model has no rounding and no accumulated floating-point error. This covers positions summed frame by frame, `speed * deltaTime / 1000 * 60`, the ratio steps of the trail resampling, `frameTime` and the accumulator. The squared-distance tests equal the game's `Math.sqrt(d) < r` tests only in exact arithmetic; with doubles they can disagree at the boundary.
- Engine.GameEngine.Start: its first frame reuses the clock reading that `start()` stored, so that frame has zero length. The source reads `performance.now()` again inside `gameLoop()` (js/core/GameEngine.js:194), so its first frame can be a few milliseconds long.
- The model fixes the survival manager's `die()` mode to survival and always grants the 3000 ms shield after a death. `SurvivalManager.update` only runs in survival mode.
- Flags.FlagManager.CheckPlayerCollisions: states that each player dies at most once and that nobody is moved otherwise. It does not state which pair of players produced each death. The outcome of one pass is stated by `Flags.CheckPair` and `Flags.DieInCapture`.
- Survival.SurvivalManager.CheckPlayerCollisions: states that lives never rise and that a player who lost one is shielded. It does not state which pair produced each death; the outcome of one pass is stated by `Survival.PlayerMeetsPlayer`.
- Engine.GameEngine.CheckCollisions: states what holds across the whole check (lives never rise; territory, score, speed and spacing stay). The death table of one pass is `Engine.CheckPass` and `Engine.CollisionTable`.
- Survival.AIEnemy.ChasePlayer: states the direction of the step (straight toward the target, never away from it), not its exact length, which depends on the square root of the distance.
- Items.ItemManager.FindItemSpot: states that a spot reported free is free. It does not state that the search stops at the first free attempt.
- Flags.FlagManager.GenerateFlags: states that at most flagCount flags are added and what each new flag is, but not how many draws it used in all; the 100-attempt rule for one flag is stated by Flags.FlagManager.PlaceFlag.
- Survival.Survivors: the filter's own contract only bounds its length. Which enemies it keeps is stated by `Survival.SurvivalManager.Cleanup`, and `Survival.SurvivorsAll` shows that it keeps them all once every enemy is in bounds.
- Survival.SurvivalManager.MoveEnemies: states bounds, the relax timer and the chase condition for every enemy. The avoid pushes and the state clock are stated per call by `Survival.SurvivalManager.AvoidObstacles`, `Survival.SurvivalManager.AvoidBarriers` and `Survival.AIEnemy.Update`, not composed across the loop.
- Survival.SurvivalManager.CheckAICollisions: judges contacts against the players as they stood when the check began. It does not state which enemy relaxed on killing an unshielded player, or what a later enemy did to a player who had already respawned in the same check; `Survival.EnemyMeetsPlayer` states each single meeting.
- Survival.SurvivalManager.Round: the enemy collision check sees the enemies after their moves, so Round forwards only the relax state and the lives; the contact outcome is stated by `Survival.SurvivalManager.CheckAICollisions` relative to its own start.
- Flags.StandingsOf: ties each score to the cache entry for the player's polygons, not to the sampled score. A cache hit returns whatever was stored under the same (player, hash) key, which can come from other polygons when two serialisations hash alike; `Flags.ScoreFor` states the sampled score for a miss.

## Findings

| source | as written | input that shows it | evidently intended | confidence | as-written member | corrected member |
|---|---|---|---|---|---|---|
| GameEngine.js:132 | `setDifficulty` assigns `player.standardistant = 2`, a misspelt field, so `standarddistance` is never set | any `setDifficulty` call on a new player under the earlier engine: its spacing stays unset, `dist >= undefined` is false, and the trail is never resampled | set `standarddistance` to 2, as js/core/GameEngine.js:132 does | not executed | `Engine.LegacySpacingNeverSet` | `Engine.CurrentSpacingSet` |

=== FILE: colors.dfy ===
/**
 * The colour helpers of js/objects/Color.js: the most-recently-used colour
 * history of each player, the "#rrggbb" parser, the colour-difference score
 * shown while the players pick their colours, and the selected colours with
 * their fallbacks. Colours are strings; an empty string is the falsy colour.
 */
module Colors {
  import opened Common
  import Config

  /** How many colours each player's history keeps. */
  const MaxHistory: nat := 6

  datatype Rgb = Rgb(r: int, g: int, b: int)

  predicate IsChannel(v: int)
  {
    0 <= v < 256
  }

  predicate ValidRgb(c: Rgb)
  {
    IsChannel(c.r) && IsChannel(c.g) && IsChannel(c.b)
  }

  // The most-recently-used history

  predicate NoDup<T(==)>(s: seq<T>)
  {
    forall i, j :: 0 <= i < j < |s| ==> s[i] != s[j]
  }

  /** `indexOf`: the index of the first occurrence of c, or -1. */
  function IndexOf<T(==)>(h: seq<T>, c: T): (i: int)
    ensures -1 <= i < |h|
    ensures i == -1 <==> c !in h
    ensures 0 <= i ==> h[i] == c && c !in h[..i]
  {
    if h == [] then -1
    else if h[0] == c then 0
    else
      var j := IndexOf(h[1..], c);
      if j == -1 then -1
      else
        assert h[..j + 1] == [h[0]] + h[1..][..j];
        j + 1
  }

  /** `indexOf` then `splice(index, 1)`: the first occurrence of c removed, if there is one. */
  function Without<T(==)>(h: seq<T>, c: T): (r: seq<T>)
    ensures c in h ==> |r| == |h| - 1
    ensures c !in h ==> r == h
    ensures forall x :: x in r ==> x in h
    ensures forall x :: x in h && x != c ==> x in r
  {
    if h == [] then []
    else if h[0] == c then h[1..]
    else [h[0]] + Without(h[1..], c)
  }

  /**
   * The removal is a splice at indexOf: the entries before the first
   * occurrence of c and those after it keep their order.
   */
  lemma {:induction false} WithoutSplices<T>(h: seq<T>, c: T)
    requires c in h
    ensures Without(h, c) == h[..IndexOf(h, c)] + h[IndexOf(h, c) + 1..]
  {
    if h[0] != c {
      WithoutSplices(h[1..], c);
      var j := IndexOf(h[1..], c);
      assert h[..j + 1] == [h[0]] + h[1..][..j];
      assert h[j + 2..] == h[1..][j + 1..];
    }
  }

  lemma {:induction false} WithoutNoDup<T>(h: seq<T>, c: T)
    requires NoDup(h)
    ensures NoDup(Without(h, c)) && c !in Without(h, c)
  {
    if h != [] && h[0] != c {
      assert NoDup(h[1..]) by {
        forall i, j | 0 <= i < j < |h[1..]|
          ensures h[1..][i] != h[1..][j]
        {
          assert h[1..][i] == h[i + 1] && h[1..][j] == h[j + 1];
        }
      }
      WithoutNoDup(h[1..], c);
      var w := Without(h[1..], c);
      assert h[0] !in h[1..] by {
        forall k | 0 <= k < |h[1..]|
          ensures h[1..][k] != h[0]
        {
          assert h[1..][k] == h[k + 1];
        }
      }
      assert Without(h, c) == [h[0]] + w;
      forall i, j | 0 <= i < j < |[h[0]] + w|
        ensures ([h[0]] + w)[i] != ([h[0]] + w)[j]
      {
        if i > 0 {
          assert ([h[0]] + w)[i] == w[i - 1] && ([h[0]] + w)[j] == w[j - 1];
        }
      }
    } else if h != [] {
      assert Without(h, c) == h[1..];
      forall i, j | 0 <= i < j < |h[1..]|
        ensures h[1..][i] != h[1..][j]
      {
        assert h[1..][i] == h[i + 1] && h[1..][j] == h[j + 1];
      }
      assert c !in h[1..] by {
        forall k | 0 <= k < |h[1..]|
          ensures h[1..][k] != c
        {
          assert h[1..][k] == h[k + 1];
        }
      }
    }
  }

  /** addToColorHistory on one player's list: c moved (or added) to the front, the oldest dropped past MaxHistory. */
  function Recent(h: seq<string>, c: string): seq<string>
  {
    var h1 := [c] + Without(h, c);
    if |h1| > MaxHistory then h1[..|h1| - 1] else h1
  }

  /**
   * The history is a most-recently-used list: the new colour comes first, no
   * colour appears twice, the list never grows past six, a colour already
   * present is moved rather than added, and nothing but the oldest entry is
   * ever lost.
   */
  lemma RecentIsMru(h: seq<string>, c: string)
    requires NoDup(h) && |h| <= MaxHistory
    ensures var r := Recent(h, c);
            && |r| >= 1 && r[0] == c
            && NoDup(r) && |r| <= MaxHistory
            && (c in h ==> |r| == |h|)
            && (c !in h ==> |r| == MinInt(|h| + 1, MaxHistory))
            && (forall x :: x in r ==> x == c || x in h)
            && (forall x :: x in h && x != c && (c in h || |h| < MaxHistory) ==> x in r)
  {
    var w := Without(h, c);
    WithoutNoDup(h, c);
    var h1 := [c] + w;
    assert NoDup(h1) by {
      forall i, j | 0 <= i < j < |h1|
        ensures h1[i] != h1[j]
      {
        if i == 0 {
          assert h1[j] == w[j - 1];
        } else {
          assert h1[i] == w[i - 1] && h1[j] == w[j - 1];
        }
      }
    }
    forall x | x in h && x != c && (c in h || |h| < MaxHistory)
      ensures x in Recent(h, c)
    {
      assert x in w;
      assert |h1| <= MaxHistory;
      assert x in h1;
    }
  }

  /**
   * The order of the history when the colour was already there: it is cut
   * out where it stood and put in front; every other entry keeps its place
   * relative to the rest.
   */
  lemma {:induction false} RecentMoves(h: seq<string>, c: string)
    requires c in h && |h| <= MaxHistory
    ensures Recent(h, c) == [c] + h[..IndexOf(h, c)] + h[IndexOf(h, c) + 1..]
  {
    WithoutSplices(h, c);
    assert Recent(h, c) == [c] + Without(h, c);
  }

  /**
   * The order of the history for a new colour: it goes in front and pushes
   * the rest back by one; a full history loses its last entry.
   */
  lemma {:induction false} RecentPushes(h: seq<string>, c: string)
    requires c !in h && |h| <= MaxHistory
    ensures |h| < MaxHistory ==> Recent(h, c) == [c] + h
    ensures |h| == MaxHistory ==> Recent(h, c) == [c] + h[..|h| - 1]
  {
    var h1 := [c] + h;
    assert Without(h, c) == h;
    if |h| == MaxHistory {
      assert h1[..|h1| - 1] == [c] + h[..|h| - 1];
    }
  }

  // The "#rrggbb" parser

  /** One hexadecimal digit, either case. */
  function HexDigit(ch: char): (d: Option<int>)
    ensures d.Some? ==> 0 <= d.value < 16
  {
    if '0' <= ch <= '9' then Some(ch as int - '0' as int)
    else if 'a' <= ch <= 'f' then Some(ch as int - 'a' as int + 10)
    else if 'A' <= ch <= 'F' then Some(ch as int - 'A' as int + 10)
    else None
  }

  /** parseInt of a two-digit hexadecimal string. */
  function ParseByte(hi: char, lo: char): (v: Option<int>)
    ensures v.Some? ==> IsChannel(v.value)
  {
    match (HexDigit(hi), HexDigit(lo))
    case (Some(a), Some(b)) => Some(16 * a + b)
    case _ => None
  }

  /** hexToRgb: an optional '#', then exactly six hexadecimal digits; anything else gives null. */
  function HexToRgb(hex: string): (c: Option<Rgb>)
    ensures c.Some? ==> ValidRgb(c.value)
    ensures c.Some? ==> |hex| == 6 || (|hex| == 7 && hex[0] == '#')
  {
    var digits := if |hex| == 7 && hex[0] == '#' then hex[1..] else hex;
    if |digits| != 6 then None
    else
      match (ParseByte(digits[0], digits[1]), ParseByte(digits[2], digits[3]), ParseByte(digits[4], digits[5]))
      case (Some(r), Some(g), Some(b)) => Some(Rgb(r, g, b))
      case _ => None
  }

  /** The strings hexToRgb's case-blind pattern matches: an optional '#', then three pairs of hexadecimal digits. */
  predicate WellFormedHex(hex: string)
  {
    || (|hex| == 6 && forall i :: 0 <= i < 6 ==> HexDigit(hex[i]).Some?)
    || (|hex| == 7 && hex[0] == '#' && forall i :: 1 <= i < 7 ==> HexDigit(hex[i]).Some?)
  }

  /**
   * hexToRgb accepts exactly the well-formed strings, and the channels are
   * the three digit pairs after the optional '#', each read as 16·hi + lo.
   */
  lemma HexToRgbExact(hex: string)
    ensures HexToRgb(hex).Some? <==> WellFormedHex(hex)
    ensures WellFormedHex(hex) ==>
              var k := |hex| - 6;
              HexToRgb(hex) == Some(Rgb(16 * HexDigit(hex[k]).value + HexDigit(hex[k + 1]).value,
                                        16 * HexDigit(hex[k + 2]).value + HexDigit(hex[k + 3]).value,
                                        16 * HexDigit(hex[k + 4]).value + HexDigit(hex[k + 5]).value))
  {
    if |hex| == 7 && hex[0] == '#' {
      var d := hex[1..];
      assert forall i :: 0 <= i < 6 ==> d[i] == hex[i + 1];
    }
  }

  /** A hexadecimal letter in lower case; every other character as it is. */
  function LowerHex(ch: char): (r: char)
    ensures HexDigit(r) == HexDigit(ch)
  {
    if 'A' <= ch <= 'F' then (ch as int + 32) as char else ch
  }

  /** The `i` flag: a colour and its spelling with lower-case hexadecimal letters parse alike. */
  lemma HexCaseInsensitive(hex: string)
    ensures HexToRgb(seq(|hex|, i requires 0 <= i < |hex| => LowerHex(hex[i]))) == HexToRgb(hex)
  {
    var low := seq(|hex|, i requires 0 <= i < |hex| => LowerHex(hex[i]));
    HexToRgbExact(hex);
    HexToRgbExact(low);
    assert |hex| == 7 ==> (low[0] == '#' <==> hex[0] == '#');
    assert WellFormedHex(low) <==> WellFormedHex(hex);
  }

  /** The lower-case digit for a value below 16. */
  function DigitChar(d: int): char
    requires 0 <= d < 16
  {
    if d < 10 then ('0' as int + d) as char else ('a' as int + d - 10) as char
  }

  /** A colour written as "#rrggbb" in lower case: the packing hslToHex ends with. */
  function RgbToHex(c: Rgb): (s: string)
    requires ValidRgb(c)
    ensures |s| == 7 && s[0] == '#'
    ensures forall i :: 1 <= i < 7 ==> HexDigit(s[i]).Some? && !('A' <= s[i] <= 'F')
  {
    ['#', DigitChar(c.r / 16), DigitChar(c.r % 16), DigitChar(c.g / 16), DigitChar(c.g % 16),
     DigitChar(c.b / 16), DigitChar(c.b % 16)]
  }

  lemma ByteRoundTrip(v: int)
    requires IsChannel(v)
    ensures ParseByte(DigitChar(v / 16), DigitChar(v % 16)) == Some(v)
  {
  }

  /** The parser reads back every colour written as "#rrggbb", with or without the '#'. */
  lemma {:induction false} HexRoundTrip(c: Rgb)
    requires ValidRgb(c)
    ensures HexToRgb(RgbToHex(c)) == Some(c)
    ensures HexToRgb(RgbToHex(c)[1..]) == Some(c)
  {
    var s := RgbToHex(c);
    ByteRoundTrip(c.r);
    ByteRoundTrip(c.g);
    ByteRoundTrip(c.b);
    assert s[1..][0] == s[1] && s[1..][1] == s[2];
    assert s[1..][2] == s[3] && s[1..][3] == s[4];
    assert s[1..][4] == s[5] && s[1..][5] == s[6];
  }

  // Hue and the colour-difference score

  function Max3(a: real, b: real, c: real): real { Max(a, Max(b, c)) }
  function Min3(a: real, b: real, c: real): real { Min(a, Min(b, c)) }

  /**
   * The hue part of rgbToHsl, in sixths of a turn before the division by 6:
   * 0 for a grey, otherwise from the channel that is the maximum, checked in
   * the order red, green, blue.
   */
  function HueSixths(r: real, g: real, b: real): real
  {
    var mx, mn := Max3(r, g, b), Min3(r, g, b);
    if mx == mn then 0.0
    else
      var d := mx - mn;
      if mx == r then (g - b) / d + (if g < b then 6.0 else 0.0)
      else if mx == g then (b - r) / d + 2.0
      else (r - g) / d + 4.0
  }

  /** A difference of two channels that both lie between min and max, over max - min, lies in [-1, 1]. */
  lemma RatioInUnit(a: real, d: real)
    requires d > 0.0 && -d <= a <= d
    ensures -1.0 <= a / d <= 1.0
  {
    var q := a / d;
    assert q * d == a;
    assert (1.0 - q) * d == d - a;
    assert (1.0 + q) * d == d + a;
  }

  /** A non-negative difference of channels between min and max, over max - min, lies in [0, 1]. */
  lemma RatioInHalfUnit(a: real, d: real)
    requires d > 0.0 && 0.0 <= a <= d
    ensures 0.0 <= a / d <= 1.0
  {
    RatioInUnit(a, d);
    var q := a / d;
    assert q * d == a;
  }

  lemma HueSixthsRange(r: real, g: real, b: real)
    ensures 0.0 <= HueSixths(r, g, b) <= 6.0
  {
    var mx, mn := Max3(r, g, b), Min3(r, g, b);
    if mx != mn {
      var d := mx - mn;
      if mx == r {
        if g < b {
          RatioInUnit(g - b, d);
        } else {
          RatioInHalfUnit(g - b, d);
        }
      } else if mx == g {
        RatioInUnit(b - r, d);
      } else {
        RatioInUnit(r - g, d);
      }
    }
  }

  /** The rounded hue in degrees that hexToHsl reports for a parsed colour. */
  function HueOf(c: Rgb): (h: int)
    ensures 0 <= h <= 360
  {
    var x := HueSixths(c.r as real / 255.0, c.g as real / 255.0, c.b as real / 255.0);
    HueSixthsRange(c.r as real / 255.0, c.g as real / 255.0, c.b as real / 255.0);
    JsRound(x / 6.0 * 360.0)
  }

  /** The hue difference folded around the colour wheel: the shorter way round. */
  function HueDiff(h1: int, h2: int): int
  {
    var d := if h1 >= h2 then h1 - h2 else h2 - h1;
    MinInt(d, 360 - d)
  }

  lemma HueDiffRange(h1: int, h2: int)
    requires 0 <= h1 <= 360 && 0 <= h2 <= 360
    ensures 0 <= HueDiff(h1, h2) <= 180
    ensures HueDiff(h1, h2) == HueDiff(h2, h1)
  {
  }

  datatype Harmony = Harmony(score: int, distance: real, hueDiff: int)

  /** Squared distance of two colours in RGB space. */
  function RgbDistSq(a: Rgb, b: Rgb): real
  {
    Sq((a.r - b.r) as real) + Sq((a.g - b.g) as real) + Sq((a.b - b.b) as real)
  }

  /** The score of two parsed colours. */
  function HarmonyOf(rgb1: Rgb, rgb2: Rgb, sqrt: real -> real): Harmony
  {
    var distance := sqrt(RgbDistSq(rgb1, rgb2));
    var hueDiff := HueDiff(HueOf(rgb1), HueOf(rgb2));
    var distanceScore := Min(100.0, distance / 4.41);
    var hueScore := Min(100.0, hueDiff as real / 3.6);
    Harmony(JsRound(distanceScore * 0.5 + hueScore * 0.5), distance, hueDiff)
  }

  /**
   * calculateColorHarmony: zero for an empty or unparsable colour; otherwise
   * half the RGB distance score (distance / 4.41, capped at 100) plus half
   * the hue score (folded hue difference / 3.6, capped at 100), rounded.
   */
  function ColorHarmony(color1: string, color2: string, sqrt: real -> real): Harmony
  {
    if color1 == "" || color2 == "" then Harmony(0, 0.0, 0)
    else
      match (HexToRgb(color1), HexToRgb(color2))
      case (Some(rgb1), Some(rgb2)) => HarmonyOf(rgb1, rgb2, sqrt)
      case _ => Harmony(0, 0.0, 0)
  }

  /** An empty or unparsable colour on either side scores 0 with distance 0 and hue difference 0. */
  lemma HarmonyNullPaths(color1: string, color2: string, sqrt: real -> real)
    requires color1 == "" || color2 == "" || HexToRgb(color1).None? || HexToRgb(color2).None?
    ensures ColorHarmony(color1, color2, sqrt) == Harmony(0, 0.0, 0)
  {
  }

  /** The score is a percentage and the hue difference at most half a turn. */
  lemma {:induction false} HarmonyBounds(color1: string, color2: string, sqrt: real -> real)
    requires IsSqrt(sqrt)
    ensures var h := ColorHarmony(color1, color2, sqrt);
            0 <= h.score <= 100 && 0 <= h.hueDiff <= 180 && h.distance >= 0.0
  {
    if color1 != "" && color2 != "" && HexToRgb(color1).Some? && HexToRgb(color2).Some? {
      var a, b := HexToRgb(color1).value, HexToRgb(color2).value;
      HueDiffRange(HueOf(a), HueOf(b));
      var distance := sqrt(RgbDistSq(a, b));
      assert distance >= 0.0;
      var distanceScore := Min(100.0, distance / 4.41);
      var hueScore := Min(100.0, HueDiff(HueOf(a), HueOf(b)) as real / 3.6);
      assert 0.0 <= distanceScore <= 100.0 && 0.0 <= hueScore <= 100.0;
      assert 0.0 <= distanceScore * 0.5 + hueScore * 0.5 <= 100.0;
    }
  }

  /** The score does not depend on which player is first. */
  lemma {:induction false} HarmonySymmetric(color1: string, color2: string, sqrt: real -> real)
    ensures ColorHarmony(color1, color2, sqrt) == ColorHarmony(color2, color1, sqrt)
  {
    if color1 != "" && color2 != "" && HexToRgb(color1).Some? && HexToRgb(color2).Some? {
      HarmonyOfSymmetric(HexToRgb(color1).value, HexToRgb(color2).value, sqrt);
    }
  }

  lemma HarmonyOfSymmetric(a: Rgb, b: Rgb, sqrt: real -> real)
    ensures HarmonyOf(a, b, sqrt) == HarmonyOf(b, a, sqrt)
  {
    RgbDistSqSymmetric(a, b);
  }

  lemma RgbDistSqSymmetric(a: Rgb, b: Rgb)
    ensures RgbDistSq(a, b) == RgbDistSq(b, a)
  {
    assert Sq((a.r - b.r) as real) == Sq((b.r - a.r) as real);
    assert Sq((a.g - b.g) as real) == Sq((b.g - a.g) as real);
    assert Sq((a.b - b.b) as real) == Sq((b.b - a.b) as real);
  }

  /** A colour scores 0 against itself: nothing tells the two players apart. */
  lemma {:induction false} HarmonySelf(color: string, sqrt: real -> real)
    requires IsSqrt(sqrt)
    ensures ColorHarmony(color, color, sqrt).score == 0
  {
    if color != "" && HexToRgb(color).Some? {
      var a := HexToRgb(color).value;
      assert RgbDistSq(a, a) == 0.0 * 0.0;
      SqrtOfSquare(sqrt, 0.0);
      assert HueDiff(HueOf(a), HueOf(a)) == 0;
    }
  }

  // The manager

  /** The fallback getPlayerColor uses for a player without a colour. */
  function DefaultColor(playerId: int): string
  {
    if playerId == 1 then "#E6194B" else "#4363D8"
  }

  class ColorManager {
    /** selectedColors, keyed by player id ('player1' is 1). */
    var selectedColors: map<int, string>
    /** colorHistory, keyed by player id. */
    var colorHistory: map<int, seq<string>>

    /** Every history is a duplicate-free list of at most six colours. */
    ghost predicate Valid()
      reads this
    {
      forall id :: id in colorHistory ==> NoDup(colorHistory[id]) && |colorHistory[id]| <= MaxHistory
    }

    constructor ()
      ensures Valid()
      ensures selectedColors == map[1 := Config.Player1Color, 2 := Config.Player2Color]
      ensures colorHistory == map[1 := [], 2 := []]
    {
      selectedColors := map[1 := Config.Player1Color, 2 := Config.Player2Color];
      colorHistory := map[1 := [], 2 := []];
    }

    /**
     * addToColorHistory: only players 1 and 2 have a history (any other id
     * makes the source fail on an undefined list).
     */
    method AddToColorHistory(playerId: int, color: string)
      requires Valid() && playerId in colorHistory
      modifies this`colorHistory
      ensures Valid()
      ensures colorHistory == old(colorHistory)[playerId := Recent(old(colorHistory)[playerId], color)]
    {
      RecentIsMru(colorHistory[playerId], color);
      colorHistory := colorHistory[playerId := Recent(colorHistory[playerId], color)];
    }

    /** getPlayerColor: the selected colour, or the fallback when it is missing or empty. */
    function GetPlayerColor(playerId: int): (c: string)
      reads this
      ensures c != ""
      ensures playerId in selectedColors && selectedColors[playerId] != "" ==> c == selectedColors[playerId]
      ensures !(playerId in selectedColors && selectedColors[playerId] != "") ==> c == DefaultColor(playerId)
    {
      if playerId in selectedColors && selectedColors[playerId] != "" then selectedColors[playerId]
      else DefaultColor(playerId)
    }

    /** setPlayerColor (also the state change of selectColor): afterwards getPlayerColor returns it unless it is empty. */
    method SetPlayerColor(playerId: int, color: string)
      modifies this`selectedColors
      ensures selectedColors == old(selectedColors)[playerId := color]
      ensures GetPlayerColor(playerId) == (if color != "" then color else DefaultColor(playerId))
      ensures forall id :: id != playerId ==> GetPlayerColor(id) == old(GetPlayerColor(id))
    {
      selectedColors := selectedColors[playerId := color];
    }
  }
}

=== FILE: common.dfy ===
/**
 * Shared vocabulary of the game model: optional values, the engine's state and
 * mode strings as datatypes, points, the JavaScript arithmetic the game relies
 * on (truncating remainder, ToInt32, Math.round), and the two inputs that stand
 * for browser services: a square-root oracle and a stream of Math.random draws.
 */
module Common {

  datatype Option<T> = None | Some(value: T)

  /** JavaScript truthiness of an optional number: null and 0 are falsy. */
  predicate Truthy(o: Option<real>)
  {
    o.Some? && o.value != 0.0
  }

  /** The engine's `gameState` strings. */
  datatype GameState = Menu | Countdown | Playing | Paused | GameOver

  /** The engine's `gameMode` strings ('explore', 'fight', ...). */
  datatype GameMode = Explore | Fight | Infinite | Survival | Capture | DayNight

  /** The difficulty names used as keys of the difficulty tables. */
  datatype Difficulty = Slow | Medium | Fast | Ultra

  datatype Point = Point(x: real, y: real)

  /** An axis-aligned rectangle with its top-left corner at (x, y). */
  datatype Rect = Rect(x: real, y: real, width: real, height: real)

  /** The product of two non-negative reals is non-negative. */
  lemma NonNegativeProduct(a: real, b: real)
    ensures a >= 0.0 && b >= 0.0 ==> a * b >= 0.0
  {
  }

  function Sq(a: real): (r: real)
    ensures r >= 0.0
  {
    a * a
  }

  /** Squared Euclidean distance between (x1, y1) and (x2, y2). */
  function DistSq(x1: real, y1: real, x2: real, y2: real): (r: real)
    ensures r >= 0.0
  {
    Sq(x1 - x2) + Sq(y1 - y2)
  }

  /** Array.prototype.reverse, as a value. */
  function Reverse<T>(s: seq<T>): (r: seq<T>)
    ensures |r| == |s|
    ensures forall i :: 0 <= i < |s| ==> r[i] == s[|s| - 1 - i]
  {
    if s == [] then [] else Reverse(s[1..]) + [s[0]]
  }

  function Min(a: real, b: real): real { if a <= b then a else b }
  function Max(a: real, b: real): real { if a >= b then a else b }

  function Abs(a: real): (r: real)
    ensures r >= 0.0 && (r == a || r == -a)
  {
    if a >= 0.0 then a else -a
  }

  /**
   * `Math.max(lo, Math.min(hi, v))`, the clamp idiom used throughout the game.
   * When the range is empty (lo > hi) the lower bound wins.
   */
  function Clamp(v: real, lo: real, hi: real): (r: real)
    ensures lo <= r
    ensures lo <= hi ==> r <= hi
    ensures lo <= v <= hi ==> r == v
    ensures v < lo ==> r == lo
    ensures lo <= hi && v > hi ==> r == hi
  {
    Max(lo, Min(hi, v))
  }

  function MinInt(a: int, b: int): int { if a <= b then a else b }
  function MaxInt(a: int, b: int): int { if a >= b then a else b }

  /**
   * A function `sqrt` behaves as Math.sqrt on non-negative arguments: it returns
   * the non-negative square root. The model receives Math.sqrt as such a
   * function instead of postulating one.
   */
  ghost predicate IsSqrt(sqrt: real -> real)
  {
    forall v: real :: 0.0 <= v ==> 0.0 <= sqrt(v) && sqrt(v) * sqrt(v) == v
  }

  /** Non-negative square roots are unique. */
  lemma SquareInjective(a: real, b: real)
    requires 0.0 <= a && 0.0 <= b && a * a == b * b
    ensures a == b
  {
    SquareMonotone(a, b);
    SquareMonotone(b, a);
  }

  /** On non-negative numbers, squaring preserves and reflects the order. */
  lemma SquareMonotone(s: real, t: real)
    requires 0.0 <= s && 0.0 <= t
    ensures s < t <==> s * s < t * t
    ensures s <= t <==> s * s <= t * t
  {
    if s < t {
      var ss, st, tt := s * s, s * t, t * t;
      assert ss <= st by { assert st - ss == s * (t - s); }
      assert st < tt by { assert tt - st == t * (t - s); }
    } else if t < s {
      var ss, st, tt := s * s, s * t, t * t;
      assert tt <= st by { assert st - tt == t * (s - t); }
      assert st < ss by { assert ss - st == s * (s - t); }
    }
  }

  // Proof plumbing: the next two lemmas rewrite real arithmetic into the
  // shape the solver needs in the trail proofs; they state no fact about the game.

  /** Squaring distributes over a product. */
  lemma SqOfProduct(u: real, d: real)
    ensures Sq(u * d) == Sq(u) * Sq(d)
  {
  }

  /** If p = a*dd and q = b*dd add up to dd > 0, then a and b add up to one. */
  lemma CancelPositive(a: real, b: real, dd: real, p: real, q: real)
    requires p == a * dd && q == b * dd && p + q == dd && dd > 0.0
    ensures a + b == 1.0
  {
    assert (a + b - 1.0) * dd == 0.0;
  }

  /** Only zero squares to zero. */
  lemma SquareZero(a: real)
    requires a * a == 0.0
    ensures a == 0.0
  {
    if a > 0.0 {
      SquareMonotone(0.0, a);
    } else if a < 0.0 {
      SquareMonotone(0.0, -a);
      assert (-a) * (-a) == a * a;
    }
  }

  lemma {:induction false} SqrtOfSquare(sqrt: real -> real, a: real)
    requires IsSqrt(sqrt) && 0.0 <= a
    ensures sqrt(a * a) == a
  {
    assert 0.0 <= a * a;
    SquareInjective(sqrt(a * a), a);
  }

  /**
   * Comparing a distance with a non-negative threshold is the same as comparing
   * the squared distance with the squared threshold; this is why the model
   * tests squared distances where the game compares Math.sqrt(...) with a
   * radius.
   */
  lemma {:induction false} SqrtBelowIff(sqrt: real -> real, d: real, t: real)
    requires IsSqrt(sqrt) && 0.0 <= d && 0.0 <= t
    ensures sqrt(d) < t <==> d < t * t
    ensures sqrt(d) <= t <==> d <= t * t
  {
    var s := sqrt(d);
    assert 0.0 <= s && s * s == d;
    SquareMonotone(s, t);
  }

  /** Math.sqrt of a non-negative number is positive exactly when the number is. */
  lemma {:induction false} SqrtPositive(sqrt: real -> real, d: real)
    requires IsSqrt(sqrt) && 0.0 <= d
    ensures sqrt(d) > 0.0 <==> d > 0.0
  {
    var r := sqrt(d);
    assert 0.0 <= r && r * r == d;
    SquareMonotone(0.0, r);
  }

  /**
   * `Math.sqrt(dsq) < t` without the root: a square root is never negative, so
   * the test needs a positive t and a squared distance below t squared.
   */
  predicate Closer(dsq: real, t: real)
  {
    0.0 < t && dsq < t * t
  }

  lemma {:induction false} SqrtCloser(sqrt: real -> real, dsq: real, t: real)
    requires IsSqrt(sqrt) && 0.0 <= dsq
    ensures sqrt(dsq) < t <==> Closer(dsq, t)
  {
    if t > 0.0 {
      SqrtBelowIff(sqrt, dsq, t);
    } else {
      assert 0.0 <= sqrt(dsq);
    }
  }

  /** A circle by centre and radius (a flag as the item manager sees it: position and size). */
  datatype Circle = Circle(x: real, y: real, r: real)

  /** JavaScript `a % b` on integers: the result takes the sign of the dividend. */
  function JsRem(a: int, b: int): (r: int)
    requires b > 0
    ensures a >= 0 ==> 0 <= r < b && r == a % b
    ensures a < 0 ==> -b < r <= 0
  {
    if a >= 0 then a % b else -((-a) % b)
  }

  /** Truncation toward zero, as in the JavaScript `%` on numbers. */
  function Trunc(r: real): (t: int)
    ensures r >= 0.0 ==> t == r.Floor
    ensures r < 0.0 ==> t == -((-r).Floor)
  {
    if r >= 0.0 then r.Floor else -((-r).Floor)
  }

  /** JavaScript `a % b` on numbers (fmod): a - b * trunc(a / b). */
  function JsFmod(a: real, b: real): real
    requires b != 0.0
  {
    a - b * (Trunc(a / b) as real)
  }

  /** JavaScript `Math.round`: floor(x + 0.5). */
  function JsRound(v: real): (r: int)
    ensures v - 0.5 < r as real <= v + 0.5
  {
    (v + 0.5).Floor
  }

  /** JavaScript `Math.ceil`. */
  function JsCeil(v: real): (r: int)
    ensures v <= r as real < v + 1.0
  {
    if v.Floor as real == v then v.Floor else v.Floor + 1
  }

  const TwoTo32: int := 0x1_0000_0000
  const TwoTo31: int := 0x8000_0000

  /** JavaScript ToInt32: wrap an integer into the signed 32-bit range. */
  function Int32(v: int): (r: int)
    ensures -TwoTo31 <= r < TwoTo31
    ensures (v - r) % TwoTo32 == 0
    ensures -TwoTo31 <= v < TwoTo31 ==> r == v
  {
    var m := v % TwoTo32;
    if m >= TwoTo31 then m - TwoTo32 else m
  }

  /**
   * The stream of values Math.random() returns, supplied from outside: `draws`
   * lists them in order and `next` is the index of the next one to hand out.
   */
  class RandomSource {
    const draws: nat -> real
    var next: nat

    ghost predicate Valid()
    {
      forall i: nat :: 0.0 <= draws(i) < 1.0
    }

    constructor (draws: nat -> real)
      requires forall i: nat :: 0.0 <= draws(i) < 1.0
      ensures Valid() && this.draws == draws && next == 0
    {
      this.draws := draws;
      next := 0;
    }

    /** One call of Math.random(). */
    method Next() returns (r: real)
      requires Valid()
      modifies this
      ensures Valid()
      ensures 0.0 <= r < 1.0
      ensures r == draws(old(next)) && next == old(next) + 1
    {
      r := draws(next);
      next := next + 1;
    }
  }
}

=== FILE: config.dfy ===
/**
 * The static tables of the game's configuration class (js/Config.js),
 * transcribed as constants and total functions over the key datatypes.
 */
module Config {
  import opened Common

  /** One row of DIFFICULTY_LEVELS: player speed, game time limit (ms), trail length. */
  datatype DifficultyRow = DifficultyRow(speed: real, maxTime: real, length: int)

  function DifficultyLevels(d: Difficulty): DifficultyRow
  {
    match d
    case Slow => DifficultyRow(2.5, 120000.0, 400)
    case Medium => DifficultyRow(3.5, 100000.0, 350)
    case Fast => DifficultyRow(4.0, 80000.0, 300)
    case Ultra => DifficultyRow(6.0, 80000.0, 250)
  }

  /** Position of a difficulty from slow to ultra. */
  function Rank(d: Difficulty): nat
  {
    match d
    case Slow => 0
    case Medium => 1
    case Fast => 2
    case Ultra => 3
  }

  /** From slow to ultra the speed rises strictly, the trail shortens strictly and the time limit never rises. */
  lemma DifficultyMonotone(a: Difficulty, b: Difficulty)
    requires Rank(a) < Rank(b)
    ensures DifficultyLevels(a).speed < DifficultyLevels(b).speed
    ensures DifficultyLevels(a).length > DifficultyLevels(b).length
    ensures DifficultyLevels(a).maxTime >= DifficultyLevels(b).maxTime
  {
  }

  // PLAYER_DEFAULTS
  const PlayerSize: real := 8.0
  const Locktime: real := 5000.0
  const AddLocktime: real := 2000.0
  const HomeTimeLimit: real := 15000.0
  const StandardDistance: real := 2.0
  const PushDistance: real := 6.0
  const AISpeed: real := 1.5
  const DeathShieldTime: real := 3000.0
  const DetectionRadius: real := 150.0

  /** PLAYER_DEFAULTS.lives */
  function DefaultLives(m: GameMode): int
  {
    match m
    case Explore => 1
    case Fight => 3
    case Infinite => 2
    case Survival => 3
    case Capture => 1
    case DayNight => 3
  }

  /** GAME_MODES[mode].lives */
  function ModeLives(m: GameMode): (lives: int)
    ensures lives >= 1
  {
    match m
    case Explore => 1
    case Fight => 3
    case Infinite => 2
    case Survival => 3
    case Capture => 1
    case DayNight => 3
  }

  /** The two lives tables agree on every mode. */
  lemma ModeLivesMatchDefaults(m: GameMode)
    ensures ModeLives(m) == DefaultLives(m)
  {
  }

  /** One row of AI_DEFAULTS: speed multiplier, initial count, enemy cap, spawn interval (ms). */
  datatype AiRow = AiRow(multiplier: real, count: int, maxEnemies: int, interval: real)

  function AiDefaults(d: Difficulty): AiRow
  {
    match d
    case Slow => AiRow(0.9, 2, 6, 30000.0)
    case Medium => AiRow(1.2, 3, 7, 20000.0)
    case Fast => AiRow(1.4, 4, 8, 15000.0)
    case Ultra => AiRow(2.0, 5, 10, 10000.0)
  }

  /** The initial enemy count never reaches the cap, so the initial spawns are never refused. */
  lemma AiCountBelowCap(d: Difficulty)
    ensures 0 < AiDefaults(d).count < AiDefaults(d).maxEnemies
    ensures AiDefaults(d).interval > 0.0
  {
  }

  // FLAG_DEFAULTS
  const FlagSize: real := 25.0
  const FlagDistanceFromPlayer: real := 300.0
  const FlagDistanceBetweenFlags: real := 100.0
  const FlagColor: string := "#FFD700"

  // UI_STYLES
  const Player1Color: string := "#E6194B"
  const Player2Color: string := "#0047AB"
  const CollisionEffectDuration: real := 200.0
  const HomeRadius: real := 20.0

  // CANVAS
  const CanvasWidth: real := 1200.0
  const CanvasHeight: real := 600.0
  const P1StartFractionX: real := 0.15
  const P1StartFractionY: real := 0.5
  const P2StartFractionX: real := 0.85
  const P2StartFractionY: real := 0.5

  // PHYSICS_SETTINGS
  const PhysicsFps: nat := 60
  const MaxFrameSkip: nat := 5

  // ITEM_MANAGER_SETTINGS
  const ItemSpawnInterval: real := 2000.0
  const ObstacleSpawnInterval: real := 5000.0
  const InitialBarrierDuration: real := 12000.0
  const ItemTimeout: real := 10000.0
  const MaxObstacles: nat := 30
  const InitialBarrierX: real := 0.35
  const InitialBarrierY: real := 0.65
  const PowerUpRadius: real := 15.0
  const SpeedDuration: real := 5000.0
  const SpeedWeight: real := 40.0
  const LengthDuration: real := 8000.0
  const LengthAddLength: int := 100
  const LengthWeight: real := 30.0
  const ShieldDuration: real := 10000.0
  const ShieldWeight: real := 30.0
  const BarrierWidth: real := 40.0
  const BarrierHeight: real := 40.0

  /** The three power-up weights add up to 100, so `Math.random() * total` ranges over [0, 100). */
  lemma PowerUpWeightsSum()
    ensures SpeedWeight + LengthWeight + ShieldWeight == 100.0
    ensures SpeedWeight > 0.0 && LengthWeight > 0.0 && ShieldWeight > 0.0
  {
  }
}

=== FILE: daynight.dfy ===
/**
 * The day/night clock of js/modes/DayNight.js. After ten seconds of daylight
 * the clock runs in thirty-second cycles that alternate: an even cycle is a
 * night (five seconds of fading to dark, twenty of darkness, five of fading
 * back), an odd cycle is a day. The getters take the manager's `currentTime`
 * as their argument; the stars and moons only decorate the rendering and are
 * not modelled.
 */
module DayNight {
  import opened Common

  const InitialTime: real := 10000.0
  const CycleTime: real := 30000.0
  const FadeTime: real := 5000.0
  const DarkTime: real := 20000.0
  /** The darkest the night overlay gets. */
  const MaxOpacity: real := 0.95

  /** The phase names getCurrentPhase returns ('day', 'fadeToNight', 'night', 'fadeToDay'). */
  datatype Phase = Day | FadeToNight | Night | FadeToDay

  /** Time since the end of the initial daylight. */
  function CyclingTime(t: real): real
  {
    t - InitialTime
  }

  /** Math.floor(cyclingTime / cycleTime): which cycle the clock is in (negative before the first). */
  function CyclingPosition(t: real): int
  {
    (CyclingTime(t) / CycleTime).Floor
  }

  /** cyclingTime % cycleTime, with JavaScript's truncating remainder. */
  function CyclingDarkPosition(t: real): real
  {
    JsFmod(CyclingTime(t), CycleTime)
  }

  /** Once the cycles have begun, the position within the cycle is the time since the cycle began. */
  lemma {:induction false} DarkPositionInCycle(t: real)
    requires t >= InitialTime
    ensures CyclingPosition(t) >= 0
    ensures CyclingDarkPosition(t) == CyclingTime(t) - CycleTime * (CyclingPosition(t) as real)
    ensures 0.0 <= CyclingDarkPosition(t) < CycleTime
  {
    var c := CyclingTime(t);
    var q := c / CycleTime;
    assert q >= 0.0;
    assert Trunc(q) == q.Floor;
    var f := q.Floor as real;
    assert f <= q < f + 1.0;
    assert c == CycleTime * q;
    assert CycleTime * f <= c < CycleTime * f + CycleTime;
  }

  /** getCurrentPhase */
  function PhaseAt(t: real): (p: Phase)
    ensures p != Day ==> t >= InitialTime && JsRem(CyclingPosition(t), 2) != 1
  {
    if JsRem(CyclingPosition(t), 2) == 1 || CyclingTime(t) < 0.0 then Day
    else if CyclingDarkPosition(t) < FadeTime then FadeToNight
    else if CyclingDarkPosition(t) < FadeTime + DarkTime then Night
    else FadeToDay
  }

  /** The first ten seconds are daylight; after that the cycles alternate, odd ones being days. */
  lemma {:induction false} PhaseSchedule(t: real)
    ensures t < InitialTime ==> PhaseAt(t) == Day
    ensures t >= InitialTime ==> (PhaseAt(t) == Day <==> CyclingPosition(t) % 2 == 1)
    ensures t >= InitialTime && CyclingPosition(t) % 2 == 0 ==>
              var d := CyclingTime(t) - CycleTime * (CyclingPosition(t) as real);
              && (PhaseAt(t) == FadeToNight <==> d < FadeTime)
              && (PhaseAt(t) == Night <==> FadeTime <= d < FadeTime + DarkTime)
              && (PhaseAt(t) == FadeToDay <==> FadeTime + DarkTime <= d)
  {
    if t >= InitialTime {
      DarkPositionInCycle(t);
    }
  }

  /** Day and night repeat every two cycles. */
  lemma {:induction false} PhasePeriodic(t: real)
    requires t >= InitialTime
    ensures PhaseAt(t + 2.0 * CycleTime) == PhaseAt(t)
  {
    var t2 := t + 2.0 * CycleTime;
    var q := CyclingTime(t) / CycleTime;
    assert CyclingTime(t2) / CycleTime == q + 2.0;
    assert (q + 2.0).Floor == q.Floor + 2;
    assert CyclingPosition(t2) == CyclingPosition(t) + 2;
    DarkPositionInCycle(t);
    DarkPositionInCycle(t2);
    assert CyclingDarkPosition(t2) == CyclingDarkPosition(t);
  }

  /** getFadeProgress: the fraction of the fade that has passed; undefined outside the two fades. */
  function FadeProgress(t: real, phase: Phase): Option<real>
  {
    if phase == FadeToNight then Some(CyclingDarkPosition(t) / FadeTime)
    else if phase == FadeToDay then Some((CyclingDarkPosition(t) - FadeTime - DarkTime) / FadeTime)
    else None
  }

  /** During either fade the progress lies in [0, 1). */
  lemma {:induction false} FadeProgressInRange(t: real)
    requires PhaseAt(t) == FadeToNight || PhaseAt(t) == FadeToDay
    ensures var f := FadeProgress(t, PhaseAt(t));
            f.Some? && 0.0 <= f.value < 1.0
  {
    DarkPositionInCycle(t);
  }

  /** The overlay opacity update sets for the phase at time t. */
  function OpacityAt(t: real): real
  {
    match PhaseAt(t)
    case Day => 0.0
    case FadeToNight => Min(MaxOpacity, FadeProgress(t, FadeToNight).value * MaxOpacity)
    case FadeToDay => Max(0.0, MaxOpacity - FadeProgress(t, FadeToDay).value * MaxOpacity)
    case Night => MaxOpacity
  }

  /**
   * The overlay is never negative and never darker than 0.95: clear by day,
   * darkest at night, below the maximum while fading to night and above zero
   * while fading to day.
   */
  lemma {:induction false} OpacityBounds(t: real)
    ensures 0.0 <= OpacityAt(t) <= MaxOpacity
    ensures PhaseAt(t) == Day ==> OpacityAt(t) == 0.0
    ensures PhaseAt(t) == FadeToNight ==> OpacityAt(t) < MaxOpacity
    ensures PhaseAt(t) == FadeToDay ==> 0.0 < OpacityAt(t)
    ensures PhaseAt(t) == Night ==> OpacityAt(t) == MaxOpacity
  {
    var p := PhaseAt(t);
    if p == FadeToNight || p == FadeToDay {
      FadeProgressInRange(t);
      var f := FadeProgress(t, p).value;
      assert 0.0 <= f * MaxOpacity < MaxOpacity;
      if p == FadeToNight {
        assert OpacityAt(t) == f * MaxOpacity;
      } else {
        assert OpacityAt(t) == MaxOpacity - f * MaxOpacity;
      }
    }
  }

  /** getDayTimeRemaining: whole seconds of daylight left, -1 at night. */
  function DayTimeRemaining(t: real): int
  {
    if CyclingTime(t) < 0.0 then ((InitialTime - t) / 1000.0).Floor
    else if JsRem(CyclingPosition(t), 2) == 1 then
      (((CyclingPosition(t) + 1) as real * CycleTime - CyclingTime(t)) / 1000.0).Floor
    else -1
  }

  /** getNightTimeRemaining: whole seconds of the night left, -1 by day. */
  function NightTimeRemaining(t: real): int
  {
    if JsRem(CyclingPosition(t), 2) == 0 then
      (((CyclingPosition(t) + 1) as real * CycleTime - CyclingTime(t)) / 1000.0).Floor
    else -1
  }

  /**
   * On a clock that started at zero, exactly one of the two getters gives a
   * real count, the one for the current phase, and it never exceeds one
   * cycle (30 seconds).
   */
  lemma {:induction false} RemainingMatchesPhase(t: real)
    requires t >= 0.0
    ensures 0 <= DayTimeRemaining(t) <==> PhaseAt(t) == Day
    ensures 0 <= NightTimeRemaining(t) <==> PhaseAt(t) != Day
    ensures DayTimeRemaining(t) <= 30 && NightTimeRemaining(t) <= 30
    ensures DayTimeRemaining(t) == -1 || NightTimeRemaining(t) == -1
  {
    if t < InitialTime {
      var q := CyclingTime(t) / CycleTime;
      assert -1.0 <= q < 0.0;
      assert CyclingPosition(t) == -1;
      assert JsRem(-1, 2) == -1;
      var r := (InitialTime - t) / 1000.0;
      assert 0.0 < r <= 10.0;
    } else {
      DarkPositionInCycle(t);
      var pos := CyclingPosition(t);
      assert JsRem(pos, 2) == pos % 2;
      var left := (pos + 1) as real * CycleTime - CyclingTime(t);
      assert 0.0 < left <= CycleTime;
      assert 0.0 < left / 1000.0 <= 30.0;
    }
  }

  class DayNightManager {
    const gameWidth: real
    const gameHeight: real
    var currentTime: real
    var isNight: bool
    var nightOpacity: real
    /** The phase last computed by update (the source stores it in a field named gameMode). */
    var gameMode: Phase

    constructor (gameWidth: real, gameHeight: real)
      ensures this.gameWidth == gameWidth && this.gameHeight == gameHeight
      ensures currentTime == 0.0 && !isNight && nightOpacity == 0.0 && gameMode == Day
    {
      this.gameWidth := gameWidth;
      this.gameHeight := gameHeight;
      currentTime := 0.0;
      isNight := false;
      nightOpacity := 0.0;
      gameMode := Day;
    }

    /** init and reset (identical in the source): the clock back to zero, daylight. */
    method Reset()
      modifies this`currentTime, this`isNight, this`nightOpacity
      ensures currentTime == 0.0 && !isNight && nightOpacity == 0.0
      ensures PhaseAt(currentTime) == Day && OpacityAt(currentTime) == nightOpacity
    {
      currentTime := 0.0;
      isNight := false;
      nightOpacity := 0.0;
    }

    /**
     * update: nothing while the game is paused; otherwise the clock advances,
     * the phase is recomputed and the overlay opacity follows it. isNight is
     * only ever cleared.
     */
    method Update(deltaTime: real, gameState: GameState)
      modifies this`currentTime, this`isNight, this`nightOpacity, this`gameMode
      ensures gameState == Paused ==> unchanged(this)
      ensures gameState != Paused ==>
                && currentTime == old(currentTime) + deltaTime
                && gameMode == PhaseAt(currentTime)
                && nightOpacity == OpacityAt(currentTime)
                && 0.0 <= nightOpacity <= MaxOpacity
                && isNight == (old(isNight) && gameMode != Day)
    {
      if gameState == Paused {
        return;
      }
      currentTime := currentTime + deltaTime;
      gameMode := PhaseAt(currentTime);
      OpacityBounds(currentTime);
      if gameMode != Day {
        if gameMode == FadeToNight {
          FadeProgressInRange(currentTime);
          var fadeProgress := FadeProgress(currentTime, FadeToNight).value;
          nightOpacity := Min(MaxOpacity, fadeProgress * MaxOpacity);
        } else if gameMode == FadeToDay {
          FadeProgressInRange(currentTime);
          var fadeProgress := FadeProgress(currentTime, FadeToDay).value;
          nightOpacity := Max(0.0, MaxOpacity - fadeProgress * MaxOpacity);
        } else {
          nightOpacity := MaxOpacity;
        }
      } else {
        isNight := false;
        nightOpacity := 0.0;
      }
    }
  }
}

=== FILE: engine.dfy ===
/**
 * The game engine: the fixed-timestep scheduler and game-state machine of
 * js/core/GameEngine.js, and of its earlier copy GameEngine.js, which runs the
 * same machine at 50 Hz with inline tables. One class models both copies;
 * the `Variant` selects the step size and the tables.
 *
 * The browser clock is split into two parameters: `frameNow` stands for
 * performance.now (the frame clock of gameLoop) and `now` for Date.now (the
 * wall clock the subsystems read). Math.sqrt, number-to-string conversion,
 * the canvas coverage test and the enemies' headings come in an `Env`, the
 * random draws in a RandomSource. Rendering, the DOM and requestAnimationFrame
 * are not part of this model.
 */
module Engine {
  import opened Common
  import Config
  import opened Shields
  import opened Players
  import opened Territories
  import opened Items
  import opened Flags
  import opened Survival

  // ---------------------------------------------------------------------------
  // The two copies and their tables
  // ---------------------------------------------------------------------------

  /** Current: js/core/GameEngine.js. Legacy: the earlier GameEngine.js. */
  datatype Variant = Current | Legacy

  /** PHYSICS_FPS: the configuration's 60 in the current engine, a literal 50 in the earlier one. */
  function PhysicsFps(v: Variant): (fps: nat)
    ensures fps > 0
  {
    if v == Current then Config.PhysicsFps else 50
  }

  /** PHYSICS_TIMESTEP = 1000 / PHYSICS_FPS milliseconds. */
  function Timestep(v: Variant): (ts: real)
    ensures ts > 0.0
    ensures v == Legacy ==> ts == 20.0
    ensures v == Current ==> 16.0 < ts < 17.0
  {
    1000.0 / PhysicsFps(v) as real
  }

  /** MAX_FRAME_SKIP: 5 in both copies (from the configuration in the current one). */
  const MaxFrameSkip: nat := Config.MaxFrameSkip

  /** The longest frame gameLoop accepts, in milliseconds. */
  const MaxFrameTime: real := 250.0

  /** The countdown start sets, in seconds. */
  const CountdownSeconds: real := 3.0

  /** The territory share that ends an infinite-mode game. */
  const InfiniteWinScore: real := 60.0

  /** The period of fixedUpdate's frame counter: 2 * PHYSICS_FPS in the current engine, 100 in the earlier one. */
  function TimerPeriod(v: Variant): (n: nat)
    ensures n > 0
  {
    if v == Current then 2 * PhysicsFps(v) else 100
  }

  /** fixedUpdate's counter: one up, and back to 0 when that reaches a multiple of the period. */
  function NextTimer(v: Variant, t: int): (r: int)
    ensures 0 <= t < TimerPeriod(v) ==> 0 <= r < TimerPeriod(v) && (r == 0 <==> t == TimerPeriod(v) - 1)
  {
    if JsRem(t + 1, TimerPeriod(v)) == 0 then 0 else t + 1
  }

  /**
   * The lives setgamemode hands out: GAME_MODES of the configuration in the
   * current engine, the inline table in the earlier one, which has no
   * day/night entry (setgamemode would throw there).
   */
  function ModeLives(v: Variant, m: GameMode): Option<int>
  {
    if v == Current then Some(Config.ModeLives(m))
    else
      match m
      case Explore => Some(1)
      case Fight => Some(3)
      case Infinite => Some(2)
      case Survival => Some(3)
      case Capture => Some(1)
      case DayNight => None
  }

  /** The earlier inline lives table agrees with the configuration on every mode it has. */
  lemma LivesTablesAgree(m: GameMode)
    ensures ModeLives(Legacy, m).Some? <==> m != DayNight
    ensures m != DayNight ==> ModeLives(Legacy, m) == ModeLives(Current, m)
    ensures ModeLives(Current, m).Some? && ModeLives(Current, m).value >= 1
  {
  }

  /** The difficulty row setDifficulty reads: the configuration's, or the earlier inline table. */
  function DifficultyRow(v: Variant, d: Difficulty): Config.DifficultyRow
  {
    if v == Current then Config.DifficultyLevels(d)
    else
      match d
      case Slow => Config.DifficultyRow(2.5, 120000.0, 400)
      case Medium => Config.DifficultyRow(3.5, 100000.0, 350)
      case Fast => Config.DifficultyRow(4.0, 80000.0, 300)
      case Ultra => Config.DifficultyRow(6.0, 80000.0, 250)
  }

  /** The earlier inline difficulty table is the configuration's table. */
  lemma DifficultyTablesAgree(d: Difficulty)
    ensures DifficultyRow(Legacy, d) == DifficultyRow(Current, d)
  {
  }

  // ---------------------------------------------------------------------------
  // The scheduler
  // ---------------------------------------------------------------------------

  /**
   * How many physics steps one gameLoop call runs from accumulator acc: one
   * step per whole timestep, at most `budget` of them.
   */
  function StepCount(acc: real, ts: real, budget: nat): (n: nat)
    requires ts > 0.0
    ensures n <= budget
    decreases budget
  {
    if acc >= ts && budget > 0 then 1 + StepCount(acc - ts, ts, budget - 1) else 0
  }

  /**
   * The accumulator left after the steps: when the budget was not used up it
   * is below one timestep, and it never drops below zero from a non-negative
   * start. A full budget is used exactly when the accumulator held that many
   * timesteps.
   */
  lemma {:induction false} StepCountRemainder(acc: real, ts: real, budget: nat)
    requires ts > 0.0
    ensures var n := StepCount(acc, ts, budget);
            && (n < budget ==> acc - n as real * ts < ts)
            && (acc >= 0.0 ==> acc - n as real * ts >= 0.0)
            && (n == budget <==> budget == 0 || acc >= budget as real * ts)
    decreases budget
  {
    if budget == 0 {
      return;
    }
    SplitProduct(budget, ts);
    var n := StepCount(acc, ts, budget);
    if acc >= ts {
      var m := StepCount(acc - ts, ts, budget - 1);
      StepCountRemainder(acc - ts, ts, budget - 1);
      assert n == m + 1;
      SplitProduct(n, ts);
      assert acc - n as real * ts == (acc - ts) - m as real * ts;
      assert n == budget <==> m == budget - 1;
    } else {
      assert n == 0;
    }
  }

  /** budget timesteps are one timestep and budget - 1 more, the latter never negative. */
  lemma SplitProduct(budget: nat, ts: real)
    requires budget > 0 && ts > 0.0
    ensures budget as real * ts == ts + (budget - 1) as real * ts
    ensures (budget - 1) as real * ts >= 0.0
  {
  }

  /** The accumulator the steps leave: one timestep less per step run. */
  function Remainder(acc: real, ts: real, budget: nat): real
    requires ts > 0.0
    decreases budget
  {
    if acc >= ts && budget > 0 then Remainder(acc - ts, ts, budget - 1) else acc
  }

  /**
   * The physics loop's bookkeeping after `steps` steps from accumulator acc0 and
   * game time g0: what is left of the step count and of the remainder, and the
   * game time grown by what the accumulator lost.
   */
  ghost predicate StepsSoFar(acc0: real, g0: real, acc: real, g: real, ts: real, steps: nat)
    requires ts > 0.0
  {
    && steps <= MaxFrameSkip
    && steps + StepCount(acc, ts, MaxFrameSkip - steps) == StepCount(acc0, ts, MaxFrameSkip)
    && Remainder(acc, ts, MaxFrameSkip - steps) == Remainder(acc0, ts, MaxFrameSkip)
    && g - g0 == acc0 - acc
  }

  /** One more step keeps the bookkeeping: one timestep moves from the accumulator to the game time. */
  lemma StepTaken(acc0: real, g0: real, acc: real, g: real, ts: real, steps: nat)
    requires ts > 0.0 && StepsSoFar(acc0, g0, acc, g, ts, steps)
    requires acc >= ts && steps < MaxFrameSkip
    ensures StepsSoFar(acc0, g0, acc - ts, g + ts, ts, steps + 1)
  {
    assert StepCount(acc, ts, MaxFrameSkip - steps) == 1 + StepCount(acc - ts, ts, MaxFrameSkip - steps - 1);
  }

  /** The remainder is the accumulator less one timestep per step run. */
  lemma {:induction false} RemainderIsSubtraction(acc: real, ts: real, budget: nat)
    requires ts > 0.0
    ensures Remainder(acc, ts, budget) == acc - StepCount(acc, ts, budget) as real * ts
    decreases budget
  {
    if acc >= ts && budget > 0 {
      RemainderIsSubtraction(acc - ts, ts, budget - 1);
      SplitProduct(StepCount(acc, ts, budget), ts);
    }
  }

  /** The interpolation factor handed to render lies in [0, 1) unless the step budget ran out. */
  lemma InterpolationInRange(acc: real, ts: real, budget: nat)
    requires ts > 0.0 && acc >= 0.0 && StepCount(acc, ts, budget) < budget
    ensures 0.0 <= Remainder(acc, ts, budget) / ts < 1.0
  {
    StepCountRemainder(acc, ts, budget);
    RemainderIsSubtraction(acc, ts, budget);
    UnitFraction(Remainder(acc, ts, budget), ts);
  }

  /** A non-negative amount below one timestep is less than one timestep's worth. */
  lemma UnitFraction(r: real, ts: real)
    requires ts > 0.0 && 0.0 <= r < ts
    ensures 0.0 <= r / ts < 1.0
  {
    var q := r / ts;
    assert q * ts == r;
    NonNegativeProduct(q, ts);
    NonNegativeProduct(q - 1.0, ts);
  }


  /** gameLoop runs while the game is playing, counting down or paused, and returns at once otherwise. */
  predicate Running(s: GameState)
  {
    s == Playing || s == Countdown || s == Paused
  }

  /** gameLoop's frame time: the frame clock's advance since the last frame, capped at 250 ms. */
  function FrameTime(frameNow: real, last: real): (ft: real)
    ensures ft <= MaxFrameTime
    ensures ft == frameNow - last || ft == MaxFrameTime
    ensures frameNow >= last ==> ft >= 0.0
  {
    Min(frameNow - last, MaxFrameTime)
  }

  // ---------------------------------------------------------------------------
  // The end of the game
  // ---------------------------------------------------------------------------

  /** What endGame shows outside capture mode: a single winner, or a draw listing everyone tied at the top. */
  datatype Verdict = Winner(best: Standing) | Tie(tied: seq<Standing>)

  /**
   * What the game-over screen was last given: outside capture mode the
   * standings, whose verdict the screen shows is ScoreVerdict of them; in
   * capture mode the victory result.
   */
  datatype Screen = NoScreen | ScoreScreen(scores: seq<Standing>) | CaptureScreen(result: VictoryResult)

  /**
   * endGame's selection outside capture mode: the living players are the
   * potential winners (everybody when nobody lives); the one with the top
   * score wins when it is alone there, otherwise all at the top draw. With
   * nobody at all, Math.max gives -Infinity, nobody matches and the draw is
   * empty.
   */
  function ScoreVerdict(scores: seq<Standing>): Verdict
  {
    var c := Candidates(scores);
    if |c| == 0 then Tie([])
    else
      var winners := WithScore(c, MaxScore(c));
      if |winners| == 1 then Winner(winners[0]) else Tie(winners)
  }

  /** The winner is a potential winner (alive whenever anybody is) with a strictly higher score than every other. */
  lemma {:induction false} ScoreWinnerIsStrictlyBest(scores: seq<Standing>)
    requires ScoreVerdict(scores).Winner?
    ensures var w := ScoreVerdict(scores).best;
            && w in Candidates(scores)
            && ((exists x :: x in scores && x.isAlive) ==> w.isAlive)
            && forall x :: x in Candidates(scores) && x != w ==> x.score < w.score
  {
    var c := Candidates(scores);
    var winners := WithScore(c, MaxScore(c));
    assert |winners| == 1 && ScoreVerdict(scores).best == winners[0];
    assert winners == [winners[0]];
    assert winners[0] in winners;
  }

  /** A draw lists exactly the potential winners at the top score, and never exactly one player. */
  lemma ScoreTieIsTopGroup(scores: seq<Standing>)
    requires ScoreVerdict(scores).Tie?
    ensures |ScoreVerdict(scores).tied| != 1
    ensures |Candidates(scores)| > 0 ==>
              forall x :: x in ScoreVerdict(scores).tied <==> x in Candidates(scores) && x.score == MaxScore(Candidates(scores))
  {
  }

  /** The players' ids are pairwise different. */
  predicate DistinctIds(s: seq<Standing>)
  {
    forall i, j :: 0 <= i < j < |s| ==> s[i].id != s[j].id
  }

  /** Filtering keeps ids apart. */
  lemma {:induction false} AliveOnesDistinct(s: seq<Standing>)
    requires DistinctIds(s)
    ensures DistinctIds(AliveOnes(s))
    ensures forall x :: x in AliveOnes(s) ==> exists i :: 0 <= i < |s| && s[i] == x
    decreases |s|
  {
    if s != [] {
      var init := s[..|s| - 1];
      assert DistinctIds(init);
      AliveOnesDistinct(init);
      var a := AliveOnes(init);
      forall x | x in a
        ensures x.id != s[|s| - 1].id
      {
        var i :| 0 <= i < |init| && init[i] == x;
        assert s[i] == x;
      }
    }
  }

  lemma {:induction false} WithScoreDistinct(s: seq<Standing>, m: real)
    requires DistinctIds(s)
    ensures DistinctIds(WithScore(s, m))
    decreases |s|
  {
    if s != [] {
      var init := s[..|s| - 1];
      assert DistinctIds(init);
      WithScoreDistinct(init, m);
      forall x | x in WithScore(init, m)
        ensures x.id != s[|s| - 1].id
      {
        assert x in init;
        var i :| 0 <= i < |init| && init[i] == x;
        assert s[i] == x;
      }
    }
  }

  /** A list of players with different ids, all equal to one standing, holds it at most once. */
  lemma {:induction false} AllSameDistinct(s: seq<Standing>, w: Standing)
    requires forall x :: x in s ==> x == w
    ensures |s| >= 2 ==> !DistinctIds(s)
  {
    if |s| >= 2 {
      assert s[0] in s && s[1] in s;
      assert s[0].id == s[1].id;
    }
  }

  /**
   * The converse: with ids all different, a potential winner whose score is
   * strictly above every other potential winner's is declared the winner.
   */
  lemma {:induction false} StrictlyBestWins(scores: seq<Standing>, w: Standing)
    requires DistinctIds(scores) && w in Candidates(scores)
    requires forall x :: x in Candidates(scores) && x != w ==> x.score < w.score
    ensures ScoreVerdict(scores) == Winner(w)
  {
    var c := Candidates(scores);
    if |AliveOnes(scores)| > 0 {
      AliveOnesDistinct(scores);
    }
    assert DistinctIds(c);
    var m := MaxScore(c);
    assert w.score == m;
    var winners := WithScore(c, m);
    WithScoreDistinct(c, m);
    assert w in winners;
    AllSameDistinct(winners, w);
    assert winners == [w];
  }

  // ---------------------------------------------------------------------------
  // Collisions between the two players
  // ---------------------------------------------------------------------------

  /**
   * How the engine's checkCollisions ends one check of a living player
   * against another. Explore, fight and infinite modes act on a head or trail
   * collision and stop there; capture, day/night (and survival, which never
   * gets here) ignore both and go straight to the territory test.
   */
  function EngineClash(mode: GameMode, hit: TrailHit, shielded: bool, inTerritory: bool): (c: Clash)
    ensures mode in {Explore, Fight, Infinite} ==> c == ClashOf(hit, shielded, inTerritory)
    ensures mode !in {Explore, Fight, Infinite} ==> (c == Intruded <==> !shielded && inTerritory) && (c == Intruded || c == Clear)
  {
    if mode in {Explore, Fight, Infinite} then ClashOf(hit, shielded, inTerritory)
    else if !shielded && inTerritory then Intruded
    else Clear
  }

  /** Whether the checking player dies: in a head-on crash, on entering territory, and in explore mode on running into a trail. */
  predicate RunnerDies(mode: GameMode, c: Clash)
  {
    c == HeadOn || c == Intruded || (c == RanIntoTrail && mode == Explore)
  }

  /** Whether the other player dies: in a head-on crash, and outside explore mode when its trail is run into. */
  predicate OwnerDies(mode: GameMode, c: Clash)
  {
    c == HeadOn || (c == RanIntoTrail && mode != Explore)
  }

  /**
   * The mode table of checkCollisions: a head-on crash kills both; in explore
   * mode running into a trail kills the runner, in fight and infinite modes
   * the trail's owner; an unshielded player inside the other's territory
   * dies; a shielded one is safe there; and in capture and day/night modes
   * only territory kills.
   */
  lemma {:induction false} CollisionTable(mode: GameMode, hit: TrailHit, shielded: bool, inTerritory: bool)
    ensures var c := EngineClash(mode, hit, shielded, inTerritory);
            && (mode in {Explore, Fight, Infinite} && hit == HeadCollision ==> RunnerDies(mode, c) && OwnerDies(mode, c))
            && (mode == Explore && hit == TrailCollision ==> RunnerDies(mode, c) && !OwnerDies(mode, c))
            && (mode in {Fight, Infinite} && hit == TrailCollision ==> !RunnerDies(mode, c) && OwnerDies(mode, c))
            && (shielded && (hit == NoHit || mode !in {Explore, Fight, Infinite}) ==> !RunnerDies(mode, c) && !OwnerDies(mode, c))
            && (mode !in {Explore, Fight, Infinite} ==> !OwnerDies(mode, c) && (RunnerDies(mode, c) <==> !shielded && inTerritory))
  {
    var c := EngineClash(mode, hit, shielded, inTerritory);
    if mode in {Explore, Fight, Infinite} {
      assert c == ClashOf(hit, shielded, inTerritory);
    } else {
      assert c == Intruded || c == Clear;
    }
  }

  /** What die() does to a player in the given mode, as one relation between the states before and after. */
  twostate predicate Died(p: Player, mode: GameMode, now: real)
    reads p
  {
    var respawn := Player.Respawns(old(p.lives) - 1, mode);
    && p.isAlive == respawn
    && p.lives == (if respawn && mode == Infinite then 2 else old(p.lives) - 1)
    && (respawn ==> p.x == old(p.startX) && p.y == old(p.startY) && p.trail == [] && p.shield == null)
    && (!respawn ==> p.x == old(p.x) && p.y == old(p.y) && p.trail == old(p.trail) && p.shield == old(p.shield))
    && p.territory == old(p.territory) && p.score == old(p.score)
    && p.speed == old(p.speed) && p.trailLength == old(p.trailLength)
    && p.standarddistance == old(p.standarddistance)
  }

  /** A death never adds a life: infinite mode restores two lives only to a player who had at least two. */
  lemma DeathCostsNoLife(livesBefore: int, mode: GameMode)
    ensures var respawn := Player.Respawns(livesBefore - 1, mode);
            (if respawn && mode == Infinite then 2 else livesBefore - 1) <= livesBefore
  {
  }

  /** What a player keeps through the collision check: its lives never rise, and its territory, score, speed and spacing stay. */
  twostate predicate KeptThroughChecks(p: Player)
    reads p
  {
    && p.lives <= old(p.lives)
    && (p.shield == null || p.shield == old(p.shield))
    && p.territory == old(p.territory) && p.score == old(p.score)
    && p.speed == old(p.speed) && p.trailLength == old(p.trailLength)
    && p.standarddistance == old(p.standarddistance)
  }

  // ---------------------------------------------------------------------------
  // The engine
  // ---------------------------------------------------------------------------

  /**
   * One pass of checkCollisions' inner loop: the living `player` checked
   * against `other`, whose territories are `areas`. The result says how the
   * pass ended (anything but Clear breaks the inner loop) and the deaths
   * follow the mode table. The source asks checkCollisionWithTrail a second
   * time before testing for a trail hit; nothing has changed in between, so
   * it gives the same answer.
   */
  method CheckPass(player: Player, other: Player, mode: GameMode, areas: seq<seq<Point>>, now: real, sqrt: real -> real)
      returns (c: Clash)
    requires IsSqrt(sqrt) && player != other && player.isAlive
    modifies player, other
    ensures c == EngineClash(mode, TrailHitOf(true, old(player.x), old(player.y), player.size, old(other.trail), Some(old(other.HeadOf()))),
                             old(player.HasShield()), InTerritory(Point(old(player.x), old(player.y)), areas))
    ensures RunnerDies(mode, c) ==> Died(player, mode, now)
    ensures !RunnerDies(mode, c) ==> unchanged(player)
    ensures OwnerDies(mode, c) ==> Died(other, mode, now)
    ensures !OwnerDies(mode, c) ==> unchanged(other)
  {
    var hit := player.CheckCollisionWithTrail(other.trail, other, sqrt);
    if hit == HeadCollision {
      if mode == Explore {
        player.Die(mode, now);
        other.Die(mode, now);
        return HeadOn;
      } else if mode == Fight || mode == Infinite {
        other.Die(mode, now);
        player.Die(mode, now);
        return HeadOn;
      }
    } else {
      var again := player.CheckCollisionWithTrail(other.trail, other, sqrt);
      if again == TrailCollision {
        if mode == Explore {
          player.Die(mode, now);
          return RanIntoTrail;
        } else if mode == Fight || mode == Infinite {
          other.Die(mode, now);
          return RanIntoTrail;
        }
      }
    }
    if !player.HasShield() {
      var inside := player.CheckCollisionWithTerritory(areas);
      if inside {
        player.Die(mode, now);
        return Intruded;
      }
    }
    return Clear;
  }

  /** The host functions the engine's subsystems call: Math.sqrt, number-to-string, the canvas coverage test, the enemies' headings. */
  datatype Env = Env(sqrt: real -> real, num: real -> string, alpha: Raster, heading: nat -> Point)

  class GameEngine {
    const variant: Variant
    const width: real
    const height: real
    const players: seq<Player>
    const territory: Territory
    const itemManager: ItemManager
    const flagManager: FlagManager
    const survivalManager: SurvivalManager
    var gameState: GameState
    var gameMode: GameMode
    var difficulty: Difficulty
    var gameTime: real
    var maxGameTime: real
    /** Seconds left in the pre-game countdown. */
    var countdown: real
    var countdownActive: bool
    var accumulator: real
    /** The frame clock's reading at the previous gameLoop. */
    var currentTime: real
    /** fixedUpdate's frame counter. */
    var timer: int
    /** What the last endGame showed. */
    var screen: Screen

    /** Two distinct players with ids 1 and 2 on this board, and the managers in their working states. */
    ghost predicate Valid()
      reads flagManager, survivalManager, territory`scoreCache
    {
      && |players| == 2 && Distinct(players)
      && players[0].id == 1 && players[1].id == 2
      && players[0].Valid() && players[1].Valid()
      && flagManager.Valid() && survivalManager.Valid()
      && territory.CacheInRange()
    }

    /** The number of living players (the length of `players.filter(p => p.isAlive)`). */
    function AliveCount(): (n: nat)
      reads players
      ensures n <= |players|
    {
      CountAlive(players)
    }

    /**
     * constructor and init: a 1200 x 600 board, the two players at their
     * spawn points, the managers, the initial barriers, and the medium
     * difficulty applied to the players.
     */
    constructor (variant: Variant, now: real)
      ensures Valid() && this.variant == variant
      ensures width == Config.CanvasWidth && height == Config.CanvasHeight
      ensures gameState == Menu && gameMode == Explore && difficulty == Medium
      ensures gameTime == 0.0 && maxGameTime == DifficultyRow(variant, Medium).maxTime
      ensures accumulator == 0.0 && currentTime == 0.0 && countdown == 0.0 && !countdownActive
      ensures Tuned(players[0], DifficultyRow(variant, Medium), Spacing(variant, None))
      ensures Tuned(players[1], DifficultyRow(variant, Medium), Spacing(variant, None))
      ensures territory.areas == map[]
      ensures itemManager.items == [] && itemManager.obstacles == [] && itemManager.initialBarriersCreated
      ensures |itemManager.initialBarriers| == 30
      ensures fresh(players[0]) && fresh(players[1]) && fresh(territory) && fresh(itemManager)
      ensures fresh(flagManager) && fresh(survivalManager)
    {
      this.variant := variant;
      width := Config.CanvasWidth;
      height := Config.CanvasHeight;
      var t, fm, sm, im, ps := NewParts(now);
      territory := t;
      gameState := Menu;
      gameMode := Explore;
      difficulty := Medium;
      gameTime := 0.0;
      maxGameTime := if variant == Current then Config.DifficultyLevels(Medium).maxTime else 120000.0;
      countdown := 0.0;
      countdownActive := false;
      accumulator := 0.0;
      currentTime := 0.0;
      timer := 0;
      screen := NoScreen;
      flagManager := fm;
      survivalManager := sm;
      itemManager := im;
      players := ps;
      new;
      SetDifficulty(Medium);
    }

    /** The parts init creates: the territory, the managers and the two players, all new. */
    static method NewParts(now: real) returns (t: Territory, fm: FlagManager, sm: SurvivalManager, im: ItemManager, ps: seq<Player>)
      ensures fresh(t) && fresh(fm) && fresh(sm) && fresh(im)
      ensures t.areas == map[] && t.scoreCache == None && fm.Valid() && sm.Valid()
      ensures im.items == [] && im.obstacles == [] && im.initialBarriersCreated && |im.initialBarriers| == 30
      ensures |ps| == 2 && fresh(ps[0]) && fresh(ps[1]) && ps[0] != ps[1]
      ensures ps[0].id == 1 && ps[1].id == 2 && ps[0].Valid() && ps[1].Valid()
      ensures ps[0].standarddistance == None && ps[1].standarddistance == None
    {
      t := new Territory();
      fm := new FlagManager(Config.CanvasWidth, Config.CanvasHeight);
      sm := new SurvivalManager(Config.CanvasWidth, Config.CanvasHeight);
      im := NewItemManager(now);
      ps := NewPlayers();
    }

    /** init's item manager: created for the board, then its initial barriers built: two columns of 15. */
    static method NewItemManager(now: real) returns (im: ItemManager)
      ensures fresh(im) && im.canvasWidth == Config.CanvasWidth && im.canvasHeight == Config.CanvasHeight
      ensures im.items == [] && im.obstacles == [] && im.initialBarriersCreated
      ensures |im.initialBarriers| == 30
    {
      im := new ItemManager(Config.CanvasWidth, Config.CanvasHeight, now);
      im.CreateInitialBarriers(now);
      BarrierRowsExact(Config.CanvasHeight, 15);
    }

    /** init's two players, ids 1 and 2, at their spawn points on the 1200 x 600 board. */
    static method NewPlayers() returns (ps: seq<Player>)
      ensures |ps| == 2 && fresh(ps[0]) && fresh(ps[1]) && ps[0] != ps[1]
      ensures ps[0].id == 1 && ps[1].id == 2 && ps[0].Valid() && ps[1].Valid()
      ensures AtSpawn(ps[0], Spawn(0)) && AtSpawn(ps[1], Spawn(1))
      ensures ps[0].standarddistance == None && ps[1].standarddistance == None
    {
      var p1 := new Player(1, Spawn(0).x, Spawn(0).y, Config.CanvasWidth, Config.CanvasHeight);
      var p2 := new Player(2, Spawn(1).x, Spawn(1).y, Config.CanvasWidth, Config.CanvasHeight);
      ps := [p1, p2];
    }

    /**
     * setDifficulty: the time limit, and every player's speed and trail cap
     * from the difficulty row; the current engine also sets the resampling
     * spacing to 2, the earlier one assigns a misspelt property instead and
     * leaves the spacing as it was.
     */
    method SetDifficulty(d: Difficulty)
      requires Valid()
      modifies this`difficulty, this`maxGameTime, players`speed, players`trailLength, players`standarddistance
      ensures Valid()
      ensures difficulty == d && maxGameTime == DifficultyRow(variant, d).maxTime
      ensures forall k :: 0 <= k < |players| ==>
                Tuned(players[k], DifficultyRow(variant, d), Spacing(variant, old(players[k].standarddistance)))
    {
      difficulty := d;
      var setting := DifficultyRow(variant, d);
      maxGameTime := setting.maxTime;
      var i := 0;
      while i < |players|
        invariant 0 <= i <= |players| && Valid()
        invariant difficulty == d && maxGameTime == setting.maxTime
        invariant forall k :: 0 <= k < i ==>
                    Tuned(players[k], setting, Spacing(variant, old(players[k].standarddistance)))
        invariant forall k :: i <= k < |players| ==> players[k].standarddistance == old(players[k].standarddistance)
      {
        players[i].speed := setting.speed;
        players[i].trailLength := setting.length;
        if variant == Current {
          players[i].standarddistance := Some(Config.StandardDistance);
        }
        i := i + 1;
      }
    }

    /**
     * setgamemode: the mode and every player's lives from the mode table; in
     * survival mode the enemies are rebuilt at the engine's difficulty, in
     * capture mode the flags are placed anew. The earlier engine's table has
     * no day/night row: the lookup fails (`ok` is false) after the mode was
     * already recorded, and nothing else happens.
     */
    method SetGameMode(m: GameMode, rng: RandomSource, sqrt: real -> real) returns (ok: bool)
      requires Valid() && IsSqrt(sqrt) && rng.Valid()
      modifies this`gameMode, players`lives, rng, flagManager`flags
      modifies survivalManager`aiEnemies, survivalManager`spawnTimer, survivalManager`difficultyMultiplier
      modifies survivalManager`enemyCount, survivalManager`maxEnemies, survivalManager`spawnInterval
      ensures Valid() && rng.Valid() && gameMode == m
      ensures ok == ModeLives(variant, m).Some?
      ensures ok ==> forall k :: 0 <= k < |players| ==> players[k].lives == ModeLives(variant, m).value
      ensures !ok ==> unchanged(players) && unchanged(rng) && unchanged(flagManager) && unchanged(survivalManager)
      ensures ok && m == Survival ==>
                && Config.AiRow(survivalManager.difficultyMultiplier, survivalManager.enemyCount,
                                survivalManager.maxEnemies, survivalManager.spawnInterval)
                   == SettingFor(DifficultyName(difficulty))
                && survivalManager.spawnTimer == 0.0
                && forall k :: 0 <= k < |survivalManager.aiEnemies| ==> fresh(survivalManager.aiEnemies[k])
      ensures ok && m == Capture ==>
                forall k :: 0 <= k < |flagManager.flags| ==> fresh(flagManager.flags[k]) && flagManager.flags[k].capturedBy == None
      ensures !(ok && m == Survival) ==> unchanged(survivalManager)
      ensures !(ok && m == Capture) ==> flagManager.flags == old(flagManager.flags)
    {
      gameMode := m;
      var setting := ModeLives(variant, m);
      if setting.None? {
        return false;
      }
      var i := 0;
      while i < |players|
        invariant 0 <= i <= |players| && Valid() && gameMode == m
        invariant unchanged(rng) && unchanged(flagManager) && unchanged(survivalManager)
        invariant forall k :: 0 <= k < i ==> players[k].lives == setting.value
      {
        players[i].lives := setting.value;
        i := i + 1;
      }
      if m == Survival {
        survivalManager.Reset(rng);
        survivalManager.SetDifficulty(DifficultyName(difficulty));
      } else if m == Capture {
        flagManager.Init(rng, sqrt);
      }
      return true;
    }

    /**
     * checkCollisions: every player still alive when its turn comes is
     * checked, in order, against every other player, and its inner loop stops
     * at the first pass that ends in a clash. Through all of it a player's
     * lives never rise and its territory, score, speed and spacing stay.
     */
    method CheckCollisions(now: real, sqrt: real -> real)
      requires Valid() && IsSqrt(sqrt)
      modifies players
      ensures Valid()
      ensures forall k :: 0 <= k < |players| ==> KeptThroughChecks(players[k])
    {
      var i := 0;
      while i < |players|
        invariant 0 <= i <= |players| && Valid()
        invariant forall k :: 0 <= k < |players| ==> KeptThroughChecks(players[k])
      {
        var player := players[i];
        if player.isAlive {
          var j := 0;
          while j < |players|
            invariant 0 <= j <= |players| && Valid() && player.isAlive
            invariant forall k :: 0 <= k < |players| ==> KeptThroughChecks(players[k])
          {
            if i != j {
              var c := CheckPass(player, players[j], gameMode, territory.PlayerTerritories(players[j].id), now, sqrt);
              if c != Clear {
                break;
              }
            }
            j := j + 1;
          }
        }
        i := i + 1;
      }
    }

    /**
     * The result screen endGame shows: the capture result or the score
     * verdict, one standing per player, each score the percentage the
     * territory's cache holds for the player (zero without territory).
     */
    ghost predicate ShowsResult(num: real -> string)
      reads this, players, territory
    {
      && (gameMode == Capture ==>
            && screen.CaptureScreen?
            && (forall s :: s == screen.result.scores ==> screen.result.outcome == Decide(s))
            && |screen.result.scores| == |players|
            && forall k :: 0 <= k < |players| ==>
                 && screen.result.scores[k].id == players[k].id && screen.result.scores[k].isAlive == players[k].isAlive
                 && Scored(territory, players[k].id, flagManager.gameWidth, flagManager.gameHeight, num, screen.result.scores[k].score))
      && (gameMode != Capture ==>
            && screen.ScoreScreen?
            && |screen.scores| == |players|
            && forall k :: 0 <= k < |players| ==>
                 && screen.scores[k].id == players[k].id && screen.scores[k].isAlive == players[k].isAlive
                 && Scored(territory, players[k].id, width, height, num, screen.scores[k].score))
    }

    /**
     * endGame: the game is over. In capture mode the flag manager's victory
     * check decides; otherwise every player's score is computed on the
     * canvas (0 without territory) and the verdict is chosen among the
     * potential winners.
     */
    method EndGame(num: real -> string, alpha: Raster)
      requires Valid()
      modifies this`gameState, this`screen, territory`scoreCache
      ensures Valid() && gameState == GameOver && ShowsResult(num)
    {
      gameState := GameOver;
      if gameMode == Capture {
        var result := flagManager.CheckVictoryCondition(players, territory, num, alpha);
        screen := CaptureScreen(result);
        return;
      }
      var scores := Standings(num, alpha);
      screen := ScoreScreen(scores);
    }

    /** endGame's standings outside capture mode: one per player, in order, scoring zero without territory. */
    method Standings(num: real -> string, alpha: Raster) returns (scores: seq<Standing>)
      requires territory.CacheInRange()
      modifies territory`scoreCache
      ensures territory.CacheInRange()
      ensures |scores| == |players|
      ensures forall k :: 0 <= k < |players| ==>
                && scores[k].id == players[k].id && scores[k].isAlive == players[k].isAlive
                && Scored(territory, players[k].id, width, height, num, scores[k].score)
    {
      scores := [];
      var i := 0;
      while i < |players|
        invariant 0 <= i <= |players| && |scores| == i
        invariant territory.CacheInRange()
        invariant forall k :: 0 <= k < i ==>
                    && scores[k].id == players[k].id && scores[k].isAlive == players[k].isAlive
                    && Scored(territory, players[k].id, width, height, num, scores[k].score)
      {
        var score := ScoreFor(territory, players[i].id, width, height, num, alpha);
        scores := scores + [Standing(players[i].id, score, 0, players[i].isAlive)];
        i := i + 1;
      }
    }

    /** The time limit ends the game at this game time (it never does in infinite mode). */
    predicate TimeUp(t: real)
      reads this`gameMode, this`maxGameTime
    {
      gameMode != Infinite && t >= maxGameTime
    }

    /**
     * fixedUpdate: one physics step. The frame counter and the game time
     * advance; past the time limit (outside infinite mode) the game ends
     * before anything else happens. Otherwise the mode's manager, the items,
     * the players, the collisions (not in survival mode) and the enclosures
     * run in that order. The game is over afterwards exactly when it was
     * before, or an infinite-mode enclosure lifted its owner's score to 60,
     * or at most one player is alive. Territory lists only grow.
     */
    method FixedUpdate(deltaTime: real, now: real, rng: RandomSource, env: Env)
      requires Valid() && IsSqrt(env.sqrt) && rng.Valid()
      modifies this`timer, this`gameTime, this`gameState, this`screen
      modifies players, ShieldsOf(players), rng, territory`areas, territory`scoreCache
      modifies itemManager`spawnTimer, itemManager`initialBarriers, itemManager`lastItemSpawn
      modifies itemManager`lastObstacleSpawn, itemManager`items, itemManager`obstacles
      modifies flagManager.flags, survivalManager`aiEnemies, survivalManager`spawnTimer, survivalManager.aiEnemies
      ensures Valid() && rng.Valid()
      ensures timer == NextTimer(variant, old(timer)) && gameTime == old(gameTime) + deltaTime
      ensures TimeUp(gameTime) ==>
                gameState == GameOver && territory.areas == old(territory.areas) && forall k :: 0 <= k < |players| ==> Untouched(players[k])
      ensures !TimeUp(gameTime) ==>
                (gameState == GameOver <==> old(gameState) == GameOver || InfiniteWin(this, old(territory.areas)) || AliveCount() <= 1)
      ensures TerritoriesGrew(this, old(territory.areas))
      ensures forall k :: 0 <= k < |players| ==> ShieldRenewed(players[k])
      ensures EnemiesExtended(survivalManager)
    {
      Tick(deltaTime);
      TimedPhases(deltaTime, now, rng, env);
    }

    /** fixedUpdate after the clocks: the end of the game at the time limit, else the phases. */
    method TimedPhases(deltaTime: real, now: real, rng: RandomSource, env: Env)
      requires Valid() && IsSqrt(env.sqrt) && rng.Valid()
      modifies this`gameState, this`screen
      modifies players, ShieldsOf(players), rng, territory`areas, territory`scoreCache
      modifies itemManager`spawnTimer, itemManager`initialBarriers, itemManager`lastItemSpawn
      modifies itemManager`lastObstacleSpawn, itemManager`items, itemManager`obstacles
      modifies flagManager.flags, survivalManager`aiEnemies, survivalManager`spawnTimer, survivalManager.aiEnemies
      ensures Valid() && rng.Valid()
      ensures TimeUp(gameTime) ==>
                gameState == GameOver && territory.areas == old(territory.areas) && forall k :: 0 <= k < |players| ==> Untouched(players[k])
      ensures !TimeUp(gameTime) ==>
                (gameState == GameOver <==> old(gameState) == GameOver || InfiniteWin(this, old(territory.areas)) || AliveCount() <= 1)
      ensures TerritoriesGrew(this, old(territory.areas))
      ensures forall k :: 0 <= k < |players| ==> ShieldRenewed(players[k])
      ensures EnemiesExtended(survivalManager)
    {
      if TimeUp(gameTime) {
        EndGame(env.num, env.alpha);
        return;
      }
      RunPhases(deltaTime, now, rng, env);
    }

    /** fixedUpdate's clocks: the frame counter advances (wrapping at its period) and the game time grows by the step. */
    method Tick(deltaTime: real)
      modifies this`timer, this`gameTime
      ensures timer == NextTimer(variant, old(timer)) && gameTime == old(gameTime) + deltaTime
    {
      timer := NextTimer(variant, timer);
      gameTime := gameTime + deltaTime;
    }

    /** The phases of fixedUpdate once the time limit has not ended the game. */
    method RunPhases(deltaTime: real, now: real, rng: RandomSource, env: Env)
      requires Valid() && IsSqrt(env.sqrt) && rng.Valid()
      modifies this`gameState, this`screen
      modifies players, ShieldsOf(players), rng, territory`areas, territory`scoreCache
      modifies itemManager`spawnTimer, itemManager`initialBarriers, itemManager`lastItemSpawn
      modifies itemManager`lastObstacleSpawn, itemManager`items, itemManager`obstacles
      modifies flagManager.flags, survivalManager`aiEnemies, survivalManager`spawnTimer, survivalManager.aiEnemies
      ensures Valid() && rng.Valid()
      ensures gameState == GameOver <==> old(gameState) == GameOver || InfiniteWin(this, old(territory.areas)) || AliveCount() <= 1
      ensures TerritoriesGrew(this, old(territory.areas))
      ensures forall k :: 0 <= k < |players| ==> ShieldRenewed(players[k])
      ensures EnemiesExtended(survivalManager)
    {
      Advance(deltaTime, now, rng, env);
      Conclude(now, env);
    }

    /** The end of fixedUpdate: the enclosures, then the end of the game when at most one player is left alive. */
    method Conclude(now: real, env: Env)
      requires Valid() && IsSqrt(env.sqrt)
      modifies this`gameState, this`screen, territory`areas, territory`scoreCache, players`trail, players`score, flagManager.flags
      ensures Valid()
      ensures gameState == GameOver <==> old(gameState) == GameOver || InfiniteWin(this, old(territory.areas)) || AliveCount() <= 1
      ensures TerritoriesGrew(this, old(territory.areas))
    {
      ClaimPhase(now, env);
      if AliveCount() <= 1 {
        EndGame(env.num, env.alpha);
      }
    }

    /** The phases of fixedUpdate before the enclosures: the mode's manager, the items, the players' moves and (outside survival mode) the collisions. */
    method Advance(deltaTime: real, now: real, rng: RandomSource, env: Env)
      requires Valid() && IsSqrt(env.sqrt) && rng.Valid()
      modifies players, Shields(), rng
      modifies itemManager`spawnTimer, itemManager`initialBarriers, itemManager`lastItemSpawn
      modifies itemManager`lastObstacleSpawn, itemManager`items, itemManager`obstacles
      modifies flagManager.flags, survivalManager`aiEnemies, survivalManager`spawnTimer, survivalManager.aiEnemies
      ensures Valid() && rng.Valid()
      ensures forall k :: 0 <= k < |players| ==> ShieldRenewed(players[k])
      ensures EnemiesExtended(survivalManager)
      ensures |itemManager.obstacles| <= Config.MaxObstacles
    {
      ModeAndItems(deltaTime, now, rng, env);
      MoveAndCollide(deltaTime, now, env.sqrt);
    }

    /** The first half of Advance: the mode's manager, then the items. */
    method ModeAndItems(deltaTime: real, now: real, rng: RandomSource, env: Env)
      requires Valid() && IsSqrt(env.sqrt) && rng.Valid()
      modifies players, rng
      modifies itemManager`spawnTimer, itemManager`initialBarriers, itemManager`lastItemSpawn
      modifies itemManager`lastObstacleSpawn, itemManager`items, itemManager`obstacles
      modifies flagManager.flags, survivalManager`aiEnemies, survivalManager`spawnTimer, survivalManager.aiEnemies
      ensures Valid() && rng.Valid()
      ensures forall k :: 0 <= k < |players| ==> ShieldRenewed(players[k])
      ensures EnemiesExtended(survivalManager)
      ensures |itemManager.obstacles| <= Config.MaxObstacles
    {
      ModeUpdate(deltaTime, now, rng, env);
      ItemsPhase(deltaTime, now, rng, env.sqrt);
    }

    /** The second half of Advance: the players' moves, then (outside survival mode) the collisions. */
    method MoveAndCollide(deltaTime: real, now: real, sqrt: real -> real)
      requires Valid() && IsSqrt(sqrt)
      modifies players, Shields()
      ensures Valid()
      ensures forall k :: 0 <= k < |players| ==> players[k].shield == null || players[k].shield == old(players[k].shield)
    {
      MovePlayers(deltaTime, now, sqrt);
      if gameMode != Survival {
        CheckCollisions(now, sqrt);
      }
    }

    /** fixedUpdate's mode-specific part: the survival manager in survival mode, the flag manager in capture mode. */
    method ModeUpdate(deltaTime: real, now: real, rng: RandomSource, env: Env)
      requires Valid() && IsSqrt(env.sqrt) && rng.Valid()
      modifies players, rng, flagManager.flags, survivalManager`aiEnemies, survivalManager`spawnTimer, survivalManager.aiEnemies
      ensures Valid() && rng.Valid()
      ensures forall k :: 0 <= k < |players| ==> ShieldRenewed(players[k])
      ensures EnemiesExtended(survivalManager)
    {
      if gameMode == Survival {
        survivalManager.Update(deltaTime, players, territory, gameState, itemManager.obstacles, itemManager.initialBarriers,
                               itemManager.pauseStartTime, env.heading, rng, now, env.sqrt);
      } else if gameMode == Capture {
        flagManager.Update(gameState, players, territory, now, env.sqrt);
      }
    }

    /** fixedUpdate's item part: the item manager's update, each player's pickups and obstacle pushes, then the cleanup. */
    method ItemsPhase(deltaTime: real, now: real, rng: RandomSource, sqrt: real -> real)
      requires Valid() && IsSqrt(sqrt) && rng.Valid()
      modifies itemManager`spawnTimer, itemManager`initialBarriers, itemManager`lastItemSpawn
      modifies itemManager`lastObstacleSpawn, itemManager`items, itemManager`obstacles, rng
      modifies players`speedMultiplier, players`speedBoostEndTime, players`trailLength, players`shield, players`x, players`y
      ensures Valid() && rng.Valid()
      ensures forall k :: 0 <= k < |players| ==> ShieldRenewed(players[k])
      ensures |itemManager.obstacles| <= Config.MaxObstacles
    {
      itemManager.Update(deltaTime, gameState, now, rng, FlagCircles(flagManager.flags), sqrt);
      var i := 0;
      while i < |players|
        invariant 0 <= i <= |players| && Valid() && rng.Valid()
        invariant forall k :: 0 <= k < |players| ==> ShieldRenewed(players[k])
      {
        var picked := itemManager.CheckItemCollision(players[i], gameState, now, sqrt);
        itemManager.CheckObstacleCollision(players[i], sqrt);
        i := i + 1;
      }
      itemManager.Cleanup(now);
    }

    /**
     * fixedUpdate's player part: every player's own step. Shields are only
     * dropped, and outside capture mode nobody loses a life here.
     */
    method MovePlayers(deltaTime: real, now: real, sqrt: real -> real)
      requires Valid() && IsSqrt(sqrt)
      modifies players`homeStartTime, players`isAtHome, players`lives, players`x, players`y, players`trail
      modifies players`dirX, players`dirY, players`isMoving, players`isAlive
      modifies players`speedMultiplier, players`speedBoostEndTime, players`shield, Shields()
      ensures Valid()
      ensures forall k :: 0 <= k < |players| ==> players[k].shield == null || players[k].shield == old(players[k].shield)
      ensures gameMode != Capture ==>
                forall k :: 0 <= k < |players| ==>
                  players[k].lives == old(players[k].lives) && players[k].isAlive == old(players[k].isAlive)
    {
      var i := 0;
      while i < |players|
        invariant 0 <= i <= |players| && Valid()
        invariant forall k :: 0 <= k < |players| ==> players[k].shield == null || players[k].shield == old(players[k].shield)
        invariant gameMode != Capture ==>
                    forall k :: 0 <= k < |players| ==>
                      players[k].lives == old(players[k].lives) && players[k].isAlive == old(players[k].isAlive)
        invariant forall k :: i <= k < |players| ==> unchanged(players[k])
      {
        players[i].FixedUpdate(deltaTime, gameState, gameMode, now, sqrt);
        i := i + 1;
      }
    }

    /**
     * fixedUpdate's enclosure part: each player's trail is checked for an
     * enclosure; a new territory rescores its owner, ends an infinite-mode
     * game at a score of 60 or more (the loop still goes on to the next
     * player) and in capture mode captures the flags it encloses.
     */
    method ClaimPhase(now: real, env: Env)
      requires Valid() && IsSqrt(env.sqrt)
      modifies this`gameState, this`screen, territory`areas, territory`scoreCache, players`trail, players`score, flagManager.flags
      ensures Valid()
      ensures TerritoriesGrew(this, old(territory.areas))
      ensures forall k :: 0 <= k < |players| && territory.PlayerTerritories(players[k].id) == old(territory.PlayerTerritories(players[k].id)) ==>
                players[k].score == old(players[k].score)
      ensures gameState == GameOver <==> old(gameState) == GameOver || InfiniteWin(this, old(territory.areas))
    {
      ghost var before, scores0, over0 := territory.areas, [players[0].score, players[1].score], gameState == GameOver;
      var i := 0;
      while i < |players|
        invariant Valid() && ClaimedUpTo(i, before, scores0, over0)
      {
        ClaimTurn(i, now, env, before, scores0, over0);
        i := i + 1;
      }
    }

    /**
     * The enclosure loop's invariant after its first i turns, against the
     * territory map `before`, the scores `scores0` and the game-over flag
     * `over0` it started from.
     */
    ghost predicate ClaimedUpTo(i: nat, before: map<int, seq<seq<Point>>>, scores0: seq<real>, over0: bool)
      reads this, players, territory
    {
      && i <= |players| && |scores0| == |players|
      && TerritoriesGrew(this, before)
      && (forall k :: 0 <= k < |players| && territory.PlayerTerritories(players[k].id) == ListIn(before, players[k].id) ==>
            players[k].score == scores0[k])
      && (forall k :: i <= k < |players| ==> territory.PlayerTerritories(players[k].id) == ListIn(before, players[k].id))
      && (gameState == GameOver <==> over0 || InfiniteWinAmong(this, before, i))
    }

    /** The body of the enclosure loop: ClaimFor for the player at index i keeps the loop's invariant. */
    method ClaimTurn(i: nat, now: real, env: Env, ghost before: map<int, seq<seq<Point>>>, ghost scores0: seq<real>, ghost over0: bool)
      requires Valid() && IsSqrt(env.sqrt) && i < |players| && ClaimedUpTo(i, before, scores0, over0)
      modifies this`gameState, this`screen, territory`areas, territory`scoreCache, players`trail, players`score, flagManager.flags
      ensures Valid() && ClaimedUpTo(i + 1, before, scores0, over0)
    {
      ghost var grown := old(territory.PlayerTerritories(players[i].id));
      ClaimFor(i, now, env);
      assert forall k :: 0 <= k < |players| && k != i ==>
               territory.PlayerTerritories(players[k].id) == old(territory.PlayerTerritories(players[k].id))
               && players[k].score == old(players[k].score);
      assert grown == ListIn(before, players[i].id);
      assert TerritoriesGrew(this, before);
      assert InfiniteWinAmong(this, before, i + 1) <==>
               InfiniteWinAmong(this, before, i)
               || (gameMode == Infinite && territory.PlayerTerritories(players[i].id) != grown
                   && players[i].score >= InfiniteWinScore);
    }

    /** One turn of the enclosure loop, for the player at index i. */
    method ClaimFor(i: nat, now: real, env: Env)
      requires Valid() && IsSqrt(env.sqrt) && i < |players|
      modifies this`gameState, this`screen, territory`areas, territory`scoreCache, {players[i]}`trail, {players[i]}`score, flagManager.flags
      ensures Valid()
      ensures Grew(old(territory.PlayerTerritories(players[i].id)), territory.PlayerTerritories(players[i].id))
      ensures forall k :: 0 <= k < |players| && k != i ==>
                territory.PlayerTerritories(players[k].id) == old(territory.PlayerTerritories(players[k].id))
      ensures territory.PlayerTerritories(players[i].id) == old(territory.PlayerTerritories(players[i].id)) ==>
                players[i].score == old(players[i].score)
      ensures gameState == GameOver <==>
                || old(gameState) == GameOver
                || (&& gameMode == Infinite
                    && territory.PlayerTerritories(players[i].id) != old(territory.PlayerTerritories(players[i].id))
                    && players[i].score >= InfiniteWinScore)
    {
      var newTerritory := ClaimTerritory(players[i], territory, width, height, env);
      if newTerritory.Some? {
        if gameMode == Infinite && players[i].score >= InfiniteWinScore {
          EndGame(env.num, env.alpha);
        } else if gameMode == Capture {
          flagManager.CheckCaptureInNewTerritory(newTerritory.value, players[i].id);
        }
      }
    }

    /** The shields the players hold; the two players may hold the same one. */
    function Shields(): set<ShieldEffect>
      reads this, players
    {
      ShieldsOf(players)
    }

    /**
     * pause: only from play. The game is marked paused and the pause time
     * recorded for the item manager; each player's active shield has its
     * remaining time frozen, a running lock has its remaining time saved, and
     * in capture mode the home countdown is paused.
     */
    method Pause(now: real)
      requires Valid()
      modifies this`gameState, itemManager`pauseStartTime
      modifies players`pausedLockTime, players`pausedHomeTime, players`homeCountdownPaused
      modifies Shields()`pausedRemainingTime, Shields()`pauseStartTime
      ensures Valid()
      ensures old(gameState) != Playing ==>
                && gameState == old(gameState) && itemManager.pauseStartTime == old(itemManager.pauseStartTime)
                && forall k :: 0 <= k < |players| ==> TimersKept(players[k]) && ShieldKept(players[k].shield)
      ensures old(gameState) == Playing ==>
                && gameState == Paused && itemManager.pauseStartTime == Some(now)
                && forall k :: 0 <= k < |players| ==>
                     PlayerPaused(players[k], gameMode, now) && ShieldPaused(players[k].shield, now)
    {
      if gameState != Playing {
        return;
      }
      // The players' part touches no state the first two steps do, so it is done first here.
      PauseAll(players, gameMode, now);
      gameState := Paused;
      itemManager.pauseStartTime := Some(now);
    }

    /**
     * resume: only from a pause. Play resumes; the initial barriers' start
     * time is pushed back by the length of the pause; each shield that
     * recorded a pause has its start time pushed back likewise and its pause
     * records cleared; a saved lock time becomes a lock ending that long
     * after now; in capture mode the home countdown resumes.
     */
    method Resume(now: real)
      requires Valid()
      modifies this`gameState, itemManager`pauseStartTime, itemManager`initialBarrierStartTime
      modifies players`lockTime, players`pausedLockTime, players`homeStartTime, players`pausedHomeTime, players`homeCountdownPaused
      modifies Shields()`startTime, Shields()`pausedRemainingTime, Shields()`pauseStartTime
      ensures Valid()
      ensures old(gameState) != Paused ==>
                && gameState == old(gameState) && BarrierClockKept(itemManager)
                && forall k :: 0 <= k < |players| ==> TimersKept(players[k]) && ShieldKept(players[k].shield)
      ensures old(gameState) == Paused ==>
                && gameState == Playing
                && (Truthy(old(itemManager.pauseStartTime)) ==>
                      && itemManager.initialBarrierStartTime
                         == old(itemManager.initialBarrierStartTime) + (now - old(itemManager.pauseStartTime).value)
                      && itemManager.pauseStartTime == None)
                && (!Truthy(old(itemManager.pauseStartTime)) ==> BarrierClockKept(itemManager))
                && forall k :: 0 <= k < |players| ==>
                     PlayerResumed(players[k], gameMode, now) && ShieldResumed(players[k].shield, now)
    {
      if gameState != Paused {
        return;
      }
      ResumePlay(now);
    }

    /** resume once the game is known to be paused. */
    method ResumePlay(now: real)
      requires Valid()
      modifies this`gameState, itemManager`pauseStartTime, itemManager`initialBarrierStartTime
      modifies players`lockTime, players`pausedLockTime, players`homeStartTime, players`pausedHomeTime, players`homeCountdownPaused
      modifies Shields()`startTime, Shields()`pausedRemainingTime, Shields()`pauseStartTime
      ensures Valid() && gameState == Playing
      ensures Truthy(old(itemManager.pauseStartTime)) ==>
                && itemManager.initialBarrierStartTime
                   == old(itemManager.initialBarrierStartTime) + (now - old(itemManager.pauseStartTime).value)
                && itemManager.pauseStartTime == None
      ensures !Truthy(old(itemManager.pauseStartTime)) ==> BarrierClockKept(itemManager)
      ensures forall k :: 0 <= k < |players| ==> PlayerResumed(players[k], gameMode, now) && ShieldResumed(players[k].shield, now)
    {
      // The players' part touches no state the first two steps do, so it is done first here.
      ResumeAll(players, gameMode, now);
      gameState := Playing;
      ResumeBarrierClock(itemManager, now);
    }

    /**
     * start: the difficulty and the mode are applied again, then the
     * countdown, the clocks and the counters restart, the players go back to
     * their spawn points, the territories and the items are cleared, and the
     * first frame runs. Its frame clock reading is the one start took, so
     * that frame has zero length: the countdown stays at 3 s and no physics
     * step runs. The earlier engine's mode lookup fails for day/night (`ok`
     * false) and start stops there.
     */
    method Start(frameNow: real, now: real, rng: RandomSource, env: Env) returns (ok: bool)
      requires Valid() && IsSqrt(env.sqrt) && rng.Valid()
      modifies this`difficulty, this`maxGameTime, this`gameMode, this`gameState, this`countdown, this`countdownActive
      modifies this`gameTime, this`currentTime, this`accumulator, this`timer, this`screen
      modifies players, ShieldsOf(players), rng, territory`areas, territory`scoreCache
      modifies itemManager`spawnTimer, itemManager`initialBarriers, itemManager`lastItemSpawn
      modifies itemManager`lastObstacleSpawn, itemManager`items, itemManager`obstacles
      modifies flagManager.flags, survivalManager`aiEnemies, survivalManager`spawnTimer, survivalManager.aiEnemies
      modifies itemManager`initialBarriersCreated, itemManager`initialBarrierStartTime, itemManager`pauseStartTime
      modifies flagManager`flags, survivalManager`difficultyMultiplier, survivalManager`enemyCount
      modifies survivalManager`maxEnemies, survivalManager`spawnInterval
      ensures Valid() && rng.Valid()
      ensures ok == ModeLives(variant, old(gameMode)).Some?
      ensures ok ==>
                && gameState == Countdown && countdownActive && countdown == CountdownSeconds
                && gameTime == 0.0 && accumulator == 0.0 && currentTime == frameNow && timer == 0
    {
      ok := PrepareStart(frameNow, now, rng, env.sqrt);
      if ok {
        NoShields(players);
        var steps, interpolation := GameLoop(frameNow, now, rng, env);
      }
    }

    /** What start does before its first frame: the difficulty and the mode, then the resets. */
    method PrepareStart(frameNow: real, now: real, rng: RandomSource, sqrt: real -> real) returns (ok: bool)
      requires Valid() && IsSqrt(sqrt) && rng.Valid()
      modifies this`difficulty, this`maxGameTime, this`gameMode, this`gameState, this`countdown, this`countdownActive
      modifies this`gameTime, this`currentTime, this`accumulator, this`timer
      modifies players, rng, territory`areas, flagManager`flags
      modifies itemManager`items, itemManager`obstacles, itemManager`initialBarriers, itemManager`initialBarriersCreated
      modifies itemManager`initialBarrierStartTime, itemManager`pauseStartTime
      modifies survivalManager`aiEnemies, survivalManager`spawnTimer, survivalManager`difficultyMultiplier
      modifies survivalManager`enemyCount, survivalManager`maxEnemies, survivalManager`spawnInterval
      ensures Valid() && rng.Valid()
      ensures difficulty == old(difficulty) && gameMode == old(gameMode)
      ensures maxGameTime == DifficultyRow(variant, difficulty).maxTime
      ensures ok == ModeLives(variant, gameMode).Some?
      ensures ok ==> RoundReset(frameNow, now)
      ensures ok ==> forall k :: 0 <= k < |players| ==>
                       && players[k].lives == ModeLives(variant, gameMode).value
                       && Tuned(players[k], DifficultyRow(variant, difficulty), Spacing(variant, old(players[k].standarddistance)))
      ensures flagManager.flags == old(flagManager.flags) || forall k :: 0 <= k < |flagManager.flags| ==> fresh(flagManager.flags[k])
      ensures survivalManager.aiEnemies == old(survivalManager.aiEnemies)
              || forall k :: 0 <= k < |survivalManager.aiEnemies| ==> fresh(survivalManager.aiEnemies[k])
    {
      ok := Configure(rng, sqrt);
      if ok {
        ResetRound(frameNow, now);
      }
    }

    /** start's first two calls: setDifficulty and setgamemode with the current difficulty and mode. */
    method Configure(rng: RandomSource, sqrt: real -> real) returns (ok: bool)
      requires Valid() && IsSqrt(sqrt) && rng.Valid()
      modifies this`difficulty, this`maxGameTime, this`gameMode
      modifies players`speed, players`trailLength, players`standarddistance, players`lives, rng, flagManager`flags
      modifies survivalManager`aiEnemies, survivalManager`spawnTimer, survivalManager`difficultyMultiplier
      modifies survivalManager`enemyCount, survivalManager`maxEnemies, survivalManager`spawnInterval
      ensures Valid() && rng.Valid()
      ensures difficulty == old(difficulty) && gameMode == old(gameMode)
      ensures maxGameTime == DifficultyRow(variant, difficulty).maxTime
      ensures ok == ModeLives(variant, gameMode).Some?
      ensures ok ==> forall k :: 0 <= k < |players| ==>
                       && players[k].lives == ModeLives(variant, gameMode).value
                       && Tuned(players[k], DifficultyRow(variant, difficulty), Spacing(variant, old(players[k].standarddistance)))
      ensures flagManager.flags == old(flagManager.flags) || forall k :: 0 <= k < |flagManager.flags| ==> fresh(flagManager.flags[k])
      ensures survivalManager.aiEnemies == old(survivalManager.aiEnemies)
              || forall k :: 0 <= k < |survivalManager.aiEnemies| ==> fresh(survivalManager.aiEnemies[k])
    {
      SetDifficulty(difficulty);
      ok := SetGameMode(gameMode, rng, sqrt);
    }

    /** The state start leaves before its first frame. */
    ghost predicate RoundReset(frameNow: real, now: real)
      reads this, players, territory, itemManager
    {
      && gameState == Countdown && countdownActive && countdown == CountdownSeconds
      && gameTime == 0.0 && accumulator == 0.0 && currentTime == frameNow && timer == 0
      && |players| == 2 && AtSpawn(players[0], Spawn(0)) && AtSpawn(players[1], Spawn(1))
      && (forall id :: territory.PlayerTerritories(id) == [])
      && itemManager.items == [] && itemManager.obstacles == []
      && itemManager.initialBarrierStartTime == now && itemManager.pauseStartTime == None
    }

    /** start's resets: the countdown and the clocks, the players at their spawn points, the territories and the items. */
    method ResetRound(frameNow: real, now: real)
      requires Valid()
      modifies this`gameState, this`countdown, this`countdownActive, this`gameTime, this`currentTime, this`accumulator, this`timer
      modifies players, territory`areas
      modifies itemManager`items, itemManager`obstacles, itemManager`initialBarriers, itemManager`initialBarriersCreated
      modifies itemManager`initialBarrierStartTime, itemManager`pauseStartTime
      ensures Valid() && RoundReset(frameNow, now)
      ensures forall k :: 0 <= k < |players| ==>
                && players[k].lives == old(players[k].lives) && players[k].speed == old(players[k].speed)
                && players[k].trailLength == old(players[k].trailLength)
                && players[k].standarddistance == old(players[k].standarddistance)
    {
      ResetClocks(frameNow, now);
      ResetPlayers();
      territory.Reset();
      itemManager.Reset(now);
      timer := 0;
    }

    /** start's countdown and clocks, and the initial barriers' start time. */
    method ResetClocks(frameNow: real, now: real)
      modifies this`gameState, this`countdown, this`countdownActive, this`gameTime, this`currentTime, this`accumulator
      modifies itemManager`initialBarrierStartTime
      ensures gameState == Countdown && countdownActive && countdown == CountdownSeconds
      ensures gameTime == 0.0 && accumulator == 0.0 && currentTime == frameNow
      ensures itemManager.initialBarrierStartTime == now
    {
      countdown := CountdownSeconds;
      countdownActive := true;
      gameState := Countdown;
      gameTime := 0.0;
      currentTime := frameNow;
      accumulator := 0.0;
      itemManager.initialBarrierStartTime := now;
    }

    /** Both players back at their spawn points, keeping their lives and tuning. */
    method ResetPlayers()
      requires Valid()
      modifies players
      ensures Valid() && AtSpawn(players[0], Spawn(0)) && AtSpawn(players[1], Spawn(1))
      ensures forall k :: 0 <= k < |players| ==>
                && players[k].lives == old(players[k].lives) && players[k].speed == old(players[k].speed)
                && players[k].trailLength == old(players[k].trailLength)
                && players[k].standarddistance == old(players[k].standarddistance)
    {
      players[0].Reset(Spawn(0).x, Spawn(0).y);
      players[1].Reset(Spawn(1).x, Spawn(1).y);
    }

    /** restart: back to the menu. The start it schedules 100 ms later is a separate call to Start. */
    method Restart()
      modifies this`gameState
      ensures gameState == Menu
    {
      gameState := Menu;
    }

    /**
     * gameLoop: one animation frame, outside the menu and the game-over
     * screen. The frame time (capped at 250 ms) is accumulated unless the
     * game is paused; a countdown runs down by it. While playing, whole
     * timesteps are taken out of the accumulator and run by fixedUpdate, at
     * most MAX_FRAME_SKIP of them, whatever the game state becomes
     * meanwhile. The rest, in timesteps, is the interpolation factor handed
     * to render.
     */
    method GameLoop(frameNow: real, now: real, rng: RandomSource, env: Env) returns (steps: nat, interpolation: real)
      requires Valid() && IsSqrt(env.sqrt) && rng.Valid()
      modifies this`currentTime, this`accumulator, this`countdown, this`countdownActive
      modifies this`timer, this`gameTime, this`gameState, this`screen, itemManager`initialBarrierStartTime
      modifies players, ShieldsOf(players), rng, territory`areas, territory`scoreCache
      modifies itemManager`spawnTimer, itemManager`initialBarriers, itemManager`lastItemSpawn
      modifies itemManager`lastObstacleSpawn, itemManager`items, itemManager`obstacles
      modifies flagManager.flags, survivalManager`aiEnemies, survivalManager`spawnTimer, survivalManager.aiEnemies
      ensures Valid() && rng.Valid()
      ensures !Running(old(gameState)) ==>
                && steps == 0 && gameState == old(gameState) && currentTime == old(currentTime) && accumulator == old(accumulator)
      ensures Running(old(gameState)) ==> currentTime == frameNow && interpolation == accumulator / Timestep(variant)
      ensures old(gameState) != Playing ==> steps == 0 && gameTime == old(gameTime) && timer == old(timer)
      ensures old(gameState) == Paused ==> gameState == Paused && accumulator == old(accumulator)
      ensures old(gameState) == Countdown ==> CountedDown(old(countdown), old(countdownActive), old(accumulator), FrameTime(frameNow, old(currentTime)), now)
      ensures old(gameState) == Playing ==>
                var acc := old(accumulator) + FrameTime(frameNow, old(currentTime));
                && steps == StepCount(acc, Timestep(variant), MaxFrameSkip)
                && accumulator == Remainder(acc, Timestep(variant), MaxFrameSkip)
                && gameTime == old(gameTime) + (acc - accumulator)
                && (acc >= 0.0 && steps < MaxFrameSkip ==> 0.0 <= interpolation < 1.0)
    {
      steps, interpolation := 0, 0.0;
      if !Running(gameState) {
        return;
      }
      if gameState == Playing {
        steps, interpolation := PlayingFrame(frameNow, now, rng, env);
      } else {
        steps, interpolation := WaitingFrame(frameNow, now, rng, env);
      }
    }

    /** A frame of gameLoop while playing: the frame time is accumulated, then paid out in steps. */
    method PlayingFrame(frameNow: real, now: real, rng: RandomSource, env: Env) returns (steps: nat, interpolation: real)
      requires Valid() && IsSqrt(env.sqrt) && rng.Valid() && gameState == Playing
      modifies this`currentTime, this`accumulator, this`countdown, this`countdownActive
      modifies this`timer, this`gameTime, this`gameState, this`screen, itemManager`initialBarrierStartTime
      modifies players, ShieldsOf(players), rng, territory`areas, territory`scoreCache
      modifies itemManager`spawnTimer, itemManager`initialBarriers, itemManager`lastItemSpawn
      modifies itemManager`lastObstacleSpawn, itemManager`items, itemManager`obstacles
      modifies flagManager.flags, survivalManager`aiEnemies, survivalManager`spawnTimer, survivalManager.aiEnemies
      ensures Valid() && rng.Valid()
      ensures currentTime == frameNow && interpolation == accumulator / Timestep(variant)
      ensures var acc := old(accumulator) + FrameTime(frameNow, old(currentTime));
              && steps == StepCount(acc, Timestep(variant), MaxFrameSkip)
              && accumulator == Remainder(acc, Timestep(variant), MaxFrameSkip)
              && gameTime == old(gameTime) + (acc - accumulator)
              && (acc >= 0.0 && steps < MaxFrameSkip ==> 0.0 <= interpolation < 1.0)
    {
      FrameClock(frameNow, now);
      steps, interpolation := TakeSteps(now, rng, env);
    }

    /**
     * A frame of gameLoop during the countdown or a pause: no step runs,
     * even on the frame where the countdown ends, because play starts with
     * an empty accumulator.
     */
    method WaitingFrame(frameNow: real, now: real, rng: RandomSource, env: Env) returns (steps: nat, interpolation: real)
      requires Valid() && IsSqrt(env.sqrt) && rng.Valid() && (gameState == Countdown || gameState == Paused)
      modifies this`currentTime, this`accumulator, this`countdown, this`countdownActive
      modifies this`timer, this`gameTime, this`gameState, this`screen, itemManager`initialBarrierStartTime
      modifies players, ShieldsOf(players), rng, territory`areas, territory`scoreCache
      modifies itemManager`spawnTimer, itemManager`initialBarriers, itemManager`lastItemSpawn
      modifies itemManager`lastObstacleSpawn, itemManager`items, itemManager`obstacles
      modifies flagManager.flags, survivalManager`aiEnemies, survivalManager`spawnTimer, survivalManager.aiEnemies
      ensures Valid() && rng.Valid()
      ensures currentTime == frameNow && interpolation == accumulator / Timestep(variant)
      ensures steps == 0 && gameTime == old(gameTime) && timer == old(timer)
      ensures old(gameState) == Paused ==> gameState == Paused && accumulator == old(accumulator)
      ensures old(gameState) == Countdown ==> CountedDown(old(countdown), old(countdownActive), old(accumulator), FrameTime(frameNow, old(currentTime)), now)
    {
      FrameClock(frameNow, now);
      steps, interpolation := TakeSteps(now, rng, env);
    }

    /**
     * gameLoop after its clock part: while playing, the physics steps the
     * accumulator pays for; then the interpolation factor. Less than one
     * timestep in the accumulator runs no step and changes nothing.
     */
    method TakeSteps(now: real, rng: RandomSource, env: Env) returns (steps: nat, interpolation: real)
      requires Valid() && IsSqrt(env.sqrt) && rng.Valid()
      modifies this`accumulator, this`timer, this`gameTime, this`gameState, this`screen
      modifies players, ShieldsOf(players), rng, territory`areas, territory`scoreCache
      modifies itemManager`spawnTimer, itemManager`initialBarriers, itemManager`lastItemSpawn
      modifies itemManager`lastObstacleSpawn, itemManager`items, itemManager`obstacles
      modifies flagManager.flags, survivalManager`aiEnemies, survivalManager`spawnTimer, survivalManager.aiEnemies
      ensures Valid() && rng.Valid()
      ensures interpolation == accumulator / Timestep(variant)
      ensures old(gameState) != Playing || old(accumulator) < Timestep(variant) ==>
                && steps == 0 && accumulator == old(accumulator) && gameState == old(gameState)
                && gameTime == old(gameTime) && timer == old(timer)
      ensures old(gameState) == Playing ==>
                && steps == StepCount(old(accumulator), Timestep(variant), MaxFrameSkip)
                && accumulator == Remainder(old(accumulator), Timestep(variant), MaxFrameSkip)
                && gameTime == old(gameTime) + (old(accumulator) - accumulator)
                && (old(accumulator) >= 0.0 && steps < MaxFrameSkip ==> 0.0 <= interpolation < 1.0)
    {
      steps := 0;
      if gameState == Playing {
        steps := PhysicsSteps(now, rng, env);
      }
      interpolation := accumulator / Timestep(variant);
      if old(gameState) == Playing && old(accumulator) >= 0.0 && steps < MaxFrameSkip {
        InterpolationInRange(old(accumulator), Timestep(variant), MaxFrameSkip);
      }
    }

    /**
     * The countdown's part of a frame of length ft: the countdown falls by
     * ft in seconds; at zero or below, play starts with an empty accumulator
     * and the initial barriers' clock restarted, otherwise the frame is
     * accumulated.
     */
    ghost predicate CountedDown(countdown0: real, active0: bool, acc0: real, ft: real, now: real)
      reads this`countdown, this`gameState, this`countdownActive, this`accumulator
      reads itemManager`initialBarrierStartTime
    {
      var left := countdown0 - ft / 1000.0;
      && countdown == left
      && (left > 0.0 ==> gameState == Countdown && countdownActive == active0 && accumulator == acc0 + ft)
      && (left <= 0.0 ==>
            && gameState == Playing && !countdownActive && accumulator == 0.0
            && itemManager.initialBarrierStartTime == now)
    }

    /** gameLoop's clock part: the frame time is taken and accumulated (unless paused) and the countdown runs. */
    method FrameClock(frameNow: real, now: real)
      requires Running(gameState)
      modifies this`currentTime, this`accumulator, this`countdown, this`countdownActive, this`gameState
      modifies itemManager`initialBarrierStartTime
      ensures currentTime == frameNow
      ensures old(gameState) == Playing ==> gameState == Playing && accumulator == old(accumulator) + FrameTime(frameNow, old(currentTime))
      ensures old(gameState) == Paused ==> gameState == Paused && accumulator == old(accumulator)
      ensures old(gameState) == Countdown ==>
                && CountedDown(old(countdown), old(countdownActive), old(accumulator), FrameTime(frameNow, old(currentTime)), now)
                && (gameState == Playing ==> accumulator == 0.0)
    {
      var frameTime := FrameTime(frameNow, currentTime);
      currentTime := frameNow;
      if gameState != Paused {
        accumulator := accumulator + frameTime;
      }
      if gameState == Countdown {
        countdown := countdown - frameTime / 1000.0;
        if countdown <= 0.0 {
          countdownActive := false;
          gameState := Playing;
          accumulator := 0.0;
          itemManager.initialBarrierStartTime := now;
        }
      }
    }

    /**
     * gameLoop's physics loop: while a whole timestep is accumulated and
     * fewer than MAX_FRAME_SKIP steps ran, fixedUpdate runs one timestep
     * and the timestep leaves the accumulator.
     */
    method PhysicsSteps(now: real, rng: RandomSource, env: Env) returns (steps: nat)
      requires Valid() && IsSqrt(env.sqrt) && rng.Valid()
      modifies this`accumulator, this`timer, this`gameTime, this`gameState, this`screen
      modifies players, ShieldsOf(players), rng, territory`areas, territory`scoreCache
      modifies itemManager`spawnTimer, itemManager`initialBarriers, itemManager`lastItemSpawn
      modifies itemManager`lastObstacleSpawn, itemManager`items, itemManager`obstacles
      modifies flagManager.flags, survivalManager`aiEnemies, survivalManager`spawnTimer, survivalManager.aiEnemies
      ensures Valid() && rng.Valid()
      ensures steps == StepCount(old(accumulator), Timestep(variant), MaxFrameSkip)
      ensures accumulator == Remainder(old(accumulator), Timestep(variant), MaxFrameSkip)
      ensures gameTime == old(gameTime) + (old(accumulator) - accumulator)
      ensures steps == 0 ==> gameState == old(gameState) && timer == old(timer)
    {
      var ts := Timestep(variant);
      steps := 0;
      while accumulator >= ts && steps < MaxFrameSkip
        invariant Valid() && rng.Valid()
        invariant StepsSoFar(old(accumulator), old(gameTime), accumulator, gameTime, ts, steps)
        invariant steps == 0 ==> gameState == old(gameState) && timer == old(timer)
        invariant ShieldRenewed(players[0]) && ShieldRenewed(players[1])
        invariant EnemiesExtended(survivalManager)
        decreases MaxFrameSkip - steps
      {
        ShieldsRenewed(players);
        Step(ts, now, rng, env, old(accumulator), old(gameTime), steps);
        steps := steps + 1;
      }
    }

    /** One fixedUpdate of the physics loop, with what the loop needs to know of it. */
    method Step(ts: real, now: real, rng: RandomSource, env: Env, ghost acc0: real, ghost g0: real, ghost steps: nat)
      requires Valid() && IsSqrt(env.sqrt) && rng.Valid() && ts > 0.0
      requires StepsSoFar(acc0, g0, accumulator, gameTime, ts, steps) && accumulator >= ts && steps < MaxFrameSkip
      modifies this`accumulator, this`timer, this`gameTime, this`gameState, this`screen
      modifies players, ShieldsOf(players), rng, territory`areas, territory`scoreCache
      modifies itemManager`spawnTimer, itemManager`initialBarriers, itemManager`lastItemSpawn
      modifies itemManager`lastObstacleSpawn, itemManager`items, itemManager`obstacles
      modifies flagManager.flags, survivalManager`aiEnemies, survivalManager`spawnTimer, survivalManager.aiEnemies
      ensures Valid() && rng.Valid() && StepsSoFar(acc0, g0, accumulator, gameTime, ts, steps + 1)
      ensures ShieldRenewed(players[0]) && ShieldRenewed(players[1])
      ensures EnemiesExtended(survivalManager)
    {
      StepTaken(acc0, g0, accumulator, gameTime, ts, steps);
      Physics(ts, now, rng, env);
      accumulator := accumulator - ts;
    }

    /** fixedUpdate seen from the physics loop: the game time advances by the step, and what it allocates is new. */
    method Physics(ts: real, now: real, rng: RandomSource, env: Env)
      requires Valid() && IsSqrt(env.sqrt) && rng.Valid()
      modifies this`timer, this`gameTime, this`gameState, this`screen
      modifies players, ShieldsOf(players), rng, territory`areas, territory`scoreCache
      modifies itemManager`spawnTimer, itemManager`initialBarriers, itemManager`lastItemSpawn
      modifies itemManager`lastObstacleSpawn, itemManager`items, itemManager`obstacles
      modifies flagManager.flags, survivalManager`aiEnemies, survivalManager`spawnTimer, survivalManager.aiEnemies
      ensures Valid() && rng.Valid() && gameTime == old(gameTime) + ts
      ensures ShieldRenewed(players[0]) && ShieldRenewed(players[1])
      ensures EnemiesExtended(survivalManager)
    {
      FixedUpdate(ts, now, rng, env);
    }
  }

  /** The pause-related records of a player at one moment. */
  datatype Timers = Timers(lockTime: Option<real>, pausedLockTime: Option<real>,
                           homeStartTime: Option<real>, pausedHomeTime: Option<real>, homeCountdownPaused: bool)

  function TimersOf(p: Player): Timers
    reads p
  {
    Timers(p.lockTime, p.pausedLockTime, p.homeStartTime, p.pausedHomeTime, p.homeCountdownPaused)
  }

  /** pause's effect on a player's records: a running lock saved as its remaining time, and the capture-mode home countdown paused. */
  function PauseTimers(t: Timers, mode: GameMode, now: real): Timers
  {
    var t1 := if Truthy(t.lockTime) && now < t.lockTime.value then t.(pausedLockTime := Some(t.lockTime.value - now)) else t;
    if mode == Capture && Truthy(t.homeStartTime) && !t.homeCountdownPaused
    then t1.(pausedHomeTime := Some(now - t.homeStartTime.value), homeCountdownPaused := true)
    else t1
  }

  /** resume's effect on a player's records: a saved lock restarted from now, and the capture-mode home countdown resumed. */
  function ResumeTimers(t: Timers, mode: GameMode, now: real): Timers
  {
    var t1 := if Truthy(t.pausedLockTime) then t.(lockTime := Some(now + t.pausedLockTime.value), pausedLockTime := None) else t;
    if mode == Capture && t.homeCountdownPaused && Truthy(t.pausedHomeTime)
    then t1.(homeStartTime := Some(now - t.pausedHomeTime.value), pausedHomeTime := None, homeCountdownPaused := false)
    else t1
  }

  /**
   * A lock running at the pause (time t1) runs again after the resume (time
   * t2) with as much time left as it had at t1.
   */
  lemma PauseResumeLock(t: Timers, mode: GameMode, t1: real, t2: real)
    requires Truthy(t.lockTime) && t1 < t.lockTime.value && t1 <= t2
    ensures var r := ResumeTimers(PauseTimers(t, mode, t1), mode, t2);
            && r.lockTime == Some(t.lockTime.value + (t2 - t1)) && t2 < r.lockTime.value
            && r.pausedLockTime == None
  {
  }

  /**
   * In capture mode a home countdown running at the pause resumes with the
   * same elapsed time, unless the pause fell in the very millisecond the
   * countdown began: the elapsed time saved is then 0, which resume reads as
   * no saved time, and the countdown stays paused.
   */
  lemma PauseResumeHome(t: Timers, t1: real, t2: real)
    requires Truthy(t.homeStartTime) && !t.homeCountdownPaused
    ensures var r := ResumeTimers(PauseTimers(t, Capture, t1), Capture, t2);
            && (t1 != t.homeStartTime.value ==>
                  && r.homeStartTime == Some(t.homeStartTime.value + (t2 - t1))
                  && r.pausedHomeTime == None && !r.homeCountdownPaused)
            && (t1 == t.homeStartTime.value ==> r.homeStartTime == t.homeStartTime && r.homeCountdownPaused)
  {
  }

  /** Outside capture mode pause and resume leave the home countdown alone. */
  lemma PauseResumeNoHome(t: Timers, mode: GameMode, t1: real, t2: real)
    requires mode != Capture
    ensures var r := ResumeTimers(PauseTimers(t, mode, t1), mode, t2);
            r.homeStartTime == t.homeStartTime && r.pausedHomeTime == t.pausedHomeTime
            && r.homeCountdownPaused == t.homeCountdownPaused
  {
  }

  /**
   * A running shield paused at t1 and resumed at t2 is running again with
   * no pause records and exactly the time left it had at t1.
   */
  lemma PauseResumeShield(c: ShieldClock, duration: real, t1: real, t2: real)
    requires c.active && c.pausedRemainingTime.None? && 0.0 < t1 <= t2
    ensures var r := ResumeClock(PauseClock(c, duration, t1), t2);
            && r.active && r.pausedRemainingTime == None && r.pauseStartTime == None
            && Remaining(r, duration, t2) == Remaining(c, duration, t1)
  {
  }

  /** A player as pause leaves it. */
  twostate predicate PlayerPaused(p: Player, mode: GameMode, now: real)
    reads p
  {
    TimersOf(p) == PauseTimers(old(TimersOf(p)), mode, now)
  }

  /** A player as resume leaves it. */
  twostate predicate PlayerResumed(p: Player, mode: GameMode, now: real)
    reads p
  {
    TimersOf(p) == ResumeTimers(old(TimersOf(p)), mode, now)
  }

  /** A player whose pause-related records are as they were. */
  twostate predicate TimersKept(p: Player)
    reads p
  {
    TimersOf(p) == old(TimersOf(p))
  }

  /**
   * pause's effect on a shield: an active one has its remaining time at the
   * pause frozen (so getRemainingTime keeps answering it) and the pause start
   * recorded; an inactive one is untouched.
   */
  function PauseClock(c: ShieldClock, duration: real, now: real): ShieldClock
  {
    if c.active then c.(pausedRemainingTime := Some(Remaining(c, duration, now)), pauseStartTime := Some(now)) else c
  }

  /** resume's effect on a shield: one that recorded a pause has its start moved later by the pause's length and its records cleared. */
  function ResumeClock(c: ShieldClock, now: real): ShieldClock
  {
    if Truthy(c.pauseStartTime)
    then c.(startTime := c.startTime + (now - c.pauseStartTime.value), pauseStartTime := None, pausedRemainingTime := None)
    else c
  }

  /** A shield (if any) as pause leaves it. */
  twostate predicate ShieldPaused(s: ShieldEffect?, now: real)
    reads s
  {
    s != null ==> s.Clock() == PauseClock(old(s.Clock()), s.duration, now)
  }

  /** A shield (if any) as resume leaves it. */
  twostate predicate ShieldResumed(s: ShieldEffect?, now: real)
    reads s
  {
    s != null ==> s.Clock() == ResumeClock(old(s.Clock()), now)
  }

  /** A shield (if any) left exactly as it was. */
  twostate predicate ShieldKept(s: ShieldEffect?)
    reads s
  {
    s != null ==> s.Clock() == old(s.Clock())
  }

  /** The shields a list of players holds. */
  function ShieldsOf(ps: seq<Player>): set<ShieldEffect>
    reads ps
  {
    set k | 0 <= k < |ps| && ps[k].shield != null :: ps[k].shield
  }

  /** Each player holding no shield, its old one or a new one: every shield among them is an old one or new. */
  twostate lemma ShieldsRenewed(ps: seq<Player>)
    requires forall k :: 0 <= k < |ps| ==> ShieldRenewed(ps[k])
    ensures forall s :: s in ShieldsOf(ps) ==> s in old(ShieldsOf(ps)) || fresh(s)
  {
  }

  /** Players that hold no shield have no shields among them. */
  lemma NoShields(ps: seq<Player>)
    requires forall k :: 0 <= k < |ps| ==> ps[k].shield == null
    ensures ShieldsOf(ps) == {}
  {
  }

  /** The shield a player holds, as a set (empty when it holds none). */
  function ShieldOf(p: Player): set<ShieldEffect>
    reads p
  {
    if p.shield == null then {} else {p.shield}
  }

  /**
   * pause's loop over the players (which may share a shield). Each turn
   * touches the player's shield and the player's own records, which are
   * different objects, so the shields are done in one pass and the records
   * in a second with the same outcome.
   */
  method PauseAll(ps: seq<Player>, mode: GameMode, now: real)
    requires Distinct(ps)
    modifies ps`pausedLockTime, ps`pausedHomeTime, ps`homeCountdownPaused
    modifies ShieldsOf(ps)`pausedRemainingTime, ShieldsOf(ps)`pauseStartTime
    ensures forall k :: 0 <= k < |ps| ==> PlayerPaused(ps[k], mode, now) && ShieldPaused(ps[k].shield, now)
  {
    PauseShields(ps, now);
    PauseTimersAll(ps, mode, now);
  }

  /** The shield half of pause's loop. */
  method PauseShields(ps: seq<Player>, now: real)
    modifies ShieldsOf(ps)`pausedRemainingTime, ShieldsOf(ps)`pauseStartTime
    ensures forall k :: 0 <= k < |ps| ==> ShieldPaused(ps[k].shield, now)
  {
    var i := 0;
    while i < |ps|
      invariant 0 <= i <= |ps|
      invariant forall k :: 0 <= k < i ==> ShieldPaused(ps[k].shield, now)
      invariant forall k :: i <= k < |ps| ==> ShieldPaused(ps[k].shield, now) || ShieldKept(ps[k].shield)
    {
      PauseShield(ps[i], now);
      i := i + 1;
    }
  }

  /** pause's treatment of one player's shield: an active one has its remaining time frozen. */
  method PauseShield(p: Player, now: real)
    modifies ShieldOf(p)`pausedRemainingTime, ShieldOf(p)`pauseStartTime
    ensures ShieldPaused(p.shield, now)
  {
    if p.shield != null && p.shield.IsActive() {
      p.shield.pausedRemainingTime := Some(p.shield.RemainingTime(now));
      p.shield.pauseStartTime := Some(now);
    }
  }

  /** The players' half of pause's loop. */
  method PauseTimersAll(ps: seq<Player>, mode: GameMode, now: real)
    requires Distinct(ps)
    modifies ps`pausedLockTime, ps`pausedHomeTime, ps`homeCountdownPaused
    ensures forall k :: 0 <= k < |ps| ==> PlayerPaused(ps[k], mode, now)
  {
    var i := 0;
    while i < |ps|
      invariant 0 <= i <= |ps|
      invariant forall k :: 0 <= k < i ==> PlayerPaused(ps[k], mode, now)
      invariant forall k :: i <= k < |ps| ==> TimersKept(ps[k])
    {
      PausePlayer(ps[i], mode, now);
      i := i + 1;
    }
  }

  /** pause's treatment of one player's own records: a running lock saved, the capture-mode home countdown paused. */
  method PausePlayer(p: Player, mode: GameMode, now: real)
    modifies p`pausedLockTime, p`pausedHomeTime, p`homeCountdownPaused
    ensures PlayerPaused(p, mode, now)
  {
    if p.Locked(now) {
      p.pausedLockTime := Some(p.lockTime.value - now);
    }
    if mode == Capture {
      p.PauseHomeCountdown(now);
    }
  }

  /** The item manager's pause record and initial-barrier clock as they were. */
  twostate predicate BarrierClockKept(im: ItemManager)
    reads im
  {
    im.pauseStartTime == old(im.pauseStartTime) && im.initialBarrierStartTime == old(im.initialBarrierStartTime)
  }

  /** resume's compensation of the initial barriers' clock for the pause. */
  method ResumeBarrierClock(im: ItemManager, now: real)
    modifies im`pauseStartTime, im`initialBarrierStartTime
    ensures Truthy(old(im.pauseStartTime)) ==>
              && im.initialBarrierStartTime == old(im.initialBarrierStartTime) + (now - old(im.pauseStartTime).value)
              && im.pauseStartTime == None
    ensures !Truthy(old(im.pauseStartTime)) ==> BarrierClockKept(im)
  {
    if Truthy(im.pauseStartTime) {
      var pauseDuration := now - im.pauseStartTime.value;
      im.initialBarrierStartTime := im.initialBarrierStartTime + pauseDuration;
      im.pauseStartTime := None;
    }
  }

  /** resume's loop over the players (which may share a shield), in two passes as for pause. */
  method ResumeAll(ps: seq<Player>, mode: GameMode, now: real)
    requires Distinct(ps)
    modifies ps`lockTime, ps`pausedLockTime, ps`homeStartTime, ps`pausedHomeTime, ps`homeCountdownPaused
    modifies ShieldsOf(ps)`startTime, ShieldsOf(ps)`pausedRemainingTime, ShieldsOf(ps)`pauseStartTime
    ensures forall k :: 0 <= k < |ps| ==> PlayerResumed(ps[k], mode, now) && ShieldResumed(ps[k].shield, now)
  {
    ResumeShields(ps, now);
    ResumeTimersAll(ps, mode, now);
  }

  /** The shield half of resume's loop. */
  method ResumeShields(ps: seq<Player>, now: real)
    modifies ShieldsOf(ps)`startTime, ShieldsOf(ps)`pausedRemainingTime, ShieldsOf(ps)`pauseStartTime
    ensures forall k :: 0 <= k < |ps| ==> ShieldResumed(ps[k].shield, now)
  {
    var i := 0;
    while i < |ps|
      invariant 0 <= i <= |ps|
      invariant forall k :: 0 <= k < i ==> ShieldResumed(ps[k].shield, now)
      invariant forall k :: i <= k < |ps| ==> ShieldResumed(ps[k].shield, now) || ShieldKept(ps[k].shield)
    {
      ResumeShield(ps[i], now);
      i := i + 1;
    }
  }

  /** resume's treatment of one player's shield: a recorded pause moves its start later and is cleared. */
  method ResumeShield(p: Player, now: real)
    modifies ShieldOf(p)`startTime, ShieldOf(p)`pausedRemainingTime, ShieldOf(p)`pauseStartTime
    ensures ShieldResumed(p.shield, now)
  {
    if p.shield != null && Truthy(p.shield.pauseStartTime) {
      var pauseDuration := now - p.shield.pauseStartTime.value;
      p.shield.startTime := p.shield.startTime + pauseDuration;
      p.shield.pauseStartTime := None;
      p.shield.pausedRemainingTime := None;
    }
  }

  /** The players' half of resume's loop. */
  method ResumeTimersAll(ps: seq<Player>, mode: GameMode, now: real)
    requires Distinct(ps)
    modifies ps`lockTime, ps`pausedLockTime, ps`homeStartTime, ps`pausedHomeTime, ps`homeCountdownPaused
    ensures forall k :: 0 <= k < |ps| ==> PlayerResumed(ps[k], mode, now)
  {
    var i := 0;
    while i < |ps|
      invariant 0 <= i <= |ps|
      invariant forall k :: 0 <= k < i ==> PlayerResumed(ps[k], mode, now)
      invariant forall k :: i <= k < |ps| ==> TimersKept(ps[k])
    {
      ResumePlayer(ps[i], mode, now);
      i := i + 1;
    }
  }

  /** resume's treatment of one player's own records: a saved lock restarted, the capture-mode home countdown resumed. */
  method ResumePlayer(p: Player, mode: GameMode, now: real)
    modifies p`lockTime, p`pausedLockTime, p`homeStartTime, p`pausedHomeTime, p`homeCountdownPaused
    ensures PlayerResumed(p, mode, now)
  {
    if Truthy(p.pausedLockTime) {
      p.lockTime := Some(now + p.pausedLockTime.value);
      p.pausedLockTime := None;
    }
    if mode == Capture {
      p.ResumeHomeCountdown(now);
    }
  }

  /**
   * The first half of one turn of the enclosure loop: the player's trail is
   * checked for an enclosure and, when one is found, the player is rescored.
   */
  method ClaimTerritory(player: Player, territory: Territory, w: real, h: real, env: Env) returns (r: Option<seq<Point>>)
    requires IsSqrt(env.sqrt) && territory.CacheInRange()
    modifies territory`areas, territory`scoreCache, player`trail, player`score
    ensures territory.CacheInRange()
    ensures r.None? ==> territory.areas == old(territory.areas) && player.score == old(player.score)
    ensures r.Some? ==> territory.PlayerTerritories(player.id) == old(territory.PlayerTerritories(player.id)) + [Clockwise(r.value)]
    ensures r.Some? ==> Scored(territory, player.id, w, h, env.num, player.score)
    ensures forall id :: id != player.id ==> territory.PlayerTerritories(id) == old(territory.PlayerTerritories(id))
  {
    r := territory.DetectEnclosure(player, env.sqrt);
    if r.Some? {
      var score := ScoreFor(territory, player.id, w, h, env.num, env.alpha);
      player.score := score;
    }
  }

  /** A territory list after a step: as it was, or with one polygon more at the end. */
  predicate Grew(before: seq<seq<Point>>, after: seq<seq<Point>>)
  {
    after == before || (|after| == |before| + 1 && after[..|before|] == before)
  }

  /** Every player's territory list is the one in `before`, or that with one polygon more at its end. */
  predicate TerritoriesGrew(e: GameEngine, before: map<int, seq<seq<Point>>>)
    reads e.territory
  {
    forall k :: 0 <= k < |e.players| ==> Grew(ListIn(before, e.players[k].id), e.territory.PlayerTerritories(e.players[k].id))
  }

  /** A player's territory list in a snapshot of the territory map (empty for an id it does not hold). */
  function ListIn(areas: map<int, seq<seq<Point>>>, id: int): seq<seq<Point>>
  {
    if id in areas then areas[id] else []
  }

  /**
   * In infinite mode, one of the first n players has a territory list that
   * differs from the one in `before` and a score of 60 or more.
   */
  predicate InfiniteWinAmong(e: GameEngine, before: map<int, seq<seq<Point>>>, n: nat)
    reads e`gameMode, e.players, e.territory
  {
    && e.gameMode == Infinite
    && exists k :: 0 <= k < n && k < |e.players| &&
         e.territory.PlayerTerritories(e.players[k].id) != ListIn(before, e.players[k].id)
         && e.players[k].score >= InfiniteWinScore
  }

  /** In infinite mode, some player claimed a territory since the map was `before` and has a score of 60 or more. */
  predicate InfiniteWin(e: GameEngine, before: map<int, seq<seq<Point>>>)
    reads e`gameMode, e.players, e.territory
  {
    InfiniteWinAmong(e, before, |e.players|)
  }

  /** The player has not moved, died, lost a life or scored. */
  twostate predicate Untouched(p: Player)
    reads p
  {
    && p.x == old(p.x) && p.y == old(p.y) && p.trail == old(p.trail)
    && p.lives == old(p.lives) && p.isAlive == old(p.isAlive) && p.score == old(p.score)
  }

  /** The player holds no shield, the shield it held before, or a new one. */
  twostate predicate ShieldRenewed(p: Player)
    reads p
  {
    p.shield == null || p.shield == old(p.shield) || fresh(p.shield)
  }

  /** The flags as the circles the item manager keeps new items away from. */
  function FlagCircles(fs: seq<Flag>): seq<Circle>
  {
    seq(|fs|, k requires 0 <= k < |fs| => Circle(fs[k].x, fs[k].y, fs[k].size))
  }

  /** The spawn points: fractions 0.15 and 0.85 of the width, half the height. */
  function Spawn(k: nat): Point
  {
    if k == 0 then Point(Config.P1StartFractionX * Config.CanvasWidth, Config.P1StartFractionY * Config.CanvasHeight)
    else Point(Config.P2StartFractionX * Config.CanvasWidth, Config.P2StartFractionY * Config.CanvasHeight)
  }

  /** A player as reset leaves it: at its spawn point, alive, with no trail, shield or territory. */
  ghost predicate AtSpawn(p: Player, s: Point)
    reads p
  {
    && p.x == s.x && p.y == s.y && p.startX == s.x && p.startY == s.y
    && p.trail == [] && p.isAlive && p.shield == null && p.territory == [] && p.score == 0.0
  }

  /** A player as setDifficulty leaves it: speed and trail cap from the row, and the given spacing. */
  ghost predicate Tuned(p: Player, row: Config.DifficultyRow, spacing: Option<Positive>)
    reads p
  {
    p.speed == row.speed && p.trailLength == row.length && p.standarddistance == spacing
  }

  /** The spacing after setDifficulty: 2 from the current engine, unchanged by the earlier one. */
  function Spacing(v: Variant, before: Option<Positive>): Option<Positive>
  {
    if v == Current then Some(Config.StandardDistance) else before
  }

  /** A player's spacing after n setDifficulty calls from `before`. */
  function SpacingAfter(v: Variant, n: nat, before: Option<Positive>): Option<Positive>
  {
    if n == 0 then before else SpacingAfter(v, n - 1, Spacing(v, before))
  }

  /**
   * The earlier engine never gives a player a spacing: a new player (whose
   * spacing is unset) keeps none however often the difficulty is set, so its
   * trail is never resampled.
   */
  lemma {:induction false} LegacySpacingNeverSet(n: nat)
    ensures SpacingAfter(Legacy, n, None) == None
  {
    if n > 0 {
      LegacySpacingNeverSet(n - 1);
    }
  }

  /** With the current engine one setDifficulty call fixes the spacing at 2, whatever came before. */
  lemma {:induction false} CurrentSpacingSet(n: nat, before: Option<Positive>)
    requires n > 0
    ensures SpacingAfter(Current, n, before) == Some(Config.StandardDistance)
  {
    if n > 1 {
      CurrentSpacingSet(n - 1, Spacing(Current, before));
    }
  }

  /** The number of living players in the list. */
  function CountAlive(ps: seq<Player>): (n: nat)
    reads ps
    ensures n <= |ps|
    ensures n == 0 <==> forall k :: 0 <= k < |ps| ==> !ps[k].isAlive
  {
    if ps == [] then 0 else CountAlive(ps[..|ps| - 1]) + (if ps[|ps| - 1].isAlive then 1 else 0)
  }
}

=== FILE: flags.dfy ===
/**
 * Capture mode (Flag.js): flags and their owners, the even-odd point-in-
 * polygon test that decides which flags a new territory takes, the per-player
 * flag counts, the capture-mode collision rules between the two players, and
 * the victory cascade (alive, then flags, then territory, then a draw).
 */
module Flags {
  import opened Common
  import Config
  import opened Players
  import opened Territories

  // ---------------------------------------------------------------------------
  // One flag
  // ---------------------------------------------------------------------------

  class Flag {
    const x: real
    const y: real
    const size: real
    const color: string
    const captureRadius: real
    /** The owning player's id; None stands for null. */
    var capturedBy: Option<int>

    constructor (x: real, y: real, size: real)
      ensures this.x == x && this.y == y && this.size == size && captureRadius == size
      ensures color == Config.FlagColor && capturedBy == None
    {
      this.x := x;
      this.y := y;
      this.size := size;
      color := Config.FlagColor;
      captureRadius := size;
      capturedBy := None;
    }

    predicate IsCapturedBy(playerId: int)
      reads this
    {
      capturedBy == Some(playerId)
    }

    /** capture: the flag belongs to playerId afterwards, whoever held it. */
    method Capture(playerId: int)
      modifies this`capturedBy
      ensures IsCapturedBy(playerId)
    {
      if capturedBy != Some(playerId) {
        capturedBy := Some(playerId);
      }
    }

    /** release: the flag belongs to nobody afterwards. */
    method Release()
      modifies this`capturedBy
      ensures capturedBy == None
      ensures forall id :: !IsCapturedBy(id)
    {
      if capturedBy != None {
        capturedBy := None;
      }
    }

    /**
     * getDisplayColor: the owner's colour when the owner id is non-zero and
     * names an entry of the players list (id - 1), otherwise the flag colour.
     */
    function DisplayColor(playerColors: seq<string>): (c: string)
      reads this
      ensures capturedBy.None? ==> c == color
      ensures capturedBy.Some? && 1 <= capturedBy.value <= |playerColors| ==> c == playerColors[capturedBy.value - 1]
      ensures capturedBy.Some? && !(1 <= capturedBy.value <= |playerColors|) ==> c == color
    {
      if capturedBy.Some? && capturedBy.value != 0 && 0 <= capturedBy.value - 1 < |playerColors|
      then playerColors[capturedBy.value - 1]
      else color
    }
  }

  // ---------------------------------------------------------------------------
  // Even-odd point in polygon
  // ---------------------------------------------------------------------------

  /** The index before i in a closed polygon of n vertices. */
  function PrevIndex(i: nat, n: nat): (j: nat)
    requires i < n
    ensures j < n
  {
    if i == 0 then n - 1 else i - 1
  }

  /**
   * The edge from vertex i back to the previous vertex crosses the horizontal
   * ray to the right of (x, y). The division is guarded: the first conjunct
   * implies that the two ends have different y.
   */
  predicate Crosses(poly: seq<Point>, x: real, y: real, i: nat)
    requires i < |poly|
  {
    var a, b := poly[i], poly[PrevIndex(i, |poly|)];
    ((a.y > y) != (b.y > y)) && x < CrossingX(a, b, y)
  }

  /** Where the line through a and b meets height y. */
  function CrossingX(a: Point, b: Point, y: real): real
    requires a.y != b.y
  {
    (b.x - a.x) * (y - a.y) / (b.y - a.y) + a.x
  }

  /** The parity of the crossings of the first k edges. */
  function ParityPrefix(poly: seq<Point>, x: real, y: real, k: nat): bool
    requires k <= |poly|
  {
    if k == 0 then false else ParityPrefix(poly, x, y, k - 1) != Crosses(poly, x, y, k - 1)
  }

  /** Inside by the even-odd rule: an odd number of crossings. */
  predicate InsideEvenOdd(x: real, y: real, poly: seq<Point>)
  {
    ParityPrefix(poly, x, y, |poly|)
  }

  /** isPointInPolygon: the crossing loop over the edges (i, j) with j trailing i. */
  method PointInPolygonEvenOdd(x: real, y: real, polygon: seq<Point>) returns (inside: bool)
    ensures inside == InsideEvenOdd(x, y, polygon)
  {
    inside := false;
    if |polygon| == 0 {
      return;
    }
    var i := 0;
    var j := |polygon| - 1;
    while i < |polygon|
      invariant 0 <= i <= |polygon|
      invariant i < |polygon| ==> j == PrevIndex(i, |polygon|)
      invariant inside == ParityPrefix(polygon, x, y, i)
    {
      var pi, pj := polygon[i], polygon[j];
      if ((pi.y > y) != (pj.y > y)) && x < CrossingX(pi, pj, y) {
        inside := !inside;
      }
      j := i;
      i := i + 1;
    }
  }

  /** Where the line through two points of different height meets height y, computed from either end. */
  lemma CrossingSymmetric(xi: real, yi: real, xj: real, yj: real, y: real)
    requires yi != yj
    ensures CrossingX(Point(xi, yi), Point(xj, yj), y) == CrossingX(Point(xj, yj), Point(xi, yi), y)
  {
    var d := yj - yi;
    var m := xj - xi;
    var a := m * (y - yi);
    var c := m * (y - yj);
    assert a - c == m * d;
    assert (xi - xj) * (y - yj) / (yi - yj) == c / d;
    assert a / d - c / d == (a - c) / d;
    assert (m * d) / d == m;
  }

  /** Fewer than three vertices enclose nothing: one vertex has no crossing, and two cross or miss twice. */
  lemma {:induction false} FewerThanThreeOutside(x: real, y: real, poly: seq<Point>)
    requires |poly| < 3
    ensures !InsideEvenOdd(x, y, poly)
  {
    if |poly| == 1 {
      assert !Crosses(poly, x, y, 0);
      assert ParityPrefix(poly, x, y, 1) == Crosses(poly, x, y, 0);
    } else if |poly| == 2 {
      var a, b := poly[0], poly[1];
      if (a.y > y) != (b.y > y) {
        CrossingSymmetric(a.x, a.y, b.x, b.y, y);
      }
      assert Crosses(poly, x, y, 0) == Crosses(poly, x, y, 1);
      assert ParityPrefix(poly, x, y, 1) == Crosses(poly, x, y, 0);
    }
  }

  // ---------------------------------------------------------------------------
  // Flag counts
  // ---------------------------------------------------------------------------

  /** A counter of the counts object: a number, or NaN after `undefined++` for an id that was never initialised. */
  datatype Count = Num(n: nat) | NaN

  function Incr(c: Count): Count
  {
    match c
    case Num(n) => Num(n + 1)
    case NaN => NaN
  }

  /** The owners of a list of flags, in order. */
  function OwnersOf(flags: seq<Flag>): (r: seq<Option<int>>)
    reads set i | 0 <= i < |flags| :: flags[i]
    ensures |r| == |flags|
    ensures forall i :: 0 <= i < |flags| ==> r[i] == flags[i].capturedBy
  {
    if flags == [] then [] else OwnersOf(flags[..|flags| - 1]) + [flags[|flags| - 1].capturedBy]
  }

  /** getFlagCounts on the owners of the first k flags: players 1 and 2 start at 0, every truthy owner is counted. */
  function CountsPrefix(owners: seq<Option<int>>, k: nat): map<int, Count>
    requires k <= |owners|
  {
    if k == 0 then map[1 := Num(0), 2 := Num(0)]
    else
      var counts := CountsPrefix(owners, k - 1);
      var o := owners[k - 1];
      if o.Some? && o.value != 0 then
        counts[o.value := if o.value in counts then Incr(counts[o.value]) else NaN]
      else counts
  }

  function FlagCountsOf(owners: seq<Option<int>>): map<int, Count>
  {
    CountsPrefix(owners, |owners|)
  }

  /** How many of the first k owners are `id`. */
  function OwnedBy(owners: seq<Option<int>>, id: int, k: nat): nat
    requires k <= |owners|
  {
    if k == 0 then 0 else OwnedBy(owners, id, k - 1) + (if owners[k - 1] == Some(id) then 1 else 0)
  }

  /** The counters of players 1 and 2 are exact numbers: the flags each one owns. */
  lemma {:induction false} PlayerCountExact(owners: seq<Option<int>>, id: int, k: nat)
    requires k <= |owners| && (id == 1 || id == 2)
    ensures id in CountsPrefix(owners, k) && CountsPrefix(owners, k)[id] == Num(OwnedBy(owners, id, k))
  {
    if k > 0 {
      PlayerCountExact(owners, id, k - 1);
    }
  }

  /** Any other id gets a counter only by owning a flag, and that counter is NaN. */
  lemma {:induction false} OtherCountNaN(owners: seq<Option<int>>, id: int, k: nat)
    requires k <= |owners| && id != 1 && id != 2
    ensures id in CountsPrefix(owners, k) <==> id != 0 && OwnedBy(owners, id, k) > 0
    ensures id in CountsPrefix(owners, k) ==> CountsPrefix(owners, k)[id] == NaN
  {
    if k > 0 {
      OtherCountNaN(owners, id, k - 1);
    }
  }

  /** How many of the first k owners are player 1 or player 2. */
  function OwnedByEither(owners: seq<Option<int>>, k: nat): nat
    requires k <= |owners|
  {
    if k == 0 then 0 else OwnedByEither(owners, k - 1) + (if owners[k - 1] in {Some(1), Some(2)} then 1 else 0)
  }

  /** counts[1] + counts[2] is the number of flags held by either player. */
  lemma {:induction false} CountsAddUp(owners: seq<Option<int>>, k: nat)
    requires k <= |owners|
    ensures OwnedBy(owners, 1, k) + OwnedBy(owners, 2, k) == OwnedByEither(owners, k)
  {
    if k > 0 {
      CountsAddUp(owners, k - 1);
    }
  }

  /** `flagCounts[player.id] || 0`: NaN, 0 and a missing entry all read as 0. */
  function FlagValue(counts: map<int, Count>, id: int): nat
  {
    if id in counts && counts[id].Num? then counts[id].n else 0
  }

  // ---------------------------------------------------------------------------
  // Capture-mode collisions
  // ---------------------------------------------------------------------------

  /** A capture-mode death: no respawn in this mode, so the player is out and loses a life, and nothing else moves. */
  twostate predicate DiedInCapture(p: Player)
    reads p
  {
    && !p.isAlive && p.lives == old(p.lives) - 1
    && p.x == old(p.x) && p.y == old(p.y) && p.trail == old(p.trail) && p.shield == old(p.shield)
    && p.standarddistance == old(p.standarddistance)
  }

  /** Over a whole check: positions, trails and shields stay; a player can only die, and loses one life if so. */
  twostate predicate AtMostOneDeath(p: Player)
    reads p
  {
    && p.x == old(p.x) && p.y == old(p.y) && p.trail == old(p.trail) && p.shield == old(p.shield)
    && p.standarddistance == old(p.standarddistance)
    && (p.isAlive ==> old(p.isAlive))
    && p.lives == old(p.lives) - (if old(p.isAlive) && !p.isAlive then 1 else 0)
  }

  /** The player's death in capture mode, through die(). */
  method DieInCapture(p: Player, now: real)
    modifies p
    ensures DiedInCapture(p)
  {
    p.Die(Capture, now);
  }

  /**
   * One inner step of checkPlayerCollisions for a living player against
   * another. Capture mode's deaths: a head collision kills both, running into
   * the other's trail kills the runner, and an unshielded player inside the
   * other's territory dies.
   */
  method CheckPair(player: Player, other: Player, territory: Territory, now: real, sqrt: real -> real) returns (clash: Clash)
    requires IsSqrt(sqrt) && player != other && player.isAlive
    modifies player, other
    ensures clash == ClashOf(
                       TrailHitOf(true, old(player.x), old(player.y), player.size, old(other.trail), Some(old(other.HeadOf()))),
                       old(player.HasShield()),
                       InTerritory(Point(old(player.x), old(player.y)), territory.PlayerTerritories(other.id)))
    ensures clash == HeadOn ==> DiedInCapture(player) && DiedInCapture(other)
    ensures clash == RanIntoTrail || clash == Intruded ==> DiedInCapture(player) && unchanged(other)
    ensures clash == Clear ==> unchanged(player) && unchanged(other)
  {
    var collisionType := player.CheckCollisionWithTrail(other.trail, other, sqrt);
    if collisionType == HeadCollision {
      DieInCapture(player, now);
      DieInCapture(other, now);
      return HeadOn;
    } else if collisionType == TrailCollision {
      DieInCapture(player, now);
      return RanIntoTrail;
    }
    var otherTerritories := territory.PlayerTerritories(other.id);
    if !player.HasShield() {
      var inside := player.CheckCollisionWithTerritory(otherTerritories);
      if inside {
        DieInCapture(player, now);
        return Intruded;
      }
    }
    return Clear;
  }

  /** A head collision needs the other player alive, so a player already out is never killed by one. */
  lemma HeadOnNeedsLivingOther(x: real, y: real, size: real, t: seq<TrailPoint>, other: Head)
    requires TrailHitOf(true, x, y, size, t, Some(other)) == HeadCollision
    ensures other.alive
  {
  }

  // ---------------------------------------------------------------------------
  // Victory
  // ---------------------------------------------------------------------------

  /** One entry of the scores list of checkVictoryCondition. */
  datatype Standing = Standing(id: int, score: real, flags: nat, isAlive: bool)

  datatype Reason = Alive | ByFlags | ByTerritory

  datatype Outcome = Won(winner: Standing, reason: Reason) | Draw(tied: seq<Standing>)

  datatype VictoryResult = VictoryResult(outcome: Outcome, scores: seq<Standing>, flagCounts: map<int, Count>)

  function AliveOnes(s: seq<Standing>): (r: seq<Standing>)
    ensures forall x :: x in r <==> x in s && x.isAlive
  {
    if s == [] then [] else AliveOnes(s[..|s| - 1]) + (if s[|s| - 1].isAlive then [s[|s| - 1]] else [])
  }

  /** The potential winners: the living players, or everybody when nobody lives. */
  function Candidates(s: seq<Standing>): (r: seq<Standing>)
    ensures forall x :: x in r ==> x in s
    ensures (exists x :: x in s && x.isAlive) ==> forall x :: x in r <==> x in s && x.isAlive
    ensures (forall x :: x in s ==> !x.isAlive) ==> r == s
  {
    var alive := AliveOnes(s);
    if |alive| > 0 then assert alive[0] in alive; alive else s
  }

  function MaxFlags(s: seq<Standing>): (m: nat)
    requires |s| > 0
    ensures forall x :: x in s ==> x.flags <= m
    ensures exists x :: x in s && x.flags == m
  {
    if |s| == 1 then s[0].flags
    else
      var m := MaxFlags(s[..|s| - 1]);
      assert forall x :: x in s[..|s| - 1] ==> x in s;
      assert forall x :: x in s ==> x in s[..|s| - 1] || x == s[|s| - 1];
      if s[|s| - 1].flags > m then s[|s| - 1].flags else m
  }

  function MaxScore(s: seq<Standing>): (m: real)
    requires |s| > 0
    ensures forall x :: x in s ==> x.score <= m
    ensures exists x :: x in s && x.score == m
  {
    if |s| == 1 then s[0].score
    else
      var m := MaxScore(s[..|s| - 1]);
      assert forall x :: x in s[..|s| - 1] ==> x in s;
      assert forall x :: x in s ==> x in s[..|s| - 1] || x == s[|s| - 1];
      if s[|s| - 1].score > m then s[|s| - 1].score else m
  }

  function WithFlags(s: seq<Standing>, m: nat): (r: seq<Standing>)
    ensures forall x :: x in r <==> x in s && x.flags == m
  {
    if s == [] then [] else WithFlags(s[..|s| - 1], m) + (if s[|s| - 1].flags == m then [s[|s| - 1]] else [])
  }

  function WithScore(s: seq<Standing>, m: real): (r: seq<Standing>)
    ensures forall x :: x in r <==> x in s && x.score == m
  {
    if s == [] then [] else WithScore(s[..|s| - 1], m) + (if s[|s| - 1].score == m then [s[|s| - 1]] else [])
  }

  /**
   * The cascade of checkVictoryCondition. With no players at all, the maxima
   * of empty lists are -Infinity, nobody matches them, and the result is a
   * draw with nobody in it.
   */
  function Decide(s: seq<Standing>): Outcome
  {
    var c := Candidates(s);
    if |c| == 1 then Won(c[0], Alive)
    else if |c| == 0 then Draw([])
    else
      var fw := WithFlags(c, MaxFlags(c));
      if |fw| == 1 then Won(fw[0], ByFlags)
      else
        var tw := WithScore(c, MaxScore(c));
        if |tw| == 1 then Won(tw[0], ByTerritory) else Draw(tw)
  }

  /** The winner is always a potential winner: alive whenever anybody is. */
  lemma DecideWinnerCandidate(s: seq<Standing>)
    requires Decide(s).Won?
    ensures Decide(s).winner in Candidates(s)
    ensures (exists x :: x in s && x.isAlive) ==> Decide(s).winner.isAlive
  {
    var c := Candidates(s);
    assert c[0] in c;
  }

  /** 'alive' is the reason exactly when a single potential winner is left. */
  lemma DecideAliveIff(s: seq<Standing>)
    ensures (Decide(s).Won? && Decide(s).reason == Alive) <==> |Candidates(s)| == 1
  {
  }

  /** A win on flags: the winner has strictly more flags than every other potential winner. */
  lemma {:induction false} DecideFlagsStrict(s: seq<Standing>)
    requires Decide(s).Won? && Decide(s).reason == ByFlags
    ensures forall x :: x in Candidates(s) && x != Decide(s).winner ==> x.flags < Decide(s).winner.flags
  {
    var c := Candidates(s);
    var fw := WithFlags(c, MaxFlags(c));
    assert |fw| == 1 && Decide(s).winner == fw[0];
    assert fw == [fw[0]];
  }

  /** A win on territory: the potential winners tie on flags, and the winner's score is strictly the highest. */
  lemma {:induction false} DecideTerritoryStrict(s: seq<Standing>)
    requires Decide(s).Won? && Decide(s).reason == ByTerritory
    ensures |Candidates(s)| >= 2
    ensures forall x :: x in Candidates(s) && x != Decide(s).winner ==> x.score < Decide(s).winner.score
  {
    var c := Candidates(s);
    var tw := WithScore(c, MaxScore(c));
    assert |tw| == 1 && Decide(s).winner == tw[0];
    assert tw == [tw[0]];
  }

  /** A draw lists exactly the potential winners with the top score; there are never exactly one of them. */
  lemma DecideDraw(s: seq<Standing>)
    requires Decide(s).Draw?
    ensures |Decide(s).tied| != 1
    ensures |Candidates(s)| > 0 ==>
              forall x :: x in Decide(s).tied <==> x in Candidates(s) && x.score == MaxScore(Candidates(s))
  {
  }

  /**
   * The territory round compares all potential winners, not only those tied
   * on flags. With two potential winners that makes no difference: a
   * territory winner has as many flags as the other.
   */
  lemma {:induction false} TwoPlayersTerritoryWinnerTiesFlags(s: seq<Standing>)
    requires |Candidates(s)| == 2 && Decide(s).Won? && Decide(s).reason == ByTerritory
    ensures forall x :: x in Candidates(s) ==> x.flags == Decide(s).winner.flags
  {
    var c := Candidates(s);
    var m := MaxFlags(c);
    assert c == [c[0], c[1]];
    if c[0].flags != c[1].flags {
      FilterSingleton(c, m);
      assert false;
    }
    DecideWinnerCandidate(s);
  }

  /** With two entries of different flag counts, exactly one has the maximum and the filter keeps it alone. */
  lemma FilterSingleton(c: seq<Standing>, m: nat)
    requires |c| == 2 && c[0].flags != c[1].flags && m == MaxFlags(c)
    ensures |WithFlags(c, m)| == 1
  {
    var c1 := c[..1];
    assert c[..|c| - 1] == c1;
    assert c1[..|c1| - 1] == [];
    assert c == [c[0], c[1]];
    assert c[0] in c && c[1] in c;
    assert m == c[0].flags || m == c[1].flags;
    assert WithFlags(c1, m) == (if c[0].flags == m then [c[0]] else []);
    assert WithFlags(c, m) == WithFlags(c1, m) + (if c[1].flags == m then [c[1]] else []);
  }

  // ---------------------------------------------------------------------------
  // The manager
  // ---------------------------------------------------------------------------

  /** Array.prototype.find on the id: the first player with that id. */
  function FindPlayer(players: seq<Player>, id: int): (r: Option<nat>)
    ensures r.Some? ==> r.value < |players| && players[r.value].id == id
                        && forall k :: 0 <= k < r.value ==> players[k].id != id
    ensures r.None? ==> forall k :: 0 <= k < |players| ==> players[k].id != id
  {
    if players == [] then None
    else if players[0].id == id then Some(0)
    else
      var r := FindPlayer(players[1..], id);
      if r.Some? then Some(r.value + 1) else None
  }

  /** A flag whose owner is truthy but missing from the list or dead: update releases it. */
  predicate Orphaned(owner: Option<int>, players: seq<Player>)
    reads set k | 0 <= k < |players| :: players[k]
  {
    owner.Some? && owner.value != 0
    && var f := FindPlayer(players, owner.value);
       f.None? || !players[f.value].isAlive
  }

  /** The spawn squares and circles a flag avoids, with the two barrier columns. */
  predicate FlagSpotClear(x: real, y: real, w: real, h: real)
  {
    var p1x, p1y := Config.P1StartFractionX * w, Config.P1StartFractionY * h;
    var p2x, p2y := Config.P2StartFractionX * w, Config.P2StartFractionY * h;
    var a := 2.0 * Config.FlagSize;
    && !(p1x - a < x < p1x + a && p1y - a < y < p1y + a)
    && !(p2x - a < x < p2x + a && p2y - a < y < p2y + a)
    && !Closer(DistSq(x, y, p1x, p1y), Config.FlagDistanceFromPlayer)
    && !Closer(DistSq(x, y, p2x, p2y), Config.FlagDistanceFromPlayer)
    && !(Abs(x - w * 0.35) < 60.0 || Abs(x - w * 0.65) < 60.0)
  }

  /**
   * Where `r * (size - 100) + 50` can land for a draw r in [0, 1): inside the
   * 50 margin of a board wider than 100, on 50 itself at exactly 100, and
   * mirrored on a narrower board.
   */
  predicate InMargin(v: real, size: real)
  {
    if size > 100.0 then 50.0 <= v < size - 50.0
    else if size == 100.0 then v == 50.0
    else size - 50.0 < v <= 50.0
  }

  /** A draw scaled into the margin lands where InMargin says. */
  lemma MarginDraw(r: real, size: real)
    requires 0.0 <= r < 1.0
    ensures InMargin(r * (size - 100.0) + 50.0, size)
  {
    NonNegativeProduct(r, size - 100.0);
    NonNegativeProduct(1.0 - r, size - 100.0);
    NonNegativeProduct(r, 100.0 - size);
    NonNegativeProduct(1.0 - r, 100.0 - size);
  }

  /** No flag of the list is closer than the minimum spacing to (x, y). */
  predicate FarFromFlags(x: real, y: real, flags: seq<Flag>)
  {
    forall k :: 0 <= k < |flags| ==> !Closer(DistSq(x, y, flags[k].x, flags[k].y), Config.FlagDistanceBetweenFlags)
  }

  /** Every two flags keep the minimum spacing. */
  predicate Spaced(flags: seq<Flag>)
  {
    forall a, b :: 0 <= a < b < |flags| ==>
      !Closer(DistSq(flags[b].x, flags[b].y, flags[a].x, flags[a].y), Config.FlagDistanceBetweenFlags)
  }

  /** setFlagCount's clamp to 1..10. */
  function ClampFlagCount(count: int): (r: int)
    ensures 1 <= r <= 10
    ensures 1 <= count <= 10 ==> r == count
    ensures count < 1 ==> r == 1
    ensures count > 10 ==> r == 10
  {
    MaxInt(1, MinInt(10, count))
  }

  class FlagManager {
    const gameWidth: real
    const gameHeight: real
    var flags: seq<Flag>
    var flagCount: int

    /** The flags are distinct objects and keep their spacing. */
    ghost predicate Valid()
      reads this`flags
    {
      (forall a, b :: 0 <= a < b < |flags| ==> flags[a] != flags[b]) && Spaced(flags)
    }

    constructor (gameWidth: real, gameHeight: real)
      ensures this.gameWidth == gameWidth && this.gameHeight == gameHeight
      ensures flags == [] && flagCount == 5 && Valid()
    {
      this.gameWidth := gameWidth;
      this.gameHeight := gameHeight;
      flags := [];
      flagCount := 5;
    }

    method SetFlagCount(count: int)
      modifies this`flagCount
      ensures flagCount == ClampFlagCount(count)
    {
      flagCount := MaxInt(1, MinInt(10, count));
    }

    /** isValidFlagPosition: clear of the spawns and barrier columns, and spaced from the flags so far. */
    method IsValidFlagPosition(x: real, y: real, sqrt: real -> real) returns (valid: bool)
      requires IsSqrt(sqrt)
      ensures valid == (FlagSpotClear(x, y, gameWidth, gameHeight) && FarFromFlags(x, y, flags))
    {
      var p1x, p1y := Config.P1StartFractionX * gameWidth, Config.P1StartFractionY * gameHeight;
      var p2x, p2y := Config.P2StartFractionX * gameWidth, Config.P2StartFractionY * gameHeight;
      var distToP1 := sqrt(DistSq(x, y, p1x, p1y));
      var distToP2 := sqrt(DistSq(x, y, p2x, p2y));
      SqrtCloser(sqrt, DistSq(x, y, p1x, p1y), Config.FlagDistanceFromPlayer);
      SqrtCloser(sqrt, DistSq(x, y, p2x, p2y), Config.FlagDistanceFromPlayer);
      var a := 2.0 * Config.FlagSize;
      if (p1x - a < x < p1x + a && p1y - a < y < p1y + a) || (p2x - a < x < p2x + a && p2y - a < y < p2y + a)
         || distToP1 < Config.FlagDistanceFromPlayer || distToP2 < Config.FlagDistanceFromPlayer {
        return false;
      }
      var k := 0;
      while k < |flags|
        invariant 0 <= k <= |flags|
        invariant forall m :: 0 <= m < k ==> !Closer(DistSq(x, y, flags[m].x, flags[m].y), Config.FlagDistanceBetweenFlags)
      {
        var dist := sqrt(DistSq(x, y, flags[k].x, flags[k].y));
        SqrtCloser(sqrt, DistSq(x, y, flags[k].x, flags[k].y), Config.FlagDistanceBetweenFlags);
        if dist < Config.FlagDistanceBetweenFlags {
          return false;
        }
        k := k + 1;
      }
      var centerX, centerX2 := gameWidth * 0.35, gameWidth * 0.65;
      if Abs(x - centerX) < 60.0 || Abs(x - centerX2) < 60.0 {
        return false;
      }
      return true;
    }

    /** A flag as generateFlags creates it: unowned, of the default size, on a clear spot inside the margin. */
    predicate NewFlag(f: Flag)
      reads f
    {
      && f.capturedBy == None && f.size == Config.FlagSize
      && FlagSpotClear(f.x, f.y, gameWidth, gameHeight)
      && InMargin(f.x, gameWidth) && InMargin(f.y, gameHeight)
    }

    /**
     * generateFlags: for each of flagCount flags, up to 100 random positions
     * inside a 50 margin; the first valid one gets a new uncaptured flag of
     * the default size, and a flag with no valid position is skipped.
     */
    method GenerateFlags(rng: RandomSource, sqrt: real -> real)
      requires IsSqrt(sqrt) && rng.Valid() && Valid()
      modifies this`flags, rng
      ensures Valid() && rng.Valid()
      ensures |old(flags)| <= |flags| <= |old(flags)| + MaxInt(0, flagCount)
      ensures flags[..|old(flags)|] == old(flags)
      ensures forall k :: |old(flags)| <= k < |flags| ==> fresh(flags[k]) && NewFlag(flags[k])
    {
      ghost var f0 := flags;
      var i := 0;
      while i < flagCount
        invariant 0 <= i <= MaxInt(0, flagCount)
        invariant Valid() && rng.Valid()
        invariant |f0| <= |flags| <= |f0| + i && flags[..|f0|] == f0
        invariant forall k :: |f0| <= k < |flags| ==> fresh(flags[k]) && NewFlag(flags[k])
      {
        ghost var f1 := flags;
        var found := PlaceFlag(rng, sqrt);
        assert flags[..|f0|] == f1[..|f0|];
        i := i + 1;
      }
    }

    /**
     * One turn of generateFlags' outer loop: up to 100 attempts of two draws
     * each, and the first valid position gets a new flag; `found` says whether
     * one did, and a flag is given up only after all 100 attempts.
     */
    method PlaceFlag(rng: RandomSource, sqrt: real -> real) returns (found: bool)
      requires IsSqrt(sqrt) && rng.Valid() && Valid()
      modifies this`flags, rng
      ensures Valid() && rng.Valid()
      ensures |flags| == |old(flags)| + (if found then 1 else 0) && flags[..|old(flags)|] == old(flags)
      ensures found ==> fresh(flags[|flags| - 1]) && NewFlag(flags[|flags| - 1])
      ensures found ==> old(rng.next) + 2 <= rng.next <= old(rng.next) + 200
      ensures !found ==> rng.next == old(rng.next) + 200
    {
      var attempts := 0;
      found := false;
      while attempts < 100 && !found
        invariant Valid() && rng.Valid()
        invariant flags == old(flags)
        invariant 0 <= attempts <= 100 && rng.next == old(rng.next) + 2 * attempts
        decreases 100 - attempts
      {
        var newFlagX, newFlagY := DrawSpot(rng);
        found := FlagAt(newFlagX, newFlagY, sqrt);
        if found {
          return;
        }
        attempts := attempts + 1;
      }
    }

    /** The two draws of one attempt, scaled into the 50 margin. */
    method DrawSpot(rng: RandomSource) returns (x: real, y: real)
      requires rng.Valid()
      modifies rng
      ensures rng.Valid() && rng.next == old(rng.next) + 2
      ensures x == rng.draws(old(rng.next)) * (gameWidth - 100.0) + 50.0
      ensures y == rng.draws(old(rng.next) + 1) * (gameHeight - 100.0) + 50.0
      ensures InMargin(x, gameWidth) && InMargin(y, gameHeight)
    {
      var rx := rng.Next();
      x := rx * (gameWidth - 100.0) + 50.0;
      var ry := rng.Next();
      y := ry * (gameHeight - 100.0) + 50.0;
      MarginDraw(rx, gameWidth);
      MarginDraw(ry, gameHeight);
    }

    /** One draw's outcome once its position is known: a valid position gets a new default flag at the end. */
    method FlagAt(x: real, y: real, sqrt: real -> real) returns (placed: bool)
      requires IsSqrt(sqrt) && Valid()
      modifies this`flags
      ensures Valid()
      ensures placed == (FlagSpotClear(x, y, gameWidth, gameHeight) && FarFromFlags(x, y, old(flags)))
      ensures !placed ==> flags == old(flags)
      ensures placed ==>
                && |flags| == |old(flags)| + 1 && flags[..|old(flags)|] == old(flags)
                && fresh(flags[|flags| - 1]) && flags[|flags| - 1].x == x && flags[|flags| - 1].y == y
                && flags[|flags| - 1].capturedBy == None && flags[|flags| - 1].size == Config.FlagSize
    {
      placed := IsValidFlagPosition(x, y, sqrt);
      if placed {
        var flag := new Flag(x, y, Config.FlagSize);
        AppendSpaced(flags, flag);
        flags := flags + [flag];
      }
    }

    /** init / reset: the flags are discarded and generated afresh. */
    method Init(rng: RandomSource, sqrt: real -> real)
      requires IsSqrt(sqrt) && rng.Valid()
      modifies this`flags, rng
      ensures Valid() && rng.Valid()
      ensures |flags| <= MaxInt(0, flagCount)
      ensures forall k :: 0 <= k < |flags| ==> fresh(flags[k]) && NewFlag(flags[k])
    {
      flags := [];
      GenerateFlags(rng, sqrt);
    }

    /** checkCaptureInNewTerritory: exactly the flags inside the new polygon pass to playerId. */
    method CheckCaptureInNewTerritory(newPolygon: seq<Point>, playerId: int)
      requires Valid()
      modifies set k | 0 <= k < |flags| :: flags[k]
      ensures Valid()
      ensures forall k :: 0 <= k < |flags| ==>
                flags[k].capturedBy == (if InsideEvenOdd(flags[k].x, flags[k].y, newPolygon) then Some(playerId)
                                        else old(flags[k].capturedBy))
    {
      var i := 0;
      while i < |flags|
        invariant 0 <= i <= |flags|
        invariant forall k :: 0 <= k < i ==>
                    flags[k].capturedBy == (if InsideEvenOdd(flags[k].x, flags[k].y, newPolygon) then Some(playerId)
                                            else old(flags[k].capturedBy))
        invariant forall k :: i <= k < |flags| ==> flags[k].capturedBy == old(flags[k].capturedBy)
      {
        var inside := PointInPolygonEvenOdd(flags[i].x, flags[i].y, newPolygon);
        if inside {
          flags[i].Capture(playerId);
        }
        i := i + 1;
      }
    }

    /** getFlagCounts: the fold of the owners into the counts object. */
    method GetFlagCounts() returns (counts: map<int, Count>)
      ensures counts == FlagCountsOf(OwnersOf(flags))
    {
      ghost var owners := OwnersOf(flags);
      counts := map[1 := Num(0), 2 := Num(0)];
      var i := 0;
      while i < |flags|
        invariant 0 <= i <= |flags|
        invariant counts == CountsPrefix(owners, i)
      {
        var owner := flags[i].capturedBy;
        if owner.Some? && owner.value != 0 {
          counts := counts[owner.value := if owner.value in counts then Incr(counts[owner.value]) else NaN];
        }
        i := i + 1;
      }
    }

    /** The release half of update: every orphaned flag is released, every other flag keeps its owner. */
    method ReleaseOrphans(players: seq<Player>)
      requires Valid()
      modifies set k | 0 <= k < |flags| :: flags[k]
      ensures Valid()
      ensures forall k :: 0 <= k < |flags| ==>
                flags[k].capturedBy == (if Orphaned(old(flags[k].capturedBy), players) then None
                                        else old(flags[k].capturedBy))
    {
      var i := 0;
      while i < |flags|
        invariant 0 <= i <= |flags|
        invariant forall k :: 0 <= k < i ==>
                    flags[k].capturedBy == (if Orphaned(old(flags[k].capturedBy), players) then None
                                            else old(flags[k].capturedBy))
        invariant forall k :: i <= k < |flags| ==> flags[k].capturedBy == old(flags[k].capturedBy)
      {
        var flag := flags[i];
        if flag.capturedBy.Some? && flag.capturedBy.value != 0 {
          var owner := FindPlayer(players, flag.capturedBy.value);
          if owner.None? || !players[owner.value].isAlive {
            flag.Release();
          }
        }
        i := i + 1;
      }
    }

    /**
     * checkPlayerCollisions in capture mode: every living player is checked
     * against every other in order, and its first clash ends its round. Each
     * player dies at most once and nobody moves.
     */
    method CheckPlayerCollisions(players: seq<Player>, territory: Territory, now: real, sqrt: real -> real)
      requires IsSqrt(sqrt)
      requires forall a, b :: 0 <= a < b < |players| ==> players[a] != players[b]
      modifies set k | 0 <= k < |players| :: players[k]
      ensures forall k :: 0 <= k < |players| ==> AtMostOneDeath(players[k])
    {
      var i := 0;
      while i < |players|
        invariant 0 <= i <= |players|
        invariant forall k :: 0 <= k < |players| ==> AtMostOneDeath(players[k])
      {
        var player := players[i];
        if player.isAlive {
          var j := 0;
          while j < |players|
            invariant 0 <= j <= |players|
            invariant forall k :: 0 <= k < |players| ==> AtMostOneDeath(players[k])
            invariant player.isAlive
          {
            if i != j {
              var otherPlayer := players[j];
              var clash := CheckPair(player, otherPlayer, territory, now, sqrt);
              if clash != Clear {
                break;
              }
            }
            j := j + 1;
          }
        }
        i := i + 1;
      }
    }

    /**
     * update: nothing while paused; otherwise the orphaned flags are released
     * (judged on the players as they were), then the players are checked
     * against each other.
     */
    method Update(gameState: GameState, players: seq<Player>, territory: Territory, now: real, sqrt: real -> real)
      requires IsSqrt(sqrt) && Valid()
      requires forall a, b :: 0 <= a < b < |players| ==> players[a] != players[b]
      modifies set k | 0 <= k < |flags| :: flags[k]
      modifies set k | 0 <= k < |players| :: players[k]
      ensures Valid()
      ensures gameState == Paused ==>
                (forall k :: 0 <= k < |flags| ==> flags[k].capturedBy == old(flags[k].capturedBy))
                && forall k :: 0 <= k < |players| ==> unchanged(players[k])
      ensures gameState != Paused ==>
                (forall k :: 0 <= k < |flags| ==>
                   flags[k].capturedBy == (if old(Orphaned(flags[k].capturedBy, players)) then None
                                           else old(flags[k].capturedBy)))
                && forall k :: 0 <= k < |players| ==> AtMostOneDeath(players[k])
    {
      if gameState == Paused {
        return;
      }
      ReleaseOrphans(players);
      CheckPlayerCollisions(players, territory, now, sqrt);
    }

    /**
     * checkVictoryCondition: each player's score from the territory, flags
     * from the counts (`|| 0`), liveness, then the cascade.
     */
    method CheckVictoryCondition(players: seq<Player>, territory: Territory, num: real -> string, alpha: Raster)
        returns (result: VictoryResult)
      requires territory.CacheInRange()
      modifies territory`scoreCache
      ensures territory.CacheInRange()
      ensures result.flagCounts == FlagCountsOf(OwnersOf(flags))
      ensures |result.scores| == |players|
      ensures forall k :: 0 <= k < |players| ==>
                result.scores[k].id == players[k].id && result.scores[k].isAlive == players[k].isAlive
                && result.scores[k].flags == FlagValue(result.flagCounts, players[k].id)
      ensures forall k :: 0 <= k < |players| ==> Scored(territory, players[k].id, gameWidth, gameHeight, num, result.scores[k].score)
      ensures result.outcome == Decide(result.scores)
    {
      var flagCounts := GetFlagCounts();
      var scores := StandingsOf(players, territory, flagCounts, gameWidth, gameHeight, num, alpha);
      result := VictoryResult(Decide(scores), scores, flagCounts);
    }
  }

  /** checkVictoryCondition's standings: one per player, in order, with its score, its flag count and its liveness. */
  method StandingsOf(players: seq<Player>, territory: Territory, flagCounts: map<int, Count>, w: real, h: real,
                     num: real -> string, alpha: Raster) returns (scores: seq<Standing>)
    requires territory.CacheInRange()
    modifies territory`scoreCache
    ensures territory.CacheInRange()
    ensures |scores| == |players|
    ensures forall k :: 0 <= k < |players| ==>
              scores[k].id == players[k].id && scores[k].isAlive == players[k].isAlive
              && scores[k].flags == FlagValue(flagCounts, players[k].id)
    ensures forall k :: 0 <= k < |players| ==> Scored(territory, players[k].id, w, h, num, scores[k].score)
  {
    scores := [];
    var i := 0;
    while i < |players|
      invariant 0 <= i <= |players|
      invariant |scores| == i
      invariant territory.CacheInRange()
      invariant forall k :: 0 <= k < i ==>
                  scores[k].id == players[k].id && scores[k].isAlive == players[k].isAlive
                  && scores[k].flags == FlagValue(flagCounts, players[k].id)
      invariant forall k :: 0 <= k < i ==> Scored(territory, players[k].id, w, h, num, scores[k].score)
    {
      var score := ScoreFor(territory, players[i].id, w, h, num, alpha);
      scores := scores + [Standing(players[i].id, score, FlagValue(flagCounts, players[i].id), players[i].isAlive)];
      i := i + 1;
    }
  }

  /**
   * A player's score as endGame reports it: a percentage, zero without
   * territory, otherwise the score the cache holds for the player's
   * current polygons on a w x h board.
   */
  ghost predicate Scored(territory: Territory, id: int, w: real, h: real, num: real -> string, score: real)
    reads territory
  {
    && 0.0 <= score <= 100.0
    && (territory.PlayerTerritories(id) == [] ==> score == 0.0)
    && (territory.PlayerTerritories(id) != [] ==> territory.Records(territory.KeyFor(id, w, h, num), score))
  }

  /**
   * The territory's calculateScore for one player, as checkVictoryCondition
   * uses it: a percentage; zero without territory; otherwise the score the
   * cache now holds for the player's polygons, which is the sampled score
   * when the cache did not hold one before. Earlier entries stay.
   */
  method ScoreFor(territory: Territory, id: int, w: real, h: real, num: real -> string, alpha: Raster) returns (score: real)
    requires territory.CacheInRange()
    modifies territory`scoreCache
    ensures territory.CacheInRange() && 0.0 <= score <= 100.0
    ensures territory.Keeps(old(territory.scoreCache))
    ensures territory.PlayerTerritories(id) == [] ==> score == 0.0
    ensures territory.PlayerTerritories(id) != [] ==> territory.Records(territory.KeyFor(id, w, h, num), score)
    ensures territory.PlayerTerritories(id) != [] && !old(territory.scoreCache.Some? && territory.KeyFor(id, w, h, num) in territory.scoreCache.value) ==>
              score == ScoreOf(alpha, territory.PlayerTerritories(id), w, h)
  {
    score := territory.CalculateScore(id, w, h, num, alpha);
  }

  /** Appending a flag far from all the others keeps the spacing. */
  lemma AppendSpaced(flags: seq<Flag>, f: Flag)
    requires Spaced(flags) && FarFromFlags(f.x, f.y, flags)
    ensures Spaced(flags + [f])
  {
  }
}

=== FILE: items.dfy ===
/**
 * Items, obstacles and the initial barriers (js/objects/ItemManager.js): the
 * power-ups with their weighted type choice and effects, the circle-versus-
 * rectangle collision test, the spawn timers, the all-or-nothing obstacle
 * clusters, the initial barrier columns and their lifetime, and the cleanup of
 * old items and surplus obstacles. Math.random is a RandomSource, Date.now the
 * parameter `now`, and the flags the manager avoids a list of circles.
 */
module Items {
  import opened Common
  import Config
  import opened Players

  // ---------------------------------------------------------------------------
  // Power-ups
  // ---------------------------------------------------------------------------

  datatype PowerUpType = SpeedUp | LengthUp | ShieldUp

  /** A PowerUpItem: position, type and spawn time (the pulse animation is not modelled). */
  datatype PowerUpItem = PowerUpItem(x: real, y: real, kind: PowerUpType, spawnTime: real)
  {
    /** Pick-up radius (powerUp.radius). */
    function Radius(): real { Config.PowerUpRadius }

    /** The duration the constructor stores for the type. */
    function Duration(): real
    {
      match kind
      case SpeedUp => Config.SpeedDuration
      case LengthUp => Config.LengthDuration
      case ShieldUp => Config.ShieldDuration
    }
  }

  /** The weight table of spawnRandomItem, in its order. */
  const ItemWeights: seq<(PowerUpType, real)> :=
    [(SpeedUp, Config.SpeedWeight), (LengthUp, Config.LengthWeight), (ShieldUp, Config.ShieldWeight)]

  /**
   * The weighted choice as a value: below 40 speed, below 70 length, below 100
   * shield; past the total the default 'speed' stays.
   */
  function PickedType(random: real): PowerUpType
  {
    if random < 40.0 then SpeedUp
    else if random < 70.0 then LengthUp
    else if random < 100.0 then ShieldUp
    else SpeedUp
  }

  /** The type chosen by the loop over the weights from entry i on, with `random` already reduced. */
  function PickFrom(random: real, i: nat): PowerUpType
    requires i <= |ItemWeights|
    decreases |ItemWeights| - i
  {
    if i == |ItemWeights| then SpeedUp
    else if random < ItemWeights[i].1 then ItemWeights[i].0
    else PickFrom(random - ItemWeights[i].1, i + 1)
  }

  /** The subtract-and-compare loop over the weights: the first weight the reduced draw falls under. */
  method WeightedPick(random: real) returns (selectedType: PowerUpType)
    ensures selectedType == PickFrom(random, 0)
    ensures selectedType == PickedType(random)
  {
    selectedType := SpeedUp;
    var r := random;
    var i := 0;
    while i < |ItemWeights|
      invariant 0 <= i <= |ItemWeights|
      invariant PickFrom(random, 0) == PickFrom(r, i)
      invariant r == random - (if i == 0 then 0.0 else if i == 1 then 40.0 else if i == 2 then 70.0 else 100.0)
    {
      if r < ItemWeights[i].1 {
        selectedType := ItemWeights[i].0;
        return;
      }
      r := r - ItemWeights[i].1;
      i := i + 1;
    }
  }

  /** With the draw scaled to the total weight of 100, every type is reachable and the default is never needed. */
  lemma PickCoversTypes(random: real)
    requires 0.0 <= random < 100.0
    ensures PickedType(random) == SpeedUp <==> random < 40.0
    ensures PickedType(random) == LengthUp <==> 40.0 <= random < 70.0
    ensures PickedType(random) == ShieldUp <==> 70.0 <= random
  {
  }

  /**
   * applyEffect: speed gives a 1.5x boost for the speed duration, length
   * extends the trail cap by addLength, shield activates a shield of the
   * item's duration.
   */
  twostate predicate Applied(item: PowerUpItem, player: Player, now: real)
    reads player, player.shield
  {
    match item.kind
    case SpeedUp =>
      && player.speedMultiplier == 1.5 && player.speedBoostEndTime == Some(now + Config.SpeedDuration)
      && player.trailLength == old(player.trailLength) && player.shield == old(player.shield)
    case LengthUp =>
      && player.trailLength == old(player.trailLength) + Config.LengthAddLength
      && player.speedMultiplier == old(player.speedMultiplier)
      && player.speedBoostEndTime == old(player.speedBoostEndTime) && player.shield == old(player.shield)
    case ShieldUp =>
      && fresh(player.shield) && player.shield != null && player.shield.active
      && player.shield.duration == item.Duration()
      && player.trailLength == old(player.trailLength) && player.speedMultiplier == old(player.speedMultiplier)
      && player.speedBoostEndTime == old(player.speedBoostEndTime)
  }

  method ApplyEffect(item: PowerUpItem, player: Player, gameState: GameState, itemPauseStart: Option<real>, now: real)
    modifies player`speedMultiplier, player`speedBoostEndTime, player`trailLength, player`shield
    ensures Applied(item, player, now)
  {
    match item.kind
    case SpeedUp =>
      player.ApplySpeedBoost(1.5, Config.SpeedDuration, now);
    case LengthUp =>
      player.AddLength(Config.LengthAddLength);
    case ShieldUp =>
      player.ActivateShield(item.Duration(), gameState, itemPauseStart, now);
  }

  // ---------------------------------------------------------------------------
  // Barriers
  // ---------------------------------------------------------------------------

  /** A Barrier (obstacle) or an InitialBarrier: its rectangle and spawn time. */
  datatype Block = Block(box: Rect, spawnTime: real)

  /** The point of the rectangle nearest to (px, py). */
  function NearestX(b: Rect, px: real): real { Clamp(px, b.x, b.x + b.width) }
  function NearestY(b: Rect, py: real): real { Clamp(py, b.y, b.y + b.height) }

  /** checkCollision without the root: the nearest point of the rectangle is closer than the radius. */
  predicate RectHit(b: Rect, px: real, py: real, radius: real)
  {
    Closer(DistSq(px, py, NearestX(b, px), NearestY(b, py)), radius)
  }

  /** Barrier.checkCollision and InitialBarrier.checkCollision (the two bodies are the same). */
  method CheckCollision(b: Rect, playerX: real, playerY: real, playerRadius: real, sqrt: real -> real) returns (hit: bool)
    requires IsSqrt(sqrt)
    ensures hit == RectHit(b, playerX, playerY, playerRadius)
  {
    var closestX := Max(b.x, Min(playerX, b.x + b.width));
    var closestY := Max(b.y, Min(playerY, b.y + b.height));
    var distance := sqrt(DistSq(playerX, playerY, closestX, closestY));
    SqrtCloser(sqrt, DistSq(playerX, playerY, closestX, closestY), playerRadius);
    hit := distance < playerRadius;
  }

  /** A centre inside a rectangle always collides, whatever positive radius. */
  lemma InsideAlwaysHits(b: Rect, px: real, py: real, radius: real)
    requires b.x <= px <= b.x + b.width && b.y <= py <= b.y + b.height && radius > 0.0
    ensures RectHit(b, px, py, radius)
  {
    assert NearestX(b, px) == px && NearestY(b, py) == py;
    assert DistSq(px, py, px, py) == 0.0;
    SquareMonotone(0.0, radius);
  }

  /** A centre farther than the radius from the rectangle along one axis never collides. */
  lemma FarNeverHits(b: Rect, px: real, py: real, radius: real)
    requires b.width >= 0.0 && radius > 0.0 && px >= b.x + b.width + radius
    ensures !RectHit(b, px, py, radius)
  {
    var dx := px - NearestX(b, px);
    assert dx >= radius;
    SquareMonotone(radius, dx);
    assert Sq(dx) >= radius * radius;
  }

  /** One row of the initial barrier columns at height y: one barrier at each of the two x positions. */
  function BarrierRow(x1: real, x2: real, y: real, now: real): seq<Block>
  {
    [Block(Rect(x1, y, Config.BarrierWidth, Config.BarrierHeight), now),
     Block(Rect(x2, y, Config.BarrierWidth, Config.BarrierHeight), now)]
  }

  /** The first k rows of the two columns, from the top, 40 apart with no gaps. */
  function BarrierColumns(x1: real, x2: real, now: real, k: nat): (r: seq<Block>)
    ensures |r| == 2 * k
  {
    if k == 0 then [] else BarrierColumns(x1, x2, now, k - 1) + BarrierRow(x1, x2, (40 * (k - 1)) as real, now)
  }

  /** Rows needed to cover the canvas height: ceil(height / 40), none for an empty canvas. */
  function BarrierRows(height: real): nat
  {
    if height <= 0.0 then 0 else JsCeil(height / 40.0)
  }

  /** The loop's count: k rows are placed when 40(k-1) < height <= 40k. */
  lemma {:induction false} BarrierRowsExact(height: real, k: nat)
    requires k > 0 && 40.0 * ((k - 1) as real) < height <= 40.0 * (k as real)
    ensures BarrierRows(height) == k
  {
    var c := JsCeil(height / 40.0);
    assert height / 40.0 <= k as real;
    assert (k - 1) as real < height / 40.0;
    assert height / 40.0 <= c as real < height / 40.0 + 1.0;
  }

  // ---------------------------------------------------------------------------
  // Spawn checks
  // ---------------------------------------------------------------------------

  const P1Spawn: Point := Point(180.0, 300.0)
  const P2Spawn: Point := Point(1020.0, 300.0)

  /** checkcollisionwithstartpoint: closer than `distance` to either spawn point. */
  predicate NearSpawn(x: real, y: real, distance: real)
  {
    Closer(DistSq(P1Spawn.x, P1Spawn.y, x, y), distance) || Closer(DistSq(P2Spawn.x, P2Spawn.y, x, y), distance)
  }

  method CheckCollisionWithStartPoint(x: real, y: real, distance: real, sqrt: real -> real) returns (near: bool)
    requires IsSqrt(sqrt)
    ensures near == NearSpawn(x, y, distance)
  {
    var distanceP1 := sqrt(DistSq(P1Spawn.x, P1Spawn.y, x, y));
    var distanceP2 := sqrt(DistSq(P2Spawn.x, P2Spawn.y, x, y));
    SqrtCloser(sqrt, DistSq(P1Spawn.x, P1Spawn.y, x, y), distance);
    SqrtCloser(sqrt, DistSq(P2Spawn.x, P2Spawn.y, x, y), distance);
    near := distanceP1 < distance || distanceP2 < distance;
  }

  /** checkitemlastdistance: closer than `distance` to the most recently spawned item. */
  predicate NearLastItem(x: real, y: real, items: seq<PowerUpItem>, distance: real)
  {
    |items| > 0 && Closer(DistSq(items[|items| - 1].x, items[|items| - 1].y, x, y), distance)
  }

  method CheckItemLastDistance(x: real, y: real, items: seq<PowerUpItem>, distance: real, sqrt: real -> real)
      returns (near: bool)
    requires IsSqrt(sqrt)
    ensures near == NearLastItem(x, y, items, distance)
  {
    if |items| == 0 {
      return false;
    }
    var last := items[|items| - 1];
    var distance1 := sqrt(DistSq(last.x, last.y, x, y));
    SqrtCloser(sqrt, DistSq(last.x, last.y, x, y), distance);
    near := distance1 < distance;
  }

  /** isOverlappingWithFlags: within a flag's size plus `radius` of some flag. */
  predicate NearFlag(x: real, y: real, radius: real, flags: seq<Circle>)
  {
    exists i :: 0 <= i < |flags| && Closer(DistSq(x, y, flags[i].x, flags[i].y), flags[i].r + radius)
  }

  method IsOverlappingWithFlags(x: real, y: real, radius: real, flags: seq<Circle>, sqrt: real -> real)
      returns (overlapping: bool)
    requires IsSqrt(sqrt)
    ensures overlapping == NearFlag(x, y, radius, flags)
  {
    var i := 0;
    while i < |flags|
      invariant 0 <= i <= |flags|
      invariant forall k :: 0 <= k < i ==> !Closer(DistSq(x, y, flags[k].x, flags[k].y), flags[k].r + radius)
    {
      var flag := flags[i];
      var dist := sqrt(DistSq(x, y, flag.x, flag.y));
      SqrtCloser(sqrt, DistSq(x, y, flag.x, flag.y), flag.r + radius);
      if dist < flag.r + radius {
        return true;
      }
      i := i + 1;
    }
    return false;
  }

  /** Axis-aligned overlap of a new barrier with an existing one, widened by the cluster margin. */
  predicate OverlapsWithMargin(n: Rect, o: Rect, margin: real)
  {
    && n.x < o.x + o.width + margin
    && n.x + n.width + margin > o.x
    && n.y < o.y + o.height + margin
    && n.y + n.height + margin > o.y
  }

  /**
   * The positions of one obstacle cluster: `size` barriers of 40x40 from the
   * top-left corner, 41 apart along the chosen orientation.
   */
  function ClusterOf(startX: real, startY: real, size: nat, horizontal: bool): (r: seq<Rect>)
    ensures |r| == size
    ensures forall i :: 0 <= i < size ==> r[i].width == Config.BarrierWidth && r[i].height == Config.BarrierHeight
    ensures forall i :: 0 <= i < size ==>
              if horizontal then r[i].x == startX + (i as real) * 41.0 && r[i].y == startY
              else r[i].x == startX && r[i].y == startY + (i as real) * 41.0
  {
    if size == 0 then []
    else
      var i := size - 1;
      ClusterOf(startX, startY, i, horizontal)
      + [if horizontal then Rect(startX + (i as real) * (40.0 + 1.0), startY, 40.0, 40.0)
         else Rect(startX, startY + (i as real) * (40.0 + 1.0), 40.0, 40.0)]
  }

  /** The barriers of a cluster as stored: Barrier objects take only the position, with the configured size. */
  function BlocksOf(cluster: seq<Rect>, now: real): (r: seq<Block>)
    ensures |r| == |cluster|
    ensures forall i :: 0 <= i < |cluster| ==>
              r[i] == Block(Rect(cluster[i].x, cluster[i].y, Config.BarrierWidth, Config.BarrierHeight), now)
  {
    if cluster == [] then []
    else BlocksOf(cluster[..|cluster| - 1], now)
         + [Block(Rect(cluster[|cluster| - 1].x, cluster[|cluster| - 1].y, Config.BarrierWidth, Config.BarrierHeight), now)]
  }

  /** Math.floor(r * 3) + 2 for a draw r in [0, 1): a cluster of 2 to 4 barriers. */
  function ClusterSize(r: real): (n: nat)
    requires 0.0 <= r < 1.0
    ensures 2 <= n <= 4
  {
    (r * 3.0).Floor + 2
  }

  /** Whether an obstacle's rectangle overlaps the surviving obstacles with the margin. */
  predicate OverlapsAny(n: Rect, obstacles: seq<Block>)
  {
    exists j :: 0 <= j < |obstacles| && OverlapsWithMargin(n, obstacles[j].box, 25.0)
  }

  /** filter on the item timeout: the items younger than 10 s, in their order. */
  function Unexpired(items: seq<PowerUpItem>, now: real): (r: seq<PowerUpItem>)
    ensures |r| <= |items|
    ensures forall it :: it in r <==> it in items && now - it.spawnTime < Config.ItemTimeout
  {
    if items == [] then []
    else
      var rest := Unexpired(items[..|items| - 1], now);
      var last := items[|items| - 1];
      assert items == items[..|items| - 1] + [last];
      if now - last.spawnTime < Config.ItemTimeout then rest + [last] else rest
  }

  /** The cleanup filter distributes over concatenation, so it keeps the items in their order. */
  lemma {:induction false} UnexpiredAppend(a: seq<PowerUpItem>, b: seq<PowerUpItem>, now: real)
    ensures Unexpired(a + b, now) == Unexpired(a, now) + Unexpired(b, now)
    decreases |b|
  {
    if b == [] {
      assert a + b == a;
    } else {
      var b0 := b[..|b| - 1];
      UnexpiredAppend(a, b0, now);
      assert (a + b)[..|a + b| - 1] == a + b0;
      assert (a + b)[|a + b| - 1] == b[|b| - 1];
    }
  }

  /** Cleaning up twice at the same time removes nothing more. */
  lemma {:induction false} UnexpiredIdempotent(items: seq<PowerUpItem>, now: real)
    ensures Unexpired(Unexpired(items, now), now) == Unexpired(items, now)
  {
    if items != [] {
      var rest := items[..|items| - 1];
      var last := items[|items| - 1];
      UnexpiredIdempotent(rest, now);
      if now - last.spawnTime < Config.ItemTimeout {
        UnexpiredAppend(Unexpired(rest, now), [last], now);
      }
    }
  }

  /** The newest `cap` obstacles, or all of them when there are no more than `cap`. */
  function NewestObstacles(obstacles: seq<Block>, cap: nat): (r: seq<Block>)
    ensures |r| <= cap || r == obstacles
    ensures |r| == MinInt(|obstacles|, cap)
    ensures r == obstacles[|obstacles| - |r|..]
  {
    if |obstacles| > cap then obstacles[|obstacles| - cap..] else obstacles
  }

  // ---------------------------------------------------------------------------
  // The manager
  // ---------------------------------------------------------------------------

  /** The index of the pick-up checkItemCollision takes: the highest one within radius + 5 of (px, py). */
  function LastReachable(items: seq<PowerUpItem>, px: real, py: real, k: nat): (r: Option<nat>)
    requires k <= |items|
    ensures r.Some? ==> r.value < k && Reachable(items[r.value], px, py)
    ensures r.Some? ==> forall j :: r.value < j < k ==> !Reachable(items[j], px, py)
    ensures r.None? ==> forall j :: 0 <= j < k ==> !Reachable(items[j], px, py)
  {
    if k == 0 then None
    else if Reachable(items[k - 1], px, py) then Some(k - 1)
    else LastReachable(items, px, py, k - 1)
  }

  /** Within pick-up range: closer than the item's radius plus 5. */
  predicate Reachable(item: PowerUpItem, px: real, py: real)
  {
    Closer(DistSq(px, py, item.x, item.y), item.Radius() + 5.0)
  }

  class ItemManager {
    const canvasWidth: real
    const canvasHeight: real
    var items: seq<PowerUpItem>
    var obstacles: seq<Block>
    var initialBarriers: seq<Block>
    var spawnTimer: real
    var lastItemSpawn: real
    var lastObstacleSpawn: real
    const itemSpawnInterval: real
    const obstacleSpawnInterval: real
    const initialBarrierDuration: real
    var initialBarrierStartTime: real
    var initialBarriersCreated: bool
    /** Set by the engine while paused: when the pause began. */
    var pauseStartTime: Option<real>

    constructor (canvasWidth: real, canvasHeight: real, now: real)
      ensures this.canvasWidth == canvasWidth && this.canvasHeight == canvasHeight
      ensures items == [] && obstacles == [] && initialBarriers == []
      ensures spawnTimer == 0.0 && lastItemSpawn == 0.0 && lastObstacleSpawn == 0.0
      ensures itemSpawnInterval == Config.ItemSpawnInterval && obstacleSpawnInterval == Config.ObstacleSpawnInterval
      ensures initialBarrierDuration == Config.InitialBarrierDuration
      ensures initialBarrierStartTime == now && !initialBarriersCreated && pauseStartTime == None
    {
      this.canvasWidth := canvasWidth;
      this.canvasHeight := canvasHeight;
      items := [];
      obstacles := [];
      initialBarriers := [];
      spawnTimer := 0.0;
      itemSpawnInterval := Config.ItemSpawnInterval;
      obstacleSpawnInterval := Config.ObstacleSpawnInterval;
      lastItemSpawn := 0.0;
      lastObstacleSpawn := 0.0;
      initialBarrierDuration := Config.InitialBarrierDuration;
      initialBarrierStartTime := now;
      initialBarriersCreated := false;
      pauseStartTime := None;
    }

    /** The two x positions of the barrier columns (both are fractions of the canvas width). */
    function ColumnX1(): real reads this { canvasWidth * Config.InitialBarrierX - Config.BarrierWidth / 2.0 }
    function ColumnX2(): real reads this { canvasWidth * Config.InitialBarrierY - Config.BarrierWidth / 2.0 }

    /**
     * createInitialBarriers: once only; two gapless columns of 40x40 barriers
     * from the top of the canvas down, ceil(height / 40) rows.
     */
    method CreateInitialBarriers(now: real)
      modifies this`initialBarriers, this`initialBarriersCreated
      ensures old(initialBarriersCreated) ==> initialBarriers == old(initialBarriers) && initialBarriersCreated
      ensures !old(initialBarriersCreated) ==>
                initialBarriers == old(initialBarriers) + BarrierColumns(ColumnX1(), ColumnX2(), now, BarrierRows(canvasHeight))
                && initialBarriersCreated
      ensures |initialBarriers| == |old(initialBarriers)| + (if old(initialBarriersCreated) then 0 else 2 * BarrierRows(canvasHeight))
    {
      if initialBarriersCreated {
        return;
      }
      var centerX := canvasWidth * Config.InitialBarrierX;
      var centerY := canvasWidth * Config.InitialBarrierY;
      var barrierWidth := 40.0;
      var barrierHeight := 40.0;
      var barrierX := centerX - barrierWidth / 2.0;
      var barrierY := centerY - barrierWidth / 2.0;
      ghost var b0 := initialBarriers;
      var y := 0.0;
      ghost var k: nat := 0;
      while y < canvasHeight
        invariant y == 40.0 * (k as real)
        invariant k > 0 ==> 40.0 * ((k - 1) as real) < canvasHeight
        invariant initialBarriers == b0 + BarrierColumns(barrierX, barrierY, now, k)
        invariant k <= BarrierRows(canvasHeight)
        decreases BarrierRows(canvasHeight) - k
      {
        initialBarriers := initialBarriers + [Block(Rect(barrierX, y, barrierWidth, barrierHeight), now)];
        initialBarriers := initialBarriers + [Block(Rect(barrierY, y, barrierWidth, barrierHeight), now)];
        assert (40 * k) as real == y;
        y := y + barrierHeight;
        k := k + 1;
      }
      if k > 0 {
        BarrierRowsExact(canvasHeight, k);
      }
      initialBarriersCreated := true;
    }

    /** isPositionBlockedBarrier: while the initial barriers stand, x within 50 of either column centre. */
    predicate IsPositionBlockedBarrier(x: real)
      reads this`initialBarriers
    {
      |initialBarriers| > 0
      && (Abs(x - canvasWidth * Config.InitialBarrierX) < 50.0 || Abs(x - canvasWidth * Config.InitialBarrierY) < 50.0)
    }

    /**
     * The blocked band covers both barrier columns: while initial barriers
     * stand, every x across either column is blocked; once they are gone,
     * no x is.
     */
    lemma ColumnsBlocked(x: real)
      ensures HasInitialBarriers() && ColumnX1() <= x <= ColumnX1() + Config.BarrierWidth ==> IsPositionBlockedBarrier(x)
      ensures HasInitialBarriers() && ColumnX2() <= x <= ColumnX2() + Config.BarrierWidth ==> IsPositionBlockedBarrier(x)
      ensures !HasInitialBarriers() ==> !IsPositionBlockedBarrier(x)
    {
    }

    /** A free spot for a power-up: away from the spawns, the barrier columns, the last item and the flags. */
    predicate ItemSpotFree(x: real, y: real, flags: seq<Circle>)
      reads this
    {
      !NearSpawn(x, y, 150.0) && !IsPositionBlockedBarrier(x) && !NearLastItem(x, y, items, 300.0) && !NearFlag(x, y, 0.0, flags)
    }

    /**
     * What one item spawn leaves behind: nothing new, or the old items
     * followed by one item spawned now on a spot that was free among them.
     */
    ghost predicate ItemOutcome(before: seq<PowerUpItem>, after: seq<PowerUpItem>, flags: seq<Circle>, now: real)
      reads this`initialBarriers
    {
      || after == before
      || (&& |after| == |before| + 1 && after[..|before|] == before
          && after[|before|].spawnTime == now
          && !NearSpawn(after[|before|].x, after[|before|].y, 150.0) && !IsPositionBlockedBarrier(after[|before|].x)
          && !NearLastItem(after[|before|].x, after[|before|].y, before, 300.0)
          && !NearFlag(after[|before|].x, after[|before|].y, 0.0, flags))
    }

    /** spawnRandomItem's search: up to 50 attempts, stopping at the first free spot. */
    method FindItemSpot(rng: RandomSource, flags: seq<Circle>, sqrt: real -> real) returns (x: real, y: real, isValidPosition: bool)
      requires IsSqrt(sqrt) && rng.Valid()
      modifies rng
      ensures rng.Valid() && rng.next > old(rng.next)
      ensures isValidPosition ==> ItemSpotFree(x, y, flags)
    {
      var attempts := 0;
      var maxAttempts := 50;
      x, y, isValidPosition := TryItemSpot(rng, flags, sqrt);
      attempts := attempts + 1;
      while !isValidPosition && attempts < maxAttempts
        invariant rng.Valid() && rng.next > old(rng.next)
        invariant isValidPosition ==> ItemSpotFree(x, y, flags)
        decreases maxAttempts - attempts
      {
        x, y, isValidPosition := TryItemSpot(rng, flags, sqrt);
        attempts := attempts + 1;
      }
    }

    /** One attempt of spawnRandomItem: two draws for the position, then the four checks. */
    method TryItemSpot(rng: RandomSource, flags: seq<Circle>, sqrt: real -> real) returns (x: real, y: real, free: bool)
      requires IsSqrt(sqrt) && rng.Valid()
      modifies rng
      ensures rng.Valid() && rng.next == old(rng.next) + 2
      ensures x == rng.draws(old(rng.next)) * (canvasWidth - 40.0) + 20.0
      ensures y == rng.draws(old(rng.next) + 1) * (canvasHeight - 40.0) + 20.0
      ensures free == ItemSpotFree(x, y, flags)
    {
      var rx := rng.Next();
      x := rx * (canvasWidth - 40.0) + 20.0;
      var ry := rng.Next();
      y := ry * (canvasHeight - 40.0) + 20.0;
      var nearStart := CheckCollisionWithStartPoint(x, y, 150.0, sqrt);
      var nearLast := CheckItemLastDistance(x, y, items, 300.0, sqrt);
      var nearFlag := IsOverlappingWithFlags(x, y, 0.0, flags, sqrt);
      free := !nearStart && !IsPositionBlockedBarrier(x) && !nearLast && !nearFlag;
    }

    /**
     * spawnRandomItem: up to 50 attempts at a free spot; on success one item
     * of the weighted type (from the next draw, scaled to the total weight)
     * is appended, otherwise nothing changes.
     */
    method SpawnRandomItem(rng: RandomSource, flags: seq<Circle>, now: real, sqrt: real -> real)
      requires IsSqrt(sqrt) && rng.Valid()
      modifies this`items, rng
      ensures rng.Valid() && rng.next > old(rng.next)
      ensures items == old(items) || |items| == |old(items)| + 1
      ensures |items| == |old(items)| + 1 ==>
                var item := items[|items| - 1];
                && items[..|old(items)|] == old(items)
                && old(ItemSpotFree(item.x, item.y, flags))
                && item.spawnTime == now
                && item.kind == PickedType(rng.draws(rng.next - 1) * 100.0)
      ensures ItemOutcome(old(items), items, flags, now)
    {
      var x, y, isValidPosition := FindItemSpot(rng, flags, sqrt);
      if isValidPosition {
        var totalWeight := Config.SpeedWeight + Config.LengthWeight + Config.ShieldWeight;
        var draw := rng.Next();
        var selectedType := WeightedPick(draw * totalWeight);
        items := items + [PowerUpItem(x, y, selectedType, now)];
      }
    }

    /** A spot blocked for a new obstacle: the barrier columns, 100 around a spawn, an existing obstacle, a flag. */
    predicate ObstacleSpotBlocked(n: Rect, flags: seq<Circle>, existing: seq<Block>)
      reads this`initialBarriers
    {
      IsPositionBlockedBarrier(n.x) || NearSpawn(n.x, n.y, 100.0) || OverlapsAny(n, existing)
      || NearFlag(n.x, n.y, n.width / 2.0, flags)
    }

    /** The overlap scan of spawnRandomObstacle over a tentative cluster. */
    method ClusterOverlaps(cluster: seq<Rect>, flags: seq<Circle>, sqrt: real -> real) returns (isOverlapping: bool)
      requires IsSqrt(sqrt)
      ensures isOverlapping == exists k :: 0 <= k < |cluster| && ObstacleSpotBlocked(cluster[k], flags, obstacles)
    {
      var i := 0;
      while i < |cluster|
        invariant 0 <= i <= |cluster|
        invariant forall k :: 0 <= k < i ==> !ObstacleSpotBlocked(cluster[k], flags, obstacles)
      {
        var newBarrier := cluster[i];
        if IsPositionBlockedBarrier(newBarrier.x) {
          return true;
        }
        var nearStart := CheckCollisionWithStartPoint(newBarrier.x, newBarrier.y, 100.0, sqrt);
        if nearStart {
          return true;
        }
        var j := 0;
        while j < |obstacles|
          invariant 0 <= j <= |obstacles|
          invariant forall m :: 0 <= m < j ==> !OverlapsWithMargin(newBarrier, obstacles[m].box, 25.0)
        {
          if OverlapsWithMargin(newBarrier, obstacles[j].box, 25.0) {
            return true;
          }
          j := j + 1;
        }
        var nearFlag := IsOverlappingWithFlags(newBarrier.x, newBarrier.y, newBarrier.width / 2.0, flags, sqrt);
        if nearFlag {
          return true;
        }
        i := i + 1;
      }
      return false;
    }

    /** One cluster as placed: the obstacles it appended, all of one cluster shape and all on free spots. */
    ghost predicate PlacedCluster(added: seq<Block>, existing: seq<Block>, flags: seq<Circle>, now: real)
      reads this`initialBarriers
    {
      exists startX: real, startY: real, size: nat, horizontal: bool ::
        && 2 <= size <= 4
        && added == BlocksOf(ClusterOf(startX, startY, size, horizontal), now)
        && forall k :: 0 <= k < size ==> !ObstacleSpotBlocked(ClusterOf(startX, startY, size, horizontal)[k], flags, existing)
    }

    /** What one spawn leaves behind: either nothing new, or the old obstacles followed by one placed cluster. */
    ghost predicate SpawnOutcome(before: seq<Block>, after: seq<Block>, flags: seq<Circle>, now: real)
      reads this`initialBarriers
    {
      || after == before
      || (&& |after| > |before| && after[..|before|] == before
          && 2 <= |after| - |before| <= 4
          && PlacedCluster(after[|before|..], before, flags, now))
    }

    /**
     * One attempt of spawnRandomObstacle: two draws for the top-left corner
     * (none when the cluster cannot fit the margins), then the overlap scan;
     * a cluster with no blocked barrier is appended.
     */
    method TryCluster(rng: RandomSource, clusterSize: nat, horizontal: bool, flags: seq<Circle>, now: real, sqrt: real -> real)
      returns (placed: bool)
      requires IsSqrt(sqrt) && rng.Valid() && 2 <= clusterSize <= 4
      modifies this`obstacles, rng
      ensures rng.Valid()
      ensures !placed ==> obstacles == old(obstacles)
      ensures placed ==> obstacles != old(obstacles) && SpawnOutcome(old(obstacles), obstacles, flags, now)
    {
      var spacing := 1.0;
      var barrierWidth := 40.0;
      var barrierHeight := 40.0;
      var clusterWidth, clusterHeight;
      if horizontal {
        clusterWidth := (clusterSize as real) * barrierWidth + ((clusterSize - 1) as real) * spacing;
        clusterHeight := barrierHeight;
      } else {
        clusterWidth := barrierWidth;
        clusterHeight := (clusterSize as real) * barrierHeight + ((clusterSize - 1) as real) * spacing;
      }
      if clusterWidth >= canvasWidth - 60.0 || clusterHeight >= canvasHeight - 60.0 {
        return false;
      }
      var rx := rng.Next();
      var startX := rx * (canvasWidth - clusterWidth - 60.0) + 30.0;
      var ry := rng.Next();
      var startY := ry * (canvasHeight - clusterHeight - 60.0) + 30.0;
      var tempCluster := ClusterOf(startX, startY, clusterSize, horizontal);
      var isOverlapping := ClusterOverlaps(tempCluster, flags, sqrt);
      if isOverlapping {
        return false;
      }
      ghost var before := obstacles;
      var added := BlocksOf(tempCluster, now);
      obstacles := obstacles + added;
      assert obstacles[|before|..] == added && obstacles[..|before|] == before;
      assert PlacedCluster(added, before, flags, now);
      return true;
    }

    /**
     * spawnRandomObstacle: a cluster of 2-4 barriers in one orientation; up
     * to 30 attempts at a corner where no barrier of the cluster is blocked;
     * the first such cluster is appended whole, otherwise nothing is.
     */
    method SpawnRandomObstacle(rng: RandomSource, flags: seq<Circle>, now: real, sqrt: real -> real)
      requires IsSqrt(sqrt) && rng.Valid()
      modifies this`obstacles, rng
      ensures rng.Valid()
      ensures SpawnOutcome(old(obstacles), obstacles, flags, now)
      ensures |old(obstacles)| <= |obstacles| <= |old(obstacles)| + 4
    {
      var r1 := rng.Next();
      var clusterSize := ClusterSize(r1);
      var r2 := rng.Next();
      var horizontal := r2 < 0.5;
      var attempts := 0;
      var maxAttempts := 30;
      var clusterPlaced := false;
      while !clusterPlaced && attempts < maxAttempts
        invariant rng.Valid()
        invariant !clusterPlaced ==> obstacles == old(obstacles)
        invariant SpawnOutcome(old(obstacles), obstacles, flags, now)
        decreases maxAttempts - attempts
      {
        attempts := attempts + 1;
        clusterPlaced := TryCluster(rng, clusterSize, horizontal, flags, now, sqrt);
      }
    }

    /**
     * update: nothing while paused. Otherwise the spawn timer advances; the
     * initial barriers disappear once their duration has elapsed (not checked
     * during the countdown); an item and an obstacle cluster are attempted
     * whenever more than their interval has passed since the last attempt.
     */
    method Update(deltaTime: real, gameState: GameState, now: real, rng: RandomSource, flags: seq<Circle>, sqrt: real -> real)
      requires IsSqrt(sqrt) && rng.Valid()
      modifies this`spawnTimer, this`initialBarriers, this`lastItemSpawn, this`lastObstacleSpawn, this`items, this`obstacles, rng
      ensures rng.Valid()
      ensures gameState == Paused ==> unchanged(this) && unchanged(rng)
      ensures gameState != Paused ==>
                && spawnTimer == old(spawnTimer) + deltaTime
                && (gameState != Countdown && now - initialBarrierStartTime >= initialBarrierDuration ==> initialBarriers == [])
                && (gameState == Countdown || now - initialBarrierStartTime < initialBarrierDuration ==>
                      initialBarriers == old(initialBarriers))
                && (spawnTimer - old(lastItemSpawn) > itemSpawnInterval ==>
                      lastItemSpawn == spawnTimer && ItemOutcome(old(items), items, flags, now))
                && (spawnTimer - old(lastItemSpawn) <= itemSpawnInterval ==> lastItemSpawn == old(lastItemSpawn) && items == old(items))
                && (spawnTimer - old(lastObstacleSpawn) > obstacleSpawnInterval ==>
                      lastObstacleSpawn == spawnTimer && SpawnOutcome(old(obstacles), obstacles, flags, now))
                && (spawnTimer - old(lastObstacleSpawn) <= obstacleSpawnInterval ==>
                      lastObstacleSpawn == old(lastObstacleSpawn) && obstacles == old(obstacles))
    {
      if gameState == Paused {
        return;
      }
      spawnTimer := spawnTimer + deltaTime;
      if gameState != Countdown {
        var currentTime := now;
        if currentTime - initialBarrierStartTime >= initialBarrierDuration {
          if |initialBarriers| > 0 {
            initialBarriers := [];
          }
        }
      }
      SpawnDue(rng, flags, now, sqrt);
    }

    /** The spawn part of update: an item, then an obstacle cluster, each when its interval is exceeded. */
    method SpawnDue(rng: RandomSource, flags: seq<Circle>, now: real, sqrt: real -> real)
      requires IsSqrt(sqrt) && rng.Valid()
      modifies this`lastItemSpawn, this`lastObstacleSpawn, this`items, this`obstacles, rng
      ensures rng.Valid()
      ensures spawnTimer - old(lastItemSpawn) > itemSpawnInterval ==>
                lastItemSpawn == spawnTimer && ItemOutcome(old(items), items, flags, now)
      ensures spawnTimer - old(lastItemSpawn) <= itemSpawnInterval ==> lastItemSpawn == old(lastItemSpawn) && items == old(items)
      ensures spawnTimer - old(lastObstacleSpawn) > obstacleSpawnInterval ==>
                lastObstacleSpawn == spawnTimer && SpawnOutcome(old(obstacles), obstacles, flags, now)
      ensures spawnTimer - old(lastObstacleSpawn) <= obstacleSpawnInterval ==>
                lastObstacleSpawn == old(lastObstacleSpawn) && obstacles == old(obstacles)
    {
      if spawnTimer - lastItemSpawn > itemSpawnInterval {
        SpawnRandomItem(rng, flags, now, sqrt);
        lastItemSpawn := spawnTimer;
      }
      if spawnTimer - lastObstacleSpawn > obstacleSpawnInterval {
        SpawnRandomObstacle(rng, flags, now, sqrt);
        lastObstacleSpawn := spawnTimer;
      }
    }

    /**
     * checkItemCollision: scanning from the newest item down, the first item
     * within reach is applied to the player and removed; true iff one was.
     */
    method CheckItemCollision(player: Player, gameState: GameState, now: real, sqrt: real -> real) returns (picked: bool)
      requires IsSqrt(sqrt)
      modifies this`items, player`speedMultiplier, player`speedBoostEndTime, player`trailLength, player`shield
      ensures var k := LastReachable(old(items), player.x, player.y, |old(items)|);
              && picked == k.Some?
              && (k.None? ==> items == old(items) && player.trailLength == old(player.trailLength)
                                && player.speedMultiplier == old(player.speedMultiplier) && player.shield == old(player.shield)
                                && player.speedBoostEndTime == old(player.speedBoostEndTime))
              && (k.Some? ==> items == old(items)[..k.value] + old(items)[k.value + 1..]
                              && Applied(old(items)[k.value], player, now))
    {
      var i := |items| - 1;
      while i >= 0
        invariant -1 <= i < |items|
        invariant items == old(items)
        invariant forall j :: i < j < |items| ==> !Reachable(items[j], player.x, player.y)
        invariant unchanged(player)
      {
        var item := items[i];
        var distance := sqrt(DistSq(player.x, player.y, item.x, item.y));
        SqrtCloser(sqrt, DistSq(player.x, player.y, item.x, item.y), item.Radius() + 5.0);
        if distance < item.Radius() + 5.0 {
          ApplyEffect(item, player, gameState, pauseStartTime, now);
          items := items[..i] + items[i + 1..];
          return true;
        }
        i := i - 1;
      }
      return false;
    }

    /**
     * getInitialBarrierRemainingTime: the full duration during the countdown;
     * while paused, what was left when the pause began (a missing pause start
     * counts as 0); otherwise what is left now; never negative outside the
     * countdown.
     */
    function InitialBarrierRemainingTime(gameState: GameState, now: real): (r: real)
      reads this
      ensures gameState == Countdown ==> r == initialBarrierDuration
      ensures gameState != Countdown ==> r >= 0.0
      ensures gameState != Countdown && gameState != Paused ==>
                (r == 0.0 <==> now - initialBarrierStartTime >= initialBarrierDuration)
      ensures gameState != Countdown && gameState != Paused && now >= initialBarrierStartTime ==>
                r <= initialBarrierDuration || r == 0.0
      ensures gameState == Paused ==>
                r == 0.0 || r == initialBarrierDuration - ((if pauseStartTime.Some? then pauseStartTime.value else 0.0) - initialBarrierStartTime)
    {
      if gameState == Countdown then initialBarrierDuration
      else if gameState == Paused then
        Max(0.0, initialBarrierDuration - ((if pauseStartTime.Some? then pauseStartTime.value else 0.0) - initialBarrierStartTime))
      else Max(0.0, initialBarrierDuration - (now - initialBarrierStartTime))
    }

    predicate HasInitialBarriers()
      reads this
    {
      |initialBarriers| > 0
    }

    /**
     * cleanup: the items younger than the timeout are kept in order, and the
     * obstacles are cut to the newest 30.
     */
    method Cleanup(now: real)
      modifies this`items, this`obstacles
      ensures items == Unexpired(old(items), now)
      ensures obstacles == NewestObstacles(old(obstacles), Config.MaxObstacles)
      ensures |obstacles| <= Config.MaxObstacles
    {
      items := Unexpired(items, now);
      if |obstacles| > Config.MaxObstacles {
        obstacles := obstacles[|obstacles| - Config.MaxObstacles..];
      }
    }

    /**
     * checkObstacleCollision: every obstacle that touches the player (radius 5)
     * at its current position pushes it out, in list order; then every initial
     * barrier likewise. The position is all that changes.
     */
    method CheckObstacleCollision(player: Player, sqrt: real -> real)
      requires IsSqrt(sqrt)
      modifies player`x, player`y
      ensures Point(player.x, player.y)
              == AfterBarriers(AfterObstacles(Point(old(player.x), old(player.y)), obstacles, player.canvasWidth, player.canvasHeight),
                               initialBarriers, player.canvasWidth, player.canvasHeight)
    {
      var p0 := Point(player.x, player.y);
      var i := 0;
      while i < |obstacles|
        invariant 0 <= i <= |obstacles|
        invariant Point(player.x, player.y) == AfterObstacles(p0, obstacles[..i], player.canvasWidth, player.canvasHeight)
      {
        assert obstacles[..i + 1][..i] == obstacles[..i];
        var hit := CheckCollision(obstacles[i].box, player.x, player.y, 5.0, sqrt);
        if hit {
          player.HandleObstacleCollision(obstacles[i].box);
        }
        i := i + 1;
      }
      assert obstacles[..i] == obstacles;
      var p1 := Point(player.x, player.y);
      var j := 0;
      while j < |initialBarriers|
        invariant 0 <= j <= |initialBarriers|
        invariant Point(player.x, player.y) == AfterBarriers(p1, initialBarriers[..j], player.canvasWidth, player.canvasHeight)
      {
        assert initialBarriers[..j + 1][..j] == initialBarriers[..j];
        var hit := CheckCollision(initialBarriers[j].box, player.x, player.y, 5.0, sqrt);
        if hit {
          player.HandleBarrierCollision(initialBarriers[j].box, sqrt);
        }
        j := j + 1;
      }
      assert initialBarriers[..j] == initialBarriers;
    }

    /** reset: everything emptied, the barrier clock restarted, and the initial barriers built again. */
    method Reset(now: real)
      modifies this`items, this`obstacles, this`initialBarriers, this`initialBarriersCreated,
               this`initialBarrierStartTime, this`pauseStartTime
      ensures items == [] && obstacles == [] && pauseStartTime == None && initialBarrierStartTime == now
      ensures initialBarriers == BarrierColumns(ColumnX1(), ColumnX2(), now, BarrierRows(canvasHeight))
      ensures initialBarriersCreated
    {
      items := [];
      obstacles := [];
      initialBarriers := [];
      initialBarriersCreated := false;
      initialBarrierStartTime := now;
      pauseStartTime := None;
      CreateInitialBarriers(now);
    }
  }

  /**
   * checkObstacleCollision's effect on the position: each obstacle in turn,
   * if it collides (radius 5) at the current position, pushes the player out
   * as handleObstacleCollision does; then the same over the initial barriers
   * with handleBarrierCollision.
   */
  function AfterObstacles(p: Point, obstacles: seq<Block>, w: real, h: real): Point
  {
    if obstacles == [] then p
    else
      var q := AfterObstacles(p, obstacles[..|obstacles| - 1], w, h);
      var o := obstacles[|obstacles| - 1].box;
      if RectHit(o, q.x, q.y, 5.0) then
        var pushed := PushOut(q.x, q.y, Config.PushDistance, o);
        Point(Clamp(pushed.x, Config.PushDistance, w - Config.PushDistance),
              Clamp(pushed.y, Config.PushDistance, h - Config.PushDistance))
      else q
  }

  function AfterBarriers(p: Point, barriers: seq<Block>, w: real, h: real): Point
  {
    if barriers == [] then p
    else
      var q := AfterBarriers(p, barriers[..|barriers| - 1], w, h);
      var b := barriers[|barriers| - 1].box;
      if RectHit(b, q.x, q.y, 5.0) then
        Point(Clamp(BarrierPushX(q.x, q.y, Config.PushDistance, b), 5.0, w - 5.0), Clamp(q.y, 5.0, h - 5.0))
      else q
  }

  /** A position that starts at least the push distance inside the canvas stays there, whatever obstacles push it. */
  lemma {:induction false} AfterObstaclesInBounds(p: Point, obstacles: seq<Block>, w: real, h: real)
    requires Config.PushDistance <= p.x <= w - Config.PushDistance
    requires Config.PushDistance <= p.y <= h - Config.PushDistance
    ensures var q := AfterObstacles(p, obstacles, w, h);
            Config.PushDistance <= q.x <= w - Config.PushDistance && Config.PushDistance <= q.y <= h - Config.PushDistance
  {
    if obstacles != [] {
      AfterObstaclesInBounds(p, obstacles[..|obstacles| - 1], w, h);
    }
  }

  /** Likewise for the initial barriers, with their margin of 5. */
  lemma {:induction false} AfterBarriersInBounds(p: Point, barriers: seq<Block>, w: real, h: real)
    requires 5.0 <= p.x <= w - 5.0 && 5.0 <= p.y <= h - 5.0
    ensures var q := AfterBarriers(p, barriers, w, h);
            5.0 <= q.x <= w - 5.0 && 5.0 <= q.y <= h - 5.0
  {
    if barriers != [] {
      AfterBarriersInBounds(p, barriers[..|barriers| - 1], w, h);
    }
  }

  /** Far from every obstacle, nothing is pushed. */
  lemma {:induction false} AfterObstaclesUntouched(p: Point, obstacles: seq<Block>, w: real, h: real)
    requires forall k :: 0 <= k < |obstacles| ==> !RectHit(obstacles[k].box, p.x, p.y, 5.0)
    ensures AfterObstacles(p, obstacles, w, h) == p
  {
    if obstacles != [] {
      AfterObstaclesUntouched(p, obstacles[..|obstacles| - 1], w, h);
    }
  }
}

=== FILE: players.dfy ===
/**
 * A player (class Player of js/objects/Player.js): movement with clamping to
 * the canvas, the trail that is resampled at a fixed spacing into a capped
 * list, collision queries, lives and respawn rules per mode, the lockout after
 * an infinite-mode respawn, and the capture-mode "return home" countdown.
 */
module Players {
  import opened Common
  import Config
  import opened Shields

  /** A trail point. The smoothing control points the game also stores are only drawn, so they are not modelled. */
  datatype TrailPoint = TrailPoint(x: real, y: real, timestamp: real)

  /** Result of checkCollisionWithTrail: false, 'head-collision' or 'trail-collision'. */
  datatype TrailHit = NoHit | HeadCollision | TrailCollision

  // ---------------------------------------------------------------------------
  // Nonzero winding-number point-in-polygon test (isPointInPolygon)
  // ---------------------------------------------------------------------------

  /** Cross product telling on which side of the edge p1->p2 the point lies. */
  function IsLeft(p1: Point, p2: Point, pt: Point): real
  {
    (p2.x - p1.x) * (pt.y - p1.y) - (pt.x - p1.x) * (p2.y - p1.y)
  }

  /** Contribution of one edge to the winding number: +1 upward crossing with the point on the left, -1 downward with it on the right. */
  function EdgeWinding(p1: Point, p2: Point, pt: Point): int
  {
    if p1.y <= pt.y then
      (if p2.y > pt.y && IsLeft(p1, p2, pt) > 0.0 then 1 else 0)
    else
      (if p2.y <= pt.y && IsLeft(p1, p2, pt) < 0.0 then -1 else 0)
  }

  /** Swapping the ends of an edge negates its contribution. */
  lemma EdgeWindingSwap(p1: Point, p2: Point, pt: Point)
    ensures EdgeWinding(p2, p1, pt) == -EdgeWinding(p1, p2, pt)
  {
    assert IsLeft(p2, p1, pt) == -IsLeft(p1, p2, pt);
  }

  /** Index of the vertex after vertex i, wrapping to 0: `(i + 1) % n`. */
  function NextIndex(i: nat, n: nat): (j: nat)
    requires i < n
    ensures j < n && j == (i + 1) % n
  {
    if i + 1 < n then i + 1 else 0
  }

  /** Winding contribution of edge i of the closed polygon (the edge from vertex i to the next one). */
  function EdgeAt(poly: seq<Point>, pt: Point, i: nat): int
    requires i < |poly|
  {
    EdgeWinding(poly[i], poly[NextIndex(i, |poly|)], pt)
  }

  /** Sum of the contributions of edges 0 .. k-1. */
  function WindingPrefix(poly: seq<Point>, pt: Point, k: nat): int
    requires k <= |poly|
  {
    if k == 0 then 0 else WindingPrefix(poly, pt, k - 1) + EdgeAt(poly, pt, k - 1)
  }

  function WindingNumber(poly: seq<Point>, pt: Point): int
  {
    WindingPrefix(poly, pt, |poly|)
  }

  /** Specification of isPointInPolygon: fewer than three vertices is never inside; otherwise a nonzero winding number is. */
  predicate InPolygon(pt: Point, poly: seq<Point>)
  {
    |poly| >= 3 && WindingNumber(poly, pt) != 0
  }

  /** Partial sum of the reversed polygon's edges, counted from the end. */
  lemma {:induction false} WindingPrefixReverse(poly: seq<Point>, pt: Point, k: nat)
    requires 2 <= |poly| && k <= |poly| - 1
    ensures WindingPrefix(Reverse(poly), pt, k)
         == -(WindingPrefix(poly, pt, |poly| - 1) - WindingPrefix(poly, pt, |poly| - 1 - k))
  {
    var n := |poly|;
    var q := Reverse(poly);
    if k > 0 {
      WindingPrefixReverse(poly, pt, k - 1);
      // edge k-1 of q runs from poly[n-k] to poly[n-k-1]: edge n-k-1 of poly, reversed
      assert q[k - 1] == poly[n - k];
      assert q[k] == poly[n - 1 - k];
      assert NextIndex(k - 1, n) == k;
      assert NextIndex(n - 1 - k, n) == n - k;
      EdgeWindingSwap(poly[n - 1 - k], poly[n - k], pt);
      assert EdgeAt(q, pt, k - 1) == -EdgeAt(poly, pt, n - 1 - k);
    }
  }

  /** Reversing the vertex list negates the winding number. */
  lemma {:induction false} WindingNumberReverse(poly: seq<Point>, pt: Point)
    ensures WindingNumber(Reverse(poly), pt) == -WindingNumber(poly, pt)
  {
    var n := |poly|;
    var q := Reverse(poly);
    if n == 1 {
      assert q == poly;
      EdgeWindingSwap(poly[0], poly[0], pt);
      assert EdgeAt(poly, pt, 0) == 0;
      assert WindingNumber(poly, pt) == WindingPrefix(poly, pt, 0) + EdgeAt(poly, pt, 0);
    } else if n >= 2 {
      WindingPrefixReverse(poly, pt, n - 1);
      // the closing edge of q runs from poly[0] to poly[n-1]: the closing edge of poly, reversed
      assert q[n - 1] == poly[0] && q[0] == poly[n - 1];
      assert NextIndex(n - 1, n) == 0;
      EdgeWindingSwap(poly[n - 1], poly[0], pt);
      assert EdgeAt(q, pt, n - 1) == -EdgeAt(poly, pt, n - 1);
    }
  }

  /** The inside test does not depend on the polygon's orientation. */
  lemma InPolygonReverse(pt: Point, poly: seq<Point>)
    ensures InPolygon(pt, Reverse(poly)) == InPolygon(pt, poly)
  {
    WindingNumberReverse(poly, pt);
  }

  /** isPointInPolygon, with its accumulator loop over the edges. */
  method IsPointInPolygon(pt: Point, poly: seq<Point>) returns (inside: bool)
    ensures inside == InPolygon(pt, poly)
    ensures |poly| < 3 ==> !inside
  {
    if |poly| < 3 {
      return false;
    }
    var windingNumber := 0;
    var i := 0;
    while i < |poly|
      invariant 0 <= i <= |poly|
      invariant windingNumber == WindingPrefix(poly, pt, i)
    {
      var p1 := poly[i];
      var p2 := poly[(i + 1) % |poly|];
      assert p2 == poly[NextIndex(i, |poly|)];
      if p1.y <= pt.y {
        if p2.y > pt.y {
          var isLeft := IsLeft(p1, p2, pt);
          if isLeft > 0.0 {
            windingNumber := windingNumber + 1;
          }
        }
      } else {
        if p2.y <= pt.y {
          var isLeft := IsLeft(p1, p2, pt);
          if isLeft < 0.0 {
            windingNumber := windingNumber - 1;
          }
        }
      }
      i := i + 1;
    }
    inside := windingNumber != 0;
  }

  // ---------------------------------------------------------------------------
  // Trail resampling (the while loop of fixedUpdate)
  // ---------------------------------------------------------------------------

  /**
   * The geometry of one resampling pass: the reference point (rx, ry), which is
   * the last trail point when the pass starts; the player's clamped position
   * (px, py); their distance d as Math.sqrt computed it; the spacing s
   * (standarddistance); and the unit direction (ux, uy) from the reference
   * point towards the position (zero when the two coincide).
   */
  datatype Segment = Segment(rx: real, ry: real, px: real, py: real, d: real, s: real, ux: real, uy: real)

  ghost predicate ValidSegment(g: Segment)
  {
    g.d * g.d == DistSq(g.px, g.py, g.rx, g.ry) && SegmentDirection(g)
  }

  /** (ux, uy) is the unit direction of the segment, scaled by d back to the displacement. */
  ghost predicate SegmentDirection(g: Segment)
  {
    && g.s > 0.0 && g.d >= 0.0
    && g.px - g.rx == g.ux * g.d && g.py - g.ry == g.uy * g.d
    && (g.d > 0.0 ==> Sq(g.ux) + Sq(g.uy) == 1.0)
  }

  /** The segment of a pass that starts from trail point r towards (px, py). */
  function SegmentOf(r: TrailPoint, px: real, py: real, spacing: real, sqrt: real -> real): Segment
  {
    var d := sqrt(DistSq(px, py, r.x, r.y));
    Segment(r.x, r.y, px, py, d, spacing,
            if d == 0.0 then 0.0 else (px - r.x) / d,
            if d == 0.0 then 0.0 else (py - r.y) / d)
  }

  /** A vector (ex, ey) of length d > 0, divided by d, has length one. */
  lemma UnitOf(ex: real, ey: real, d: real, ux: real, uy: real)
    requires d > 0.0 && ex == ux * d && ey == uy * d && Sq(ex) + Sq(ey) == Sq(d)
    ensures Sq(ux) + Sq(uy) == 1.0
  {
    SqOfProduct(ux, d);
    SqOfProduct(uy, d);
    SquareMonotone(0.0, d);
    assert Sq(ex) == Sq(ux * d) && Sq(ey) == Sq(uy * d);
    CancelPositive(Sq(ux), Sq(uy), Sq(d), Sq(ex), Sq(ey));
  }

  lemma {:induction false} SegmentOfValid(r: TrailPoint, px: real, py: real, spacing: real, sqrt: real -> real)
    requires IsSqrt(sqrt) && spacing > 0.0
    ensures ValidSegment(SegmentOf(r, px, py, spacing, sqrt))
  {
    var g := SegmentOf(r, px, py, spacing, sqrt);
    var ex, ey := px - r.x, py - r.y;
    assert Sq(g.d) == Sq(ex) + Sq(ey);
    if g.d == 0.0 {
      assert Sq(ex) == 0.0 && Sq(ey) == 0.0;
      SquareZero(ex);
      SquareZero(ey);
    } else {
      assert ex == g.ux * g.d && ey == g.uy * g.d;
      UnitOf(ex, ey, g.d, g.ux, g.uy);
    }
  }

  /** Number of whole spacings that fit in the distance: how often the loop runs. */
  function Steps(g: Segment): nat
    requires g.s > 0.0 && g.d >= 0.0
  {
    (g.d / g.s).Floor
  }

  /** The i-th point placed on the segment, at distance i * s from the reference point. */
  function SampleX(g: Segment, i: nat): real
  {
    Along(g.rx, g.ux, g.s, i)
  }

  function SampleY(g: Segment, i: nat): real
  {
    Along(g.ry, g.uy, g.s, i)
  }

  /** One coordinate of the point at distance i*s from r in the direction u. */
  function Along(r: real, u: real, s: real, i: nat): real
  {
    r + ((i as real) * s) * u
  }


  /** The points pushed by the first j iterations, in order. */
  function NewPoints(g: Segment, now: real, j: nat): (r: seq<TrailPoint>)
    ensures |r| == j
  {
    if j == 0 then [] else NewPoints(g, now, j - 1) + [TrailPoint(SampleX(g, j), SampleY(g, j), now)]
  }

  /**
   * The reference point after j iterations: the loop writes each new point's
   * coordinates into the very object it started from, so that object carries
   * the j-th sample's coordinates and keeps its own timestamp.
   */
  function MovedReference(r: TrailPoint, g: Segment, j: nat): TrailPoint
  {
    if j == 0 then r else r.(x := SampleX(g, j), y := SampleY(g, j))
  }

  /** The trail after j iterations if nothing were ever shifted out. */
  function FullTrail(t0: seq<TrailPoint>, g: Segment, now: real, j: nat): (r: seq<TrailPoint>)
    requires |t0| >= 1
    ensures |r| == |t0| + j
  {
    t0[..|t0| - 1] + [MovedReference(t0[|t0| - 1], g, j)] + NewPoints(g, now, j)
  }

  /**
   * Length of the trail after j push-then-shift iterations that started from n
   * points under cap trailLength: it grows up to the cap and then stays there;
   * a trail already above the cap keeps its length.
   */
  function CapLen(n: nat, j: nat, cap: int): (c: nat)
    ensures c <= n + j
  {
    if n + j <= MaxInt(n, cap) then n + j else MaxInt(n, cap)
  }

  /** The trail after j iterations: the newest CapLen points of the full trail. */
  function ResampledTrail(t0: seq<TrailPoint>, g: Segment, now: real, j: nat, cap: int): (r: seq<TrailPoint>)
    requires |t0| >= 1
    ensures |r| == CapLen(|t0|, j, cap)
  {
    var full := FullTrail(t0, g, now, j);
    full[|full| - CapLen(|t0|, j, cap)..]
  }

  /**
   * One coordinate of SampleStep: moving from cur, the sample at distance js,
   * by the loop's ratio step reaches next, the sample at distance js + s.
   */
  lemma AxisStep(r: real, p: real, u: real, d: real, s: real, js: real, cur: real, next: real, rest: real)
    requires d > 0.0 && s > 0.0 && d - js >= s && p - r == u * d
    requires cur == r + js * u && next == cur + (p - cur) * (s / (d - js)) && rest == d - js - s
    ensures p - cur == u * (d - js)
    ensures next == r + (js + s) * u && p - next == u * rest
  {
    var dist := d - js;
    assert p - cur == u * dist;
    assert (u * dist) * (s / dist) == u * s;
  }

  /**
   * One iteration in terms of the segment: from the j-th sample with
   * remainder dist = d - j*s >= s, the loop's ratio step lands on the (j+1)-th
   * sample, whose squared distance to the position is (dist - s)^2.
   */
  lemma {:induction false} SampleStep(g: Segment, j: nat, dist: real, ratio: real, newX: real, newY: real)
    requires SegmentDirection(g)
    requires dist == g.d - (j as real) * g.s && dist >= g.s && ratio == g.s / dist
    requires newX == SampleX(g, j) + (g.px - SampleX(g, j)) * ratio
    requires newY == SampleY(g, j) + (g.py - SampleY(g, j)) * ratio
    ensures newX == SampleX(g, j + 1) && newY == SampleY(g, j + 1)
    ensures Sq(g.px - newX) + Sq(g.py - newY) == Sq(dist - g.s)
  {
    PlaneSampleStep(g.rx, g.ry, g.px, g.py, g.d, g.s, g.ux, g.uy, j, dist, ratio, SampleX(g, j), SampleY(g, j),
                    SampleX(g, j + 1), SampleY(g, j + 1), newX, newY);
  }

  /** SampleStep on plain numbers. */
  lemma PlaneSampleStep(rx: real, ry: real, px: real, py: real, d: real, s: real, ux: real, uy: real,
                        j: nat, dist: real, ratio: real, curX: real, curY: real, nextX: real, nextY: real,
                        newX: real, newY: real)
    requires s > 0.0 && d >= 0.0 && px - rx == ux * d && py - ry == uy * d
    requires d > 0.0 ==> Sq(ux) + Sq(uy) == 1.0
    requires dist == d - (j as real) * s && dist >= s && ratio == s / dist
    requires curX == Along(rx, ux, s, j) && curY == Along(ry, uy, s, j)
    requires nextX == Along(rx, ux, s, j + 1) && nextY == Along(ry, uy, s, j + 1)
    requires newX == curX + (px - curX) * ratio && newY == curY + (py - curY) * ratio
    ensures newX == nextX && newY == nextY
    ensures Sq(px - newX) + Sq(py - newY) == Sq(dist - s)
  {
    NonNegativeProduct(j as real, s);
    AxisSampleStep(rx, px, ux, d, s, j, dist, ratio, curX, newX);
    AxisSampleStep(ry, py, uy, d, s, j, dist, ratio, curY, newY);
    UnitDistance(px, py, newX, newY, ux, uy, dist - s);
  }

  /** A displacement of rest along a unit direction has squared length rest^2. */
  lemma UnitDistance(px: real, py: real, qx: real, qy: real, ux: real, uy: real, rest: real)
    requires px - qx == ux * rest && py - qy == uy * rest && Sq(ux) + Sq(uy) == 1.0
    ensures Sq(px - qx) + Sq(py - qy) == Sq(rest)
  {
    AxisSquare(px, qx, ux, rest);
    AxisSquare(py, qy, uy, rest);
    ScaledUnitSum(Sq(px - qx), Sq(py - qy), Sq(ux), Sq(uy), Sq(rest));
  }

  /** SampleStep along one axis, on plain numbers. */
  lemma AxisSampleStep(r: real, p: real, u: real, d: real, s: real, j: nat, dist: real, ratio: real, cur: real, next: real)
    requires d > 0.0 && s > 0.0 && p - r == u * d
    requires dist == d - (j as real) * s && dist >= s && ratio == s / dist
    requires cur == r + ((j as real) * s) * u && next == cur + (p - cur) * ratio
    ensures next == r + (((j + 1) as real) * s) * u && p - next == u * (dist - s)
  {
    var js := (j as real) * s;
    AxisStep(r, p, u, d, s, js, cur, next, dist - s);
    assert ((j + 1) as real) * s == js + s;
  }

  /** A difference that is u times rest squares to u^2 times rest^2. */
  lemma AxisSquare(p: real, q: real, u: real, rest: real)
    requires p - q == u * rest
    ensures Sq(p - q) == Sq(u) * Sq(rest)
  {
    SqOfProduct(u, rest);
  }

  /** Two parts scaled by weights that add up to one add up to the whole. */
  lemma ScaledUnitSum(pa: real, pb: real, a: real, b: real, t: real)
    requires pa == a * t && pb == b * t && a + b == 1.0
    ensures pa + pb == t
  {
    ScaleUnit(a, b, t);
  }

  /** Splitting t by weights that add up to one. */
  lemma ScaleUnit(a: real, b: real, t: real)
    requires a + b == 1.0
    ensures a * t + b * t == t
  {
    assert a * t + b * t == (a + b) * t;
  }

  /** Whole spacings in the distance: sample j+1 still fits exactly when (j+1)*s <= d. */
  lemma {:induction false} StepsBounds(g: Segment, j: nat)
    requires g.s > 0.0 && g.d >= 0.0
    ensures ((j + 1) as real) * g.s <= g.d ==> j + 1 <= Steps(g)
    ensures g.d < ((j + 1) as real) * g.s ==> Steps(g) <= j
  {
    var q := g.d / g.s;
    assert g.d == q * g.s;
    var k := (j + 1) as real;
    if k * g.s <= g.d {
      assert (k - q) * g.s <= 0.0;
      assert k <= q;
    }
    if g.d < k * g.s {
      assert (q - k) * g.s < 0.0;
      assert q < k;
    }
  }

  /** Pushing sample j+1 onto FullTrail(j) and moving the reference object onto it gives FullTrail(j+1). */
  lemma {:induction false} FullTrailStep(t0: seq<TrailPoint>, g: Segment, now: real, j: nat)
    requires |t0| >= 1
    ensures var n := |t0|;
            var f := FullTrail(t0, g, now, j) + [TrailPoint(SampleX(g, j + 1), SampleY(g, j + 1), now)];
            FullTrail(t0, g, now, j + 1) == f[n - 1 := f[n - 1].(x := SampleX(g, j + 1), y := SampleY(g, j + 1))]
  {
    var n := |t0|;
    var np := TrailPoint(SampleX(g, j + 1), SampleY(g, j + 1), now);
    var f := FullTrail(t0, g, now, j) + [np];
    var h := FullTrail(t0, g, now, j + 1);
    var w := f[n - 1 := f[n - 1].(x := SampleX(g, j + 1), y := SampleY(g, j + 1))];
    assert NewPoints(g, now, j + 1) == NewPoints(g, now, j) + [np];
    assert f[n - 1] == MovedReference(t0[n - 1], g, j);
    forall k | 0 <= k < |h|
      ensures h[k] == w[k]
    {
      if k < n - 1 {
        assert h[k] == t0[k] == f[k];
      } else if k == n - 1 {
        assert h[k] == MovedReference(t0[n - 1], g, j + 1);
      } else {
        assert h[k] == NewPoints(g, now, j + 1)[k - n];
        assert f[k] == (NewPoints(g, now, j) + [np])[k - n];
      }
    }
  }

  /** The cap after one more iteration: the length grows by one until it would exceed the cap. */
  lemma CapLenStep(n: nat, j: nat, cap: int)
    ensures CapLen(n, j, cap) + 1 > cap ==> CapLen(n, j + 1, cap) == CapLen(n, j, cap)
    ensures CapLen(n, j, cap) + 1 <= cap ==> CapLen(n, j + 1, cap) == CapLen(n, j, cap) + 1
  {
  }

  /**
   * The trail edits of one iteration (push sample j+1, move the reference
   * object onto it while it is still in the trail) give the window of the
   * full trail after j+1 iterations that starts where the capped trail started.
   */
  lemma {:induction false} PushedWindow(t0: seq<TrailPoint>, g: Segment, now: real, j: nat, cap: int, written: seq<TrailPoint>)
    requires |t0| >= 1
    requires var tr := ResampledTrail(t0, g, now, j, cap);
             var refIdx := CapLen(|t0|, j, cap) - j - 1;
             var nx, ny := SampleX(g, j + 1), SampleY(g, j + 1);
             var pushed := tr + [TrailPoint(nx, ny, now)];
             written == if refIdx >= 0 then pushed[refIdx := pushed[refIdx].(x := nx, y := ny)] else pushed
    ensures written == FullTrail(t0, g, now, j + 1)[|t0| + j - CapLen(|t0|, j, cap)..]
  {
    var n := |t0|;
    var c := CapLen(n, j, cap);
    var off := n + j - c;
    var np := TrailPoint(SampleX(g, j + 1), SampleY(g, j + 1), now);
    var f := FullTrail(t0, g, now, j) + [np];
    var h := FullTrail(t0, g, now, j + 1);
    FullTrailStep(t0, g, now, j);
    var pushed := ResampledTrail(t0, g, now, j, cap) + [np];
    assert pushed == f[off..];
    var refIdx := c - j - 1;
    forall k | 0 <= k < |written|
      ensures written[k] == h[off + k]
    {
      if k == refIdx {
        assert off + k == n - 1;
      }
    }
  }

  /**
   * One iteration on the capped trail: push sample j+1; if the reference
   * object is still in the trail (at index CapLen - j - 1), move it onto the
   * sample; shift when over the cap. The result is the trail after j+1
   * iterations, and the reference index drops by one exactly when shifted.
   */
  lemma {:induction false} ResampleWindowStep(t0: seq<TrailPoint>, g: Segment, now: real, j: nat, cap: int, written: seq<TrailPoint>)
    requires |t0| >= 1
    requires var tr := ResampledTrail(t0, g, now, j, cap);
             var refIdx := CapLen(|t0|, j, cap) - j - 1;
             var nx, ny := SampleX(g, j + 1), SampleY(g, j + 1);
             var pushed := tr + [TrailPoint(nx, ny, now)];
             written == if refIdx >= 0 then pushed[refIdx := pushed[refIdx].(x := nx, y := ny)] else pushed
    ensures |written| > cap ==> written[1..] == ResampledTrail(t0, g, now, j + 1, cap)
                                && CapLen(|t0|, j + 1, cap) == CapLen(|t0|, j, cap)
    ensures |written| <= cap ==> written == ResampledTrail(t0, g, now, j + 1, cap)
                                 && CapLen(|t0|, j + 1, cap) == CapLen(|t0|, j, cap) + 1
  {
    PushedWindow(t0, g, now, j, cap, written);
    CapLenStep(|t0|, j, cap);
  }

  /** k*u away from r along the axis is the fraction t = k/d of the way from r to p. */
  lemma AxisFraction(r: real, p: real, u: real, d: real, k: real, t: real)
    requires d > 0.0 && p - r == u * d && t == Ratio(k, d)
    ensures r + k * u == r + t * (p - r)
  {
    assert t * (u * d) == (k / d) * d * u;
  }

  /** The fraction of the segment covered by i spacings. */
  function Fraction(g: Segment, i: nat): real
    requires g.d > 0.0
  {
    Ratio((i as real) * g.s, g.d)
  }

  /** k as a fraction of d. */
  function Ratio(k: real, d: real): real
    requires d > 0.0
  {
    k / d
  }

  /**
   * The i-th resampled point, for 1 <= i <= Steps, lies on the segment from the
   * reference point to the position, the fraction (i*s)/d of the way along.
   */

  lemma {:induction false} SampleOnSegment(g: Segment, i: nat)
    requires SegmentDirection(g) && 1 <= i <= Steps(g)
    ensures 0.0 < Fraction(g, i) <= 1.0
    ensures SampleX(g, i) == g.rx + Fraction(g, i) * (g.px - g.rx)
    ensures SampleY(g, i) == g.ry + Fraction(g, i) * (g.py - g.ry)
  {
    SampleFits(g, i);
    PlaneOnSegment(g.rx, g.ry, g.px, g.py, g.d, g.s, g.ux, g.uy, i, Fraction(g, i), SampleX(g, i), SampleY(g, i));
  }

  /** The i-th resampled point lies at distance exactly i*s from the reference point. */
  lemma {:induction false} SampleDistance(g: Segment, i: nat)
    requires SegmentDirection(g) && 1 <= i <= Steps(g)
    ensures DistSq(SampleX(g, i), SampleY(g, i), g.rx, g.ry) == Sq((i as real) * g.s)
  {
    SampleFits(g, i);
    AlongOffset(g.rx, g.ux, g.s, i);
    AlongOffset(g.ry, g.uy, g.s, i);
    UnitDistance(SampleX(g, i), SampleY(g, i), g.rx, g.ry, g.ux, g.uy, (i as real) * g.s);
  }

  /** The offset of Along from its origin is u times the distance i*s. */
  lemma AlongOffset(r: real, u: real, s: real, i: nat)
    ensures Along(r, u, s, i) - r == u * ((i as real) * s)
  {
  }

  /** Samples 1 to Steps lie within the segment: 0 < i*s <= d. */
  lemma {:induction false} SampleFits(g: Segment, i: nat)
    requires g.s > 0.0 && g.d >= 0.0 && 1 <= i <= Steps(g)
    ensures 0.0 < (i as real) * g.s <= g.d
  {
    StepsBounds(g, i - 1);
  }

  /** SampleOnSegment on plain numbers: the point k along the unit direction, for 0 < k <= d. */
  lemma PlaneOnSegment(rx: real, ry: real, px: real, py: real, d: real, s: real, ux: real, uy: real, i: nat, t: real, cx: real, cy: real)
    requires 0.0 < (i as real) * s <= d && px - rx == ux * d && py - ry == uy * d && t == Ratio((i as real) * s, d)
    requires cx == Along(rx, ux, s, i) && cy == Along(ry, uy, s, i)
    ensures 0.0 < t <= 1.0 && cx == rx + t * (px - rx) && cy == ry + t * (py - ry)
  {
    var k := (i as real) * s;
    AxisFraction(rx, px, ux, d, k, t);
    AxisFraction(ry, py, uy, d, k, t);
    assert t <= 1.0 by { assert t * d == k; }
  }

  /** Starting from at most cap points (and at least one), the resampled trail never exceeds cap. */
  lemma ResampledLengthBound(t0: seq<TrailPoint>, g: Segment, now: real, j: nat, cap: int)
    requires 1 <= |t0|
    ensures 1 <= |ResampledTrail(t0, g, now, j, cap)| <= MaxInt(|t0|, cap)
    ensures |t0| <= cap ==> |ResampledTrail(t0, g, now, j, cap)| <= cap
  {
  }

  /** After at least one iteration the newest trail point is the last sample placed. */
  lemma {:induction false} ResampledLast(t0: seq<TrailPoint>, g: Segment, now: real, j: nat, cap: int)
    requires 1 <= |t0| && 1 <= j
    ensures var r := ResampledTrail(t0, g, now, j, cap);
            |r| >= 1 && r[|r| - 1] == TrailPoint(SampleX(g, j), SampleY(g, j), now)
  {
    assert NewPoints(g, now, j)[j - 1] == TrailPoint(SampleX(g, j), SampleY(g, j), now);
  }

  /**
   * The reference object, while it is still in the capped trail, carries the
   * coordinates of the last sample placed and its own timestamp: the write
   * through the live reference is visible in the trail.
   */
  lemma {:induction false} ResampledReference(t0: seq<TrailPoint>, g: Segment, now: real, j: nat, cap: int)
    requires 1 <= |t0| && 1 <= j
    requires CapLen(|t0|, j, cap) - j - 1 >= 0
    ensures var r := ResampledTrail(t0, g, now, j, cap);
            var k := CapLen(|t0|, j, cap) - j - 1;
            r[k] == t0[|t0| - 1].(x := SampleX(g, j), y := SampleY(g, j))
  {
    var n := |t0|;
    var full := FullTrail(t0, g, now, j);
    var off := |full| - CapLen(n, j, cap);
    assert full[n - 1] == MovedReference(t0[n - 1], g, j);
    assert off + (CapLen(n, j, cap) - j - 1) == n - 1;
  }

  // ---------------------------------------------------------------------------
  // Collision queries and push-out geometry
  // ---------------------------------------------------------------------------

  /** What checkCollisionWithTrail needs to know of the other player, when one is passed. */
  datatype Head = Head(x: real, y: real, size: real, alive: bool)

  /** Some point of the trail is strictly closer than r to (x, y). */
  predicate NearTrail(x: real, y: real, r: real, t: seq<TrailPoint>)
  {
    exists i :: 0 <= i < |t| && DistSq(x, y, t[i].x, t[i].y) < r * r
  }

  /**
   * Specification of checkCollisionWithTrail for a player at (x, y) of the
   * given size: nothing when the player is dead or the trail is empty; a head
   * collision when the other player is alive and the heads are closer than
   * the two sizes together; otherwise a trail collision exactly when some
   * trail point is strictly closer than size.
   */
  function TrailHitOf(alive: bool, x: real, y: real, size: real, t: seq<TrailPoint>, other: Option<Head>): TrailHit
  {
    if !alive || |t| == 0 then NoHit
    else if other.Some? && other.value.alive
            && DistSq(x, y, other.value.x, other.value.y) < (size + other.value.size) * (size + other.value.size)
    then HeadCollision
    else if NearTrail(x, y, size, t) then TrailCollision
    else NoHit
  }

  /** What one check of a living player against another does. */
  datatype Clash = HeadOn | RanIntoTrail | Intruded | Clear

  /**
   * How one check of a living player against another ends, in the order the
   * modes test it: the trail test first (a head collision, or running into
   * the other's trail), then, for an unshielded player, the other's
   * territory. Which players die depends on the mode.
   */
  function ClashOf(hit: TrailHit, shielded: bool, inTerritory: bool): (c: Clash)
    ensures c.HeadOn? <==> hit.HeadCollision?
    ensures c.RanIntoTrail? <==> hit.TrailCollision?
    ensures c.Intruded? <==> hit.NoHit? && !shielded && inTerritory
  {
    if hit == HeadCollision then HeadOn
    else if hit == TrailCollision then RanIntoTrail
    else if !shielded && inTerritory then Intruded
    else Clear
  }

  /**
   * Head collisions are mutual: when two living players with non-empty trails
   * test each other, either both see a head collision or neither does.
   */
  lemma HeadCollisionSymmetric(a: Head, ta: seq<TrailPoint>, b: Head, tb: seq<TrailPoint>)
    requires a.alive && b.alive && |ta| > 0 && |tb| > 0
    ensures (TrailHitOf(a.alive, a.x, a.y, a.size, tb, Some(b)) == HeadCollision)
        <==> (TrailHitOf(b.alive, b.x, b.y, b.size, ta, Some(a)) == HeadCollision)
  {
    assert DistSq(a.x, a.y, b.x, b.y) == DistSq(b.x, b.y, a.x, a.y);
    assert (a.size + b.size) * (a.size + b.size) == (b.size + a.size) * (b.size + a.size);
  }

  /** The four overlaps of handleObstacleCollision, for a circle of radius r at (x, y) against the rectangle. */
  function LeftOverlap(x: real, r: real, o: Rect): real { (x + r) - o.x }
  function RightOverlap(x: real, r: real, o: Rect): real { (o.x + o.width) - (x - r) }
  function TopOverlap(y: real, r: real, o: Rect): real { (y + r) - o.y }
  function BottomOverlap(y: real, r: real, o: Rect): real { (o.y + o.height) - (y - r) }

  /** `Math.min(a, b, c, d)` */
  function Min4(a: real, b: real, c: real, d: real): (m: real)
    ensures m <= a && m <= b && m <= c && m <= d
    ensures m == a || m == b || m == c || m == d
  {
    Min(Min(Min(a, b), c), d)
  }

  /** The circle of radius r at (x, y) overlaps the rectangle on every side: the smallest overlap is positive. */
  predicate Overlaps(x: real, y: real, r: real, o: Rect)
  {
    Min4(LeftOverlap(x, r, o), RightOverlap(x, r, o), TopOverlap(y, r, o), BottomOverlap(y, r, o)) > 0.0
  }

  /**
   * The position handleObstacleCollision moves the player to before clamping:
   * out through the side of least overlap, one unit clear of it, trying left,
   * right, top and bottom in that order on ties; unchanged when not overlapping.
   */
  function PushOut(x: real, y: real, r: real, o: Rect): Point
  {
    var left, right := LeftOverlap(x, r, o), RightOverlap(x, r, o);
    var top, bottom := TopOverlap(y, r, o), BottomOverlap(y, r, o);
    var m := Min4(left, right, top, bottom);
    if m <= 0.0 then Point(x, y)
    else if m == left then Point(o.x - r - 1.0, y)
    else if m == right then Point(o.x + o.width + r + 1.0, y)
    else if m == top then Point(x, o.y - r - 1.0)
    else Point(x, o.y + o.height + r + 1.0)
  }

  /**
   * Pushing out separates: after the push the circle no longer overlaps the
   * rectangle (the side it left now overlaps by -1), only one coordinate moved,
   * and it moved by exactly the least overlap plus one.
   */
  lemma PushOutSeparates(x: real, y: real, r: real, o: Rect)
    requires Overlaps(x, y, r, o)
    ensures var q := PushOut(x, y, r, o);
            !Overlaps(q.x, q.y, r, o)
            && (q.x == x || q.y == y)
            && Abs(q.x - x) + Abs(q.y - y)
               == Min4(LeftOverlap(x, r, o), RightOverlap(x, r, o), TopOverlap(y, r, o), BottomOverlap(y, r, o)) + 1.0
  {
  }

  /** Without overlap the push leaves the point where it is. */
  lemma PushOutNoOverlap(x: real, y: real, r: real, o: Rect)
    requires !Overlaps(x, y, r, o)
    ensures PushOut(x, y, r, o) == Point(x, y)
  {
  }

  /**
   * The x that handleBarrierCollision moves the player to before clamping:
   * pushDistance outside whichever vertical edge of the barrier is nearer
   * (the left one on a tie); unchanged when the player sits exactly on the
   * barrier's centre.
   */
  function BarrierPushX(x: real, y: real, push: real, b: Rect): real
  {
    var dx := x - (b.x + b.width / 2.0);
    var dy := y - (b.y + b.height / 2.0);
    if dx * dx + dy * dy > 0.0 then
      (if Min(Abs(b.x - x), Abs(b.x + b.width - x)) == Abs(b.x - x) then b.x - push else b.x + b.width + push)
    else x
  }

  /**
   * For a barrier of non-negative width and a positive push distance, the
   * pushed x lies strictly outside the barrier's horizontal extent, on the
   * side of the nearer edge.
   */
  lemma BarrierPushOutside(x: real, y: real, push: real, b: Rect)
    requires b.width >= 0.0 && push > 0.0
    requires x != b.x + b.width / 2.0 || y != b.y + b.height / 2.0
    ensures var nx := BarrierPushX(x, y, push, b);
            (nx < b.x || nx > b.x + b.width)
            && (Abs(b.x - x) <= Abs(b.x + b.width - x) <==> nx == b.x - push)
  {
    var dx := x - (b.x + b.width / 2.0);
    var dy := y - (b.y + b.height / 2.0);
    if dx != 0.0 {
      SquareMonotone(0.0, Abs(dx));
      assert Abs(dx) * Abs(dx) == dx * dx;
    } else {
      SquareMonotone(0.0, Abs(dy));
      assert Abs(dy) * Abs(dy) == dy * dy;
    }
    assert dx * dx + dy * dy > 0.0;
    var a, c := Abs(b.x - x), Abs(b.x + b.width - x);
    assert BarrierPushX(x, y, push, b) == if Min(a, c) == a then b.x - push else b.x + b.width + push;
    assert Min(a, c) == a <==> a <= c;
  }

  /**
   * The arithmetic of one resampling iteration: the ratio step from sample j
   * lands on sample j+1, Math.sqrt then gives the remainder dist - s, and
   * sample j+1 still fits in the segment.
   */
  lemma {:induction false} IterationArithmetic(g: Segment, j: nat, sqrt: real -> real, dist: real, ratio: real,
                                                lastX: real, lastY: real, dx: real, dy: real,
                                                newX: real, newY: real, dx': real, dy': real)
    requires IsSqrt(sqrt) && SegmentDirection(g)
    requires dist == g.d - (j as real) * g.s && dist >= g.s && ratio == g.s / dist
    requires lastX == SampleX(g, j) && lastY == SampleY(g, j) && dx == g.px - lastX && dy == g.py - lastY
    requires newX == lastX + dx * ratio && newY == lastY + dy * ratio
    requires dx' == g.px - newX && dy' == g.py - newY
    ensures newX == SampleX(g, j + 1) && newY == SampleY(g, j + 1)
    ensures sqrt(dx' * dx' + dy' * dy') == dist - g.s
    ensures dist - g.s == g.d - ((j + 1) as real) * g.s
    ensures j + 1 <= Steps(g)
  {
    TowardsTarget(lastX, dx, ratio, SampleX(g, j), g.px, newX);
    TowardsTarget(lastY, dy, ratio, SampleY(g, j), g.py, newY);
    SampleStep(g, j, dist, ratio, newX, newY);
    SqrtOfSquareSum(sqrt, dx', dy', dist - g.s);
    StepsBounds(g, j);
    assert ((j + 1) as real) * g.s == (j as real) * g.s + g.s;
  }

  /** The loop's step from cur by ratio of the difference to the target p, written with cur and p. */
  lemma TowardsTarget(last: real, delta: real, ratio: real, cur: real, p: real, next: real)
    requires last == cur && delta == p - last && next == last + delta * ratio
    ensures next == cur + (p - cur) * ratio
  {
  }

  lemma SqrtOfSquareSum(sqrt: real -> real, dx: real, dy: real, r: real)
    requires IsSqrt(sqrt) && r >= 0.0 && Sq(dx) + Sq(dy) == Sq(r)
    ensures sqrt(dx * dx + dy * dy) == r
  {
    SqrtOfSquare(sqrt, r);
  }

  /** The loop leaves a remainder shorter than one spacing: 0 <= d - Steps*s < s. */
  lemma {:induction false} StepsRemainder(g: Segment)
    requires g.s > 0.0 && g.d >= 0.0
    ensures 0.0 <= g.d - (Steps(g) as real) * g.s < g.s
  {
    var k := Steps(g);
    StepsBounds(g, k);
    assert ((k + 1) as real) * g.s == (k as real) * g.s + g.s;
    if k > 0 {
      StepsBounds(g, k - 1);
    }
  }

  /** Starting from n points, no shift happens while n + j stays within the cap: every new point is kept. */
  lemma ResampledNoOverflow(t0: seq<TrailPoint>, g: Segment, now: real, j: nat, cap: int)
    requires 1 <= |t0| && |t0| + j <= cap
    ensures ResampledTrail(t0, g, now, j, cap) == FullTrail(t0, g, now, j)
  {
  }

  // ---------------------------------------------------------------------------
  // Movement and the capture-mode home countdown, as values
  // ---------------------------------------------------------------------------

  /**
   * Distance moved along each axis with a non-zero direction in one physics
   * step: speed * (speedMultiplier || 1) * deltaTime / 1000 * 60.
   */
  function Displacement(speed: real, multiplier: real, deltaTime: real): real
  {
    speed * (if multiplier == 0.0 then 1.0 else multiplier) * (deltaTime / 1000.0) * 60.0
  }

  /** The trail after the seeding step of fixedUpdate: an empty trail receives the current position. */
  function Seeded(t: seq<TrailPoint>, x: real, y: real, now: real): (r: seq<TrailPoint>)
    ensures |r| >= 1
    ensures |t| > 0 ==> r == t
  {
    if |t| == 0 then [TrailPoint(x, y, now)] else t
  }

  /**
   * The arrival/departure step of the capture-mode countdown: (isAtHome,
   * homeStartTime) after comparing where the player is now with where the
   * flag says it was. Arriving clears the start time; leaving records `now`
   * unless a truthy start time is already recorded.
   */
  function HomeTransition(atHomeNow: bool, isAtHome: bool, start: Option<real>, now: real): (bool, Option<real>)
  {
    if atHomeNow && !isAtHome then (true, None)
    else if !atHomeNow && isAtHome && !Truthy(start) then (false, Some(now))
    else (isAtHome, start)
  }

  /** isHomeCountdownExpired: away from home, with a truthy start time at least `limit` ago. */
  predicate CountdownExpired(isAtHome: bool, start: Option<real>, limit: real, now: real)
  {
    Truthy(start) && !isAtHome && now - start.value >= limit
  }

  /** getHomeCountdownRemaining: whole seconds left, rounded up; 0 when not counting. */
  function CountdownRemaining(isAtHome: bool, start: Option<real>, limit: real, now: real): (r: int)
    ensures r >= 0
    ensures limit >= 0.0 && Truthy(start) && now >= start.value ==> (r as real) < limit / 1000.0 + 1.0
  {
    if !Truthy(start) || isAtHome then 0
    else JsCeil(Max(0.0, limit - (now - start.value)) / 1000.0)
  }

  /** The countdown shows zero exactly when it is not running or has expired. */
  lemma {:induction false} CountdownZeroIff(isAtHome: bool, start: Option<real>, limit: real, now: real)
    ensures CountdownRemaining(isAtHome, start, limit, now) == 0
            <==> (!Truthy(start) || isAtHome || CountdownExpired(isAtHome, start, limit, now))
  {
    if Truthy(start) && !isAtHome {
      var rem := Max(0.0, limit - (now - start.value));
      var c := JsCeil(rem / 1000.0);
      assert rem / 1000.0 >= 0.0;
      if rem == 0.0 {
        assert c == 0;
      } else {
        assert rem / 1000.0 > 0.0;
        assert c >= 1;
      }
    }
  }

  /** Before the first iteration: the loop's variables describe sample 0, the reference point itself. */
  lemma {:induction false} LoopEntry(t0: seq<TrailPoint>, px: real, py: real, spacing: real, sqrt: real -> real,
                                     now: real, cap: int, dx: real, dy: real)
    requires |t0| >= 1 && dx == px - t0[|t0| - 1].x && dy == py - t0[|t0| - 1].y
    ensures var g := SegmentOf(t0[|t0| - 1], px, py, spacing, sqrt);
            && g.px == px && g.py == py && g.s == spacing
            && SampleX(g, 0) == t0[|t0| - 1].x && SampleY(g, 0) == t0[|t0| - 1].y
            && sqrt(dx * dx + dy * dy) == g.d - (0 as real) * g.s
            && ResampledTrail(t0, g, now, 0, cap) == t0
            && CapLen(|t0|, 0, cap) - 0 - 1 == |t0| - 1
  {
    var n := |t0|;
    var g := SegmentOf(t0[n - 1], px, py, spacing, sqrt);
    assert dx * dx + dy * dy == DistSq(px, py, t0[n - 1].x, t0[n - 1].y);
    assert FullTrail(t0, g, now, 0) == t0;
  }

  /** When the loop stops, with less than one spacing left, it has run exactly Steps times. */
  lemma {:induction false} LoopExit(g: Segment, j: nat, dist: real)
    requires SegmentDirection(g) && j <= Steps(g) && dist == g.d - (j as real) * g.s && dist < g.s
    ensures j == Steps(g)
  {
    StepsBounds(g, j);
    assert ((j + 1) as real) * g.s == (j as real) * g.s + g.s;
  }

  /** Some polygon of the list contains the point. */
  predicate InTerritory(pt: Point, areas: seq<seq<Point>>)
  {
    exists k :: 0 <= k < |areas| && InPolygon(pt, areas[k])
  }

  /** A strictly positive length (the resampling spacing). */
  type Positive = r: real | r > 0.0 witness 1.0

  // ---------------------------------------------------------------------------
  // class Player
  // ---------------------------------------------------------------------------

  class Player {
    const id: int
    const size: real := Config.PlayerSize
    const homeTimeLimit: real := Config.HomeTimeLimit
    /** The canvas the player is clamped to. */
    const canvasWidth: real
    const canvasHeight: real

    /** Lockout length applied at the next infinite-mode respawn; grows by addlocktime each time. */
    var locktime: real
    var x: real
    var y: real
    var startX: real
    var startY: real
    var trail: seq<TrailPoint>
    var isAlive: bool
    var dirX: real
    var dirY: real
    var isMoving: bool
    var speedMultiplier: real
    var speedBoostEndTime: Option<real>
    /** Until when the player is locked after an infinite-mode respawn. */
    var lockTime: Option<real>
    var pausedLockTime: Option<real>
    var territory: seq<seq<Point>>
    var score: real
    var shield: ShieldEffect?
    var homeStartTime: Option<real>
    var isAtHome: bool
    var homeCountdownPaused: bool
    var pausedHomeTime: Option<real>
    // Assigned by the engine's setgamemode / setDifficulty.
    var lives: int
    var speed: real
    var trailLength: int
    /** The resampling spacing; None when it was never assigned (the loop then never runs). */
    var standarddistance: Option<Positive>

    /** The player fits on its canvas. */
    ghost predicate Valid()
    {
      2.0 * size <= canvasWidth && 2.0 * size <= canvasHeight
    }

    /** The player as checkCollisionWithTrail sees it when passed as the other player. */
    function HeadOf(): Head
      reads this
    {
      Head(x, y, size, isAlive)
    }

    /** `this.lockTime && Date.now() < this.lockTime` */
    predicate Locked(now: real)
      reads this
    {
      Truthy(lockTime) && now < lockTime.value
    }

    /** The three early returns of fixedUpdate: paused game, lockout, dead player. */
    predicate Frozen(gameState: GameState, now: real)
      reads this
    {
      gameState == Paused || Locked(now) || !isAlive
    }

    constructor (id: int, x: real, y: real, canvasWidth: real, canvasHeight: real)
      requires 2.0 * Config.PlayerSize <= canvasWidth && 2.0 * Config.PlayerSize <= canvasHeight
      ensures Valid()
      ensures this.id == id && this.canvasWidth == canvasWidth && this.canvasHeight == canvasHeight
      ensures this.x == x && this.y == y && startX == x && startY == y && trail == [] && isAlive
      ensures locktime == Config.Locktime && territory == [] && score == 0.0 && shield == null
      ensures homeStartTime == None && isAtHome && !homeCountdownPaused && lockTime == None
      ensures standarddistance == None
    {
      this.id := id;
      this.canvasWidth := canvasWidth;
      this.canvasHeight := canvasHeight;
      locktime := Config.Locktime;
      // The source leaves lives, speed and trailLength undefined here (an
      // undefined trailLength would never cut the trail); these zeros stand in
      // until the difficulty settings, which the game applies at init, set them.
      lives := 0;
      speed := 0.0;
      trailLength := 0;
      standarddistance := None;
      pausedHomeTime := None;
      new;
      InitState(x, y, true);
    }

    /**
     * initState: position, start point, empty trail, alive, no direction, no
     * boost and no lock; in the 'full' form also the territory, score, shield
     * and home countdown.
     */
    method InitState(x0: real, y0: real, full: bool)
      modifies this`x, this`y, this`startX, this`startY, this`trail, this`isAlive
      modifies this`dirX, this`dirY, this`isMoving, this`speedMultiplier, this`speedBoostEndTime
      modifies this`lockTime, this`pausedLockTime
      modifies this`territory, this`score, this`shield, this`homeStartTime, this`isAtHome, this`homeCountdownPaused
      ensures x == x0 && y == y0 && startX == x0 && startY == y0 && trail == [] && isAlive
      ensures dirX == 0.0 && dirY == 0.0 && !isMoving
      ensures speedMultiplier == 1.0 && speedBoostEndTime == None && lockTime == None && pausedLockTime == None
      ensures full ==> territory == [] && score == 0.0 && shield == null
                       && homeStartTime == None && isAtHome && !homeCountdownPaused
      ensures !full ==> territory == old(territory) && score == old(score) && shield == old(shield)
                        && homeStartTime == old(homeStartTime) && isAtHome == old(isAtHome)
                        && homeCountdownPaused == old(homeCountdownPaused)
    {
      InitMotion(x0, y0);
      if full {
        territory, score, shield := [], 0.0, null;
        homeStartTime, isAtHome, homeCountdownPaused := None, true, false;
      }
    }

    /** The part of initState applied in every form. */
    method InitMotion(x0: real, y0: real)
      modifies this`x, this`y, this`startX, this`startY, this`trail, this`isAlive
      modifies this`dirX, this`dirY, this`isMoving, this`speedMultiplier, this`speedBoostEndTime
      modifies this`lockTime, this`pausedLockTime
      ensures x == x0 && y == y0 && startX == x0 && startY == y0 && trail == [] && isAlive
      ensures dirX == 0.0 && dirY == 0.0 && !isMoving
      ensures speedMultiplier == 1.0 && speedBoostEndTime == None && lockTime == None && pausedLockTime == None
    {
      x, y, startX, startY := x0, y0, x0, y0;
      trail, isAlive := [], true;
      dirX, dirY, isMoving := 0.0, 0.0, false;
      speedMultiplier, speedBoostEndTime := 1.0, None;
      lockTime, pausedLockTime := None, None;
    }

    /** reset: the full initial state at (x0, y0) and the lockout length back to its default. */
    method Reset(x0: real, y0: real)
      modifies this
      ensures x == x0 && y == y0 && startX == x0 && startY == y0 && trail == [] && isAlive
      ensures dirX == 0.0 && dirY == 0.0 && !isMoving && speedMultiplier == 1.0
      ensures speedBoostEndTime == None && lockTime == None && pausedLockTime == None
      ensures territory == [] && score == 0.0 && shield == null
      ensures homeStartTime == None && isAtHome && !homeCountdownPaused
      ensures locktime == Config.Locktime
      ensures lives == old(lives) && speed == old(speed) && trailLength == old(trailLength)
      ensures standarddistance == old(standarddistance)
    {
      InitState(x0, y0, true);
      locktime := Config.Locktime;
    }

    /**
     * diereset: respawn at (x0, y0) keeping territory, score, lives and the
     * home countdown, dropping trail and shield; in infinite mode the player is
     * locked for `locktime` and the next lockout is longer by addlocktime.
     */
    method DieReset(x0: real, y0: real, gameMode: GameMode, now: real)
      modifies this
      ensures x == x0 && y == y0 && startX == x0 && startY == y0 && trail == [] && isAlive
      ensures dirX == 0.0 && dirY == 0.0 && !isMoving && speedMultiplier == 1.0
      ensures speedBoostEndTime == None && pausedLockTime == None && shield == null
      ensures territory == old(territory) && score == old(score) && lives == old(lives)
      ensures homeStartTime == old(homeStartTime) && isAtHome == old(isAtHome)
      ensures gameMode == Infinite ==> lockTime == Some(now + old(locktime)) && locktime == old(locktime) + Config.AddLocktime
      ensures gameMode != Infinite ==> lockTime == None && locktime == old(locktime)
      ensures speed == old(speed) && trailLength == old(trailLength) && standarddistance == old(standarddistance)
    {
      InitState(x0, y0, false);
      shield := null;
      if gameMode == Infinite {
        lockTime := Some(now + locktime);
        locktime := locktime + Config.AddLocktime;
      }
    }

    /** Whether die() respawns the player: a life is left and the mode allows respawning. */
    static predicate Respawns(livesAfter: int, gameMode: GameMode)
    {
      livesAfter > 0 && gameMode in {Infinite, Fight, Survival}
    }

    /**
     * die: one life fewer. With lives left, infinite mode restores two lives
     * and respawns at the start point, fight and survival respawn, and every
     * other mode eliminates the player; with none left the player is out.
     */
    method Die(gameMode: GameMode, now: real)
      modifies this
      ensures Respawns(old(lives) - 1, gameMode) ==>
                && isAlive && x == old(startX) && y == old(startY) && trail == [] && shield == null
                && territory == old(territory) && score == old(score)
                && lives == (if gameMode == Infinite then 2 else old(lives) - 1)
      ensures Respawns(old(lives) - 1, gameMode) && gameMode == Infinite ==>
                lockTime == Some(now + old(locktime)) && locktime == old(locktime) + Config.AddLocktime
      ensures !Respawns(old(lives) - 1, gameMode) ==>
                && !isAlive && lives == old(lives) - 1
                && x == old(x) && y == old(y) && trail == old(trail) && shield == old(shield)
                && territory == old(territory) && score == old(score) && lockTime == old(lockTime)
      ensures speed == old(speed) && trailLength == old(trailLength) && standarddistance == old(standarddistance)
    {
      lives := lives - 1;
      if lives > 0 {
        if gameMode == Infinite {
          lives := 2;
          DieReset(startX, startY, gameMode, now);
        } else if gameMode == Fight || gameMode == Survival {
          DieReset(startX, startY, gameMode, now);
        } else {
          isAlive := false;
        }
      } else {
        isAlive := false;
      }
    }

    /** setDirection: ignored while locked or dead. */
    method SetDirection(dx: real, dy: real, now: real)
      modifies this`dirX, this`dirY, this`isMoving
      ensures Locked(now) || !isAlive ==> dirX == old(dirX) && dirY == old(dirY) && isMoving == old(isMoving)
      ensures !Locked(now) && isAlive ==> dirX == dx && dirY == dy && isMoving == (dx != 0.0 || dy != 0.0)
    {
      if Locked(now) {
        return;
      }
      if !isAlive {
        return;
      }
      dirX, dirY := dx, dy;
      isMoving := dx != 0.0 || dy != 0.0;
    }

    /** applySpeedBoost */
    method ApplySpeedBoost(multiplier: real, duration: real, now: real)
      modifies this`speedMultiplier, this`speedBoostEndTime
      ensures speedMultiplier == multiplier && speedBoostEndTime == Some(now + duration)
    {
      speedMultiplier := multiplier;
      speedBoostEndTime := Some(now + duration);
    }

    /** addLength: the trail cap grows by `amount`. */
    method AddLength(amount: int)
      modifies this`trailLength
      ensures trailLength == old(trailLength) + amount
    {
      trailLength := trailLength + amount;
    }

    /**
     * activateShield: a fresh shield of the given duration. While the game is
     * paused its start is set to the item manager's pause start minus the
     * duration (a missing pause start counts as 0, as null does in JavaScript
     * arithmetic), so that shield is already used up.
     */
    method ActivateShield(duration: real, gameState: GameState, itemPauseStart: Option<real>, now: real)
      modifies this`shield
      ensures fresh(shield) && shield != null && shield.active && shield.duration == duration
      ensures shield.pauseStartTime == None && shield.pausedRemainingTime == None
      ensures gameState != Paused ==> shield.startTime == now
      ensures gameState == Paused ==>
                shield.startTime == (if itemPauseStart.Some? then itemPauseStart.value else 0.0) - duration
    {
      var s := new ShieldEffect(duration, now);
      if gameState == Paused {
        s.startTime := (if itemPauseStart.Some? then itemPauseStart.value else 0.0) - duration;
      }
      shield := s;
    }

    /** hasShield (also canEnterEnemyTerritory) */
    predicate HasShield()
      reads this, shield
    {
      shield != null && shield.IsActive()
    }

    /** getShieldTimeRemaining: whole seconds left, rounded up; 0 without an active shield. */
    function ShieldTimeRemaining(now: real): (r: int)
      reads this, shield
      ensures !HasShield() ==> r == 0
      ensures HasShield() ==> shield.RemainingTime(now) / 1000.0 <= r as real < shield.RemainingTime(now) / 1000.0 + 1.0
      ensures HasShield() && shield.pausedRemainingTime.None? ==> r >= 0
    {
      if !HasShield() then 0 else JsCeil(shield.RemainingTime(now) / 1000.0)
    }

    /** The player is within homeRadius of the start point (squared comparison). */
    predicate AtHome()
      reads this
    {
      DistSq(x, y, startX, startY) <= Config.HomeRadius * Config.HomeRadius
    }

    /** checkIfAtHome, with the distance taken by Math.sqrt. */
    method CheckIfAtHome(sqrt: real -> real) returns (atHome: bool)
      requires IsSqrt(sqrt)
      ensures atHome == AtHome()
    {
      var distance := sqrt(DistSq(x, y, startX, startY));
      SqrtBelowIff(sqrt, DistSq(x, y, startX, startY), Config.HomeRadius);
      atHome := distance <= Config.HomeRadius;
    }

    /** startHomeCountdown: starts only from home and only when no truthy start time is recorded. */
    method StartHomeCountdown(now: real)
      modifies this`homeStartTime, this`isAtHome
      ensures old(isAtHome) && !Truthy(old(homeStartTime)) ==> homeStartTime == Some(now) && !isAtHome
      ensures !(old(isAtHome) && !Truthy(old(homeStartTime))) ==>
                homeStartTime == old(homeStartTime) && isAtHome == old(isAtHome)
    {
      if isAtHome && !Truthy(homeStartTime) {
        homeStartTime := Some(now);
        isAtHome := false;
      }
    }

    /** resetHomeCountdown */
    method ResetHomeCountdown()
      modifies this`homeStartTime, this`isAtHome
      ensures homeStartTime == None && isAtHome
    {
      homeStartTime := None;
      isAtHome := true;
    }

    /** getHomeCountdownRemaining */
    function HomeCountdownRemaining(now: real): (r: int)
      reads this
      ensures 0 <= r
      ensures Truthy(homeStartTime) && now >= homeStartTime.value ==> r <= 15
      ensures r == 0 <==> (!Truthy(homeStartTime) || isAtHome || HomeCountdownExpired(now))
    {
      CountdownZeroIff(isAtHome, homeStartTime, homeTimeLimit, now);
      CountdownRemaining(isAtHome, homeStartTime, homeTimeLimit, now)
    }

    /** isHomeCountdownExpired */
    predicate HomeCountdownExpired(now: real)
      reads this
    {
      CountdownExpired(isAtHome, homeStartTime, homeTimeLimit, now)
    }

    /** pauseHomeCountdown: freezes the elapsed time when a truthy start time exists and it is not already paused. */
    method PauseHomeCountdown(now: real)
      modifies this`pausedHomeTime, this`homeCountdownPaused
      ensures Truthy(homeStartTime) && !old(homeCountdownPaused) ==>
                pausedHomeTime == Some(now - homeStartTime.value) && homeCountdownPaused
      ensures !(Truthy(homeStartTime) && !old(homeCountdownPaused)) ==>
                pausedHomeTime == old(pausedHomeTime) && homeCountdownPaused == old(homeCountdownPaused)
    {
      if Truthy(homeStartTime) && !homeCountdownPaused {
        pausedHomeTime := Some(now - homeStartTime.value);
        homeCountdownPaused := true;
      }
    }

    /**
     * resumeHomeCountdown: moves the start time so that the frozen elapsed time
     * is elapsed again at `now`; a frozen elapsed time of 0 is falsy and is
     * not resumed.
     */
    method ResumeHomeCountdown(now: real)
      modifies this`homeStartTime, this`pausedHomeTime, this`homeCountdownPaused
      ensures old(homeCountdownPaused) && Truthy(old(pausedHomeTime)) ==>
                homeStartTime == Some(now - old(pausedHomeTime).value)
                && pausedHomeTime == None && !homeCountdownPaused
      ensures !(old(homeCountdownPaused) && Truthy(old(pausedHomeTime))) ==>
                homeStartTime == old(homeStartTime) && pausedHomeTime == old(pausedHomeTime)
                && homeCountdownPaused == old(homeCountdownPaused)
    {
      if homeCountdownPaused && Truthy(pausedHomeTime) {
        homeStartTime := Some(now - pausedHomeTime.value);
        pausedHomeTime := None;
        homeCountdownPaused := false;
      }
    }

    /**
     * A pause at t1 followed by a resume at t2 carries the elapsed time over:
     * at t2 as much time has elapsed as had at t1, provided the countdown was
     * running, not yet paused, and had a non-zero elapsed time.
     */
    method PauseThenResumeHome(t1: real, t2: real)
      modifies this`homeStartTime, this`pausedHomeTime, this`homeCountdownPaused
      ensures Truthy(old(homeStartTime)) && !old(homeCountdownPaused) && t1 - old(homeStartTime).value != 0.0 ==>
                homeStartTime.Some? && t2 - homeStartTime.value == t1 - old(homeStartTime).value
                && !homeCountdownPaused && pausedHomeTime == None
    {
      PauseHomeCountdown(t1);
      ResumeHomeCountdown(t2);
    }

    /**
     * The capture-mode part of fixedUpdate: arrival and departure update the
     * countdown; once it has expired a life is lost and, with lives left, the
     * player is put back at the start point with an empty trail, no direction
     * and the countdown reset, while at zero lives it is marked dead (and the
     * rest of the step still runs).
     */
    method HomeTick(now: real, sqrt: real -> real)
      requires IsSqrt(sqrt)
      modifies this`homeStartTime, this`isAtHome, this`lives, this`x, this`y, this`trail
      modifies this`dirX, this`dirY, this`isMoving, this`isAlive
      ensures var (h, s) := HomeTransition(old(AtHome()), old(isAtHome), old(homeStartTime), now);
              if !CountdownExpired(h, s, homeTimeLimit, now) then
                && isAtHome == h && homeStartTime == s && lives == old(lives) && isAlive == old(isAlive)
                && x == old(x) && y == old(y) && trail == old(trail)
                && dirX == old(dirX) && dirY == old(dirY) && isMoving == old(isMoving)
              else if old(lives) - 1 > 0 then
                && lives == old(lives) - 1 && isAlive == old(isAlive)
                && x == startX && y == startY && trail == [] && dirX == 0.0 && dirY == 0.0 && !isMoving
                && isAtHome && homeStartTime == None
              else
                && lives == old(lives) - 1 && !isAlive && isAtHome == h && homeStartTime == s
                && x == old(x) && y == old(y) && trail == old(trail)
                && dirX == old(dirX) && dirY == old(dirY) && isMoving == old(isMoving)
      ensures lives == old(lives) ==>
                && x == old(x) && y == old(y) && trail == old(trail)
                && dirX == old(dirX) && dirY == old(dirY) && isMoving == old(isMoving)
    {
      var currentlyAtHome := CheckIfAtHome(sqrt);
      if currentlyAtHome && !isAtHome {
        ResetHomeCountdown();
      } else if !currentlyAtHome && isAtHome {
        StartHomeCountdown(now);
      }
      if HomeCountdownExpired(now) {
        lives := lives - 1;
        if lives > 0 {
          x, y := startX, startY;
          trail := [];
          dirX, dirY := 0.0, 0.0;
          isMoving := false;
          ResetHomeCountdown();
        } else {
          isAlive := false;
        }
      }
    }

    /** The movement of fixedUpdate: one displacement along each direction component, clamped to the canvas. */
    method Advance(deltaTime: real)
      requires Valid()
      modifies this`x, this`y
      ensures x == Clamp(old(x) + dirX * Displacement(speed, speedMultiplier, deltaTime), size, canvasWidth - size)
      ensures y == Clamp(old(y) + dirY * Displacement(speed, speedMultiplier, deltaTime), size, canvasHeight - size)
      ensures size <= x <= canvasWidth - size && size <= y <= canvasHeight - size
    {
      var currentSpeed := speed * (if speedMultiplier == 0.0 then 1.0 else speedMultiplier);
      var displacement := currentSpeed * (deltaTime / 1000.0) * 60.0;
      x := x + dirX * displacement;
      y := y + dirY * displacement;
      x := Max(size, Min(canvasWidth - size, x));
      y := Max(size, Min(canvasHeight - size, y));
    }

    /**
     * The resampling loop of fixedUpdate. While the clamped position is at
     * least one spacing away from the reference point lastPos (the last trail
     * point when the loop starts), a point is pushed one spacing towards the
     * position, lastPos - the very object in the trail - is moved onto it, and
     * the oldest point is shifted out when the trail is over its cap.
     * `ref` is the index of that object in the trail, negative once it has
     * been shifted out; lastX/lastY are its coordinates.
     */
    method ResampleTrail(now: real, sqrt: real -> real)
      requires IsSqrt(sqrt) && Valid() && |trail| >= 1
      modifies this`trail
      ensures standarddistance.None? ==> trail == old(trail)
      ensures standarddistance.Some? ==>
                var g := SegmentOf(old(trail)[|old(trail)| - 1], x, y, standarddistance.value, sqrt);
                trail == ResampledTrail(old(trail), g, now, Steps(g), trailLength)
      ensures old(|trail|) <= trailLength ==> |trail| <= trailLength
      ensures |trail| >= 1
    {
      ghost var t0 := trail;
      var n := |trail|;
      var spacing := if standarddistance.Some? then standarddistance.value else 1.0;
      ghost var g := SegmentOf(t0[n - 1], x, y, spacing, sqrt);
      SegmentOfValid(t0[n - 1], x, y, spacing, sqrt);
      var lastX, lastY := trail[n - 1].x, trail[n - 1].y;
      var ref: int := n - 1;
      var dx, dy := x - lastX, y - lastY;
      var dist := sqrt(dx * dx + dy * dy);
      LoopEntry(t0, x, y, spacing, sqrt, now, trailLength, dx, dy);
      ghost var j: nat := 0;
      while standarddistance.Some? && dist >= standarddistance.value
        invariant SegmentDirection(g) && g.px == x && g.py == y
        invariant standarddistance.Some? ==> g.s == standarddistance.value
        invariant standarddistance.None? ==> j == 0
        invariant j <= Steps(g)
        invariant IterationState(t0, g, now, j, lastX, lastY, dx, dy, dist, ref)
        decreases Steps(g) - j
      {
        lastX, lastY, dx, dy, dist, ref := ResampleIteration(now, sqrt, t0, g, j, lastX, lastY, dx, dy, dist, ref);
        j := j + 1;
      }
      if standarddistance.Some? {
        LoopExit(g, j, dist);
      }
      ResampledLengthBound(t0, g, now, j, trailLength);
    }

    /** The loop variables of the resampling loop after j iterations, starting from trail t0 on segment g. */
    ghost predicate IterationState(t0: seq<TrailPoint>, g: Segment, now: real, j: nat,
                                   lastX: real, lastY: real, dx: real, dy: real, dist: real, ref: int)
      reads this
    {
      && |t0| >= 1
      && lastX == SampleX(g, j) && lastY == SampleY(g, j)
      && dx == x - lastX && dy == y - lastY
      && dist == g.d - (j as real) * g.s
      && trail == ResampledTrail(t0, g, now, j, trailLength)
      && ref == CapLen(|t0|, j, trailLength) - j - 1
    }

    /** One pass of the resampling loop's body. */
    method ResampleIteration(now: real, sqrt: real -> real, ghost t0: seq<TrailPoint>, ghost g: Segment, ghost j: nat,
                             lastX: real, lastY: real, dx: real, dy: real, dist: real, ref: int)
      returns (lastX': real, lastY': real, dx': real, dy': real, dist': real, ref': int)
      requires IsSqrt(sqrt) && SegmentDirection(g) && g.px == x && g.py == y
      requires standarddistance == Some(g.s) && dist >= g.s
      requires IterationState(t0, g, now, j, lastX, lastY, dx, dy, dist, ref)
      modifies this`trail
      ensures IterationState(t0, g, now, j + 1, lastX', lastY', dx', dy', dist', ref')
      ensures j + 1 <= Steps(g)
    {
      var newX, newY;
      newX, newY, dx', dy', dist' := SampleAfter(sqrt, g, j, x, y, standarddistance.value, lastX, lastY, dx, dy, dist);
      lastX', lastY' := newX, newY;
      ref' := PushSample(now, t0, g, j, newX, newY, ref);
    }

    /**
     * The arithmetic of one iteration: the point spacing / dist of the way
     * from the last point to the position, the difference left, and its
     * length. From the j-th sample it reaches the (j+1)-th.
     */
    static method SampleAfter(sqrt: real -> real, ghost g: Segment, ghost j: nat, x: real, y: real, spacing: real,
                              lastX: real, lastY: real, dx: real, dy: real, dist: real)
      returns (newX: real, newY: real, dx': real, dy': real, dist': real)
      requires IsSqrt(sqrt) && SegmentDirection(g) && x == g.px && y == g.py && spacing == g.s
      requires dist == g.d - (j as real) * g.s && dist >= g.s
      requires lastX == SampleX(g, j) && lastY == SampleY(g, j) && dx == g.px - lastX && dy == g.py - lastY
      ensures newX == SampleX(g, j + 1) && newY == SampleY(g, j + 1)
      ensures dx' == g.px - newX && dy' == g.py - newY
      ensures dist' == g.d - ((j + 1) as real) * g.s && j + 1 <= Steps(g)
    {
      var ratio := spacing / dist;
      newX := lastX + dx * ratio;
      newY := lastY + dy * ratio;
      dx', dy' := x - newX, y - newY;
      IterationArithmetic(g, j, sqrt, dist, ratio, lastX, lastY, dx, dy, newX, newY, dx', dy');
      dist' := sqrt(dx' * dx' + dy' * dy');
    }

    /**
     * The trail edits of one iteration: push the new point, write its
     * coordinates through the reference object while that object is still in
     * the trail, and shift out the oldest point when over the cap.
     */
    method PushSample(now: real, ghost t0: seq<TrailPoint>, ghost g: Segment, ghost j: nat, newX: real, newY: real, ref: int)
      returns (ref': int)
      requires |t0| >= 1 && newX == SampleX(g, j + 1) && newY == SampleY(g, j + 1)
      requires trail == ResampledTrail(t0, g, now, j, trailLength)
      requires ref == CapLen(|t0|, j, trailLength) - j - 1
      modifies this`trail
      ensures trail == ResampledTrail(t0, g, now, j + 1, trailLength)
      ensures ref' == CapLen(|t0|, j + 1, trailLength) - (j + 1) - 1
    {
      trail := trail + [TrailPoint(newX, newY, now)];
      if ref >= 0 {
        trail := trail[ref := trail[ref].(x := newX, y := newY)];
      }
      ResampleWindowStep(t0, g, now, j, trailLength, trail);
      ref' := ref;
      if |trail| > trailLength {
        trail := trail[1..];
        ref' := ref - 1;
      }
    }

    /**
     * What one unfrozen fixedUpdate step does, relating the state before the
     * step (old) to the state after it. In capture mode the home countdown
     * runs first (HomeStepped): when it expires the player loses a life and,
     * with lives left, is put back at the start with an empty trail, or
     * otherwise is marked out of the round, which does not stop this step.
     * Then the speed boost ends when its time has passed, the shield survives
     * only while active and within its duration, the trail is seeded, and the
     * player moves by one clamped displacement along its direction with the
     * trail resampled up to the new position: from where it stood, or, after
     * a respawn, from the start, where it stays because its direction was
     * cleared. The modifies clauses of the methods that perform the step say
     * which fields can change at all.
     */
    twostate predicate StepDone(deltaTime: real, gameMode: GameMode, now: real, sqrt: real -> real)
      requires IsSqrt(sqrt) && Valid()
      reads this
    {
      && |trail| >= 1
      && (1 <= trailLength && old(|trail|) <= trailLength ==> |trail| <= trailLength)
      && (gameMode != Capture ==>
            && lives == old(lives) && isAlive == old(isAlive)
            && homeStartTime == old(homeStartTime) && isAtHome == old(isAtHome))
      && (gameMode == Capture ==> HomeStepped(now))
      && (Truthy(old(speedBoostEndTime)) && now > old(speedBoostEndTime).value ==>
            speedMultiplier == 1.0 && speedBoostEndTime == None)
      && (!(Truthy(old(speedBoostEndTime)) && now > old(speedBoostEndTime).value) ==>
            speedMultiplier == old(speedMultiplier) && speedBoostEndTime == old(speedBoostEndTime))
      && (shield != null <==> (old(shield) != null && old(shield.active) && old(shield.Elapsed(now)) < old(shield.duration)))
      && (shield == null || shield == old(shield))
      && (dirX != 0.0 || dirY != 0.0 ==> size <= x <= canvasWidth - size && size <= y <= canvasHeight - size)
      && (!Respawned() ==>
            && dirX == old(dirX) && dirY == old(dirY) && isMoving == old(isMoving)
            && MovedFrom(old(x), old(y), Seeded(old(trail), old(x), old(y), now), deltaTime, now, sqrt))
      && (Respawned() ==>
            && dirX == 0.0 && dirY == 0.0 && !isMoving
            && x == startX && y == startY && trail == [TrailPoint(startX, startY, now)])
    }

    /** A life was lost and some are left: the player was put back at its start. */
    twostate predicate Respawned()
      reads this
    {
      lives < old(lives) && lives > 0
    }

    /**
     * The capture-mode countdown's part of a step: arrival at home clears the
     * countdown, departure starts it; once it has run homeTimeLimit the
     * player loses a life and, with lives left, is home again with no
     * countdown, otherwise it is out of the round. Without expiry lives and
     * liveness stay.
     */
    twostate predicate HomeStepped(now: real)
      reads this
    {
      var (h, s) := HomeTransition(old(AtHome()), old(isAtHome), old(homeStartTime), now);
      if !CountdownExpired(h, s, homeTimeLimit, now) then
        lives == old(lives) && isAlive == old(isAlive) && isAtHome == h && homeStartTime == s
      else if old(lives) - 1 > 0 then
        lives == old(lives) - 1 && isAlive == old(isAlive) && isAtHome && homeStartTime == None
      else
        lives == old(lives) - 1 && !isAlive && isAtHome == h && homeStartTime == s
    }

    /**
     * The movement part of fixedUpdate, from position (x0, y0) with the
     * (already seeded) trail t1: without a direction nothing changes; with
     * one, the player moves by one clamped displacement and the trail is
     * resampled from its last point up to the new position (left as it is
     * when no spacing is configured).
     */
    ghost predicate MovedFrom(x0: real, y0: real, t1: seq<TrailPoint>, deltaTime: real, now: real, sqrt: real -> real)
      requires IsSqrt(sqrt) && Valid() && |t1| >= 1
      reads this
    {
      && (dirX == 0.0 && dirY == 0.0 ==> x == x0 && y == y0 && trail == t1)
      && (dirX != 0.0 || dirY != 0.0 ==>
            && x == Clamp(x0 + dirX * Displacement(speed, speedMultiplier, deltaTime), size, canvasWidth - size)
            && y == Clamp(y0 + dirY * Displacement(speed, speedMultiplier, deltaTime), size, canvasHeight - size)
            && (standarddistance.None? ==> trail == t1)
            && (standarddistance.Some? ==>
                  var g := SegmentOf(t1[|t1| - 1], x, y, standarddistance.value, sqrt);
                  trail == ResampledTrail(t1, g, now, Steps(g), trailLength)))
    }

    /**
     * fixedUpdate: nothing while paused, locked or dead; otherwise one step as
     * StepDone describes it.
     */
    method FixedUpdate(deltaTime: real, gameState: GameState, gameMode: GameMode, now: real, sqrt: real -> real)
      requires IsSqrt(sqrt) && Valid()
      modifies this`homeStartTime, this`isAtHome, this`lives, this`x, this`y, this`trail
      modifies this`dirX, this`dirY, this`isMoving, this`isAlive
      modifies this`speedMultiplier, this`speedBoostEndTime, this`shield, shield
      ensures Valid()
      ensures old(Frozen(gameState, now)) ==> unchanged(this) && (old(shield) != null ==> unchanged(old(shield)))
      ensures !old(Frozen(gameState, now)) ==> StepDone(deltaTime, gameMode, now, sqrt)
    {
      if gameState == Paused {
        return;
      }
      if Locked(now) {
        return;
      }
      if !isAlive {
        return;
      }
      ActiveStep(deltaTime, gameState, gameMode, now, sqrt);
    }

    /** The body of fixedUpdate past its three early returns. */
    method ActiveStep(deltaTime: real, gameState: GameState, gameMode: GameMode, now: real, sqrt: real -> real)
      requires IsSqrt(sqrt) && Valid() && gameState != Paused
      modifies this`homeStartTime, this`isAtHome, this`lives, this`x, this`y, this`trail
      modifies this`dirX, this`dirY, this`isMoving, this`isAlive
      modifies this`speedMultiplier, this`speedBoostEndTime, this`shield, shield
      ensures Valid()
      ensures StepDone(deltaTime, gameMode, now, sqrt)
    {
      if gameMode == Capture {
        HomeTick(now, sqrt);
      }
      AfterHome(deltaTime, gameState, now, sqrt);
    }

    /** The part of fixedUpdate after the capture countdown: speed boost, shield, trail seeding and movement. */
    method AfterHome(deltaTime: real, gameState: GameState, now: real, sqrt: real -> real)
      requires IsSqrt(sqrt) && Valid() && gameState != Paused
      modifies this`x, this`y, this`trail, this`speedMultiplier, this`speedBoostEndTime, this`shield, shield
      ensures Valid() && |trail| >= 1
      ensures 1 <= trailLength && old(|trail|) <= trailLength ==> |trail| <= trailLength
      ensures Truthy(old(speedBoostEndTime)) && now > old(speedBoostEndTime).value ==>
                speedMultiplier == 1.0 && speedBoostEndTime == None
      ensures !(Truthy(old(speedBoostEndTime)) && now > old(speedBoostEndTime).value) ==>
                speedMultiplier == old(speedMultiplier) && speedBoostEndTime == old(speedBoostEndTime)
      ensures shield != null <==> (old(shield) != null && old(shield.active) && old(shield.Elapsed(now)) < old(shield.duration))
      ensures shield == null || shield == old(shield)
      ensures dirX != 0.0 || dirY != 0.0 ==> size <= x <= canvasWidth - size && size <= y <= canvasHeight - size
      ensures MovedFrom(old(x), old(y), Seeded(old(trail), old(x), old(y), now), deltaTime, now, sqrt)
    {
      ExpireSpeedBoost(now);
      TickShield(gameState, now);
      MoveAndSample(deltaTime, now, sqrt);
    }

    /** The end of a speed boost: once its end time has passed, the multiplier returns to 1. */
    method ExpireSpeedBoost(now: real)
      modifies this`speedMultiplier, this`speedBoostEndTime
      ensures Truthy(old(speedBoostEndTime)) && now > old(speedBoostEndTime).value ==>
                speedMultiplier == 1.0 && speedBoostEndTime == None
      ensures !(Truthy(old(speedBoostEndTime)) && now > old(speedBoostEndTime).value) ==>
                speedMultiplier == old(speedMultiplier) && speedBoostEndTime == old(speedBoostEndTime)
    {
      if Truthy(speedBoostEndTime) && now > speedBoostEndTime.value {
        speedMultiplier := 1.0;
        speedBoostEndTime := None;
      }
    }

    /** The shield timer of fixedUpdate: the shield is updated and dropped once it is no longer active. */
    method TickShield(gameState: GameState, now: real)
      requires gameState != Paused
      modifies this`shield, shield
      ensures shield != null <==> (old(shield) != null && old(shield.active) && old(shield.Elapsed(now)) < old(shield.duration))
      ensures shield == null || shield == old(shield)
    {
      if shield != null {
        shield.Update(gameState, now);
        if !shield.IsActive() {
          shield := null;
        }
      }
    }

    /**
     * The last part of fixedUpdate: an empty trail is seeded with the current
     * position, then the player moves.
     */
    method MoveAndSample(deltaTime: real, now: real, sqrt: real -> real)
      requires IsSqrt(sqrt) && Valid()
      modifies this`x, this`y, this`trail
      ensures Valid() && |trail| >= 1
      ensures 1 <= trailLength && old(|trail|) <= trailLength ==> |trail| <= trailLength
      ensures dirX != 0.0 || dirY != 0.0 ==> size <= x <= canvasWidth - size && size <= y <= canvasHeight - size
      ensures MovedFrom(old(x), old(y), Seeded(old(trail), old(x), old(y), now), deltaTime, now, sqrt)
    {
      if |trail| == 0 {
        trail := [TrailPoint(x, y, now)];
      }
      MoveBy(deltaTime, now, sqrt);
    }

    /** With a non-zero direction: the clamped move followed by trail resampling. */
    method MoveBy(deltaTime: real, now: real, sqrt: real -> real)
      requires IsSqrt(sqrt) && Valid() && |trail| >= 1
      modifies this`x, this`y, this`trail
      ensures Valid() && |trail| >= 1
      ensures old(|trail|) <= trailLength ==> |trail| <= trailLength
      ensures dirX != 0.0 || dirY != 0.0 ==> size <= x <= canvasWidth - size && size <= y <= canvasHeight - size
      ensures MovedFrom(old(x), old(y), old(trail), deltaTime, now, sqrt)
    {
      ghost var x0, y0, t1 := x, y, trail;
      if dirX != 0.0 || dirY != 0.0 {
        Advance(deltaTime);
        ResampleTrail(now, sqrt);
        assert x == Clamp(x0 + dirX * Displacement(speed, speedMultiplier, deltaTime), size, canvasWidth - size);
        assert y == Clamp(y0 + dirY * Displacement(speed, speedMultiplier, deltaTime), size, canvasHeight - size);
      }
    }

    /**
     * checkCollisionWithTrail against another trail and, optionally, the
     * other player's head, with distances taken by Math.sqrt.
     */
    method CheckCollisionWithTrail(otherTrail: seq<TrailPoint>, other: Player?, sqrt: real -> real) returns (hit: TrailHit)
      requires IsSqrt(sqrt)
      ensures hit == TrailHitOf(isAlive, x, y, size, otherTrail, if other == null then None else Some(other.HeadOf()))
    {
      if !isAlive || |otherTrail| == 0 {
        return NoHit;
      }
      if other != null && other.isAlive {
        var headDistance := sqrt(DistSq(x, y, other.x, other.y));
        SqrtBelowIff(sqrt, DistSq(x, y, other.x, other.y), size + other.size);
        if headDistance < size + other.size {
          return HeadCollision;
        }
      }
      var i := 0;
      while i < |otherTrail|
        invariant 0 <= i <= |otherTrail|
        invariant forall k :: 0 <= k < i ==> !(DistSq(x, y, otherTrail[k].x, otherTrail[k].y) < size * size)
      {
        var distance := sqrt(DistSq(x, y, otherTrail[i].x, otherTrail[i].y));
        SqrtBelowIff(sqrt, DistSq(x, y, otherTrail[i].x, otherTrail[i].y), size);
        if distance < size {
          return TrailCollision;
        }
        i := i + 1;
      }
      return NoHit;
    }

    /** checkCollisionWithTerritory: a living player standing inside any of the polygons. */
    method CheckCollisionWithTerritory(areas: seq<seq<Point>>) returns (hit: bool)
      ensures hit == (isAlive && InTerritory(Point(x, y), areas))
    {
      if !isAlive {
        return false;
      }
      var i := 0;
      while i < |areas|
        invariant 0 <= i <= |areas|
        invariant forall k :: 0 <= k < i ==> !InPolygon(Point(x, y), areas[k])
      {
        var inside := IsPointInPolygon(Point(x, y), areas[i]);
        if inside {
          return true;
        }
        i := i + 1;
      }
      return false;
    }

    /**
     * handleObstacleCollision: pushed out through the side of least overlap
     * (radius pushdistance), then clamped to [pushdistance, size of canvas -
     * pushdistance] on both axes.
     */
    method HandleObstacleCollision(o: Rect)
      modifies this`x, this`y
      ensures var q := PushOut(old(x), old(y), Config.PushDistance, o);
              x == Clamp(q.x, Config.PushDistance, canvasWidth - Config.PushDistance)
              && y == Clamp(q.y, Config.PushDistance, canvasHeight - Config.PushDistance)
    {
      var r := Config.PushDistance;
      var leftOverlap := (x + r) - o.x;
      var rightOverlap := (o.x + o.width) - (x - r);
      var topOverlap := (y + r) - o.y;
      var bottomOverlap := (o.y + o.height) - (y - r);
      var minOverlap := Min4(leftOverlap, rightOverlap, topOverlap, bottomOverlap);
      if minOverlap > 0.0 {
        if minOverlap == leftOverlap {
          x := o.x - r - 1.0;
        } else if minOverlap == rightOverlap {
          x := o.x + o.width + r + 1.0;
        } else if minOverlap == topOverlap {
          y := o.y - r - 1.0;
        } else if minOverlap == bottomOverlap {
          y := o.y + o.height + r + 1.0;
        }
      }
      x := Max(r, Min(canvasWidth - r, x));
      y := Max(r, Min(canvasHeight - r, y));
    }

    /**
     * handleBarrierCollision: unless the player is exactly at the barrier's
     * centre, moved pushdistance outside the nearer vertical edge; then
     * clamped to [5, size of canvas - 5].
     */
    method HandleBarrierCollision(b: Rect, sqrt: real -> real)
      requires IsSqrt(sqrt)
      modifies this`x, this`y
      ensures x == Clamp(BarrierPushX(old(x), old(y), Config.PushDistance, b), 5.0, canvasWidth - 5.0)
      ensures y == Clamp(old(y), 5.0, canvasHeight - 5.0)
    {
      ghost var pushed := BarrierPushX(x, y, Config.PushDistance, b);
      var deltaX := x - (b.x + b.width / 2.0);
      var deltaY := y - (b.y + b.height / 2.0);
      var distance := sqrt(deltaX * deltaX + deltaY * deltaY);
      assert deltaX * deltaX + deltaY * deltaY >= 0.0 by {
        assert deltaX * deltaX == Sq(deltaX) && deltaY * deltaY == Sq(deltaY);
      }
      SqrtPositive(sqrt, deltaX * deltaX + deltaY * deltaY);
      if distance > 0.0 {
        var pushDistance := Config.PushDistance;
        var startdistance := Min(Abs(b.x - x), Abs(b.x + b.width - x));
        var startpoint: real;
        var startline: int;
        if startdistance == Abs(b.x - x) {
          startpoint, startline := b.x, 0;
        } else {
          startpoint, startline := b.x + b.width, 1;
        }
        x := startpoint;
        if startline == 0 {
          x := startpoint - pushDistance;
        } else {
          x := startpoint + pushDistance;
        }
      }
      assert x == pushed;
      x := Clamp(x, 5.0, canvasWidth - 5.0);
      y := Clamp(y, 5.0, canvasHeight - 5.0);
    }
  }
}

=== FILE: renderer.dfy ===
/**
 * The parts of Renderer.js that are not drawing: the two colour-shading
 * helpers, and the upkeep of the four render caches (one per kind of
 * object, each a Map from a cache key to the time the entry was last
 * used) with the state-hash maps that decide whether a cached canvas can be
 * reused. The canvases themselves are not modelled; a cache entry is its
 * key and its timestamp.
 */
module RenderCache {
  import opened Common
  import Colors

  // Colour shading

  /** A channel value clamped to 0..255. */
  function ByteClamp(v: int): (r: int)
    ensures 0 <= r <= 255
    ensures 0 <= v <= 255 ==> r == v
    ensures v < 0 ==> r == 0
    ensures v > 255 ==> r == 255
  {
    if v < 0 then 0 else if v > 255 then 255 else v
  }

  /** lightenColor's clamp, `R < 255 ? R < 1 ? 0 : R : 255`. */
  function LightClamp(v: int): (r: int)
    ensures r == ByteClamp(v)
  {
    if v < 255 then (if v < 1 then 0 else v) else 255
  }

  /** darkenColor's clamp, `R > 255 ? 255 : R < 0 ? 0 : R`. */
  function DarkClamp(v: int): (r: int)
    ensures r == ByteClamp(v)
  {
    if v > 255 then 255 else if v < 0 then 0 else v
  }

  /** `n.toString(16)` for a non-negative integer: lower-case digits, most significant first. */
  function ToHex(n: nat): (s: string)
    ensures |s| >= 1
  {
    if n < 16 then [Colors.DigitChar(n)] else ToHex(n / 16) + [Colors.DigitChar(n % 16)]
  }

  /** `parseInt(color.replace("#", ""), 16)` for a well-formed colour. */
  function ParsedNumber(c: Colors.Rgb): int
  {
    c.r * 0x10000 + c.g * 0x100 + c.b
  }

  /** `Math.round(2.55 * percent)`: how far each channel moves. */
  function Amount(percent: real): int
  {
    JsRound(2.55 * percent)
  }

  /** `"#" + (0x1000000 + R * 0x10000 + G * 0x100 + B).toString(16).slice(1)`. */
  function PackHex(r: int, g: int, b: int): string
    requires 0 <= r <= 255 && 0 <= g <= 255 && 0 <= b <= 255
  {
    "#" + ToHex(0x1000000 + r * 0x10000 + g * 0x100 + b)[1..]
  }

  /** lightenColor: every channel raised by the amount, then clamped. */
  function LightenColor(color: string, percent: real): string
    requires Colors.HexToRgb(color).Some?
  {
    var num := ParsedNumber(Colors.HexToRgb(color).value);
    var amt := Amount(percent);
    var R := num / 0x10000 + amt;
    var G := num / 0x100 % 0x100 + amt;
    var B := num % 0x100 + amt;
    PackHex(LightClamp(R), LightClamp(G), LightClamp(B))
  }

  /** darkenColor: every channel lowered by the amount, then clamped. */
  function DarkenColor(color: string, percent: real): string
    requires Colors.HexToRgb(color).Some?
  {
    var num := ParsedNumber(Colors.HexToRgb(color).value);
    var amt := Amount(percent);
    var R := num / 0x10000 - amt;
    var G := num / 0x100 % 0x100 - amt;
    var B := num % 0x100 - amt;
    PackHex(DarkClamp(R), DarkClamp(G), DarkClamp(B))
  }

  lemma DivStep(n: int, q: int, d: int)
    requires 0 <= d < 16 && n == 16 * q + d
    ensures n / 16 == q && n % 16 == d
  {
  }

  /** The shifts and masks read the three channels back out of the parsed number. */
  lemma {:induction false} ChannelsOfNumber(c: Colors.Rgb)
    requires Colors.ValidRgb(c)
    ensures ParsedNumber(c) / 0x10000 == c.r
    ensures ParsedNumber(c) / 0x100 % 0x100 == c.g
    ensures ParsedNumber(c) % 0x100 == c.b
  {
    var n := ParsedNumber(c);
    assert n == 0x10000 * c.r + (0x100 * c.g + c.b);
    assert 0 <= 0x100 * c.g + c.b < 0x10000;
    assert n == 0x100 * (0x100 * c.r + c.g) + c.b;
    assert n / 0x100 == 0x100 * c.r + c.g;
  }

  /**
   * Adding 0x1000000 before printing makes the hexadecimal form seven digits
   * long with a leading 1, so dropping that digit leaves exactly the six
   * lower-case digits of "#rrggbb".
   */
  lemma {:induction false} PackHexDigits(r: int, g: int, b: int)
    requires 0 <= r <= 255 && 0 <= g <= 255 && 0 <= b <= 255
    ensures PackHex(r, g, b) == Colors.RgbToHex(Colors.Rgb(r, g, b))
  {
    var n0 := 0x1000000 + r * 0x10000 + g * 0x100 + b;
    var n1 := 0x100000 + r * 0x1000 + g * 0x10 + b / 16;
    var n2 := 0x10000 + r * 0x100 + g;
    var n3 := 0x1000 + r * 0x10 + g / 16;
    var n4 := 0x100 + r;
    var n5 := 0x10 + r / 16;
    DivStep(n0, n1, b % 16);
    DivStep(n1, n2, b / 16);
    DivStep(n2, n3, g % 16);
    DivStep(n3, n4, g / 16);
    DivStep(n4, n5, r % 16);
    DivStep(n5, 1, r / 16);
    var d := Colors.DigitChar;
    assert ToHex(n5) == ['1', d(r / 16)];
    assert ToHex(n4) == ['1', d(r / 16), d(r % 16)];
    assert ToHex(n3) == ['1', d(r / 16), d(r % 16), d(g / 16)];
    assert ToHex(n2) == ['1', d(r / 16), d(r % 16), d(g / 16), d(g % 16)];
    assert ToHex(n1) == ['1', d(r / 16), d(r % 16), d(g / 16), d(g % 16), d(b / 16)];
    assert ToHex(n0) == ['1', d(r / 16), d(r % 16), d(g / 16), d(g % 16), d(b / 16), d(b % 16)];
  }

  predicate IsLowerHexDigit(ch: char)
  {
    '0' <= ch <= '9' || 'a' <= ch <= 'f'
  }

  /** "#" and six lower-case hexadecimal digits. */
  predicate IsHexColor(s: string)
  {
    |s| == 7 && s[0] == '#' && forall i :: 1 <= i < 7 ==> IsLowerHexDigit(s[i])
  }

  lemma {:induction false} RgbToHexIsHexColor(c: Colors.Rgb)
    requires Colors.ValidRgb(c)
    ensures IsHexColor(Colors.RgbToHex(c))
  {
    var s := Colors.RgbToHex(c);
    forall i | 1 <= i < 7
      ensures IsLowerHexDigit(s[i])
    {
    }
  }

  /** A packed colour is a "#rrggbb" string that the colour parser reads back as its channels. */
  lemma {:induction false} PackHexReadsBack(r: int, g: int, b: int)
    requires 0 <= r <= 255 && 0 <= g <= 255 && 0 <= b <= 255
    ensures IsHexColor(PackHex(r, g, b))
    ensures Colors.HexToRgb(PackHex(r, g, b)) == Some(Colors.Rgb(r, g, b))
  {
    PackHexDigits(r, g, b);
    RgbToHexIsHexColor(Colors.Rgb(r, g, b));
    Colors.HexRoundTrip(Colors.Rgb(r, g, b));
  }

  /**
   * lightenColor adds the rounded amount to every channel of the colour and
   * clamps each to 0..255; the result is a "#rrggbb" string in lower case
   * that the colour parser reads back as exactly those channels.
   */
  lemma {:induction false} LightenColorChannels(color: string, percent: real)
    requires Colors.HexToRgb(color).Some?
    ensures var c := Colors.HexToRgb(color).value;
            var amt := Amount(percent);
            var shaded := Colors.Rgb(ByteClamp(c.r + amt), ByteClamp(c.g + amt), ByteClamp(c.b + amt));
            && IsHexColor(LightenColor(color, percent))
            && Colors.HexToRgb(LightenColor(color, percent)) == Some(shaded)
  {
    var c := Colors.HexToRgb(color).value;
    var amt := Amount(percent);
    ChannelsOfNumber(c);
    var shaded := Colors.Rgb(ByteClamp(c.r + amt), ByteClamp(c.g + amt), ByteClamp(c.b + amt));
    var num := ParsedNumber(c);
    assert LightClamp(num / 0x10000 + amt) == shaded.r;
    assert LightClamp(num / 0x100 % 0x100 + amt) == shaded.g;
    assert LightClamp(num % 0x100 + amt) == shaded.b;
    assert LightenColor(color, percent) == PackHex(shaded.r, shaded.g, shaded.b);
    PackHexReadsBack(shaded.r, shaded.g, shaded.b);
  }

  /** darkenColor subtracts the rounded amount from every channel and clamps; same output form. */
  lemma {:induction false} DarkenColorChannels(color: string, percent: real)
    requires Colors.HexToRgb(color).Some?
    ensures var c := Colors.HexToRgb(color).value;
            var amt := Amount(percent);
            var shaded := Colors.Rgb(ByteClamp(c.r - amt), ByteClamp(c.g - amt), ByteClamp(c.b - amt));
            && IsHexColor(DarkenColor(color, percent))
            && Colors.HexToRgb(DarkenColor(color, percent)) == Some(shaded)
  {
    var c := Colors.HexToRgb(color).value;
    var amt := Amount(percent);
    ChannelsOfNumber(c);
    var shaded := Colors.Rgb(ByteClamp(c.r - amt), ByteClamp(c.g - amt), ByteClamp(c.b - amt));
    var num := ParsedNumber(c);
    assert DarkClamp(num / 0x10000 - amt) == shaded.r;
    assert DarkClamp(num / 0x100 % 0x100 - amt) == shaded.g;
    assert DarkClamp(num % 0x100 - amt) == shaded.b;
    assert DarkenColor(color, percent) == PackHex(shaded.r, shaded.g, shaded.b);
    PackHexReadsBack(shaded.r, shaded.g, shaded.b);
  }

  // Caches

  /**
   * A JavaScript Map from cache keys to last-use timestamps: its keys in
   * insertion order, and the timestamp of each.
   */
  datatype Cache = Cache(keys: seq<string>, stamps: map<string, real>)

  const EmptyCache: Cache := Cache([], map[])

  /** The keys are distinct and are exactly the keys with a timestamp. */
  predicate WellFormed(c: Cache)
  {
    && Colors.NoDup(c.keys)
    && (forall k :: k in c.stamps ==> k in c.keys)
    && (forall k :: k in c.keys ==> k in c.stamps)
  }

  /** `Map.size` */
  function Size(c: Cache): nat
  {
    |c.keys|
  }

  lemma {:induction false} DistinctCount(keys: seq<string>)
    requires Colors.NoDup(keys)
    ensures |set k | k in keys| == |keys|
  {
    if keys != [] {
      var rest := keys[1..];
      assert Colors.NoDup(rest) by {
        forall i, j | 0 <= i < j < |rest|
          ensures rest[i] != rest[j]
        {
          assert rest[i] == keys[i + 1] && rest[j] == keys[j + 1];
        }
      }
      DistinctCount(rest);
      forall k | 0 <= k < |rest|
        ensures rest[k] != keys[0]
      {
        assert rest[k] == keys[k + 1];
      }
      assert (set k | k in keys) == {keys[0]} + (set k | k in rest);
    }
  }

  /** The size of a well-formed cache is the number of its entries. */
  lemma {:induction false} SizeCountsEntries(c: Cache)
    requires WellFormed(c)
    ensures Size(c) == |c.stamps|
  {
    DistinctCount(c.keys);
    assert c.stamps.Keys == set k | k in c.keys;
  }

  /** `Map.set(key, {timestamp: now})`: a new key goes to the end, an existing one keeps its place. */
  function Put(c: Cache, key: string, now: real): (r: Cache)
    ensures WellFormed(c) ==> WellFormed(r)
    ensures key in r.stamps && r.stamps[key] == now
    ensures forall k :: k != key ==> (k in r.stamps <==> k in c.stamps)
    ensures forall k :: k != key && k in c.stamps ==> r.stamps[k] == c.stamps[k]
    ensures key in c.stamps ==> r.keys == c.keys
    ensures key !in c.stamps ==> r.keys == c.keys + [key]
  {
    if key in c.stamps then Cache(c.keys, c.stamps[key := now])
    else Cache(c.keys + [key], c.stamps[key := now])
  }

  /** The keys of `keys` that a deletion pass over the map keeps, in their order. */
  function Surviving(keys: seq<string>, stamps: map<string, real>, doomed: (string, real) -> bool): (r: seq<string>)
    ensures forall k :: k in r <==> k in keys && !(k in stamps && doomed(k, stamps[k]))
  {
    if keys == [] then []
    else
      var last := keys[|keys| - 1];
      var rest := Surviving(keys[..|keys| - 1], stamps, doomed);
      assert forall k :: k in keys <==> k in keys[..|keys| - 1] || k == last;
      if last in stamps && doomed(last, stamps[last]) then rest else rest + [last]
  }

  lemma {:induction false} SurvivingNoDup(keys: seq<string>, stamps: map<string, real>, doomed: (string, real) -> bool)
    requires Colors.NoDup(keys)
    ensures Colors.NoDup(Surviving(keys, stamps, doomed))
  {
    if keys != [] {
      var init := keys[..|keys| - 1];
      var last := keys[|keys| - 1];
      assert Colors.NoDup(init);
      SurvivingNoDup(init, stamps, doomed);
      forall k | 0 <= k < |init|
        ensures init[k] != last
      {
      }
      assert last !in Surviving(init, stamps, doomed);
    }
  }

  /** The cache after every entry the predicate condemns has been deleted. */
  function Purged(c: Cache, doomed: (string, real) -> bool): (r: Cache)
    ensures WellFormed(c) ==> WellFormed(r)
    ensures forall k :: k in r.stamps <==> k in c.stamps && !doomed(k, c.stamps[k])
    ensures forall k :: k in r.stamps ==> r.stamps[k] == c.stamps[k]
  {
    var r := Cache(Surviving(c.keys, c.stamps, doomed),
                   map k | k in c.stamps && !doomed(k, c.stamps[k]) :: c.stamps[k]);
    if WellFormed(c) then
      SurvivingNoDup(c.keys, c.stamps, doomed);
      r
    else r
  }

  /**
   * `for (const [key, value] of cache) if (doomed) cache.delete(key)`:
   * one pass in insertion order, deleting as it goes.
   */
  method DeleteWhere(c: Cache, doomed: (string, real) -> bool) returns (r: Cache)
    requires WellFormed(c)
    ensures r == Purged(c, doomed)
  {
    var kept: seq<string> := [];
    var stamps := c.stamps;
    var i := 0;
    while i < |c.keys|
      invariant 0 <= i <= |c.keys|
      invariant kept == Surviving(c.keys[..i], c.stamps, doomed)
      invariant forall k :: k in stamps <==> k in c.stamps && !(k in c.keys[..i] && doomed(k, c.stamps[k]))
      invariant forall k :: k in stamps ==> stamps[k] == c.stamps[k]
    {
      var key := c.keys[i];
      assert c.keys[..i + 1][..i] == c.keys[..i];
      assert forall k :: k in c.keys[..i + 1] <==> k in c.keys[..i] || k == key;
      if doomed(key, stamps[key]) {
        stamps := stamps - {key};
      } else {
        kept := kept + [key];
      }
      i := i + 1;
    }
    assert c.keys[..i] == c.keys;
    r := Cache(kept, stamps);
  }

  /** cleanupItemCache and its two twins: the entries of this object other than the current one. */
  function Stale(objectId: string, currentKey: string): (string, real) -> bool
  {
    (k: string, t: real) => objectId + "_" <= k && k != currentKey
  }

  /** `now - value.timestamp > cacheLifespan` */
  function Expired(now: real, lifespan: real): (string, real) -> bool
  {
    (k: string, t: real) => now - t > lifespan
  }

  /**
   * The cleanup of one object's entries deletes exactly the keys that begin
   * with the object's id and an underscore and are not the current key.
   */
  method PruneObject(c: Cache, objectId: string, currentKey: string) returns (r: Cache)
    requires WellFormed(c)
    ensures WellFormed(r)
    ensures forall k :: k in r.stamps <==> k in c.stamps && !(objectId + "_" <= k && k != currentKey)
    ensures forall k :: k in r.stamps ==> r.stamps[k] == c.stamps[k]
    ensures r.keys == Surviving(c.keys, c.stamps, Stale(objectId, currentKey))
  {
    r := DeleteWhere(c, Stale(objectId, currentKey));
  }

  /**
   * What one draw*Cached call does to its cache and state map: the cached
   * canvas is reused exactly when the recorded state hash for the object is
   * the current one and the key is present, and then only its timestamp is
   * refreshed; otherwise the entry is stored, the state hash recorded and
   * every other entry of the same object deleted.
   */
  ghost predicate Consulted(c: Cache, states: map<string, string>, objectId: string, stateHash: string, now: real,
                      reused: bool, c': Cache, states': map<string, string>)
  {
    var key := objectId + "_" + stateHash;
    && (reused <==> objectId in states && states[objectId] == stateHash && key in c.stamps)
    && WellFormed(c')
    && key in c'.stamps && c'.stamps[key] == now
    && objectId in states' && states'[objectId] == stateHash
    && (forall id :: id != objectId ==> (id in states' <==> id in states))
    && (forall id :: id != objectId && id in states ==> states'[id] == states[id])
    && (reused ==> c'.keys == c.keys && states' == states)
    && (forall k :: k != key && !(objectId + "_" <= k) ==> (k in c'.stamps <==> k in c.stamps))
    && (forall k :: k != key && k in c'.stamps ==> k in c.stamps && c'.stamps[k] == c.stamps[k])
    && (!reused ==> forall k :: k in c'.stamps && objectId + "_" <= k ==> k == key)
  }

  method Consult(c: Cache, states: map<string, string>, objectId: string, stateHash: string, now: real)
    returns (reused: bool, c': Cache, states': map<string, string>)
    requires WellFormed(c)
    ensures Consulted(c, states, objectId, stateHash, now, reused, c', states')
  {
    var key := objectId + "_" + stateHash;
    if objectId in states && states[objectId] == stateHash && key in c.stamps {
      reused := true;
      c' := Put(c, key, now);
      states' := states;
      return;
    }
    reused := false;
    var stored := Put(c, key, now);
    states' := states[objectId := stateHash];
    assert objectId + "_" <= key;
    c' := PruneObject(stored, objectId, key);
  }

  /** The shield cache holds at most this many entries after an insert. */
  const ShieldCacheCap: nat := 20

  /** Delete the first key in insertion order. */
  function EvictOldest(c: Cache): Cache
    requires |c.keys| > 0
  {
    Cache(c.keys[1..], c.stamps - {c.keys[0]})
  }

  /** drawShieldCached's store: set the entry, then evict the oldest one if the map has grown past 20. */
  function StoreShield(c: Cache, key: string, now: real): Cache
  {
    var p := Put(c, key, now);
    if Size(p) > ShieldCacheCap then EvictOldest(p) else p
  }

  /**
   * From at most 20 entries, a shield insert leaves at most 20, keeps the
   * new entry, and, when it has to evict, evicts the earliest inserted key
   * and nothing else.
   */
  lemma {:induction false} StoreShieldBounded(c: Cache, key: string, now: real)
    requires WellFormed(c) && Size(c) <= ShieldCacheCap
    ensures var r := StoreShield(c, key, now);
            && WellFormed(r) && Size(r) <= ShieldCacheCap
            && key in r.stamps && r.stamps[key] == now
            && (key in c.stamps || Size(c) < ShieldCacheCap ==> r == Put(c, key, now))
            && (key !in c.stamps && Size(c) == ShieldCacheCap ==>
                  r.keys == c.keys[1..] + [key] && c.keys[0] !in r.stamps
                  && forall k :: k in c.stamps && k != c.keys[0] ==> k in r.stamps)
  {
    var p := Put(c, key, now);
    if Size(p) > ShieldCacheCap {
      assert key !in c.stamps;
      assert p.keys == c.keys + [key];
      assert p.keys[0] == c.keys[0] && p.keys[1..] == c.keys[1..] + [key];
      var r := EvictOldest(p);
      assert Colors.NoDup(r.keys) by {
        forall i, j | 0 <= i < j < |r.keys|
          ensures r.keys[i] != r.keys[j]
        {
          assert r.keys[i] == p.keys[i + 1] && r.keys[j] == p.keys[j + 1];
        }
      }
      forall k
        ensures k in r.stamps <==> k in r.keys
      {
        if k in r.keys {
          var i :| 0 <= i < |r.keys| && r.keys[i] == k;
          assert p.keys[i + 1] == k;
        }
        if k in p.keys && k != p.keys[0] {
          var i :| 0 <= i < |p.keys| && p.keys[i] == k;
          assert r.keys[i - 1] == k;
        }
      }
      assert key == p.keys[|p.keys| - 1] && key != p.keys[0];
    }
  }

  /** getCacheStats' result. */
  datatype CacheStats = CacheStats(items: nat, obstacles: nat, barriers: nat, shields: nat, total: nat)

  class Renderer {
    var itemRenderCache: Cache
    var obstacleRenderCache: Cache
    var barrierRenderCache: Cache
    var shieldRenderCache: Cache
    /** How long an unused entry survives cleanupExpiredCaches, 60 seconds. */
    const cacheLifespan: real
    var lastItemStates: map<string, string>
    var lastObstacleStates: map<string, string>
    var lastBarrierStates: map<string, string>
    var lastShieldState: Option<string>

    predicate Valid()
      reads this
    {
      WellFormed(itemRenderCache) && WellFormed(obstacleRenderCache)
      && WellFormed(barrierRenderCache) && WellFormed(shieldRenderCache)
    }

    /** The cache part of the constructor: four empty caches and no recorded states. */
    constructor ()
      ensures Valid()
      ensures itemRenderCache == obstacleRenderCache == barrierRenderCache == shieldRenderCache == EmptyCache
      ensures lastItemStates == lastObstacleStates == lastBarrierStates == map[]
      ensures lastShieldState == None && cacheLifespan == 60000.0
    {
      itemRenderCache := EmptyCache;
      obstacleRenderCache := EmptyCache;
      barrierRenderCache := EmptyCache;
      shieldRenderCache := EmptyCache;
      cacheLifespan := 60.0 * 1000.0;
      lastItemStates := map[];
      lastObstacleStates := map[];
      lastBarrierStates := map[];
      lastShieldState := None;
    }

    method CleanupItemCache(itemId: string, currentKey: string)
      requires WellFormed(itemRenderCache)
      modifies this`itemRenderCache
      ensures WellFormed(itemRenderCache)
      ensures forall k :: k in itemRenderCache.stamps <==>
                k in old(itemRenderCache.stamps) && !(itemId + "_" <= k && k != currentKey)
      ensures forall k :: k in itemRenderCache.stamps ==> itemRenderCache.stamps[k] == old(itemRenderCache.stamps[k])
    {
      itemRenderCache := PruneObject(itemRenderCache, itemId, currentKey);
    }

    method CleanupObstacleCache(barrierId: string, currentKey: string)
      requires WellFormed(obstacleRenderCache)
      modifies this`obstacleRenderCache
      ensures WellFormed(obstacleRenderCache)
      ensures forall k :: k in obstacleRenderCache.stamps <==>
                k in old(obstacleRenderCache.stamps) && !(barrierId + "_" <= k && k != currentKey)
      ensures forall k :: k in obstacleRenderCache.stamps ==> obstacleRenderCache.stamps[k] == old(obstacleRenderCache.stamps[k])
    {
      obstacleRenderCache := PruneObject(obstacleRenderCache, barrierId, currentKey);
    }

    method CleanupBarrierCache(barrierId: string, currentKey: string)
      requires WellFormed(barrierRenderCache)
      modifies this`barrierRenderCache
      ensures WellFormed(barrierRenderCache)
      ensures forall k :: k in barrierRenderCache.stamps <==>
                k in old(barrierRenderCache.stamps) && !(barrierId + "_" <= k && k != currentKey)
      ensures forall k :: k in barrierRenderCache.stamps ==> barrierRenderCache.stamps[k] == old(barrierRenderCache.stamps[k])
    {
      barrierRenderCache := PruneObject(barrierRenderCache, barrierId, currentKey);
    }

    /** The cache decision of drawPowerUpItemCached; `reused` tells whether the cached canvas was drawn. */
    method DrawPowerUpItemCached(itemId: string, stateHash: string, now: real) returns (reused: bool)
      requires WellFormed(itemRenderCache)
      modifies this`itemRenderCache, this`lastItemStates
      ensures Consulted(old(itemRenderCache), old(lastItemStates), itemId, stateHash, now,
                        reused, itemRenderCache, lastItemStates)
    {
      reused, itemRenderCache, lastItemStates := Consult(itemRenderCache, lastItemStates, itemId, stateHash, now);
    }

    /** The cache decision of drawBarrierCached (obstacles). */
    method DrawBarrierCached(barrierId: string, stateHash: string, now: real) returns (reused: bool)
      requires WellFormed(obstacleRenderCache)
      modifies this`obstacleRenderCache, this`lastObstacleStates
      ensures Consulted(old(obstacleRenderCache), old(lastObstacleStates), barrierId, stateHash, now,
                        reused, obstacleRenderCache, lastObstacleStates)
    {
      reused, obstacleRenderCache, lastObstacleStates := Consult(obstacleRenderCache, lastObstacleStates, barrierId, stateHash, now);
    }

    /** The cache decision of drawInitialBarrierCached. */
    method DrawInitialBarrierCached(barrierId: string, stateHash: string, now: real) returns (reused: bool)
      requires WellFormed(barrierRenderCache)
      modifies this`barrierRenderCache, this`lastBarrierStates
      ensures Consulted(old(barrierRenderCache), old(lastBarrierStates), barrierId, stateHash, now,
                        reused, barrierRenderCache, lastBarrierStates)
    {
      reused, barrierRenderCache, lastBarrierStates := Consult(barrierRenderCache, lastBarrierStates, barrierId, stateHash, now);
    }

    /**
     * The cache decision of drawShieldCached: nothing for an inactive shield;
     * reuse when the last shield state is this one and its key is cached;
     * otherwise store the entry, with FIFO eviction past 20 entries.
     */
    method DrawShieldCached(active: bool, stateHash: string, now: real) returns (reused: bool)
      requires WellFormed(shieldRenderCache)
      modifies this`shieldRenderCache, this`lastShieldState
      ensures var key := "shield_" + stateHash;
              && (!active ==> !reused && unchanged(this))
              && (reused <==> active && old(lastShieldState) == Some(stateHash) && key in old(shieldRenderCache.stamps))
              && (reused ==> shieldRenderCache == Put(old(shieldRenderCache), key, now) && unchanged(this`lastShieldState))
              && (active && !reused ==>
                    shieldRenderCache == StoreShield(old(shieldRenderCache), key, now) && lastShieldState == Some(stateHash))
              && (Size(old(shieldRenderCache)) <= ShieldCacheCap ==>
                    WellFormed(shieldRenderCache) && Size(shieldRenderCache) <= ShieldCacheCap)
    {
      if !active {
        return false;
      }
      var key := "shield_" + stateHash;
      if lastShieldState == Some(stateHash) && key in shieldRenderCache.stamps {
        shieldRenderCache := Put(shieldRenderCache, key, now);
        return true;
      }
      reused := false;
      if Size(shieldRenderCache) <= ShieldCacheCap {
        StoreShieldBounded(shieldRenderCache, key, now);
      }
      shieldRenderCache := StoreShield(shieldRenderCache, key, now);
      lastShieldState := Some(stateHash);
    }

    /** clearAllCaches */
    method ClearAllCaches()
      modifies this`itemRenderCache, this`obstacleRenderCache, this`barrierRenderCache, this`shieldRenderCache
      modifies this`lastItemStates, this`lastObstacleStates, this`lastBarrierStates, this`lastShieldState
      ensures Valid()
      ensures itemRenderCache == obstacleRenderCache == barrierRenderCache == shieldRenderCache == EmptyCache
      ensures lastItemStates == lastObstacleStates == lastBarrierStates == map[]
      ensures lastShieldState == None
    {
      itemRenderCache := EmptyCache;
      obstacleRenderCache := EmptyCache;
      barrierRenderCache := EmptyCache;
      shieldRenderCache := EmptyCache;
      lastItemStates := map[];
      lastObstacleStates := map[];
      lastBarrierStates := map[];
      lastShieldState := None;
    }

    /**
     * cleanupExpiredCaches: in all four caches, exactly the entries last used
     * more than cacheLifespan before `now` are deleted.
     */
    method CleanupExpiredCaches(now: real)
      requires Valid()
      modifies this`itemRenderCache, this`obstacleRenderCache, this`barrierRenderCache, this`shieldRenderCache
      ensures Valid()
      ensures itemRenderCache == Purged(old(itemRenderCache), Expired(now, cacheLifespan))
      ensures obstacleRenderCache == Purged(old(obstacleRenderCache), Expired(now, cacheLifespan))
      ensures barrierRenderCache == Purged(old(barrierRenderCache), Expired(now, cacheLifespan))
      ensures shieldRenderCache == Purged(old(shieldRenderCache), Expired(now, cacheLifespan))
    {
      var expired := Expired(now, cacheLifespan);
      itemRenderCache := DeleteWhere(itemRenderCache, expired);
      obstacleRenderCache := DeleteWhere(obstacleRenderCache, expired);
      barrierRenderCache := DeleteWhere(barrierRenderCache, expired);
      shieldRenderCache := DeleteWhere(shieldRenderCache, expired);
    }

    /**
     * clearObjectCache: for 'item', 'obstacle' or 'barrier', every entry of
     * the object goes (the current key passed is '', which no entry has) and
     * its recorded state is forgotten; any other type changes nothing.
     */
    method ClearObjectCache(objectId: string, kind: string)
      requires Valid()
      modifies this`itemRenderCache, this`obstacleRenderCache, this`barrierRenderCache
      modifies this`lastItemStates, this`lastObstacleStates, this`lastBarrierStates
      ensures Valid()
      ensures kind == "item" ==>
                && (forall k :: k in itemRenderCache.stamps <==> k in old(itemRenderCache.stamps) && !(objectId + "_" <= k))
                && lastItemStates == old(lastItemStates) - {objectId}
                && unchanged(this`obstacleRenderCache, this`barrierRenderCache, this`lastObstacleStates, this`lastBarrierStates)
      ensures kind == "obstacle" ==>
                && (forall k :: k in obstacleRenderCache.stamps <==> k in old(obstacleRenderCache.stamps) && !(objectId + "_" <= k))
                && lastObstacleStates == old(lastObstacleStates) - {objectId}
                && unchanged(this`itemRenderCache, this`barrierRenderCache, this`lastItemStates, this`lastBarrierStates)
      ensures kind == "barrier" ==>
                && (forall k :: k in barrierRenderCache.stamps <==> k in old(barrierRenderCache.stamps) && !(objectId + "_" <= k))
                && lastBarrierStates == old(lastBarrierStates) - {objectId}
                && unchanged(this`itemRenderCache, this`obstacleRenderCache, this`lastItemStates, this`lastObstacleStates)
      ensures kind != "item" && kind != "obstacle" && kind != "barrier" ==> unchanged(this)
    {
      if kind == "item" {
        CleanupItemCache(objectId, "");
        lastItemStates := lastItemStates - {objectId};
      } else if kind == "obstacle" {
        CleanupObstacleCache(objectId, "");
        lastObstacleStates := lastObstacleStates - {objectId};
      } else if kind == "barrier" {
        CleanupBarrierCache(objectId, "");
        lastBarrierStates := lastBarrierStates - {objectId};
      }
    }

    /** getCacheStats */
    function GetCacheStats(): (s: CacheStats)
      reads this
      ensures s.total == s.items + s.obstacles + s.barriers + s.shields
    {
      var items := Size(itemRenderCache);
      var obstacles := Size(obstacleRenderCache);
      var barriers := Size(barrierRenderCache);
      var shields := Size(shieldRenderCache);
      CacheStats(items, obstacles, barriers, shields, items + obstacles + barriers + shields)
    }
  }

  /** The statistics count the entries of each cache, and the total counts them all. */
  lemma {:induction false} StatsCountEntries(r: Renderer)
    requires r.Valid()
    ensures var s := r.GetCacheStats();
            && s.items == |r.itemRenderCache.stamps|
            && s.obstacles == |r.obstacleRenderCache.stamps|
            && s.barriers == |r.barrierRenderCache.stamps|
            && s.shields == |r.shieldRenderCache.stamps|
            && s.total == |r.itemRenderCache.stamps| + |r.obstacleRenderCache.stamps|
                          + |r.barrierRenderCache.stamps| + |r.shieldRenderCache.stamps|
  {
    SizeCountsEntries(r.itemRenderCache);
    SizeCountsEntries(r.obstacleRenderCache);
    SizeCountsEntries(r.barrierRenderCache);
    SizeCountsEntries(r.shieldRenderCache);
  }
}

=== FILE: shields.dfy ===
/**
 * The shield power-up timer (class ShieldEffect of js/objects/ItemManager.js).
 * It lives in its own module because players create shields and the item
 * manager drives players, and Dafny modules may not import each other in a
 * cycle.
 */
module Shields {
  import opened Common

  /** A shield's timer fields at one moment. */
  datatype ShieldClock = ShieldClock(startTime: real, active: bool, pausedRemainingTime: Option<real>, pauseStartTime: Option<real>)

  /**
   * getRemainingTime on a clock: the frozen value while one is recorded,
   * otherwise the time left of `duration`, never negative.
   */
  function Remaining(c: ShieldClock, duration: real, now: real): (r: real)
    ensures c.pausedRemainingTime.Some? ==> r == c.pausedRemainingTime.value
    ensures c.pausedRemainingTime.None? ==> r >= 0.0 && r >= duration - (now - c.startTime)
    ensures c.pausedRemainingTime.None? && now - c.startTime <= duration ==> r == duration - (now - c.startTime)
  {
    if c.pausedRemainingTime.Some? then c.pausedRemainingTime.value
    else Max(0.0, duration - (now - c.startTime))
  }

  class ShieldEffect {
    const duration: real
    var startTime: real
    var active: bool
    /** Set by the engine's pause: when the pause began. */
    var pauseStartTime: Option<real>
    /** Set by the engine's pause: the remaining time frozen at the pause. */
    var pausedRemainingTime: Option<real>

    constructor (duration: real, now: real)
      ensures this.duration == duration && startTime == now && active
      ensures pauseStartTime == None && pausedRemainingTime == None
    {
      this.duration := duration;
      startTime := now;
      active := true;
      pauseStartTime := None;
      pausedRemainingTime := None;
    }

    function IsActive(): bool
      reads this
    {
      active
    }

    /** The timer fields as a value. */
    function Clock(): ShieldClock
      reads this
    {
      ShieldClock(startTime, active, pausedRemainingTime, pauseStartTime)
    }

    /** getRemainingTime. */
    function RemainingTime(now: real): (r: real)
      reads this
      ensures pausedRemainingTime.Some? ==> r == pausedRemainingTime.value
      ensures pausedRemainingTime.None? ==> r >= 0.0 && r >= duration - (now - startTime)
      ensures pausedRemainingTime.None? && now - startTime <= duration ==> r == duration - (now - startTime)
    {
      Remaining(Clock(), duration, now)
    }

    /** Elapsed time as `update` measures it: from the frozen value if there is one. */
    function Elapsed(now: real): real
      reads this
    {
      if pausedRemainingTime.Some? then duration - pausedRemainingTime.value else now - startTime
    }

    /**
     * update: nothing while the game is paused; otherwise the frozen remaining
     * time is consumed and the shield turns inactive exactly when the elapsed
     * time has reached the duration.
     */
    method Update(gameState: GameState, now: real)
      modifies this
      ensures gameState == Paused ==> unchanged(this)
      ensures gameState != Paused ==>
        active == (old(active) && old(Elapsed(now)) < duration)
        && pausedRemainingTime == None
        && startTime == old(startTime) && pauseStartTime == old(pauseStartTime)
    {
      if gameState == Paused {
        return;
      }
      var elapsed: real;
      if pausedRemainingTime.Some? {
        elapsed := duration - pausedRemainingTime.value;
        pausedRemainingTime := None;
      } else {
        elapsed := now - startTime;
      }
      if elapsed >= duration {
        active := false;
      }
    }
  }
}

=== FILE: survive.dfy ===
/**
 * Survival mode (Survive.js): the AI enemies with their state machine
 * (wander, chase, avoiding) and relax timer, the nearest-player search, the
 * bounds and the push-outs, and the manager that spawns enemies under a cap,
 * runs the enemies, applies the enemy and player collision rules (each victim
 * gets a 3-second shield) and drops enemies that left the board. Headings are
 * trigonometric: the model receives the unit vector of the heading a move
 * uses instead of the angle.
 */
module Survival {
  import opened Common
  import Config
  import opened Players
  import opened Territories
  import Items

  datatype EnemyState = Wander | Chase | Avoiding

  /** The enemy's own clamp: below lo gives lo, otherwise above hi gives hi. */
  function Bound(v: real, lo: real, hi: real): (r: real)
    ensures lo <= hi ==> lo <= r <= hi
    ensures Min(lo, hi) <= r <= Max(lo, hi)
    ensures lo <= v <= hi ==> r == v
    ensures v < lo ==> r == lo
  {
    if v < lo then lo else if v > hi then hi else v
  }

  /** The first living player at least as near as every other living one, or None when nobody lives. */
  function NearestPrefix(players: seq<Player>, ex: real, ey: real, k: nat): (r: Option<nat>)
    requires k <= |players|
    reads set i | 0 <= i < |players| :: players[i]
    ensures r.Some? ==> r.value < k
  {
    if k == 0 then None
    else
      var r := NearestPrefix(players, ex, ey, k - 1);
      var p := players[k - 1];
      if p.isAlive && (r.None? || DistSq(p.x, p.y, ex, ey) < DistSq(players[r.value].x, players[r.value].y, ex, ey))
      then Some(k - 1) else r
  }

  /**
   * findNearestPlayer as an argmin: None exactly when no player is alive;
   * otherwise a living player at minimum distance, the earliest on ties.
   */
  lemma {:induction false} NearestPrefixIsArgmin(players: seq<Player>, ex: real, ey: real, k: nat)
    requires k <= |players|
    ensures var r := NearestPrefix(players, ex, ey, k);
            && (r.None? <==> forall j :: 0 <= j < k ==> !players[j].isAlive)
            && (r.Some? ==>
                  && r.value < k && players[r.value].isAlive
                  && (forall j :: 0 <= j < k && players[j].isAlive ==>
                        DistSq(players[r.value].x, players[r.value].y, ex, ey) <= DistSq(players[j].x, players[j].y, ex, ey))
                  && (forall j :: 0 <= j < r.value && players[j].isAlive ==>
                        DistSq(players[r.value].x, players[r.value].y, ex, ey) < DistSq(players[j].x, players[j].y, ex, ey)))
  {
    if k > 0 {
      NearestPrefixIsArgmin(players, ex, ey, k - 1);
    }
  }

  class AIEnemy {
    var x: real
    var y: real
    const gameWidth: real
    const gameHeight: real
    var speed: real
    const size: real := 8.0
    const detectionRadius: real := 150.0
    var targetPlayer: Player?
    var state: EnemyState
    var stateChangeTime: real
    var relaxMode: bool
    var relaxTimer: real

    constructor (x: real, y: real, gameWidth: real, gameHeight: real)
      ensures this.x == x && this.y == y && this.gameWidth == gameWidth && this.gameHeight == gameHeight
      ensures speed == 1.5 && targetPlayer == null && state == Wander && stateChangeTime == 0.0
      ensures !relaxMode && relaxTimer == 0.0
    {
      this.x := x;
      this.y := y;
      this.gameWidth := gameWidth;
      this.gameHeight := gameHeight;
      speed := 1.5;
      targetPlayer := null;
      state := Wander;
      stateChangeTime := 0.0;
      relaxMode := false;
      relaxTimer := 0.0;
    }

    /**
     * Inside the board with the enemy's size as margin: between size and
     * width - size (in whichever order they come on a board narrower than two
     * sizes), and the same vertically.
     */
    predicate InBounds()
      reads this`x, this`y
    {
      && Min(size, gameWidth - size) <= x <= Max(size, gameWidth - size)
      && Min(size, gameHeight - size) <= y <= Max(size, gameHeight - size)
    }

    /** findNearestPlayer: the argmin over the living players, compared on distances. */
    method FindNearestPlayer(players: seq<Player>, sqrt: real -> real) returns (nearest: Player?)
      requires IsSqrt(sqrt)
      ensures var r := NearestPrefix(players, x, y, |players|);
              nearest == (if r.None? then null else players[r.value])
    {
      nearest := null;
      var nearestDistance: Option<real> := None;
      ghost var idx: Option<nat> := None;
      var i := 0;
      while i < |players|
        invariant 0 <= i <= |players|
        invariant idx == NearestPrefix(players, x, y, i)
        invariant idx.None? ==> nearest == null && nearestDistance.None?
        invariant idx.Some? ==> idx.value < |players| && nearest == players[idx.value]
                                && nearestDistance == Some(sqrt(DistSq(nearest.x, nearest.y, x, y)))
      {
        var player := players[i];
        if player.isAlive {
          var distance := sqrt(DistSq(player.x, player.y, x, y));
          if nearestDistance.Some? {
            SqrtMonotone(sqrt, DistSq(player.x, player.y, x, y), DistSq(nearest.x, nearest.y, x, y));
          }
          if nearestDistance.None? || distance < nearestDistance.value {
            nearestDistance := Some(distance);
            nearest := player;
            idx := Some(i);
          }
        }
        i := i + 1;
      }
    }

    /** checkCollisionWithPlayer: a living player closer than the enemy's size plus 5. */
    predicate CollidesWith(player: Player)
      reads this, player
    {
      player.isAlive && Closer(DistSq(player.x, player.y, x, y), size + 5.0)
    }

    method CheckCollisionWithPlayer(player: Player, sqrt: real -> real) returns (hit: bool)
      requires IsSqrt(sqrt)
      ensures hit == CollidesWith(player)
      ensures !player.isAlive ==> !hit
    {
      if !player.isAlive {
        return false;
      }
      var distance := sqrt(DistSq(player.x, player.y, x, y));
      SqrtCloser(sqrt, DistSq(player.x, player.y, x, y), size + 5.0);
      hit := distance < size + 5.0;
    }

    method EnterRelaxMode()
      modifies this`relaxMode, this`relaxTimer
      ensures relaxMode && relaxTimer == 0.0
    {
      relaxMode := true;
      relaxTimer := 0.0;
    }

    /** The position part of constrainToBounds (the heading flips are not modelled). */
    method ConstrainToBounds()
      modifies this`x, this`y
      ensures x == Bound(old(x), size, gameWidth - size) && y == Bound(old(y), size, gameHeight - size)
      ensures InBounds()
    {
      var margin := size;
      if x < margin {
        x := margin;
      } else if x > gameWidth - margin {
        x := gameWidth - margin;
      }
      if y < margin {
        y := margin;
      } else if y > gameHeight - margin {
        y := gameHeight - margin;
      }
    }

    /**
     * handleObstacleCollision: the shortest push-out (radius = size, one pixel
     * clear), then the clamp to the board; the enemy is left avoiding with a
     * fresh state clock.
     */
    method HandleObstacleCollision(o: Rect)
      modifies this`x, this`y, this`state, this`stateChangeTime
      ensures var q := PushOut(old(x), old(y), size, o);
              x == Clamp(q.x, size, gameWidth - size) && y == Clamp(q.y, size, gameHeight - size)
      ensures InBounds()
      ensures state == Avoiding && stateChangeTime == 0.0
    {
      var enemyRadius := size;
      var leftOverlap := (x + enemyRadius) - o.x;
      var rightOverlap := (o.x + o.width) - (x - enemyRadius);
      var topOverlap := (y + enemyRadius) - o.y;
      var bottomOverlap := (o.y + o.height) - (y - enemyRadius);
      var minOverlap := Min4(leftOverlap, rightOverlap, topOverlap, bottomOverlap);
      if minOverlap > 0.0 {
        if minOverlap == leftOverlap {
          x := o.x - enemyRadius - 1.0;
        } else if minOverlap == rightOverlap {
          x := o.x + o.width + enemyRadius + 1.0;
        } else if minOverlap == topOverlap {
          y := o.y - enemyRadius - 1.0;
        } else if minOverlap == bottomOverlap {
          y := o.y + o.height + enemyRadius + 1.0;
        }
      }
      x := Max(enemyRadius, Min(gameWidth - enemyRadius, x));
      y := Max(enemyRadius, Min(gameHeight - enemyRadius, y));
      state := Avoiding;
      stateChangeTime := 0.0;
    }

    /**
     * handleBarrierCollision: pushed horizontally out of the barrier, two
     * pixels clear, to the side of its centre the enemy is on; then clamped
     * and left avoiding.
     */
    method HandleBarrierCollision(b: Rect)
      modifies this`x, this`y, this`state, this`stateChangeTime
      ensures x == Clamp(BarrierSideX(old(x), size, b), size, gameWidth - size)
      ensures y == Clamp(old(y), size, gameHeight - size)
      ensures InBounds()
      ensures state == Avoiding && stateChangeTime == 0.0
    {
      var barrierCenterX := b.x + b.width / 2.0;
      var deltaX := x - barrierCenterX;
      if deltaX < 0.0 {
        x := b.x - size - 2.0;
      } else {
        x := b.x + b.width + size + 2.0;
      }
      x := Max(size, Min(gameWidth - size, x));
      y := Max(size, Min(gameHeight - size, y));
      state := Avoiding;
      stateChangeTime := 0.0;
    }

    /**
     * chasePlayer: a step straight toward the target, at a speed multiplied by
     * detectionRadius / distance kept within [1, 2]; nothing when on top of it.
     */
    method ChasePlayer(deltaTime: real, sqrt: real -> real)
      requires IsSqrt(sqrt)
      modifies this`x, this`y
      ensures targetPlayer == null ==> x == old(x) && y == old(y)
      ensures targetPlayer != null ==>
                var dx, dy := targetPlayer.x - old(x), targetPlayer.y - old(y);
                (x - old(x)) * dy == (y - old(y)) * dx
                && (deltaTime >= 0.0 && speed >= 0.0 ==> (x - old(x)) * dx >= 0.0 && (y - old(y)) * dy >= 0.0)
    {
      if targetPlayer == null {
        return;
      }
      var dx := targetPlayer.x - x;
      var dy := targetPlayer.y - y;
      var distance := sqrt(dx * dx + dy * dy);
      assert dx * dx + dy * dy >= 0.0 by { assert dx * dx == Sq(dx) && dy * dy == Sq(dy); }
      if distance > 0.0 {
        var speedMultiplier := Min(2.0, Max(1.0, detectionRadius / distance));
        var currentSpeed := speed * speedMultiplier;
        var normalizedSpeed := currentSpeed * (deltaTime / 20.0);
        if deltaTime >= 0.0 && speed >= 0.0 {
          assert currentSpeed >= 0.0;
          assert normalizedSpeed >= 0.0;
        }
        var k := normalizedSpeed / distance;
        TowardStep(dx, dy, distance, normalizedSpeed, k);
        x := x + (dx / distance) * normalizedSpeed;
        y := y + (dy / distance) * normalizedSpeed;
      }
    }

    /**
     * Whether an enemy at (ex, ey) that is not avoiding chases: it is not
     * relaxed and the nearest living player is within the detection radius.
     */
    predicate ShouldChase(players: seq<Player>, ex: real, ey: real, relaxed: bool)
      reads set i | 0 <= i < |players| :: players[i]
    {
      && !relaxed
      && var r := NearestPrefix(players, ex, ey, |players|);
         r.Some? && Closer(DistSq(players[r.value].x, players[r.value].y, ex, ey), detectionRadius)
    }

    /** The relax timer: it runs only in relax mode, which ends once it reaches 5000. */
    method TickRelax(deltaTime: real)
      modifies this`relaxMode, this`relaxTimer
      ensures old(relaxMode) && old(relaxTimer) + deltaTime >= 5000.0 ==> !relaxMode && relaxTimer == 0.0
      ensures old(relaxMode) && old(relaxTimer) + deltaTime < 5000.0 ==> relaxMode && relaxTimer == old(relaxTimer) + deltaTime
      ensures !old(relaxMode) ==> !relaxMode && relaxTimer == old(relaxTimer)
    {
      if relaxMode {
        relaxTimer := relaxTimer + deltaTime;
        if relaxTimer >= 5000.0 {
          relaxMode := false;
          relaxTimer := 0.0;
        }
      }
    }

    /** The branch of update for an enemy that is not avoiding: chase the nearest player in range, or wander. */
    method Pursue(deltaTime: real, players: seq<Player>, heading: Point, sqrt: real -> real)
      requires IsSqrt(sqrt)
      modifies this`x, this`y, this`state, this`stateChangeTime, this`targetPlayer
      ensures state == Chase <==> ShouldChase(players, old(x), old(y), relaxMode)
      ensures state == Chase ==> targetPlayer != null && targetPlayer.isAlive
      ensures state != Chase ==> state == Wander && targetPlayer == null
    {
      var nearestPlayer := FindNearestPlayer(players, sqrt);
      var close := false;
      if nearestPlayer != null {
        var d := sqrt(DistSq(nearestPlayer.x, nearestPlayer.y, x, y));
        SqrtCloser(sqrt, DistSq(nearestPlayer.x, nearestPlayer.y, x, y), detectionRadius);
        close := d < detectionRadius;
      }
      if !relaxMode && nearestPlayer != null && close {
        NearestIsAlive(players, x, y);
        state := Chase;
        targetPlayer := nearestPlayer;
        ChasePlayer(deltaTime, sqrt);
      } else {
        state := Wander;
        targetPlayer := null;
        WanderStep(deltaTime, heading);
      }
    }

    /**
     * update without the trigonometry: `heading` is (cos, sin) of the
     * direction the avoiding drift or the wander step uses. The state clock
     * and the relax timer advance; avoiding ends after 300; an enemy that is
     * not avoiding chases or wanders as ShouldChase decides, with the relax
     * mode as it stands after the timer; finally the position is kept on the
     * board.
     */
    method Update(deltaTime: real, players: seq<Player>, heading: Point, sqrt: real -> real)
      requires IsSqrt(sqrt)
      modifies this`x, this`y, this`state, this`stateChangeTime, this`relaxMode, this`relaxTimer, this`targetPlayer
      ensures InBounds()
      ensures RelaxTicked(this, deltaTime)
      ensures old(state) == Avoiding && old(stateChangeTime) + deltaTime > 300.0 ==> state == Wander && stateChangeTime == 0.0
      ensures old(state) == Avoiding && old(stateChangeTime) + deltaTime <= 300.0 ==>
                state == Avoiding && stateChangeTime == old(stateChangeTime) + deltaTime
      ensures old(state) != Avoiding ==> (state == Chase <==> ShouldChase(players, old(x), old(y), relaxMode))
      ensures state == Chase ==> !relaxMode && targetPlayer != null && targetPlayer.isAlive
    {
      stateChangeTime := stateChangeTime + deltaTime;
      TickRelax(deltaTime);
      if state == Avoiding {
        if stateChangeTime > 300.0 {
          state := Wander;
          stateChangeTime := 0.0;
        } else {
          var normalizedSpeed := speed * (deltaTime / 20.0);
          x := x + heading.x * normalizedSpeed;
          y := y + heading.y * normalizedSpeed;
        }
      } else {
        Pursue(deltaTime, players, heading, sqrt);
      }
      ConstrainToBounds();
    }

    /** wander: the state clock restarts past 1000 (when the heading turns); a half-speed step along the heading. */
    method WanderStep(deltaTime: real, heading: Point)
      modifies this`x, this`y, this`stateChangeTime
      ensures stateChangeTime == (if old(stateChangeTime) > 1000.0 then 0.0 else old(stateChangeTime))
      ensures x == old(x) + heading.x * (speed * 0.5 * (deltaTime / 20.0))
      ensures y == old(y) + heading.y * (speed * 0.5 * (deltaTime / 20.0))
    {
      if stateChangeTime > 1000.0 {
        stateChangeTime := 0.0;
      }
      var normalizedSpeed := speed * 0.5 * (deltaTime / 20.0);
      x := x + heading.x * normalizedSpeed;
      y := y + heading.y * normalizedSpeed;
    }
  }

  /** The relax timer over one update: it runs only in relax mode, which ends once it reaches 5000. */
  twostate predicate RelaxTicked(e: AIEnemy, deltaTime: real)
    reads e
  {
    && (old(e.relaxMode) && old(e.relaxTimer) + deltaTime >= 5000.0 ==> !e.relaxMode && e.relaxTimer == 0.0)
    && (old(e.relaxMode) && old(e.relaxTimer) + deltaTime < 5000.0 ==> e.relaxMode && e.relaxTimer == old(e.relaxTimer) + deltaTime)
    && (!old(e.relaxMode) ==> !e.relaxMode && e.relaxTimer == old(e.relaxTimer))
  }

  /** The relax state over a survival update: ticked once, or freshly relaxed by a contact. */
  twostate predicate Relaxed(e: AIEnemy, deltaTime: real)
    reads e
  {
    RelaxTicked(e, deltaTime) || (e.relaxMode && e.relaxTimer == 0.0)
  }

  /** The relax state over a collision check: as it was, or freshly relaxed by a contact. */
  twostate predicate RelaxedOrKept(e: AIEnemy)
    reads e
  {
    (e.relaxMode == old(e.relaxMode) && e.relaxTimer == old(e.relaxTimer)) || (e.relaxMode && e.relaxTimer == 0.0)
  }

  /** Where handleBarrierCollision puts x before the clamp. */
  function BarrierSideX(x: real, size: real, b: Rect): (r: real)
    ensures x < b.x + b.width / 2.0 && size >= 0.0 ==> r < b.x
    ensures x >= b.x + b.width / 2.0 && size >= 0.0 ==> r > b.x + b.width
  {
    if x - (b.x + b.width / 2.0) < 0.0 then b.x - size - 2.0 else b.x + b.width + size + 2.0
  }

  /** The chosen index is a living player. */
  lemma NearestIsAlive(players: seq<Player>, ex: real, ey: real)
    ensures var r := NearestPrefix(players, ex, ey, |players|);
            r.Some? ==> r.value < |players| && players[r.value].isAlive
  {
    NearestPrefixIsArgmin(players, ex, ey, |players|);
  }

  /** Comparing square roots is comparing their arguments. */
  lemma SqrtMonotone(sqrt: real -> real, a: real, b: real)
    requires IsSqrt(sqrt) && 0.0 <= a && 0.0 <= b
    ensures sqrt(a) < sqrt(b) <==> a < b
  {
    var ra, rb := sqrt(a), sqrt(b);
    assert 0.0 <= ra && ra * ra == a;
    assert 0.0 <= rb && rb * rb == b;
    SquareMonotone(ra, rb);
  }

  /** A step of length k * distance along (dx, dy) / distance stays on the line toward the target. */
  lemma TowardStep(dx: real, dy: real, distance: real, s: real, k: real)
    requires distance > 0.0 && k == s / distance
    ensures var mx, my := (dx / distance) * s, (dy / distance) * s;
            mx * dy == my * dx && (s >= 0.0 ==> mx * dx >= 0.0 && my * dy >= 0.0)
  {
    assert (dx / distance) * s == dx * k;
    assert (dy / distance) * s == dy * k;
    assert (dx * k) * dy == (dy * k) * dx;
    if s >= 0.0 {
      assert k >= 0.0;
      assert (dx * k) * dx == k * (dx * dx);
      assert (dy * k) * dy == k * (dy * dy);
    }
  }

  // The survival manager

  /** The shield a player receives after each death in survival mode, in milliseconds. */
  const RespawnShieldDuration: real := 3000.0

  /** How far outside the board an enemy may wander before cleanup drops it. */
  const CleanupMargin: real := 100.0

  function DifficultyName(d: Difficulty): string
  {
    match d
    case Slow => "slow"
    case Medium => "medium"
    case Fast => "fast"
    case Ultra => "ultra"
  }

  /** The key lookup `settings[level]`: the difficulty so named, if any. */
  function NamedDifficulty(level: string): (r: Option<Difficulty>)
    ensures r.Some? ==> DifficultyName(r.value) == level
  {
    if level == "slow" then Some(Slow)
    else if level == "medium" then Some(Medium)
    else if level == "fast" then Some(Fast)
    else if level == "ultra" then Some(Ultra)
    else None
  }

  /** Every difficulty is found under its own name. */
  lemma NamedDifficultyRoundTrip(d: Difficulty)
    ensures NamedDifficulty(DifficultyName(d)) == Some(d)
  {
    match d
    case Slow =>
    case Medium =>
    case Fast =>
    case Ultra =>
  }

  /** `settings[level] || settings.medium`: the row of the named difficulty, medium for any other name. */
  function SettingFor(level: string): (row: Config.AiRow)
    ensures NamedDifficulty(level).Some? ==> row == Config.AiDefaults(NamedDifficulty(level).value)
    ensures NamedDifficulty(level).None? ==> row == Config.AiDefaults(Medium)
    ensures 0 < row.count < row.maxEnemies && row.interval > 0.0
  {
    var d := if NamedDifficulty(level).Some? then NamedDifficulty(level).value else Medium;
    Config.AiCountBelowCap(d);
    Config.AiDefaults(d)
  }

  /** A spawn point: on one of the four edges of a width x height board. */
  predicate OnEdge(x: real, y: real, width: real, height: real)
  {
    && 0.0 <= x <= width && 0.0 <= y <= height
    && (y == 0.0 || x == width || y == height || x == 0.0)
  }

  /** The spawn point for side `side` (0 top, 1 right, 2 bottom, 3 left) and the draw t along it. */
  function EdgePoint(side: int, t: real, width: real, height: real): (p: Point)
    requires 0 <= side < 4 && 0.0 <= t < 1.0 && 0.0 <= width && 0.0 <= height
    ensures OnEdge(p.x, p.y, width, height)
  {
    ScaledDraw(t, width);
    ScaledDraw(t, height);
    if side == 0 then Point(t * width, 0.0)
    else if side == 1 then Point(width, t * height)
    else if side == 2 then Point(t * width, height)
    else Point(0.0, t * height)
  }

  /** A Math.random() draw scaled to a non-negative length stays within it. */
  lemma ScaledDraw(r: real, len: real)
    requires 0.0 <= r < 1.0 && 0.0 <= len
    ensures 0.0 <= r * len <= len
  {
    assert len - r * len == (1.0 - r) * len;
  }

  /** The first rectangle whose centre is closer to (x, y) than size plus half its larger side. */
  function FirstNear(rects: seq<Rect>, x: real, y: real, size: real, from: nat): (r: Option<nat>)
    requires from <= |rects|
    decreases |rects| - from
    ensures r.Some? ==> from <= r.value < |rects| && NearRect(rects[r.value], x, y, size)
    ensures r.Some? ==> forall k :: from <= k < r.value ==> !NearRect(rects[k], x, y, size)
    ensures r.None? <==> forall k :: from <= k < |rects| ==> !NearRect(rects[k], x, y, size)
  {
    if from == |rects| then None
    else if NearRect(rects[from], x, y, size) then Some(from)
    else FirstNear(rects, x, y, size, from + 1)
  }

  /** The update's proximity test of an enemy against an obstacle or barrier. */
  predicate NearRect(o: Rect, x: real, y: real, size: real)
  {
    Closer(DistSq(x, y, o.x + o.width / 2.0, o.y + o.height / 2.0), size + Max(o.width, o.height) / 2.0)
  }

  function Boxes(blocks: seq<Items.Block>): (r: seq<Rect>)
    ensures |r| == |blocks| && forall k :: 0 <= k < |blocks| ==> r[k] == blocks[k].box
  {
    if blocks == [] then [] else [blocks[0].box] + Boxes(blocks[1..])
  }

  /** The enemy's position when cleanup keeps it: within CleanupMargin of the board, strictly. */
  predicate Kept(x: real, y: real, width: real, height: real)
  {
    -CleanupMargin < x < width + CleanupMargin && -CleanupMargin < y < height + CleanupMargin
  }

  /** The enemies cleanup keeps, in order. */
  function Survivors(es: seq<AIEnemy>, width: real, height: real): (r: seq<AIEnemy>)
    reads set k | 0 <= k < |es| :: es[k]
    ensures |r| <= |es|
  {
    if es == [] then []
    else (if Kept(es[0].x, es[0].y, width, height) then [es[0]] else []) + Survivors(es[1..], width, height)
  }

  /** Cleanup drops nothing when every enemy is inside the board it was built for. */
  lemma {:induction false} SurvivorsAll(es: seq<AIEnemy>, width: real, height: real)
    requires 0.0 <= width && 0.0 <= height
    requires forall k :: 0 <= k < |es| ==> es[k].gameWidth == width && es[k].gameHeight == height && es[k].InBounds()
    ensures Survivors(es, width, height) == es
  {
    if es != [] {
      var e := es[0];
      assert e.InBounds();
      assert Kept(e.x, e.y, width, height);
      SurvivorsAll(es[1..], width, height);
    }
  }

  /**
   * What die() followed by activateShield(3000) does to a player in survival
   * mode: one life fewer; respawned at the start with an empty trail when a
   * life is left, out otherwise; and an active three-second shield either way.
   */
  twostate predicate Revived(p: Player)
    reads p, p.shield
  {
    && p.lives == old(p.lives) - 1
    && (p.isAlive <==> p.lives > 0)
    && (p.isAlive ==> p.x == old(p.startX) && p.y == old(p.startY) && p.trail == [])
    && (!p.isAlive ==> p.x == old(p.x) && p.y == old(p.y) && p.trail == old(p.trail))
    && p.HasShield() && fresh(p.shield) && p.shield.duration == RespawnShieldDuration
    && p.territory == old(p.territory) && p.score == old(p.score)
    && p.standarddistance == old(p.standarddistance)
  }

  /**
   * Over a whole check: lives never go up, a player who lost one is
   * shielded, and a player who lost none is untouched.
   */
  twostate predicate LostLifeShielded(p: Player)
    reads p, p.shield
  {
    && p.lives <= old(p.lives)
    && (p.lives < old(p.lives) ==> p.HasShield() && fresh(p.shield))
    && (p.lives == old(p.lives) ==> unchanged(p))
    && p.standarddistance == old(p.standarddistance)
  }

  /** A death in survival mode: die(), then the three-second shield. */
  method DieAndShield(p: Player, gameState: GameState, itemPauseStart: Option<real>, now: real)
    modifies p
    ensures Revived(p)
  {
    p.Die(Survival, now);
    p.ActivateShield(RespawnShieldDuration, gameState, itemPauseStart, now);
  }

  /**
   * One enemy against one player in checkAICollisions: on contact the enemy
   * relaxes, and an unshielded player dies and is shielded.
   */
  method EnemyMeetsPlayer(enemy: AIEnemy, player: Player, gameState: GameState, itemPauseStart: Option<real>,
                          now: real, sqrt: real -> real)
    requires IsSqrt(sqrt)
    modifies enemy`relaxMode, enemy`relaxTimer, player
    ensures old(enemy.CollidesWith(player)) ==> enemy.relaxMode && enemy.relaxTimer == 0.0
    ensures !old(enemy.CollidesWith(player)) ==> unchanged(enemy) && unchanged(player)
    ensures old(enemy.CollidesWith(player)) && !old(player.HasShield()) ==> Revived(player)
    ensures old(player.HasShield()) ==> unchanged(player)
  {
    var hit := enemy.CheckCollisionWithPlayer(player, sqrt);
    if hit {
      enemy.EnterRelaxMode();
      if !player.HasShield() {
        DieAndShield(player, gameState, itemPauseStart, now);
      }
    }
  }

  /**
   * One inner step of the survival checkPlayerCollisions for a living player
   * against another. A head collision kills both; running into the other's
   * trail kills the OTHER player (the trail's owner); an unshielded player in
   * the other's territory dies. Every victim gets the three-second shield.
   */
  method PlayerMeetsPlayer(player: Player, other: Player, territory: Territory, gameState: GameState,
                           itemPauseStart: Option<real>, now: real, sqrt: real -> real) returns (clash: Clash)
    requires IsSqrt(sqrt) && player != other && player.isAlive
    modifies player, other
    ensures clash == ClashOf(
                       TrailHitOf(true, old(player.x), old(player.y), player.size, old(other.trail), Some(old(other.HeadOf()))),
                       old(player.HasShield()),
                       InTerritory(Point(old(player.x), old(player.y)), territory.PlayerTerritories(other.id)))
    ensures clash == HeadOn ==> Revived(player) && Revived(other)
    ensures clash == RanIntoTrail ==> unchanged(player) && Revived(other)
    ensures clash == Intruded ==> Revived(player) && unchanged(other)
    ensures clash == Clear ==> unchanged(player) && unchanged(other)
  {
    var collisionType := player.CheckCollisionWithTrail(other.trail, other, sqrt);
    if collisionType == HeadCollision {
      player.Die(Survival, now);
      other.Die(Survival, now);
      player.ActivateShield(RespawnShieldDuration, gameState, itemPauseStart, now);
      other.ActivateShield(RespawnShieldDuration, gameState, itemPauseStart, now);
      return HeadOn;
    } else if collisionType == TrailCollision {
      DieAndShield(other, gameState, itemPauseStart, now);
      return RanIntoTrail;
    }
    var otherTerritories := territory.PlayerTerritories(other.id);
    if !player.HasShield() {
      var inside := player.CheckCollisionWithTerritory(otherTerritories);
      if inside {
        DieAndShield(player, gameState, itemPauseStart, now);
        return Intruded;
      }
    }
    return Clear;
  }

  /** The enemy list after an update: the enemies it had, in order, then new ones. */
  twostate predicate EnemiesExtended(sm: SurvivalManager)
    reads sm
  {
    && |old(sm.aiEnemies)| <= |sm.aiEnemies|
    && (forall k :: 0 <= k < |old(sm.aiEnemies)| ==> sm.aiEnemies[k] == old(sm.aiEnemies[k]))
    && (forall k :: |old(sm.aiEnemies)| <= k < |sm.aiEnemies| ==> fresh(sm.aiEnemies[k]))
  }

  /** The players at distinct indices are distinct objects. */
  predicate Distinct(players: seq<Player>)
  {
    forall a, b :: 0 <= a < b < |players| ==> players[a] != players[b]
  }

  class SurvivalManager {
    const gameWidth: real
    const gameHeight: real
    var aiEnemies: seq<AIEnemy>
    var spawnTimer: real
    var difficultyMultiplier: real
    var enemyCount: int
    var maxEnemies: int
    var spawnInterval: real

    /** Every enemy was built for this board. */
    predicate OnThisBoard()
      reads this`aiEnemies
    {
      forall k :: 0 <= k < |aiEnemies| ==> aiEnemies[k].gameWidth == gameWidth && aiEnemies[k].gameHeight == gameHeight
    }

    /** No enemy is listed twice (each spawn creates a new one). */
    predicate EnemiesDistinct()
      reads this`aiEnemies
    {
      forall a, b :: 0 <= a < b < |aiEnemies| ==> aiEnemies[a] != aiEnemies[b]
    }

    /** The settings are a row of the difficulty table and the enemies are distinct and belong to this board. */
    predicate Valid()
      reads this`aiEnemies, this`enemyCount, this`maxEnemies, this`spawnInterval
    {
      && 0.0 <= gameWidth && 0.0 <= gameHeight
      && 0 < enemyCount < maxEnemies && spawnInterval > 0.0
      && OnThisBoard() && EnemiesDistinct()
    }

    constructor (gameWidth: real, gameHeight: real)
      requires 0.0 <= gameWidth && 0.0 <= gameHeight
      ensures Valid() && this.gameWidth == gameWidth && this.gameHeight == gameHeight
      ensures aiEnemies == [] && spawnTimer == 0.0
      ensures Config.AiRow(difficultyMultiplier, enemyCount, maxEnemies, spawnInterval) == Config.AiDefaults(Medium)
    {
      this.gameWidth := gameWidth;
      this.gameHeight := gameHeight;
      aiEnemies := [];
      spawnTimer := 0.0;
      difficultyMultiplier := 1.0;
      new;
      SetDifficulty("medium");
    }

    /**
     * setDifficulty: the settings of the named row (medium for an unknown
     * name), and every existing enemy's speed reset to 1.5 times the new
     * multiplier.
     */
    method SetDifficulty(level: string)
      requires 0.0 <= gameWidth && 0.0 <= gameHeight && OnThisBoard() && EnemiesDistinct()
      modifies this`difficultyMultiplier, this`enemyCount, this`maxEnemies, this`spawnInterval, aiEnemies
      ensures Valid()
      ensures Config.AiRow(difficultyMultiplier, enemyCount, maxEnemies, spawnInterval) == SettingFor(level)
      ensures forall k :: 0 <= k < |aiEnemies| ==> aiEnemies[k].speed == 1.5 * difficultyMultiplier
      ensures forall k :: 0 <= k < |aiEnemies| ==> aiEnemies[k].x == old(aiEnemies[k].x) && aiEnemies[k].y == old(aiEnemies[k].y)
    {
      var setting := SettingFor(level);
      difficultyMultiplier := setting.multiplier;
      enemyCount := setting.count;
      maxEnemies := setting.maxEnemies;
      spawnInterval := setting.interval;
      var i := 0;
      while i < |aiEnemies|
        invariant 0 <= i <= |aiEnemies|
        invariant Config.AiRow(difficultyMultiplier, enemyCount, maxEnemies, spawnInterval) == setting
        invariant forall k :: 0 <= k < i ==> aiEnemies[k].speed == 1.5 * difficultyMultiplier
        invariant forall k :: 0 <= k < |aiEnemies| ==> aiEnemies[k].x == old(aiEnemies[k].x) && aiEnemies[k].y == old(aiEnemies[k].y)
      {
        aiEnemies[i].speed := 1.5 * difficultyMultiplier;
        i := i + 1;
      }
    }

    /**
     * spawnEnemy: refused at the cap; otherwise a new wandering enemy on a
     * random edge (side floor(r * 4): top, right, bottom, left) at a random
     * place along it, its speed scaled by the difficulty. Three draws: the
     * side, the place, and the heading the enemy's constructor picks.
     */
    method SpawnEnemy(rng: RandomSource)
      requires rng.Valid() && Valid()
      modifies this`aiEnemies, rng
      ensures rng.Valid() && Valid()
      ensures |old(aiEnemies)| >= maxEnemies ==> aiEnemies == old(aiEnemies) && rng.next == old(rng.next)
      ensures |old(aiEnemies)| < maxEnemies ==>
                && |aiEnemies| == |old(aiEnemies)| + 1 && aiEnemies[..|old(aiEnemies)|] == old(aiEnemies)
                && rng.next == old(rng.next) + 3
                && var e := aiEnemies[|old(aiEnemies)|];
                   && fresh(e) && OnEdge(e.x, e.y, gameWidth, gameHeight)
                   && e.speed == 1.5 * difficultyMultiplier && e.state == Wander && !e.relaxMode
      ensures |aiEnemies| <= MaxInt(|old(aiEnemies)|, maxEnemies)
    {
      if |aiEnemies| >= maxEnemies {
        return;
      }
      var r := rng.Next();
      var side := (r * 4.0).Floor;
      var t := rng.Next();
      var p := EdgePoint(side, t, gameWidth, gameHeight);
      var direction := rng.Next(); // the new enemy's initial heading, which update takes as a parameter
      var enemy := new AIEnemy(p.x, p.y, gameWidth, gameHeight);
      enemy.speed := enemy.speed * difficultyMultiplier;
      aiEnemies := aiEnemies + [enemy];
    }

    /** createInitialEnemies: enemyCount spawn attempts. */
    method CreateInitialEnemies(rng: RandomSource)
      requires rng.Valid() && Valid()
      modifies this`aiEnemies, rng
      ensures rng.Valid() && Valid()
      ensures |old(aiEnemies)| <= |aiEnemies| && aiEnemies[..|old(aiEnemies)|] == old(aiEnemies)
      ensures |old(aiEnemies)| + enemyCount <= maxEnemies ==> |aiEnemies| == |old(aiEnemies)| + enemyCount
      ensures |aiEnemies| <= MaxInt(|old(aiEnemies)|, maxEnemies)
      ensures forall k :: |old(aiEnemies)| <= k < |aiEnemies| ==>
                fresh(aiEnemies[k]) && OnEdge(aiEnemies[k].x, aiEnemies[k].y, gameWidth, gameHeight)
    {
      var i := 0;
      while i < enemyCount
        invariant 0 <= i <= enemyCount
        invariant rng.Valid() && Valid()
        invariant |old(aiEnemies)| <= |aiEnemies| && aiEnemies[..|old(aiEnemies)|] == old(aiEnemies)
        invariant |old(aiEnemies)| + enemyCount <= maxEnemies ==> |aiEnemies| == |old(aiEnemies)| + i
        invariant |aiEnemies| <= MaxInt(|old(aiEnemies)|, maxEnemies)
        invariant forall k :: |old(aiEnemies)| <= k < |aiEnemies| ==>
                    fresh(aiEnemies[k]) && OnEdge(aiEnemies[k].x, aiEnemies[k].y, gameWidth, gameHeight)
      {
        SpawnEnemy(rng);
        i := i + 1;
      }
    }

    /** init and reset: no enemies, the spawn timer at zero, then the initial enemies (exactly enemyCount of them). */
    method Reset(rng: RandomSource)
      requires rng.Valid() && Valid()
      modifies this`aiEnemies, this`spawnTimer, rng
      ensures rng.Valid() && Valid()
      ensures spawnTimer == 0.0 && |aiEnemies| == enemyCount
      ensures forall k :: 0 <= k < |aiEnemies| ==>
                fresh(aiEnemies[k]) && OnEdge(aiEnemies[k].x, aiEnemies[k].y, gameWidth, gameHeight)
    {
      aiEnemies := [];
      spawnTimer := 0.0;
      CreateInitialEnemies(rng);
    }

    /** getEnemyCount */
    function GetEnemyCount(): (n: nat)
      reads this
      ensures n == |aiEnemies|
    {
      |aiEnemies|
    }

    /** The spawn clock of update: at the interval an enemy is spawned (within the cap) and the clock restarts. */
    method SpawnTick(deltaTime: real, rng: RandomSource)
      requires rng.Valid() && Valid()
      modifies this`aiEnemies, this`spawnTimer, rng
      ensures rng.Valid() && Valid()
      ensures old(spawnTimer) + deltaTime >= spawnInterval ==> spawnTimer == 0.0
      ensures old(spawnTimer) + deltaTime < spawnInterval ==> spawnTimer == old(spawnTimer) + deltaTime && aiEnemies == old(aiEnemies)
      ensures |aiEnemies| == |old(aiEnemies)| + (if Spawns(old(spawnTimer), deltaTime, |old(aiEnemies)|) then 1 else 0)
      ensures aiEnemies[..|old(aiEnemies)|] == old(aiEnemies)
      ensures |aiEnemies| <= MaxInt(|old(aiEnemies)|, maxEnemies)
      ensures forall k :: |old(aiEnemies)| <= k < |aiEnemies| ==> fresh(aiEnemies[k])
    {
      spawnTimer := spawnTimer + deltaTime;
      if spawnTimer >= spawnInterval {
        SpawnEnemy(rng);
        spawnTimer := 0.0;
      }
    }

    /** Whether a spawn tick adds an enemy: the clock reached the interval and the cap is not reached. */
    predicate Spawns(timer: real, deltaTime: real, count: nat)
      reads this`spawnInterval, this`maxEnemies
    {
      timer + deltaTime >= spawnInterval && count < maxEnemies
    }

    /** Check one enemy against the obstacles: the first one near enough pushes it out. */
    method AvoidObstacles(enemy: AIEnemy, obstacles: seq<Rect>)
      modifies enemy`x, enemy`y, enemy`state, enemy`stateChangeTime
      ensures var k := FirstNear(obstacles, old(enemy.x), old(enemy.y), enemy.size, 0);
              && (k.None? ==> unchanged(enemy))
              && (k.Some? ==> var q := PushOut(old(enemy.x), old(enemy.y), enemy.size, obstacles[k.value]);
                    && enemy.x == Clamp(q.x, enemy.size, enemy.gameWidth - enemy.size)
                    && enemy.y == Clamp(q.y, enemy.size, enemy.gameHeight - enemy.size)
                    && enemy.state == Avoiding && enemy.stateChangeTime == 0.0)
    {
      var i := 0;
      while i < |obstacles|
        invariant 0 <= i <= |obstacles|
        invariant FirstNear(obstacles, enemy.x, enemy.y, enemy.size, 0) == FirstNear(obstacles, enemy.x, enemy.y, enemy.size, i)
        invariant unchanged(enemy)
      {
        if NearRect(obstacles[i], enemy.x, enemy.y, enemy.size) {
          enemy.HandleObstacleCollision(obstacles[i]);
          return;
        }
        i := i + 1;
      }
    }

    /** Check one enemy against the barriers: the first one near enough pushes it sideways. */
    method AvoidBarriers(enemy: AIEnemy, barriers: seq<Rect>)
      modifies enemy`x, enemy`y, enemy`state, enemy`stateChangeTime
      ensures var k := FirstNear(barriers, old(enemy.x), old(enemy.y), enemy.size, 0);
              && (k.None? ==> unchanged(enemy))
              && (k.Some? ==>
                    && enemy.x == Clamp(BarrierSideX(old(enemy.x), enemy.size, barriers[k.value]), enemy.size, enemy.gameWidth - enemy.size)
                    && enemy.y == Clamp(old(enemy.y), enemy.size, enemy.gameHeight - enemy.size)
                    && enemy.state == Avoiding && enemy.stateChangeTime == 0.0)
    {
      var i := 0;
      while i < |barriers|
        invariant 0 <= i <= |barriers|
        invariant FirstNear(barriers, enemy.x, enemy.y, enemy.size, 0) == FirstNear(barriers, enemy.x, enemy.y, enemy.size, i)
        invariant unchanged(enemy)
      {
        if NearRect(barriers[i], enemy.x, enemy.y, enemy.size) {
          enemy.HandleBarrierCollision(barriers[i]);
          return;
        }
        i := i + 1;
      }
    }

    /**
     * The enemy loop of update: obstacles, then barriers, then the enemy's own
     * update; `heading(i)` is the heading enemy i moves along. Every enemy
     * ends inside the board with its relax timer ticked once, and an enemy
     * left chasing is not relaxed and has a living target.
     */
    method MoveEnemies(deltaTime: real, players: seq<Player>, obstacles: seq<Rect>, barriers: seq<Rect>,
                       heading: nat -> Point, sqrt: real -> real)
      requires IsSqrt(sqrt) && EnemiesDistinct()
      modifies aiEnemies
      ensures forall k :: 0 <= k < |aiEnemies| ==> aiEnemies[k].InBounds()
      ensures forall k :: 0 <= k < |aiEnemies| ==> RelaxTicked(aiEnemies[k], deltaTime)
      ensures forall k :: 0 <= k < |aiEnemies| && aiEnemies[k].state == Chase ==>
                !aiEnemies[k].relaxMode && aiEnemies[k].targetPlayer != null && aiEnemies[k].targetPlayer.isAlive
    {
      var i := 0;
      while i < |aiEnemies|
        invariant 0 <= i <= |aiEnemies|
        invariant forall k :: 0 <= k < i ==> aiEnemies[k].InBounds()
        invariant forall k :: 0 <= k < i ==> RelaxTicked(aiEnemies[k], deltaTime)
        invariant forall k :: 0 <= k < i && aiEnemies[k].state == Chase ==>
                    !aiEnemies[k].relaxMode && aiEnemies[k].targetPlayer != null && aiEnemies[k].targetPlayer.isAlive
        invariant forall k :: i <= k < |aiEnemies| ==> unchanged(aiEnemies[k])
      {
        MoveEnemy(aiEnemies[i], deltaTime, players, obstacles, barriers, heading(i), sqrt);
        i := i + 1;
      }
    }

    /** One turn of the enemy loop: obstacles, then barriers, then the enemy's own update. */
    method MoveEnemy(enemy: AIEnemy, deltaTime: real, players: seq<Player>, obstacles: seq<Rect>, barriers: seq<Rect>,
                     heading: Point, sqrt: real -> real)
      requires IsSqrt(sqrt)
      modifies enemy
      ensures enemy.InBounds() && RelaxTicked(enemy, deltaTime)
      ensures enemy.state == Chase ==> !enemy.relaxMode && enemy.targetPlayer != null && enemy.targetPlayer.isAlive
    {
      AvoidObstacles(enemy, obstacles);
      AvoidBarriers(enemy, barriers);
      enemy.Update(deltaTime, players, heading, sqrt);
    }

    /**
     * checkAICollisions: every enemy against every player. Enemy positions do
     * not change and an enemy's relax state is kept or freshly set; lives
     * never go up, a player who lost one is shielded, and a player shielded
     * beforehand is untouched. A player unshielded at the start that an enemy
     * touched where it stood loses a life, and an enemy that touched a
     * shielded player relaxes.
     */
    method CheckAICollisions(players: seq<Player>, gameState: GameState, itemPauseStart: Option<real>,
                             now: real, sqrt: real -> real)
      requires IsSqrt(sqrt)
      modifies aiEnemies, players
      ensures forall k :: 0 <= k < |aiEnemies| ==> aiEnemies[k].x == old(aiEnemies[k].x) && aiEnemies[k].y == old(aiEnemies[k].y)
      ensures forall k :: 0 <= k < |aiEnemies| ==> RelaxedOrKept(aiEnemies[k])
      ensures forall k :: 0 <= k < |players| ==> LostLifeShielded(players[k])
      ensures forall k :: 0 <= k < |players| && old(players[k].HasShield()) ==> unchanged(players[k])
      ensures forall a, k :: 0 <= a < |aiEnemies| && 0 <= k < |players| && old(aiEnemies[a].CollidesWith(players[k])) ==>
                if old(players[k].HasShield()) then aiEnemies[a].relaxMode && aiEnemies[a].relaxTimer == 0.0
                else players[k].lives < old(players[k].lives)
    {
      var i := 0;
      while i < |aiEnemies|
        invariant 0 <= i <= |aiEnemies|
        invariant forall k :: 0 <= k < |aiEnemies| ==> aiEnemies[k].x == old(aiEnemies[k].x) && aiEnemies[k].y == old(aiEnemies[k].y)
        invariant forall k :: 0 <= k < |aiEnemies| ==> RelaxedOrKept(aiEnemies[k])
        invariant forall k :: 0 <= k < |players| ==> LostLifeShielded(players[k])
        invariant forall k :: 0 <= k < |players| && old(players[k].HasShield()) ==> unchanged(players[k])
        invariant forall a, k :: 0 <= a < i && 0 <= k < |players| && old(aiEnemies[a].CollidesWith(players[k])) ==>
                    if old(players[k].HasShield()) then aiEnemies[a].relaxMode && aiEnemies[a].relaxTimer == 0.0
                    else players[k].lives < old(players[k].lives)
      {
        EnemyRound(aiEnemies[i], players, gameState, itemPauseStart, now, sqrt);
        i := i + 1;
      }
    }

    /** One enemy of checkAICollisions against every player in turn. */
    method EnemyRound(enemy: AIEnemy, players: seq<Player>, gameState: GameState, itemPauseStart: Option<real>,
                      now: real, sqrt: real -> real)
      requires IsSqrt(sqrt)
      modifies enemy`relaxMode, enemy`relaxTimer, players
      ensures RelaxedOrKept(enemy)
      ensures forall k :: 0 <= k < |players| ==> LostLifeShielded(players[k])
      ensures forall k :: 0 <= k < |players| && old(players[k].HasShield()) ==> unchanged(players[k])
      ensures forall k :: 0 <= k < |players| && old(enemy.CollidesWith(players[k])) ==>
                if old(players[k].HasShield()) then enemy.relaxMode && enemy.relaxTimer == 0.0
                else players[k].lives < old(players[k].lives)
    {
      var j := 0;
      while j < |players|
        invariant 0 <= j <= |players|
        invariant RelaxedOrKept(enemy)
        invariant forall k :: 0 <= k < |players| ==> LostLifeShielded(players[k])
        invariant forall k :: 0 <= k < |players| && old(players[k].HasShield()) ==> unchanged(players[k])
        invariant forall k :: 0 <= k < j && old(enemy.CollidesWith(players[k])) ==>
                    if old(players[k].HasShield()) then enemy.relaxMode && enemy.relaxTimer == 0.0
                    else players[k].lives < old(players[k].lives)
      {
        EnemyMeetsPlayer(enemy, players[j], gameState, itemPauseStart, now, sqrt);
        j := j + 1;
      }
    }

    /**
     * The survival checkPlayerCollisions: every living player against every
     * other, stopping at the first clash. Lives never go up, and a player who
     * lost one is shielded.
     */
    method CheckPlayerCollisions(players: seq<Player>, territory: Territory, gameState: GameState,
                                 itemPauseStart: Option<real>, now: real, sqrt: real -> real)
      requires IsSqrt(sqrt) && Distinct(players)
      modifies players
      ensures forall k :: 0 <= k < |players| ==> LostLifeShielded(players[k])
    {
      var i := 0;
      while i < |players|
        invariant 0 <= i <= |players|
        invariant forall k :: 0 <= k < |players| ==> LostLifeShielded(players[k])
      {
        var player := players[i];
        if player.isAlive {
          var j := 0;
          while j < |players|
            invariant 0 <= j <= |players|
            invariant forall k :: 0 <= k < |players| ==> LostLifeShielded(players[k])
            invariant player.isAlive
          {
            if i != j {
              var clash := PlayerMeetsPlayer(player, players[j], territory, gameState, itemPauseStart, now, sqrt);
              if clash != Clear {
                break;
              }
            }
            j := j + 1;
          }
        }
        i := i + 1;
      }
    }

    /** cleanup: keep the enemies within CleanupMargin of the board. */
    method Cleanup()
      modifies this`aiEnemies
      ensures aiEnemies == Survivors(old(aiEnemies), gameWidth, gameHeight)
    {
      var kept: seq<AIEnemy> := [];
      var i := 0;
      while i < |aiEnemies|
        invariant 0 <= i <= |aiEnemies|
        invariant kept + Survivors(aiEnemies[i..], gameWidth, gameHeight) == Survivors(aiEnemies, gameWidth, gameHeight)
      {
        var enemy := aiEnemies[i];
        assert aiEnemies[i..] == [enemy] + aiEnemies[i + 1..];
        if -CleanupMargin < enemy.x && enemy.x < gameWidth + CleanupMargin
           && -CleanupMargin < enemy.y && enemy.y < gameHeight + CleanupMargin {
          kept := kept + [enemy];
        }
        i := i + 1;
      }
      aiEnemies := kept;
    }

    /**
     * The part of update between the spawn clock and cleanup: enemy moves,
     * then both collision checks. Every enemy ends inside the board with its
     * relax timer ticked once or, after a contact, freshly relaxed.
     */
    method Round(deltaTime: real, players: seq<Player>, territory: Territory, gameState: GameState,
                 obstacles: seq<Rect>, barriers: seq<Rect>, itemPauseStart: Option<real>,
                 heading: nat -> Point, now: real, sqrt: real -> real)
      requires IsSqrt(sqrt) && Distinct(players) && EnemiesDistinct()
      modifies aiEnemies, players
      ensures forall k :: 0 <= k < |aiEnemies| ==> aiEnemies[k].InBounds()
      ensures forall k :: 0 <= k < |aiEnemies| ==> Relaxed(aiEnemies[k], deltaTime)
      ensures forall k :: 0 <= k < |players| ==> LostLifeShielded(players[k])
    {
      MoveEnemies(deltaTime, players, obstacles, barriers, heading, sqrt);
      CheckAICollisions(players, gameState, itemPauseStart, now, sqrt);
      CheckPlayerCollisions(players, territory, gameState, itemPauseStart, now, sqrt);
    }

    /**
     * update, in survival mode: nothing while paused; otherwise the spawn
     * clock, the enemy loop, the enemy and player collisions, and cleanup.
     * Because every enemy ends inside the board, cleanup removes none: the
     * enemy list is the old one plus the spawned enemy, if any, and the spawn
     * clock restarts exactly when it reached the interval. Every enemy's relax
     * timer ticks once unless a contact relaxes it afresh. Lives never go up,
     * and a player who lost one is shielded.
     */
    method Update(deltaTime: real, players: seq<Player>, territory: Territory, gameState: GameState,
                  obstacles: seq<Items.Block>, barriers: seq<Items.Block>, itemPauseStart: Option<real>,
                  heading: nat -> Point, rng: RandomSource, now: real, sqrt: real -> real)
      requires IsSqrt(sqrt) && Distinct(players) && rng.Valid() && Valid()
      modifies this`aiEnemies, this`spawnTimer, rng, aiEnemies, players
      ensures gameState == Paused ==> unchanged(this) && unchanged(rng)
      ensures gameState == Paused ==> forall k :: 0 <= k < |players| ==> unchanged(players[k])
      ensures rng.Valid() && Valid()
      ensures gameState != Paused ==>
                && |aiEnemies| == |old(aiEnemies)| + (if Spawns(old(spawnTimer), deltaTime, |old(aiEnemies)|) then 1 else 0)
                && aiEnemies[..|old(aiEnemies)|] == old(aiEnemies)
                && (forall k :: |old(aiEnemies)| <= k < |aiEnemies| ==> fresh(aiEnemies[k]))
                && spawnTimer == (if old(spawnTimer) + deltaTime >= spawnInterval then 0.0 else old(spawnTimer) + deltaTime)
                && (forall k :: 0 <= k < |aiEnemies| ==> aiEnemies[k].InBounds())
                && (forall k :: 0 <= k < |old(aiEnemies)| ==> Relaxed(aiEnemies[k], deltaTime))
                && (forall k :: 0 <= k < |players| ==> LostLifeShielded(players[k]))
    {
      if gameState == Paused {
        return;
      }
      SpawnTick(deltaTime, rng);
      RoundAndCleanup(deltaTime, players, territory, gameState, Boxes(obstacles), Boxes(barriers), itemPauseStart, heading, now, sqrt);
    }

    /** update after the spawn clock: the round, then cleanup, which finds every enemy inside the board and keeps them all. */
    method RoundAndCleanup(deltaTime: real, players: seq<Player>, territory: Territory, gameState: GameState,
                           obstacles: seq<Rect>, barriers: seq<Rect>, itemPauseStart: Option<real>,
                           heading: nat -> Point, now: real, sqrt: real -> real)
      requires IsSqrt(sqrt) && Distinct(players) && Valid()
      modifies this`aiEnemies, aiEnemies, players
      ensures Valid() && aiEnemies == old(aiEnemies)
      ensures forall k :: 0 <= k < |aiEnemies| ==> aiEnemies[k].InBounds()
      ensures forall k :: 0 <= k < |aiEnemies| ==> Relaxed(aiEnemies[k], deltaTime)
      ensures forall k :: 0 <= k < |players| ==> LostLifeShielded(players[k])
    {
      Round(deltaTime, players, territory, gameState, obstacles, barriers, itemPauseStart, heading, now, sqrt);
      SurvivorsAll(aiEnemies, gameWidth, gameHeight);
      Cleanup();
    }
  }
}

=== FILE: territories.dfy ===
/**
 * The territory store (Territory.js): the shoelace signed area, enclosure
 * detection with orientation normalisation, the per-player polygon lists, the
 * content hash that keys the score cache, and the score sampled from the
 * rasterised polygons. The rasteriser itself is an input: `alpha` tells, for
 * the polygons drawn and a pixel offset, whether the pixel's alpha is above
 * zero.
 */
module Territories {
  import opened Common
  import opened Players

  // ---------------------------------------------------------------------------
  // Shoelace formula
  // ---------------------------------------------------------------------------

  /** The shoelace term of the edge from p1 to p2. */
  function Cross(p1: Point, p2: Point): real
  {
    p1.x * p2.y - p2.x * p1.y
  }

  lemma CrossSwap(p1: Point, p2: Point)
    ensures Cross(p2, p1) == -Cross(p1, p2)
  {
  }

  /** Shoelace term of edge i of the closed polygon. */
  function CrossAt(poly: seq<Point>, i: nat): real
    requires i < |poly|
  {
    Cross(poly[i], poly[NextIndex(i, |poly|)])
  }

  /** Sum of the shoelace terms of edges 0 .. k-1. */
  function ShoelacePrefix(poly: seq<Point>, k: nat): real
    requires k <= |poly|
  {
    if k == 0 then 0.0 else ShoelacePrefix(poly, k - 1) + CrossAt(poly, k - 1)
  }

  /** Half the full shoelace sum: positive for a counter-clockwise polygon in y-up axes. */
  function SignedArea(poly: seq<Point>): real
  {
    ShoelacePrefix(poly, |poly|) / 2.0
  }

  /** calculateSignedArea, with its accumulator loop. */
  method CalculateSignedArea(polygon: seq<Point>) returns (area: real)
    ensures area == SignedArea(polygon)
  {
    area := 0.0;
    var i := 0;
    while i < |polygon|
      invariant 0 <= i <= |polygon|
      invariant area == ShoelacePrefix(polygon, i)
    {
      var p1 := polygon[i];
      var p2 := polygon[(i + 1) % |polygon|];
      assert p2 == polygon[NextIndex(i, |polygon|)];
      area := area + (p1.x * p2.y - p2.x * p1.y);
      i := i + 1;
    }
    area := area / 2.0;
  }

  /** Partial shoelace sum of the reversed polygon, counted from the end. */
  lemma {:induction false} ShoelacePrefixReverse(poly: seq<Point>, k: nat)
    requires 2 <= |poly| && k <= |poly| - 1
    ensures ShoelacePrefix(Reverse(poly), k)
         == -(ShoelacePrefix(poly, |poly| - 1) - ShoelacePrefix(poly, |poly| - 1 - k))
  {
    var n := |poly|;
    var q := Reverse(poly);
    if k > 0 {
      ShoelacePrefixReverse(poly, k - 1);
      // edge k-1 of q runs from poly[n-k] to poly[n-k-1]: edge n-k-1 of poly, reversed
      assert q[k - 1] == poly[n - k];
      assert q[k] == poly[n - 1 - k];
      assert NextIndex(k - 1, n) == k;
      assert NextIndex(n - 1 - k, n) == n - k;
      CrossSwap(poly[n - 1 - k], poly[n - k]);
      assert CrossAt(q, k - 1) == -CrossAt(poly, n - 1 - k);
    }
  }

  /** Reversing the vertex list negates the signed area. */
  lemma {:induction false} SignedAreaReverse(poly: seq<Point>)
    ensures SignedArea(Reverse(poly)) == -SignedArea(poly)
  {
    var n := |poly|;
    var q := Reverse(poly);
    if n == 1 {
      assert q == poly;
      assert CrossAt(poly, 0) == 0.0;
      assert ShoelacePrefix(poly, 1) == ShoelacePrefix(poly, 0) + CrossAt(poly, 0);
    } else if n >= 2 {
      ShoelacePrefixReverse(poly, n - 1);
      // the closing edge of q runs from poly[0] to poly[n-1]: the closing edge of poly, reversed
      assert q[n - 1] == poly[0] && q[0] == poly[n - 1];
      assert NextIndex(n - 1, n) == 0;
      CrossSwap(poly[n - 1], poly[0]);
      assert CrossAt(q, n - 1) == -CrossAt(poly, n - 1);
    }
  }

  /** The stored orientation: a polygon with positive signed area is reversed. */
  function Clockwise(area: seq<Point>): (r: seq<Point>)
  {
    if SignedArea(area) > 0.0 then Reverse(area) else area
  }

  /** The stored polygon has the same vertices (possibly reversed) and a signed area that is never positive. */
  lemma ClockwiseNonPositive(area: seq<Point>)
    ensures SignedArea(Clockwise(area)) <= 0.0
    ensures |Clockwise(area)| == |area|
    ensures Clockwise(area) == area || Clockwise(area) == Reverse(area)
  {
    SignedAreaReverse(area);
  }

  // ---------------------------------------------------------------------------
  // Enclosures
  // ---------------------------------------------------------------------------

  /** The trail as plain points (the timestamps play no part in a territory). */
  function PointsOf(trail: seq<TrailPoint>): (r: seq<Point>)
    ensures |r| == |trail|
    ensures forall i :: 0 <= i < |trail| ==> r[i] == Point(trail[i].x, trail[i].y)
  {
    if trail == [] then [] else PointsOf(trail[..|trail| - 1]) + [Point(trail[|trail| - 1].x, trail[|trail| - 1].y)]
  }

  /** The closed area of detectEnclosure: the trail, then the current position, then the spawn point. */
  function EnclosureOf(trail: seq<TrailPoint>, x: real, y: real, startX: real, startY: real): (r: seq<Point>)
    ensures |r| == |trail| + 2
    ensures r[|trail|] == Point(x, y) && r[|trail| + 1] == Point(startX, startY)
    ensures r[..|trail|] == PointsOf(trail)
  {
    PointsOf(trail) + [Point(x, y), Point(startX, startY)]
  }

  /** Minimum trail length for an enclosure. */
  const MinEnclosureTrail: nat := 20
  /** An enclosure needs the player strictly closer than this to its spawn point. */
  const EnclosureRadius: real := 20.0

  /** The two conditions of detectEnclosure: a trail of at least 20 points and a position within 20 of spawn. */
  predicate Encloses(trailLength: nat, x: real, y: real, startX: real, startY: real)
  {
    trailLength >= MinEnclosureTrail && DistSq(startX, startY, x, y) < EnclosureRadius * EnclosureRadius
  }

  // ---------------------------------------------------------------------------
  // Content hash
  // ---------------------------------------------------------------------------

  /** `hash << 5` on a number: ToInt32, then a 32-bit shift. */
  function ShiftLeft5(h: int): int
  {
    Int32(h * 32)
  }

  /** One step of the hash loop: `((hash << 5) - hash) + char`, then `hash & hash` (ToInt32). */
  function HashStep(h: int, c: int): (r: int)
    ensures -TwoTo31 <= r < TwoTo31
  {
    Int32(ShiftLeft5(h) - h + c)
  }

  /** The hash of the first k characters of the serialisation. */
  function HashPrefix(str: string, k: nat): (r: int)
    requires k <= |str|
    ensures -TwoTo31 <= r < TwoTo31
  {
    if k == 0 then 0 else HashStep(HashPrefix(str, k - 1), str[k - 1] as int)
  }

  /** generateTerritoriesHash on the serialised string. */
  function HashOf(str: string): int
  {
    HashPrefix(str, |str|)
  }

  /** Two integers congruent modulo 2^32 have the same ToInt32. */
  lemma Int32Congruent(a: int, b: int)
    requires (a - b) % TwoTo32 == 0
    ensures Int32(a) == Int32(b)
  {
    var k := (a - b) / TwoTo32;
    assert a == b + k * TwoTo32;
    assert a % TwoTo32 == b % TwoTo32 by {
      ModShift(b, k);
    }
  }

  lemma ModShift(b: int, k: int)
    ensures (b + k * TwoTo32) % TwoTo32 == b % TwoTo32
  {
  }

  /** On a 32-bit accumulator the step is the classic `hash * 31 + char`, wrapped to 32 bits. */
  lemma {:induction false} HashStepIsTimes31(h: int, c: int)
    requires -TwoTo31 <= h < TwoTo31
    ensures HashStep(h, c) == Int32(31 * h + c)
  {
    var s := Int32(h * 32);
    assert (h * 32 - s) % TwoTo32 == 0;
    assert (s - h + c) - (31 * h + c) == s - h * 32;
    Int32Congruent(s - h + c, 31 * h + c);
  }

  /**
   * The string JSON.stringify builds: the polygons as "x,y" pairs joined by
   * '|' within a polygon and ';' between polygons, and the canvas as "WxH".
   * `num` is JavaScript's number-to-string conversion, an input here.
   */
  function Serialization(territories: seq<seq<Point>>, w: real, h: real, num: real -> string): string
  {
    "{\"territories\":\"" + JoinPolygons(territories, num) + "\",\"canvas\":\"" + num(w) + "x" + num(h) + "\"}"
  }

  function JoinPoints(poly: seq<Point>, num: real -> string): string
  {
    if |poly| == 0 then ""
    else if |poly| == 1 then num(poly[0].x) + "," + num(poly[0].y)
    else JoinPoints(poly[..|poly| - 1], num) + "|" + num(poly[|poly| - 1].x) + "," + num(poly[|poly| - 1].y)
  }

  function JoinPolygons(territories: seq<seq<Point>>, num: real -> string): string
  {
    if |territories| == 0 then ""
    else if |territories| == 1 then JoinPoints(territories[0], num)
    else JoinPolygons(territories[..|territories| - 1], num) + ";" + JoinPoints(territories[|territories| - 1], num)
  }

  /** generateTerritoriesHash: the string hash loop over the serialisation. */
  method GenerateTerritoriesHash(territories: seq<seq<Point>>, w: real, h: real, num: real -> string) returns (hash: int)
    ensures hash == HashOf(Serialization(territories, w, h, num))
    ensures -TwoTo31 <= hash < TwoTo31
  {
    var str := Serialization(territories, w, h, num);
    hash := 0;
    var i := 0;
    while i < |str|
      invariant 0 <= i <= |str|
      invariant hash == HashPrefix(str, i)
    {
      var code := str[i] as int;
      assert HashPrefix(str, i + 1) == Int32(ShiftLeft5(hash) - hash + code);
      hash := ShiftLeft5(hash) - hash + code;
      hash := Int32(hash);
      i := i + 1;
    }
  }

  // ---------------------------------------------------------------------------
  // Score sampling
  // ---------------------------------------------------------------------------

  /** The store's own canvas size in pixels and the sampling step of computeScore. */
  const StoreWidth: nat := 1200
  const StoreHeight: nat := 600
  const SampleStep: nat := 2

  /** The polygons computeScore fills: those with at least three vertices. */
  function Drawn(territories: seq<seq<Point>>): (r: seq<seq<Point>>)
    ensures forall k :: 0 <= k < |r| ==> |r[k]| >= 3
    ensures |r| <= |territories|
  {
    if territories == [] then []
    else if |territories[|territories| - 1]| < 3 then Drawn(territories[..|territories| - 1])
    else Drawn(territories[..|territories| - 1]) + [territories[|territories| - 1]]
  }

  /** The input standing for the rasteriser: whether the pixel at an offset of the image data has non-zero alpha. */
  type Raster = (seq<seq<Point>>, real, real, int) -> bool

  /** Covered samples among the first k of row y (x = 0, 2, .., 2k-2). */
  function RowCount(alpha: Raster, drawn: seq<seq<Point>>, w: real, h: real, y: nat, k: nat): (r: nat)
    ensures r <= k
  {
    if k == 0 then 0
    else RowCount(alpha, drawn, w, h, y, k - 1)
         + (if alpha(drawn, w, h, y * StoreWidth + (k - 1) * SampleStep) then 1 else 0)
  }

  /** Covered samples in the first r sampled rows (y = 0, 2, .., 2r-2). */
  function GridCount(alpha: Raster, drawn: seq<seq<Point>>, w: real, h: real, r: nat): (c: nat)
    ensures c <= r * (StoreWidth / SampleStep)
  {
    if r == 0 then 0
    else GridCount(alpha, drawn, w, h, r - 1)
         + RowCount(alpha, drawn, w, h, (r - 1) * SampleStep, StoreWidth / SampleStep)
  }

  /** Number of sample points computeScore visits: 300 rows of 600. */
  const SampleRows: nat := StoreHeight / SampleStep
  const SampleCols: nat := StoreWidth / SampleStep

  /** maxArea: 95% of the store's canvas. */
  const MaxArea: real := 1200.0 * 600.0 * 0.95

  /** The score for a number of covered samples: each stands for step² pixels, clamped at 100. */
  function ScoreOfCount(count: nat): (s: real)
    ensures 0.0 <= s <= 100.0
    ensures count == 0 ==> s == 0.0
  {
    Min(100.0, ((SampleStep * SampleStep * count) as real / MaxArea) * 100.0)
  }

  /** The clamp is reachable: with every sample covered the unclamped ratio exceeds 100. */
  lemma FullCoverageNeedsClamp()
    ensures ((SampleStep * SampleStep * SampleRows * SampleCols) as real / MaxArea) * 100.0 > 100.0
    ensures ScoreOfCount(SampleRows * SampleCols) == 100.0
  {
  }

  /** The sampled score of a list of polygons. */
  function ScoreOf(alpha: Raster, territories: seq<seq<Point>>, w: real, h: real): (s: real)
    ensures 0.0 <= s <= 100.0
  {
    ScoreOfCount(GridCount(alpha, Drawn(territories), w, h, SampleRows))
  }

  /** computeScore: the nested sampling loops over the store's canvas, then the clamp. */
  method ComputeScore(alpha: Raster, territories: seq<seq<Point>>, w: real, h: real) returns (score: real)
    ensures score == ScoreOf(alpha, territories, w, h)
    ensures 0.0 <= score <= 100.0
  {
    var drawn := Drawn(territories);
    var totalArea: nat := 0;
    var y: nat := 0;
    while y < StoreHeight
      invariant y % SampleStep == 0 && y <= StoreHeight
      invariant totalArea == SampleStep * SampleStep * GridCount(alpha, drawn, w, h, y / SampleStep)
    {
      var x: nat := 0;
      var rowArea: nat := 0;
      while x < StoreWidth
        invariant x % SampleStep == 0 && x <= StoreWidth
        invariant rowArea == SampleStep * SampleStep * RowCount(alpha, drawn, w, h, y, x / SampleStep)
      {
        var index := y * StoreWidth + x;
        if alpha(drawn, w, h, index) {
          rowArea := rowArea + SampleStep * SampleStep;
        }
        x := x + SampleStep;
      }
      totalArea := totalArea + rowArea;
      y := y + SampleStep;
    }
    score := Min(100.0, (totalArea as real / MaxArea) * 100.0);
  }

  // ---------------------------------------------------------------------------
  // The store
  // ---------------------------------------------------------------------------

  /** The score cache key `${playerId}_${hash}`, kept as the pair it is built from. */
  datatype CacheKey = CacheKey(playerId: int, hash: int)

  class Territory {
    /** playerId -> list of polygons (the Map `areas`). */
    var areas: map<int, seq<seq<Point>>>
    /** The lazily created score cache; None until the first computed score. */
    var scoreCache: Option<map<CacheKey, real>>

    constructor ()
      ensures areas == map[] && scoreCache == None
      ensures CacheInRange()
    {
      areas := map[];
      scoreCache := None;
    }

    /** Every score the cache holds is a percentage, as calculateScore only stores sampled scores. */
    ghost predicate CacheInRange()
      reads this`scoreCache
    {
      scoreCache.Some? ==> forall k :: k in scoreCache.value ==> 0.0 <= scoreCache.value[k] <= 100.0
    }

    /** The cache holds `score` under `key`. */
    ghost predicate Records(key: CacheKey, score: real)
      reads this`scoreCache
    {
      scoreCache.Some? && key in scoreCache.value && scoreCache.value[key] == score
    }

    /** Every entry of the earlier cache `before` is still held with the same score. */
    ghost predicate Keeps(before: Option<map<CacheKey, real>>)
      reads this`scoreCache
    {
      before.Some? ==> scoreCache.Some? && forall k :: k in before.value ==> k in scoreCache.value && scoreCache.value[k] == before.value[k]
    }

    /** The cache key calculateScore builds for the player's current polygons. */
    function KeyFor(playerId: int, w: real, h: real, num: real -> string): CacheKey
      reads this`areas
    {
      CacheKey(playerId, HashOf(Serialization(PlayerTerritories(playerId), w, h, num)))
    }

    /** getPlayerTerritories: the player's list, or [] for an id never seen. */
    function PlayerTerritories(playerId: int): (r: seq<seq<Point>>)
      reads this`areas
      ensures playerId !in areas ==> r == []
      ensures playerId in areas ==> r == areas[playerId]
    {
      if playerId in areas then areas[playerId] else []
    }

    /** addTerritory: the polygon is appended to the player's list, created empty if missing. */
    method AddTerritory(playerId: int, area: seq<Point>)
      modifies this`areas
      ensures PlayerTerritories(playerId) == old(PlayerTerritories(playerId)) + [area]
      ensures forall id :: id != playerId ==> PlayerTerritories(id) == old(PlayerTerritories(id))
      ensures areas.Keys == old(areas.Keys) + {playerId}
    {
      if playerId !in areas {
        areas := areas[playerId := []];
      }
      areas := areas[playerId := areas[playerId] + [area]];
    }

    /** reset: every list is emptied (the score cache is kept). */
    method Reset()
      modifies this`areas
      ensures forall id :: PlayerTerritories(id) == []
    {
      areas := map[];
    }

    /**
     * detectEnclosure: with a trail of at least 20 points and the player
     * closer than 20 to its spawn point, the closed area (trail, position,
     * spawn) is stored clockwise for the player, the player's trail is
     * cleared, and the un-reversed area is returned; otherwise nothing
     * changes and the result is null.
     */
    method DetectEnclosure(player: Player, sqrt: real -> real) returns (r: Option<seq<Point>>)
      requires IsSqrt(sqrt)
      modifies this`areas, player`trail
      ensures !Encloses(old(|player.trail|), player.x, player.y, player.startX, player.startY) ==>
                r == None && areas == old(areas) && player.trail == old(player.trail)
      ensures Encloses(old(|player.trail|), player.x, player.y, player.startX, player.startY) ==>
                var area := EnclosureOf(old(player.trail), player.x, player.y, player.startX, player.startY);
                && r == Some(area)
                && PlayerTerritories(player.id) == old(PlayerTerritories(player.id)) + [Clockwise(area)]
                && (forall id :: id != player.id ==> PlayerTerritories(id) == old(PlayerTerritories(id)))
                && player.trail == []
    {
      if |player.trail| < 20 {
        return None;
      }
      var trail := player.trail;
      var distanceToStart := sqrt(DistSq(player.startX, player.startY, player.x, player.y));
      SqrtBelowIff(sqrt, DistSq(player.startX, player.startY, player.x, player.y), 20.0);
      if distanceToStart < 20.0 {
        var area := EnclosureOf(trail, player.x, player.y, player.startX, player.startY);
        var windingorder := CalculateSignedArea(area);
        var clockwisearea := area;
        if windingorder > 0.0 {
          clockwisearea := Reverse(area);
        }
        AddTerritory(player.id, clockwisearea);
        player.trail := [];
        return Some(area);
      }
      return None;
    }

    /**
     * calculateScore: 0 without polygons; otherwise the cached value for
     * (player, content hash) when there is one, else the sampled score, which
     * is then cached. Every score given out or kept is a percentage.
     */
    method CalculateScore(playerId: int, w: real, h: real, num: real -> string, alpha: Raster) returns (score: real)
      requires CacheInRange()
      modifies this`scoreCache
      ensures CacheInRange() && 0.0 <= score <= 100.0
      ensures var ts := PlayerTerritories(playerId);
              var key := CacheKey(playerId, HashOf(Serialization(ts, w, h, num)));
              if ts == [] then score == 0.0 && scoreCache == old(scoreCache)
              else if old(scoreCache).Some? && key in old(scoreCache).value then
                score == old(scoreCache).value[key] && scoreCache == old(scoreCache)
              else
                && score == ScoreOf(alpha, ts, w, h)
                && scoreCache.Some?
                && scoreCache.value == (if old(scoreCache).Some? then old(scoreCache).value else map[])[key := score]
    {
      var territories := PlayerTerritories(playerId);
      if |territories| == 0 {
        return 0.0;
      }
      var territoriesHash := GenerateTerritoriesHash(territories, w, h, num);
      var cacheKey := CacheKey(playerId, territoriesHash);
      if scoreCache.Some? && cacheKey in scoreCache.value {
        return scoreCache.value[cacheKey];
      }
      score := ComputeScore(alpha, territories, w, h);
      if scoreCache.None? {
        scoreCache := Some(map[]);
      }
      scoreCache := Some(scoreCache.value[cacheKey := score]);
    }

    /** Two calls in a row, with the polygons unchanged, give the same score. */
    method CalculateScoreTwice(playerId: int, w: real, h: real, num: real -> string, alpha: Raster)
        returns (first: real, second: real)
      requires CacheInRange()
      modifies this`scoreCache
      ensures first == second
      ensures PlayerTerritories(playerId) != [] && (old(scoreCache).None? ||
                CacheKey(playerId, HashOf(Serialization(PlayerTerritories(playerId), w, h, num))) !in old(scoreCache).value) ==>
                first == ScoreOf(alpha, PlayerTerritories(playerId), w, h)
    {
      first := CalculateScore(playerId, w, h, num, alpha);
      second := CalculateScore(playerId, w, h, num, alpha);
    }
  }
}
